=== FILE: README.md ===
# Mind Web SDK core, modelled in Dafny

This project models the logic at the heart of the Mind Web SDK, the
browser library through which a participant joins a Mind conference. Each
part of that logic is a small state machine or a bookkeeping rule. Here it
is written as pure functions over immutable datatypes, with the properties
the library relies on proved about them:

- `Transceivers`, `Negotiation`, `VideoEncoding` and `Connection`
  (`lib/WebRtcConnection.js`):
  - the per-kind LIFO pool of transceivers and their SDP section indices;
  - the coalescing negotiation scheduler and its lagging flag;
  - the VP8 simulcast and VP9 spatial-layer encoding allocator;
  - the connection's publications and subscriptions: `open`, `abort`,
    `close`, consumers, buffers and streams.
- `MediaStreams` (`lib/MediaStream.js`): the broker between one supplier
  and a set of consumers per kind. It covers lazy supplier registration,
  identity-deduplicated buffer fan-out, validated video caps and the
  statistics publishing guard.
- `Distortions` (`lib/Distortion.js`, `lib/DistortionRegistry.js`): the
  opening, prolonging, ending and reporting of distortion intervals, and
  their wire text.
- `Sessions` (`lib/Session.js`): URI handling, the state notification,
  the recovery back-off, close codes, the notification queue and the
  reconciliation of the whole participant model.
- `Conferences` and `Participants` (`lib/Conference.js`,
  `lib/Participant.js`): the participant index and list, and diff-and-notify
  updates.
- `Capture`, `Cameras`, `Microphones` and `Screens` (`lib/Camera.js`,
  `lib/Microphone.js`, `lib/Screen.js`): the acquire/release state machines
  of local suppliers, with parameter validation and consumer notification.
- `Devices` (`lib/DeviceRegistry.js`): reconciliation of the microphone
  and camera lists with the enumerated devices.
- `Sdk` (`lib/MindSDK.js`): the entry-point validators.
- `NoiseSuppression` (`nsw/NoiseSuppressionWorklet.js`): the ring-buffer
  index arithmetic of the noise-suppression worklet.
- `Numbers` and `Wrappers`: JavaScript number semantics the core relies
  on, and the `Option`/`Result` types.

Time (`Date.now()`) is an explicit parameter. Timers, promises and
browser callbacks become explicit events or operations. Browser objects
(tracks, streams, consumers, suppliers, buffers) are opaque `nat`
identities. The calls an object makes on other objects are returned as
traces of effects or notices.

## Model

| member | source | states |
|---|---|---|
| Transceivers.Allocate | lib/WebRtcConnection.js:225-226 | a created transceiver takes the section one past the last allocated index, and the counter moves to it |
| Transceivers.Acquire | lib/WebRtcConnection.js:770-780 | with a parked transceiver of the kind, the most recently parked one is popped and set receiving, the counter unchanged; with none, a receiving one is created on a new section; the other kind's stack is untouched |
| Transceivers.Release | lib/WebRtcConnection.js:785-789 | the transceiver, made inactive, is pushed on its own kind's stack; the other stack and the counter are unchanged |
| Transceivers.AcquireUndoesRelease | lib/WebRtcConnection.js:770-789 | acquiring right after releasing returns that same transceiver, receiving, and restores the pool (the stacks are LIFO) |
| Transceivers.InitialValid | lib/WebRtcConnection.js:58-60 | the empty pool with last index 1 satisfies the pool invariant (distinct sections, all between 2 and the last index) |
| Transceivers.AllocateKeepsValid | lib/WebRtcConnection.js:225-226 | a transceiver created on a fresh section keeps every section distinct and in range, and its section is used by nobody else |
| Transceivers.AcquireKeepsValid | lib/WebRtcConnection.js:770-780 | acquiring keeps the pool invariant with the acquired transceiver counted as in use, and its section is not held by any other transceiver in use |
| Transceivers.ReleaseKeepsValid | lib/WebRtcConnection.js:785-789 | releasing a transceiver in use keeps the pool invariant |
| Negotiation.Abort | lib/WebRtcConnection.js:525-530 | after `abort` no timer is pending, lagging is cleared and the scheduler invariant holds |
| Negotiation.Request | lib/WebRtcConnection.js:126-128 | `negotiationneeded` leaves a timer pending and changes nothing else: a second request while one is pending does nothing |
| Negotiation.Step | lib/WebRtcConnection.js:126-172 | every event keeps at most one exchange in flight; only a timer firing with a zero counter starts one; `onStartedLagging` fires exactly when lagging turns on, `onStoppedLagging` only when it turns off; a failure is an `abort` |
| Negotiation.RunKeepsValid | lib/WebRtcConnection.js:126-172 | any sequence of events keeps the scheduler invariant (counter non-negative, one exchange in flight exactly while it is positive) |
| Negotiation.AtMostOneExchange | lib/WebRtcConnection.js:127-131 | from a new connection no sequence of events puts two offer/answer exchanges in flight |
| Negotiation.RequestsCoalesce | lib/WebRtcConnection.js:126-128 | any number of consecutive requests is the same as one request, with no effect |
| Negotiation.BurstStartsOneExchange | lib/WebRtcConnection.js:126-131 | a burst of requests on an idle connection followed by the timer starts exactly one exchange |
| Negotiation.PendingRequestRetriggers | lib/WebRtcConnection.js:150-155 | a request counted during an exchange is not lost: the answer resets the counter and re-triggers, and the next timer starts a new exchange |
| Negotiation.RunAppend | lib/WebRtcConnection.js:126-172 | running two event sequences one after the other is running their concatenation |
| Negotiation.StepAlternates | lib/WebRtcConnection.js:156-170 | the lagging notifications of one step alternate, and the last one tells the new lagging flag |
| Negotiation.LaggingNotificationsAlternate | lib/WebRtcConnection.js:156-170 | without an external abort, `onStartedLagging` and `onStoppedLagging` strictly alternate over any run, so repeated timeouts report lagging once |
| MediaStreams.Registrations | lib/MediaStream.js:304-323 | a channel ought to be registered with at most one supplier, and with one exactly while it has a supplier and a consumer |
| MediaStreams.ApplyAppend | lib/MediaStream.js:227-349 | the suppliers' view of the registrations after two effect traces is that after their concatenation |
| MediaStreams.Create | lib/MediaStream.js:62-76 | a new stream keeps its label and suppliers, has no consumers and no buffers, is registered nowhere, and every cap is `+Infinity` |
| MediaStreams.SetSupplier | lib/MediaStream.js:227-274 | an unchanged supplier does nothing; without consumers it is only stored; with consumers the old supplier is left first, then the new one is registered with, or the statistics are zeroed when there is none; no buffer is delivered |
| MediaStreams.SetSupplierKeeps | lib/MediaStream.js:227-274 | after a supplier change the stream stays valid and is registered with exactly the new supplier when it has consumers |
| MediaStreams.Fanout | lib/MediaStream.js:283-285 | one delivery of the buffer per consumer, in the set's insertion order |
| MediaStreams.OnBuffer | lib/MediaStream.js:280-298 | the buffer is stored; the stored buffer again delivers nothing, a different one is delivered to every consumer |
| MediaStreams.FanoutOnce | lib/MediaStream.js:283-285 | over a set of consumers, fan-out hands each member exactly one buffer and nobody else any |
| MediaStreams.OnBufferDeliversOnce | lib/MediaStream.js:280-298 | a new buffer reaches every consumer exactly once and nobody else; the stored buffer reaches nobody |
| MediaStreams.OnBufferKeeps | lib/MediaStream.js:280-298 | forwarding a buffer keeps the channel valid and touches no registration |
| MediaStreams.OnBufferIdempotent | lib/MediaStream.js:281-282 | the same buffer a second time is ignored |
| MediaStreams.AddConsumer | lib/MediaStream.js:304-313 | a known consumer is ignored; a new one is appended, and either the first consumer makes the stream register with its supplier or the consumer gets the stored buffer, possibly `null`, at once |
| MediaStreams.Without | lib/MediaStream.js:318 | `Set.delete`: exactly the other members remain, and one fewer when the consumer was a member |
| MediaStreams.RemoveConsumer | lib/MediaStream.js:317-326 | a stranger is ignored; a member is removed and receives `null`, and when it was the last consumer with a supplier the stream leaves the supplier and zeroes the statistics |
| MediaStreams.AddConsumerKeeps | lib/MediaStream.js:304-313 | adding a consumer keeps the consumers a set and the registrations in step with supplier and consumers |
| MediaStreams.RemoveConsumerKeeps | lib/MediaStream.js:317-326 | removing a consumer keeps the consumers a set and the registrations in step |
| MediaStreams.RemoveConsumerNullOnce | lib/MediaStream.js:318-319 | a removed member receives exactly one buffer, `null`, and nobody else receives anything |
| MediaStreams.AddThenRemove | lib/MediaStream.js:304-326 | adding a new consumer and removing it again restores the channel and the supplier's registrations |
| MediaStreams.Reregister | lib/MediaStream.js:107-112 | the supplier is asked again for video exactly while the stream is registered with it |
| MediaStreams.SetCap | lib/MediaStream.js:103-188 | a non-positive value throws `Can't change max video frame area`/`frame rate`/`bitrate to ...`; any other value, `+Infinity` included, is stored and only that cap changes; exactly when the value is new and the video side has both a consumer and a supplier, the effect is the single re-registration of the stream with its video supplier, and otherwise there is no effect |
| MediaStreams.SetCapIdempotent | lib/MediaStream.js:107 | setting a cap to the value it already has changes nothing and tells nobody |
| MediaStreams.Publish | lib/MediaStream.js:613-618 | a computed sample is published exactly when the channel has a supplier and a consumer; an unlinked channel is returned unchanged, and only the statistics ever change |
| MediaStreams.PublishKeeps | lib/MediaStream.js:613-618 | publishing keeps the channel valid: an unlinked channel keeps zero statistics |
| MediaStreams.Perform | lib/MediaStream.js:103-349 | every single operation on a channel keeps it valid and the suppliers' view of the registrations in step |
| MediaStreams.RunKeeps | lib/MediaStream.js:103-349 | over any sequence of operations the consumers stay a set, an unlinked channel publishes zero statistics, and the stream is registered with exactly its supplier while it has consumers and with none otherwise |
| MediaStreams.PerformOn | lib/MediaStream.js:220-349 | an operation on one kind leaves the other kind and the caps alone; audio and video follow the same rules |
| Distortions.NewDistortion | lib/Distortion.js:9-13 | a new distortion of the track starts one second before `now` and lasts one second, so it ends at `now` |
| Distortions.Prolong | lib/Distortion.js:25-32 | succeeds exactly when the distortion has not ended, and then it lasts until `now`, same track and start; an ended distortion is left unchanged |
| Distortions.TextRoundTrip | lib/Distortion.js:37-39 | the wire text `1:mtid:start:seconds` of a distortion whose track id has no colon reads back as its track, its start and its duration rounded to seconds |
| Distortions.AddMtid | lib/DistortionRegistry.js:20-22 | the track is watched from `now`; other tracks, open distortions and queued messages are untouched |
| Distortions.RemoveMtid | lib/DistortionRegistry.js:27-29 | the track is no longer watched; nothing else changes |
| Distortions.Find | lib/DistortionRegistry.js:36 | the position of the track's open distortion, or -1 exactly when it has none |
| Distortions.RegisterDistortion | lib/DistortionRegistry.js:34-46 | nothing happens unless the track is watched and was added more than 3000 ms ago; otherwise a distortion that can still be prolonged is prolonged with nothing queued, an ended one has its text queued and is replaced in place by a new one, and a track with none gets a new one at the end; track ids of open distortions stay unique |
| Distortions.EndedLivePartition | lib/DistortionRegistry.js:52-57 | every open distortion is either kept or reported by `report`, and the counts add up |
| Distortions.LiveKeepsUnique | lib/DistortionRegistry.js:52-57 | the distortions kept by `report` still have unique track ids |
| Distortions.LiveAppend | lib/DistortionRegistry.js:52-57 | the kept distortions of a longer map are those of the prefix plus the last one if it has not ended |
| Distortions.EndedAppend | lib/DistortionRegistry.js:52-57 | the reported distortions of a longer map are those of the prefix plus the last one if it has ended |
| Distortions.Sweep | lib/DistortionRegistry.js:52-57 | the loop over the open distortions keeps exactly the live ones and collects the texts of exactly the ended ones, in map order |
| Distortions.Report | lib/DistortionRegistry.js:51-62 | sends the queued messages followed by the texts of the ended distortions, in order; afterwards the queue is empty, only distortions that have not ended remain, and watched tracks are unchanged |
| Distortions.RemovedTrackIgnored | lib/DistortionRegistry.js:27-35 | after `removeMtid`, registering a distortion for that track changes nothing |
| Distortions.GracePeriod | lib/DistortionRegistry.js:35 | within three seconds of `addMtid`, registering a distortion for the track changes nothing |
| Distortions.ReportTwiceSendsNothing | lib/DistortionRegistry.js:51-62 | a second `report` at the same instant sends nothing |
| Distortions.EndedOfLive | lib/DistortionRegistry.js:52-57 | none of the distortions `report` keeps has ended at that instant |
| Numbers.RoundMillisToSeconds | lib/Distortion.js:38 | `Math.round(ms / 1000)`: the nearest whole second, halves rounded up |
| Numbers.NatToString | lib/Distortion.js:38 | the decimal text of a number: at least one digit, only digits, no leading zero |
| Numbers.IntToString | lib/Distortion.js:38 | the text of an integer is non-empty and has no colon, so it cannot break the wire format |
| Numbers.ParseNatToString | lib/Distortion.js:38 | the digits of a natural number read back as that number |
| Numbers.ParseIntToString | lib/Distortion.js:38 | the decimal text of any integer, negative or not, reads back as that integer |
| Numbers.Split | lib/Distortion.js:38 | `split(':')` yields at least one piece |
| Numbers.SplitJoinAll | lib/Distortion.js:38 | splitting on a separator undoes joining pieces that do not contain it |
| Numbers.IndexOf | lib/MindSDK.js:116 | the first position of a character, or -1 exactly when it is absent |
| Numbers.JsRem | nsw/NoiseSuppressionWorklet.js:63 | JavaScript `%`: the remainder takes the dividend's sign and, with the truncated quotient, recomposes the dividend |
| Numbers.MinFin | lib/WebRtcConnection.js:848 | `Math.min` of a finite value and a possibly infinite one is the smaller of the two |
| Distortions.Live | lib/DistortionRegistry.js:52-57 | the distortions `report` keeps are among the open ones and none of them has ended |
| VideoEncoding.ConfigureSimulcast | lib/WebRtcConnection.js:852-875 | every encoding is reset; with exactly three encodings, encoding `i` is switched on with scale `scale * 2^(adaptivity-1-i)`, bitrate `floor(bitrate/fraction) * 4^i`, mode `L1T3` and the frame-rate cap exactly when layer `i` is active, and the lowest one always is; with another count all stay reset |
| VideoEncoding.ResetAll | lib/WebRtcConnection.js:853-857 | each encoding is deactivated with scale 1 and bitrate 0, the rest of it kept |
| VideoEncoding.EnableLayers | lib/WebRtcConnection.js:858-874 | after the loop encoding `i` is the active layer exactly when `LayerActive` holds for it, and reset otherwise |
| VideoEncoding.LayerStep | lib/WebRtcConnection.js:860-862 | the running total after layer `i` equals the closed-form cumulative bitrate `floor(bitrate/fraction) * (4^0 + … + 4^i)`, so the loop's condition is exactly `LayerActive` |
| VideoEncoding.ActiveLayersArePrefix | lib/WebRtcConnection.js:858-874 | the layers switched on form a prefix: a sent layer implies every lower layer is sent (totals grow and divisors shrink with the index) |
| VideoEncoding.ActiveBitratePrefix | lib/WebRtcConnection.js:858-874 | when layers up to `k` are sent and none above, the sum of `maxBitrate` over sent layers is the cumulative bitrate of layers `0..k` |
| VideoEncoding.ActiveBitrateAllActive | lib/WebRtcConnection.js:858-874 | when layer `k` is sent, the bitrate sent by layers `0..k` is their cumulative bitrate |
| VideoEncoding.SimulcastRespectsBitrateCap | lib/WebRtcConnection.js:858-874 | the lowest layer is always sent; once a second layer is sent the total sent bitrate is within `maxVideoBitrate`; otherwise only the lowest layer's bitrate is sent |
| VideoEncoding.SpatialLayersFrom | lib/WebRtcConnection.js:839-845 | the count stops at the first index whose bitrate fraction or frame area does not fit, and every index before it fits |
| VideoEncoding.SpatialLayers | lib/WebRtcConnection.js:837-845 | between 1 and the adaptivity spatial layers; every added layer passes both caps and the first rejected one (if any) fails one of them |
| VideoEncoding.ConfigureVp9 | lib/WebRtcConnection.js:836-850 | no encoding at all is an error; otherwise only the first encoding changes: active, `maxBitrate` the smaller of the bitrate and `maxVideoBitrate`, `scaleResolutionDownBy = scale * 2^(adaptivity - n)` (never below the buffer's scale, equal to it when all `n = adaptivity` layers are used), the frame-rate cap, and the `L<n>T3_KEY`/`L1T3` mode of the `n` spatial layers |
| VideoEncoding.SpatialBitrateFitsExactly | lib/WebRtcConnection.js:837-840 | comparing the fraction with the floored `maxBitrate / (bitrate / fraction)` admits a layer exactly when its exact share of the buffer bitrate fits the cap |
| VideoEncoding.ScalabilityModeInjective | lib/WebRtcConnection.js:848 | different spatial layer counts give different scalability-mode strings |
| VideoEncoding.SimulcastAreaCounterexample | lib/WebRtcConnection.js:862 | as written, a 640x360 buffer of adaptivity 2 under a 57600-pixel cap activates its full-resolution layer although 230400 pixels exceed the cap |
| VideoEncoding.SpatialAreaCounterexample | lib/WebRtcConnection.js:840 | as written, VP9 picks two spatial layers for the same buffer and caps, its top layer at full resolution over the cap |
| VideoEncoding.IntendedSimulcastRespectsFrameArea | lib/WebRtcConnection.js:862-868 | with the divisor each layer is sent at, every sent layer above the lowest, and every lower one, fits the frame-area cap at its real resolution |
| VideoEncoding.IntendedVp9RespectsFrameArea | lib/WebRtcConnection.js:836-848 | with the intended divisor, the VP9 encoding is scaled down by exactly its top spatial layer's divisor, and that layer fits the frame-area cap whenever more than one is used |
| VideoEncoding.IntendedSpatialRespectsFrameArea | lib/WebRtcConnection.js:840-847 | with that divisor, when more than one spatial layer is used, the top layer (scaled by `2^(adaptivity-n)`) fits the frame-area cap |
| Capture.Fanout | lib/Camera.js:301-305 | one delivery of the same buffer per consumer, in the consumers' order |
| Capture.FanoutOnce | lib/Camera.js:301-305 | over a consumer set, each member receives the buffer exactly once and a non-member never |
| Capture.AddConsumer | lib/Camera.js:271-278 | the consumer is in the set afterwards and nothing else is added; a member keeps its place; the set stays duplicate-free; the consumer is sent the current buffer (or `null`) even when already a member |
| Capture.RemoveConsumer | lib/Camera.js:283-287 | the consumer leaves the set and nothing else does; a member is sent `null` once, a non-member nothing and the set is unchanged |
| Capture.AddThenRemove | lib/Camera.js:271-287 | adding a new consumer and removing it restores the set; the consumer saw the current buffer and then `null` |
| Cameras.New | lib/Camera.js:39-54 | a new camera is valid, has no consumers, faces the user, 640x360 at 30 fps, bitrate 1000000, adaptivity 2, nothing pending and no track |
| Cameras.SetResolution | lib/Camera.js:112-123 | a non-positive dimension throws with the size in the message; otherwise the size is stored and constraints are applied to the track exactly when the size changed and a track is held |
| Cameras.SetFps | lib/Camera.js:131-141 | a non-positive rate throws; otherwise it is stored and applied to the track exactly when it changed and a track is held |
| Cameras.SetBitrate | lib/Camera.js:151-161 | 100000 or less throws; otherwise it is stored and, when it changed with a track held, every consumer gets a buffer carrying the new bitrate, else nobody |
| Cameras.SetAdaptivity | lib/Camera.js:175-185 | anything but 1, 2, 3 throws; otherwise it is stored and, when it changed with a track held, every consumer gets a buffer carrying it, else nobody |
| Cameras.SetFacing | lib/Camera.js:83-101 | only "user" and "environment" are accepted; the same facing or no track only stores it; a new facing with a track stops the track, requests a new one and remembers the old facing |
| Cameras.Acquire | lib/Camera.js:206-247 | with a promise outstanding nothing happens; otherwise one request is started and the promise is pending |
| Cameras.Settle | lib/Camera.js:225-243 | granted: the track is held, the device list is refreshed only with a single camera, every consumer gets the buffer; denied: the promise is dropped, or after a facing change the old facing is restored and requested again |
| Cameras.Release | lib/Camera.js:254-266 | in the middle of acquisition it throws; otherwise the camera is idle, and only if a track was held every consumer gets `null` and the track is stopped |
| Cameras.Destroy | lib/Camera.js:232-237 | without a track nothing happens; with one it is released and the listener, if any, told it was released forcibly |
| Cameras.AddVideoConsumer | lib/Camera.js:271-278 | only the consumer set changes, it holds the consumer, and the consumer is sent the current buffer or `null` |
| Cameras.RemoveVideoConsumer | lib/Camera.js:283-287 | only the consumer set changes, the consumer is gone, and only a former member is sent `null` |
| Cameras.StepKeepsValid | lib/Camera.js:39-296 | every operation keeps settings in the accepted ranges, consumers a set, the track only after a pending request, and every buffer handed out a valid encoder input |
| Cameras.SettledKeepsValid | lib/Camera.js:225-243 | a settlement keeps the camera valid and hands out valid buffers |
| Cameras.SettingKeepsValid | lib/Camera.js:83-185 | the five setters keep the camera valid and hand out valid buffers |
| Cameras.LifecycleKeepsValid | lib/Camera.js:206-287 | acquire, release, destroy and the consumer calls keep the camera valid and hand out valid buffers |
| Cameras.AcquireIdempotent | lib/Camera.js:207 | a second `acquire` returns the outstanding promise: no new request |
| Cameras.DeniedRetries | lib/Camera.js:240-243 | after a denial the next `acquire` requests again |
| Cameras.ReleaseIdempotent | lib/Camera.js:254-266 | a release after a successful release succeeds and does nothing |
| Cameras.ReleaseNullsOnce | lib/Camera.js:258-264 | a release sends `null` exactly once to each consumer, and only if a track was held |
| Cameras.FacingFallback | lib/Camera.js:87-98 | a facing change on a live camera whose new request is denied ends up requesting again with the old facing, the track gone |
| Cameras.Current | lib/Camera.js:271-278 | a consumer is handed a buffer exactly while the camera holds a track, and `null` otherwise |
| Cameras.Frame | lib/Camera.js:301-305 | the buffer built from a valid camera's settings is a valid video buffer (positive size and bitrate, adaptivity 1 to 3) |
| Microphones.New | lib/Microphone.js:37-51 | a new microphone is valid, has no consumers, noise suppression off, unmuted, nothing pending, no track and no graph |
| Microphones.Current | lib/Microphone.js:216-223 | consumers are handed a buffer exactly when a track is held: the graph's output track when there is one, the raw track otherwise, never remote |
| Microphones.AudibleIffUnmuted | lib/Microphone.js:91-101 | under the invariant consumers hear sound exactly when a track is held and the microphone is not muted |
| Microphones.SetNoiseSuppression | lib/Microphone.js:78-82 | the flag is stored; what consumers receive and hear does not change, and validity is kept |
| Microphones.SetMuted | lib/Microphone.js:91-101 | the state is stored, the tracks kept; with a track held both the raw and the graph track follow it; without one only the flag changes |
| Microphones.Acquire | lib/Microphone.js:123-176 | with a promise outstanding nothing happens; otherwise one request is started and the promise is pending |
| Microphones.SettleAsWritten | lib/Microphone.js:139-172 | denied: the promise is dropped; granted: the raw track is held enabled, a graph exists only with noise suppression and a loaded worklet, the device list is refreshed only with a single microphone, every consumer gets the buffer |
| Microphones.Settle | lib/Microphone.js:139-172 | the same settlement and effects, except the raw track is enabled exactly when the microphone is not muted, so a grant always leaves the muted state applied |
| Microphones.MutedBeforeAcquireIsAudible | lib/Microphone.js:139-172 | muting before acquisition (lib/Microphone.js:91-101) only sets the flag, and the grant enables the track regardless; so, as written, a microphone muted before acquisition without noise suppression hands out an enabled track once granted |
| Microphones.MutedBeforeAcquireIsSilent | lib/Microphone.js:139-172 | with the corrected settlement, which applies the flag set by `setMuted` (lib/Microphone.js:91-101) to the granted track, the same sequence stays silent |
| Microphones.Release | lib/Microphone.js:183-211 | in the middle of acquisition it throws; otherwise the graph is torn down, the microphone idle, and only if a track was held every consumer gets `null` and the track is stopped |
| Microphones.Destroy | lib/Microphone.js:146-151 | without a track nothing happens; with one it is released and the listener, if any, told it was released forcibly |
| Microphones.AddAudioConsumer | lib/Microphone.js:216-223 | only the consumer set changes, it holds the consumer, and the consumer is sent the current buffer or `null` |
| Microphones.RemoveAudioConsumer | lib/Microphone.js:228-232 | only the consumer set changes, the consumer is gone, and only a former member is sent `null` |
| Microphones.StepKeepsValid | lib/Microphone.js:37-250 | every operation of the corrected microphone keeps the invariant, so consumers hear sound exactly when a track is held and it is not muted |
| Microphones.AcquireIdempotent | lib/Microphone.js:124 | a second `acquire` makes no second request |
| Microphones.ReleaseIdempotent | lib/Microphone.js:183-211 | a release after a successful release succeeds and does nothing |
| Screens.InitialValid | lib/Screen.js:38-50 | a new screen (30 fps, bitrate 1000000, no consumers, nothing captured) satisfies the invariant |
| Screens.Frame | lib/Screen.js:241-245 | a screen's video buffer has unbounded width and height and adaptivity 1, and is a valid encoder input for a valid bitrate |
| Screens.SetAudioCapturing | lib/Screen.js:60-67 | refused with its message exactly while a track is held; otherwise only the flag changes |
| Screens.SetFps | lib/Screen.js:75-85 | a non-positive rate throws; otherwise it is stored and applied to the video track exactly when it changed and a video track is held |
| Screens.SetBitrate | lib/Screen.js:94-104 | 100000 or less throws; otherwise it is stored and, when it changed with a video track held, every video consumer gets a buffer carrying it, else nobody |
| Screens.Acquire | lib/Screen.js:126-159 | with a promise outstanding nothing happens; otherwise one request is started |
| Screens.Settle | lib/Screen.js:129-155 | granted: both tracks are held and the audio consumers get the audio buffer, if any, before the video consumers get the video buffer; denied: the promise is dropped |
| Screens.Release | lib/Screen.js:166-185 | in the middle of acquisition it throws; otherwise audio consumers get `null` and the audio track is stopped, then the same for video, each only if held, and the screen is idle |
| Screens.TrackEnded | lib/Screen.js:134-149 | either track ending releases the whole screen and tells the listener, if any |
| Screens.AddAudioConsumer | lib/Screen.js:190-197 | only the audio consumer set changes, it holds the consumer, and the consumer is sent the audio buffer or `null` |
| Screens.RemoveAudioConsumer | lib/Screen.js:202-206 | only the audio consumer set changes, the consumer is gone, and only a former member is sent `null` |
| Screens.AddVideoConsumer | lib/Screen.js:211-218 | only the video consumer set changes, it holds the consumer, and the consumer is sent the video buffer or `null` |
| Screens.RemoveVideoConsumer | lib/Screen.js:223-227 | only the video consumer set changes, the consumer is gone, and only a former member is sent `null` |
| Screens.StepKeepsValid | lib/Screen.js:38-245 | every operation keeps the settings in range, the consumer sets sets, the audio track only alongside the video track, and every video buffer a valid unbounded encoder input |
| Screens.SettledKeepsValid | lib/Screen.js:129-155 | a settlement keeps the screen valid and hands out valid video buffers |
| Screens.LifecycleKeepsValid | lib/Screen.js:60-185 | setters, acquire, release and a track ending keep the screen valid |
| Screens.ConsumersKeepValid | lib/Screen.js:190-227 | the four consumer calls keep the screen valid and hand out valid video buffers |
| Screens.AudioCapturingOnlyWhenIdle | lib/Screen.js:60-63 | for a valid screen, audio capturing can be switched exactly when no video track is held |
| Screens.ReleaseIdempotent | lib/Screen.js:166-185 | a release after a successful release succeeds and does nothing |
| Screens.DeniedRetries | lib/Screen.js:152-155 | after a denial the next `acquire` requests again |
| Screens.CurrentAudio | lib/Screen.js:190-197 | an audio consumer is handed a buffer exactly while an audio track is held |
| Screens.CurrentVideo | lib/Screen.js:211-218 | a video consumer is handed a buffer exactly while a video track is held |
| Devices.Prune | lib/DeviceRegistry.js:87-102 | every entry is either kept or removed, nothing invented; without a device of the kind nothing is kept; with one the default entry at the head stays |
| Devices.PruneSurvivors | lib/DeviceRegistry.js:88-94 | an entry is kept exactly when a device of its kind backs it (any device for the default entry at index 0, the same id otherwise), and kept ids stay unique |
| Devices.PruneKeepsAll | lib/DeviceRegistry.js:88-94 | a list whose entries are all backed loses nothing |
| Devices.AddAll | lib/DeviceRegistry.js:104-135 | the old list is a prefix of the new one; an empty list gains the default entry first when a device of the kind exists; with none nothing changes; an addition is reported exactly when an entry beyond the default one was appended |
| Devices.AddAllComplete | lib/DeviceRegistry.js:110-117 | every labelled device of the kind has an entry afterwards |
| Devices.AddAllOrigin | lib/DeviceRegistry.js:107-131 | every appended entry is the default entry at the head of an empty list or comes from a labelled device of the kind, with its id and label |
| Devices.AddAllWellFormed | lib/DeviceRegistry.js:104-135 | ids stay unique and a non-empty list starts with the default entry |
| Devices.AddAllNothingNew | lib/DeviceRegistry.js:110-117 | when every labelled device is listed already the pass changes nothing and reports nothing |
| Devices.UpdateKind | lib/DeviceRegistry.js:87-135 | the list is non-empty exactly when a device of the kind exists; only old entries are removed; an addition leaves more than the default entry; with no change reported the list is the old one or the default entry alone |
| Devices.UpdateKindWellFormed | lib/DeviceRegistry.js:87-135 | one kind's update keeps ids unique with the default entry first |
| Devices.UpdateKindMembers | lib/DeviceRegistry.js:87-135 | an old entry remains exactly when it is backed, and every labelled device of the kind has an entry |
| Devices.UpdateKindAllSurvive | lib/DeviceRegistry.js:87-135 | every entry of the updated list is backed by the same enumeration |
| Devices.UpdateKindIdempotent | lib/DeviceRegistry.js:87-135 | a second update with the same enumeration keeps the list, removes nothing and reports nothing |
| Devices.Update | lib/DeviceRegistry.js:82-148 | each list is non-empty exactly when a device of its kind is enumerated; the listener is called only if set, and when set and not called nothing was destroyed |
| Devices.InitialValid | lib/DeviceRegistry.js:82-148 | the empty registry satisfies the list invariant |
| Devices.UpdateKeepsValid | lib/DeviceRegistry.js:82-148 | both lists keep unique ids with the default entry first |
| Devices.UpdateDestroysDefault | lib/DeviceRegistry.js:136-143 | after an addition the head entry destroyed is the default one, and the destroyed entries are the removed ones plus one default per kind that gained a labelled device |
| Devices.SilentUpdate | lib/DeviceRegistry.js:84-146 | without a notification each list is unchanged or went from empty to the default entry alone |
| Devices.UpdateIdempotent | lib/DeviceRegistry.js:82-148 | a second update with the same enumeration changes nothing, destroys nothing and notifies nobody |
| NoiseSuppression.Process | nsw/NoiseSuppressionWorklet.js:36-78 | a non-empty input keeps the worklet alive, creates instances for new channels, denoises exactly when 480 samples are pending, and writes output exactly when the reader is non-negative; an empty input destroys every instance and resets to the initial state |
| NoiseSuppression.ValidDistances | nsw/NoiseSuppressionWorklet.js:30-33 | under the invariant the reader is 512 samples behind the writer and the denoiser behind it by the pending count |
| NoiseSuppression.InitialValid | nsw/NoiseSuppressionWorklet.js:30-33 | the initial indices 0, 0, -512 and count 0 satisfy the invariant |
| NoiseSuppression.Wrap | nsw/NoiseSuppressionWorklet.js:58-63 | JavaScript `%` by 1920 leaves a value just below zero as it is and wraps a value past the end once |
| NoiseSuppression.ProcessKeepsValid | nsw/NoiseSuppressionWorklet.js:36-78 | each call keeps every index a whole frame inside the buffer, the reader 512 behind the writer, and fewer than 480 samples pending |
| NoiseSuppression.DenoisesWrittenSamples | nsw/NoiseSuppressionWorklet.js:50-53 | the frame denoised has been written in full and not yet overwritten |
| NoiseSuppression.OutputIsDenoised | nsw/NoiseSuppressionWorklet.js:54-63 | the output frame lies between 128 and 640 samples behind where denoising has reached |
| NoiseSuppression.FeedWarmup | nsw/NoiseSuppressionWorklet.js:32 | the first four calls move the reader from -512 up to 0, keeping the invariant |
| NoiseSuppression.FeedSteady | nsw/NoiseSuppressionWorklet.js:54-63 | from the fourth call on the reader is non-negative |
| NoiseSuppression.OutputAfterFourFrames | nsw/NoiseSuppressionWorklet.js:32 | after a start or reset a call writes output exactly when four calls preceded it |
| NoiseSuppression.ResetRestarts | nsw/NoiseSuppressionWorklet.js:65-77 | an empty input returns the worklet to the initial, valid state |
| Participants.Supplier | lib/Participant.js:46-47 | the connection exactly when the flag is set, `null` otherwise |
| Participants.Streaming | lib/Participant.js:179-227 | a stream streams a kind exactly when it has a supplier for it |
| Participants.FromDto | lib/Participant.js:32-48 | the DTO's id, name, priority, language and role; streams tagged `<id>#primary` and `<id>#secondary`, supplied by the connection for exactly the kinds each media flag names, with no consumers |
| Participants.FromDtoStreaming | lib/Participant.js:179-227 | the four `isStreaming…` answers of a new participant are the DTO's four media flags |
| Participants.SetMedia | lib/Participant.js:262-271 | the stream's suppliers become the connection for exactly the kinds flagged, consumers and the rest of the stream unchanged, no buffer delivered |
| Participants.FiredInOrder | lib/Participant.js:245-272 | the fired events follow the order of `update`'s checks, none twice |
| Participants.FiredMembers | lib/Participant.js:245-272 | an event fires exactly when its field or stream differs from the DTO |
| Participants.Changes | lib/Participant.js:245-272 | each of the six events fires exactly when its field (or either flag of its stream) differs from the DTO, in `update`'s order |
| Participants.Update | lib/Participant.js:245-272 | the fields and streaming flags take the DTO's values, the id stays; the events are exactly the differences; a stream whose flags already match is untouched; validity and the supplier are kept |
| Participants.UpdateMatchesFromDto | lib/Participant.js:32-48 | an updated participant and one freshly built from the same DTO agree on name, priority, language, role and the four streaming answers |
| Participants.UpdateIdempotent | lib/Participant.js:245-272 | applying the same DTO again changes nothing, fires nothing and touches no supplier |
| Participants.Destroy | lib/Participant.js:277-282 | all four streaming answers become false, only the streams change, consumers stay, and the only effects are unregistrations |
| Participants.DestroyUnregisters | lib/Participant.js:277-282 | after `destroy` no stream of the participant is registered with any supplier |
| Conferences.OnlineDtos | lib/Conference.js:30-36 | exactly the online DTOs, none added |
| Conferences.IndexFacts | lib/Conference.js:52-56 | with distinct ids none equal to `Me`'s, the index maps `Me`'s id to `Me`, each participant's id to it, and nothing else |
| Conferences.FromDto | lib/Conference.js:26-57 | the DTO's id, name, layout and recording flag; `Me` is the first DTO; the participants are the online later DTOs in order; the stream is tagged "conference" and supplied by the connection for both kinds; the index is built from `Me` and the list |
| Conferences.FromDtoConsistent | lib/Conference.js:26-57 | with unique DTO ids the new conference's index and list agree, `Me` is indexed, and a remote DTO is listed exactly when online |
| Conferences.FromDtoDistinct | lib/Conference.js:30-36 | the listed participants have distinct ids, none `Me`'s |
| Conferences.FromDtoLists | lib/Conference.js:30-36 | a remote DTO's id is listed exactly when it is online |
| Conferences.OnlineKeepsDistinct | lib/Conference.js:30-36 | filtering on `online` keeps ids unique |
| Conferences.GetParticipantById | lib/Conference.js:52-56 | a lookup finds something exactly when the id is indexed, and a remote hit is a listed participant |
| Conferences.AddParticipant | lib/Conference.js:199-204 | an indexed id is ignored; otherwise the participant is indexed, appended and announced once; agreement is kept and the id can be looked up |
| Conferences.AddConsistent | lib/Conference.js:199-204 | appending and indexing a new id keeps the index and list in agreement |
| Conferences.Position | lib/Conference.js:211 | `indexOf`: the first position holding that very participant, `-1` for `Me` or an unlisted participant |
| Conferences.SpliceOne | lib/Conference.js:211 | `splice(start, 1)`: in range it removes that element, `-1` removes the last, past the end nothing |
| Conferences.RemoveParticipantAsWritten | lib/Conference.js:209-214 | an unindexed id is ignored; otherwise the id leaves the index, the list is spliced at `indexOf` and one exit fires |
| Conferences.RemoveMeDropsLastParticipant | lib/Conference.js:209-214 | as written, removing `Me` drops the last remote participant from the list while its id stays indexed, breaking agreement |
| Conferences.RemoveParticipant | lib/Conference.js:209-214 | the corrected removal, which differs from the program's: the same index change and exit event, but the list only loses `who` when `who` is listed; identical to the written code whenever it is |
| Conferences.RemoveParticipantConsistent | lib/Conference.js:209-214 | with the corrected removal, removing whatever the index holds under an id keeps agreement and removes that id from both index and list |
| Conferences.RemoveMeConsistent | lib/Conference.js:209-214 | removing `Me` keeps agreement and leaves the list's ids unchanged |
| Conferences.RemoveRemoteConsistent | lib/Conference.js:209-214 | removing a remote participant keeps agreement and drops exactly its id |
| Conferences.ListedAt | lib/Conference.js:211 | an indexed remote participant sits in the list at the position `indexOf` finds |
| Conferences.RemoveAtFacts | lib/Conference.js:211 | removing a position keeps the other participants in order with unique ids and loses exactly that id |
| Conferences.Replace | lib/Participant.js:245-272 | an updated participant replaces itself in list and index; the id set and agreement are kept |
| Conferences.Mutate | lib/Participant.js:245-272 | an update of an indexed remote participant keeps agreement, the index's keys, the id set and `Me`'s entry, and the index now holds the updated participant |
| Conferences.Update | lib/Conference.js:219-232 | name and recording take the DTO's values; a name change fires one event, first; a flipped flag fires started or stopped to match, last; no join or exit; at most two events |
| Conferences.UpdateIdempotent | lib/Conference.js:219-232 | the same DTO again fires nothing |
| Conferences.Destroy | lib/Conference.js:237-244 | every remote participant is destroyed in place and the conference stream loses both suppliers |
| Conferences.DestroyEffects | lib/Conference.js:239-241 | destroying the participants only unregisters streams |
| Sessions.StripSlashes | lib/Session.js:45 | the result is a prefix of the URI that does not end in a slash, and exactly slashes were removed |
| Sessions.StripSlashesExact | lib/Session.js:45 | only the trailing slashes go: a text not ending in a slash, followed by any number of slashes, strips back to itself |
| Sessions.Segment | lib/Session.js:110 | `split("/")[k]` is defined exactly when there are more than `k` pieces |
| Sessions.SplitUri | lib/Session.js:109-118 | a `scheme//host/application/conference` URI splits into the scheme, an empty piece, the host and the two ids |
| Sessions.UriIds | lib/Session.js:109-118 | after stripping trailing slashes, the application id is the third path piece and the conference id the fourth |
| Sessions.Open | lib/Session.js:42-56 | a new session is normal, has delay 0, no conference, an empty queue, nothing settled or scheduled, and the URI without trailing slashes |
| Sessions.SetState | lib/Session.js:695-706 | the state is stored and the listener told exactly when it changed |
| Sessions.SetStateIdempotent | lib/Session.js:695-706 | setting the same state again tells nobody |
| Sessions.LocationFacts | lib/Session.js:654-659 | a participant's location carries its id and is the `me` alias only for the id "me" |
| Sessions.CreateItem | lib/Session.js:611-624 | an online participant under `/participants/` is built from its DTO and added to the conference; a message under `/messages/` is reported once with its text, as from the application exactly when its sender is the application's id and otherwise with the sender looked up among the participants; other locations change nothing; without a conference it throws; nothing but the conference changes |
| Sessions.DeleteItem | lib/Session.js:649-665 | `/` closes the session and ends the conference; the `me` alias closes it and expels `Me` (throwing without a conference); an indexed participant is removed with `removeParticipant` as written and, when remote, destroyed: its exit is reported, then the supplier effects of `destroy`; an unknown id changes nothing; otherwise only the conference changes |
| Sessions.UpdateItem | lib/Session.js:629-644 | `/` updates the conference (throwing without one); an offline participant is deleted; an unknown online one created; `Me` only reported; a known remote one updated in place, reporting its changes and then the supplier effects of the update |
| Sessions.DeleteReleasesSuppliers | lib/Session.js:658-663 | deleting a listed participant reports its exit first and then only unregisters its streams from their suppliers |
| Sessions.DeleteMeByIdBreaksAgreement | lib/Session.js:658-663 | deleting `Me` under its actual id, with a remote participant listed, leaves the conference's index and list in disagreement |
| Sessions.Handle | lib/Session.js:671-687 | handling one notification changes nothing outside the conference model and the closed flag |
| Sessions.ProcessAll | lib/Session.js:671-688 | the loop changes nothing outside the conference model and the closed flag |
| Sessions.ProcessNotifications | lib/Session.js:670-690 | the whole queue is applied in order and then emptied |
| Sessions.ProcessAllAppend | lib/Session.js:670-690 | applying two queues one after the other equals applying their concatenation, events concatenated |
| Sessions.IgnoredNotifications | lib/Session.js:672-687 | notifications of other types and unparsable text change nothing and fire nothing |
| Sessions.MeNotListed | lib/Conference.js:52-56 | in a usable session `Me` is never a listed remote participant |
| Sessions.DeleteStep | lib/Session.js:658-663 | deleting a listed participant keeps the session usable and unlists exactly its id (for a listed participant the written `removeParticipant` and the corrected one agree) |
| Sessions.UpdateMeStep | lib/Session.js:633-636 | updating `Me` from its own DTO only reports it |
| Sessions.UpdateRemoteStep | lib/Session.js:633-636 | updating a known remote participant keeps the session usable and the listed ids |
| Sessions.CreateStep | lib/Session.js:611-616 | creating an unknown online participant lists its id, which is not `Me`'s |
| Sessions.UpsertStep | lib/Session.js:595-605 | one turn of the third loop never throws, keeps the session usable and lists the DTO's id when online, unless it is `Me`'s |
| Sessions.MutateStep | lib/Participant.js:245-272 | mutating a listed remote participant keeps the session usable and the listed ids |
| Sessions.DeleteMissingFacts | lib/Session.js:588-593 | the removal loop never throws, keeps the session usable and unlists exactly the listed ids that are not online |
| Sessions.DeleteOneStep | lib/Session.js:590-592 | one turn unlists the id exactly when it is not online |
| Sessions.UpsertFacts | lib/Session.js:595-605 | the third loop never throws, keeps the session usable and adds exactly the online DTO ids other than `Me`'s |
| Sessions.UpdateEntireModelReconciles | lib/Session.js:576-606 | after a reconnection the listed remote participants are exactly the online participants of the fresh resource other than `Me`, nothing throws and the model stays usable |
| Sessions.UpdateKeepsLive | lib/Session.js:577 | updating the conference's name and recording keeps the model usable and the listed ids |
| Sessions.Recover | lib/Session.js:146-156 | the state becomes failed; with a conference the queue is dropped and a reopening scheduled after the current delay, which grows by one up to ten; without one the promise is rejected and the delay kept |
| Sessions.Finish | lib/Session.js:166-168 | the queue is applied and emptied, the delay reset, the state normal, and earlier events kept first |
| Sessions.OnOpened | lib/Session.js:158-172 | an error, or a resource without participants on the first opening, goes to `recover`; a first opening with participants builds the conference, resolves the promise first and ends normal with delay 0 |
| Sessions.OnSignal | lib/Session.js:173-205 | lagging and its end set the state; a failure recovers; a message is queued, and applied at once when the conference exists; nothing happens after close |
| Sessions.Enqueue | lib/Session.js:179-184 | the notification joins the queue, which is applied at once exactly when the conference exists |
| Sessions.QueueDrained | lib/Session.js:179-205 | once the conference exists, every signal leaves the queue empty |
| Sessions.ClosedByServer | lib/Session.js:190-195 | close code 4000 closes the session and reports the conference ended |
| Sessions.ExpelledByServer | lib/Session.js:196-201 | close code 4001 closes the session and reports `Me` expelled |
| Sessions.ClosedBeforeJoin | lib/Session.js:190-201 | before the first opening these codes only queue their deletion |
| Sessions.ClosedUnexpectedly | lib/Session.js:202-203 | any other close code recovers from "WebRTC connection closed: <code>" |
| Sessions.FailureBeforeJoin | lib/Session.js:153-155 | before the first opening a failure rejects the promise and schedules nothing |
| Sessions.Backoff | lib/Session.js:152 | after `n` failures from a reset delay the delay is `min(n, 10)` |
| Sessions.RecoverStep | lib/Session.js:152 | one failure adds a second to the delay, up to ten |
| Sessions.BackoffReopens | lib/Session.js:151-152 | the reopening after `n` consecutive failures waits `min(n, 10)` seconds |
| Sessions.ReopenRecovers | lib/Session.js:163-168 | reopening a usable session brings it back to normal with the delay reset and an empty queue |
| Sessions.FirstOpenJoins | lib/Session.js:158-168 | the first opening with distinct ids builds a usable session, normal, and resolves the promise first |
| Connection.InitialConsistent | lib/WebRtcConnection.js:45-61 | a fresh connection (no peer connection, channel closed, empty publications, no subscriptions, first free section 2) satisfies the connection invariant |
| Connection.EnsurePublication | lib/WebRtcConnection.js:224-243 | both sending legs of the publication exist afterwards and the published stream and buffers are untouched |
| Connection.DirectPublication | lib/WebRtcConnection.js:244-275 | a leg is `sendonly` exactly when its buffer is present and `inactive` otherwise; no section changes hands |
| Connection.ReconcileLeg | lib/WebRtcConnection.js:277-300 | a subscription has a receiving leg of a kind exactly when it consumes that kind; a leg that is already right is kept |
| Connection.ReconcileSubscription | lib/WebRtcConnection.js:276-301 | the subscription keeps its consumer and what it consumes, and holds a leg of each kind exactly when it consumes it |
| Connection.ReconcileFrom | lib/WebRtcConnection.js:276-301 | the loop keeps every consumer and what it consumes, leaves earlier subscriptions alone and gives later ones exactly the legs they consume |
| Connection.ReconcileFromNotices | lib/WebRtcConnection.js:279-292 | the loop only hands out remote buffers, and hands one on the new leg's track to every consumer that gains a leg |
| Connection.ReconcileFromValid | lib/WebRtcConnection.js:276-301 | acquiring and releasing receiving legs keeps every section in use by exactly one transceiver and the legs well-formed |
| Connection.Reconcile | lib/WebRtcConnection.js:223-301 | after the body of `open` with the channel open the connection is reconciled, nothing it was asked for changes, and every newly consuming subscriber gets a remote buffer |
| Connection.ReconcileValid | lib/WebRtcConnection.js:223-301 | the body of `open` keeps the section bookkeeping of all transceivers valid and every leg of the right kind and direction |
| Connection.ReconcileKeepsCore | lib/WebRtcConnection.js:223-301 | the body of `open` keeps the part of the invariant that does not depend on the channel |
| Connection.Open | lib/WebRtcConnection.js:98-307 | `open` leaves a peer connection and a requested negotiation; with the channel open everything is reconciled, otherwise nothing else changes |
| Connection.OpenConsistent | lib/WebRtcConnection.js:98-307 | whatever bookkeeping change preceded it, `open` re-establishes the connection invariant |
| Connection.OpenIdempotent | lib/WebRtcConnection.js:223-303 | a second `open` right after the first changes nothing and notifies nobody |
| Connection.OpenIdle | lib/WebRtcConnection.js:223-303 | `open` on a reconciled connection with a negotiation already requested is the identity |
| Connection.ReconcileIdle | lib/WebRtcConnection.js:223-301 | on a consistent open connection no leg is created, redirected, acquired or released |
| Connection.Hangups | lib/WebRtcConnection.js:546-552 | every consumer is handed `null` for each kind it consumes, and nobody else is handed anything |
| Connection.Abort | lib/WebRtcConnection.js:525-578 | `abort` drops the peer connection and channel, resets the negotiation, keeps publications and consumers, forgets every transceiver and hands each consumer `null` |
| Connection.AbortConsistent | lib/WebRtcConnection.js:525-578 | `abort` keeps the connection invariant |
| Connection.AbortSettles | lib/WebRtcConnection.js:538-559 | `abort` restores the invariant even from a state in which transceivers were in flux |
| Connection.Find | lib/WebRtcConnection.js:463 | the lookup yields the subscription of the consumer, or -1 exactly when there is none |
| Connection.FindUnique | lib/WebRtcConnection.js:463 | with unique consumers the lookup finds the consumer's only subscription |
| Connection.AddConsumer | lib/WebRtcConnection.js:461-472 | once destroyed nothing happens; otherwise the consumer's track is watched for distortions and a peer connection exists |
| Connection.Subscribe | lib/WebRtcConnection.js:463-468 | an unknown consumer gets a new subscription appended; a known one is marked as consuming the kind in place |
| Connection.AddConsumerIsSubscribe | lib/WebRtcConnection.js:461-472 | adding a consumer is subscribing it, registering its media track and running `open` |
| Connection.AddConsumerConsistent | lib/WebRtcConnection.js:461-472 | adding a consumer keeps the connection invariant |
| Connection.SubscribeWants | lib/WebRtcConnection.js:463-468 | after subscribing, a consumer wants a kind iff it did before or it is the one just added for that kind |
| Connection.AddConsumerWants | lib/WebRtcConnection.js:493-504 | after `addAudioConsumer`/`addVideoConsumer` the consumer wants the kind as well as everything wanted before, and nothing else changes |
| Connection.AddConsumerIdempotent | lib/WebRtcConnection.js:461-472 | adding the same consumer for the same kind twice adds no second subscription, leg or delivery |
| Connection.RemoveConsumer | lib/WebRtcConnection.js:477-488 | an unknown consumer of a live connection is an error (the source dereferences a missing subscription); otherwise the track is unwatched and the consumer is first handed `null` |
| Connection.RemoveConsumerIsOpen | lib/WebRtcConnection.js:509-520 | removing a consumer is unsubscribing, unregistering, running `open` and then dropping the subscription if it consumes nothing |
| Connection.RemoveConsumerConsistent | lib/WebRtcConnection.js:477-488 | removing a consumer keeps the connection invariant |
| Connection.UnsubscribeWants | lib/WebRtcConnection.js:480 | after unsubscribing, exactly the removed consumer-kind pair is no longer wanted |
| Connection.RemoveConsumerWants | lib/WebRtcConnection.js:477-488 | afterwards the consumer no longer wants the kind, nothing else changes, and its subscription is gone exactly when it wants nothing else |
| Connection.Feed | lib/WebRtcConnection.js:423-428 | a changed buffer from the published stream is recorded in that publication only; any other supplier changes nothing |
| Connection.OnBuffer | lib/WebRtcConnection.js:421-436 | once destroyed nothing happens; consumers, registry and channel state are untouched |
| Connection.OnBufferBuffers | lib/WebRtcConnection.js:441-456 | every publication of the supplying stream takes the new buffer; every other buffer and every published stream stays |
| Connection.FeedConsistent | lib/WebRtcConnection.js:423-433 | recording a buffer and running `open` keeps the connection invariant |
| Connection.OnBufferConsistent | lib/WebRtcConnection.js:421-456 | a buffer change keeps the connection invariant |
| Connection.OnBufferSends | lib/WebRtcConnection.js:244-275 | with the channel open, a publication's leg of the kind sends exactly when the stream supplied a buffer |
| Connection.Withdraw | lib/MediaStream.js:317-350 | the old stream's `removeAudioConsumer`/`removeVideoConsumer` call back with `null` buffers; no stream leaves is a no-op, and consumers, registry and channel state are untouched |
| Connection.WithdrawBuffers | lib/WebRtcConnection.js:421-456 | every publication of the withdrawn stream is left with no audio and no video buffer; published streams stay and any other publication is untouched |
| Connection.WithdrawConsistent | lib/WebRtcConnection.js:421-456 | withdrawing a stream's buffers, with `open` run after each change, keeps the connection invariant |
| Connection.SetStream | lib/WebRtcConnection.js:346-361 | a destroyed connection throws; the same stream is a no-op; otherwise the slot publishes the new stream, the old one is detached first and the new one attached after it, and the buffers the new stream hands over while being attached are recorded |
| Connection.Handover | lib/MediaStream.js:305-337 | `addAudioConsumer` then `addVideoConsumer` on a new stream deliver its buffers at once; no stream is a no-op, and consumers, registry and channel state are untouched |
| Connection.HandoverBuffers | lib/WebRtcConnection.js:421-456 | after the hand-over every publication of the new stream holds exactly the delivered audio and video buffers; every other publication, and every published stream, is unchanged |
| Connection.HandoverConsistent | lib/WebRtcConnection.js:421-456 | the hand-over, with `open` run after each change, keeps the connection invariant |
| Connection.HandoverUnorphaned | lib/WebRtcConnection.js:421-456 | the hand-over gives buffers only to publications of the new stream, so a slot without a stream still holds none |
| Connection.SwitchNotices | lib/WebRtcConnection.js:346-361 | the notices of a change start with the prior stream's detachment and contain the new stream's attachment after it |
| Connection.SetStreamIs | lib/WebRtcConnection.js:346-361 | a change of stream is the withdrawal of the prior stream, the republication of the slot and the hand-over of the new stream, in that order |
| Connection.RepublishedBuffers | lib/WebRtcConnection.js:346-361 | before the hand-over the changed slot holds no buffer, and the other slot loses its buffers exactly when it published the withdrawn stream |
| Connection.RepublishedUnorphaned | lib/WebRtcConnection.js:346-361 | before the hand-over every slot without a stream still holds no buffer |
| Connection.SetStreamBuffers | lib/WebRtcConnection.js:346-361 | after a change of stream the slot holds exactly the buffers the new stream handed over (none without a stream); the other slot keeps its stream, takes the same buffers if it publishes the new stream, loses its buffers if it published the withdrawn one, and is otherwise untouched |
| Connection.InitialUnorphaned | lib/WebRtcConnection.js:45-61 | a fresh connection holds no buffer for a slot without a stream |
| Connection.OnBufferUnorphaned | lib/WebRtcConnection.js:421-456 | buffers are only taken for a published stream, so a slot without a stream never holds one |
| Connection.SetStreamUnorphaned | lib/WebRtcConnection.js:346-361 | changing a stream keeps every slot without a stream free of buffers |
| Connection.SetStreamConsistent | lib/WebRtcConnection.js:387-402 | changing a published stream, including the withdrawal of the old one's buffers and the `open` it triggers, keeps the connection invariant |
| Connection.SetStreamSends | lib/WebRtcConnection.js:346-361 | with the channel open, a slot whose stream changed has both legs, and each sends exactly when the new stream handed over a buffer of its kind, so a new stream with no buffers, or no stream, sends nothing |
| Connection.Released | lib/WebRtcConnection.js:319-331 | a released publication has no stream and no buffers but keeps its legs |
| Connection.Close | lib/WebRtcConnection.js:312-334 | `close` leaves the connection destroyed, without peer connection, channel or subscriptions, both publications emptied, and every published stream detached |
| Connection.CloseConsistent | lib/WebRtcConnection.js:312-334 | `close` keeps the connection invariant |
| Connection.Fail | lib/WebRtcConnection.js:99-102 | a failure aborts the connection and is reported last |
| Connection.Negotiate | lib/WebRtcConnection.js:126-172 | without a peer connection nothing happens; a reported failure leaves no peer or channel; otherwise only the negotiation state changes |
| Connection.NegotiateConsistent | lib/WebRtcConnection.js:126-172 | every negotiation event keeps the connection invariant |
| Connection.FailConsistent | lib/WebRtcConnection.js:119-125 | a failed connection state keeps the connection invariant |
| Connection.ChannelOpened | lib/WebRtcConnection.js:191-195 | when the channel opens the connection is reconciled and the session is told last |
| Connection.ChannelOpenedConsistent | lib/WebRtcConnection.js:191-195 | the channel opening keeps the connection invariant |
| Connection.FirstOpening | lib/WebRtcConnection.js:223-243 | on the first opening the sending legs take sections 2 to 5 in primary audio, primary video, secondary audio, secondary video order and every consumer gets a track per consumed kind |
| Connection.Classify | lib/WebRtcConnection.js:196-202 | a message is a closing code exactly when it is "4000" or "4001", and the code is what `parseInt` reads |
| Connection.ClosingCodes | lib/WebRtcConnection.js:198 | `parseInt` reads the two closing texts as 4000 and 4001 |
| Connection.WithPublication | lib/WebRtcConnection.js:52-53 | replacing one publication leaves the other as it was |
| Connection.ReconciledSends | lib/WebRtcConnection.js:244-275 | on a reconciled connection each publication's leg of each kind sends exactly while that buffer is present |
| Connection.ReconcileFromIdle | lib/WebRtcConnection.js:276-301 | when every subscription already holds exactly the legs it consumes, the loop acquires, releases and delivers nothing |
| Connection.AddConsumerAgain | lib/WebRtcConnection.js:461-472 | re-adding a consumer that already consumes the kind, with its track already watched, changes nothing |
| Connection.Unsubscribe | lib/WebRtcConnection.js:480 | the subscription stops consuming the kind; the number of subscriptions is unchanged |
| Connection.Prune | lib/WebRtcConnection.js:484-486 | the subscription is deleted exactly when it consumes neither kind |
| Connection.RemoveAt | lib/WebRtcConnection.js:485 | `Map.delete` keeps the other subscriptions in their insertion order |
| Connection.IdleHasNoLegs | lib/WebRtcConnection.js:276-301 | on a consistent connection a subscription that consumes nothing holds no transceiver |
| Connection.DropIdleConsistent | lib/WebRtcConnection.js:484-486 | deleting a subscription that holds no transceiver keeps the connection invariant |
| Connection.SetConsumes | lib/WebRtcConnection.js:468 | marking a kind consumed or not leaves the other kind, the consumer and the legs alone |
| Sdk.CreateMediaStream | lib/MindSDK.js:95-100 | without any supplier the call throws with the message the program builds for two `null` arguments; otherwise the result is the local stream over exactly the given suppliers |
| Sdk.ParsePath | lib/MindSDK.js:116 | whatever the path pattern admits is two UUIDs joined by a slash, with an optional trailing slash |
| Sdk.ParseRest | lib/MindSDK.js:116 | whatever the pattern admits after the scheme is a non-empty slash-free host followed by the two UUIDs |
| Sdk.Parse | lib/MindSDK.js:116 | every URI the pattern admits is rebuilt exactly from the pieces recovered, and those pieces are well formed |
| Sdk.ParsePathOf | lib/MindSDK.js:116 | two UUIDs joined by a slash are admitted and recovered, with or without a trailing slash |
| Sdk.ParseRestOf | lib/MindSDK.js:116 | a slash-free host and two UUIDs are admitted and recovered |
| Sdk.ParseBuild | lib/MindSDK.js:116 | every URI of the admitted shape is admitted and its pieces are recovered: parsing undoes building |
| Sdk.AfterAt | lib/MindSDK.js:116 | the host of `[^/]+` ends at the first slash, and the rest is the path |
| Sdk.Join | lib/MindSDK.js:115-120 | a URI the pattern rejects throws "Conference URI is malformed"; any other opens a session over that URI |
| Sdk.UuidHasNoSlash | lib/MindSDK.js:116 | a UUID never contains a slash, so the host and the ids cannot be confused |
| Sdk.StemIds | lib/Session.js:109-118 | the session reads back the application and conference ids from the stem of a well-formed URI |
| Sdk.JoinIds | lib/MindSDK.js:115-120 | joining a well-formed URI succeeds, and the session's application and conference ids are the URI's two UUIDs, trailing slash or not |
| Sdk.Exit2 | lib/MindSDK.js:142-146 | without a session nothing happens; a session is closed, with its URI and state kept |
| Sdk.Exit2Idempotent | lib/MindSDK.js:137-146 | leaving twice is the same as leaving once |

## Left out

- SDP rewriting (`fixLocalSdpBeforeSetting`, `fixLocalSdpBeforeSending`, `fixRemoteSdp`, `getSsrcs`) is left out. It rewrites browser-specific SDP text with regular expressions and random SSRCs.
- Statistics gathering is left out: `updateStatistics` of the connection and of media streams, `getMediaStreamForStats`, and the statistics classes. They parse browser report objects and do floating-point rate arithmetic. Only the guard that decides when computed statistics are published is modelled (`MediaStreams.Publish`).
- The statistics timer started by `open` and restarted by `abort` is left out. It is a clock and affects no modelled state.
- `RTCPeerConnection` creation, ICE candidate gathering, data channel creation and the HTTP requests of a session are network I/O. The offer/answer exchange is the `Negotiation` event `ExchangeSettled` with its outcome. The data channel's events are the operations `Connection.ChannelOpened`, `Connection.Classify` and `Connection.Fail`.
- `configureAudioTransceiver` is empty in the source, so there is nothing to model.
- `setCodecPreferences`, `createAudioTransceiverInit`, `createVideoTransceiverInit` and `createDataChannelInit` only build browser configuration objects.
- `Video.js`, `Audio.js` and the `HTMLMediaElement` muted-state helpers are DOM plumbing.
- `MindSDK.initialize` and the option getters are left out. `join2` is deprecated and performs the same URI check as `join` (`Sdk.Join`).
- Listener objects are left out. Every listener callback is returned as an event in a trace, and the listener itself is not modelled.
- `Sessions.Close` has no contract of its own: it only sets the session's flags. The destruction it triggers is modelled by `Conferences.Destroy` and `Connection.Close`.
- JavaScript numbers are IEEE doubles. The model uses unbounded integers for sizes, bitrates, caps, frame rates, times and indices, which are whole numbers well inside the safe-integer range in every call the library makes. A fractional frame-rate cap is not modelled. `scaleResolutionDownBy` is a `real`.
- The RNNoise denoiser and the audio samples of the noise-suppression worklet are left out. Only the buffer indices, the unprocessed-sample counter and which positions have been denoised are modelled.
- Negotiation.Abort: an exchange in flight when `abort` runs is dropped from the model. In the source, its promise chain can still settle later and report a second failure. That late callback is a property of the browser's promise scheduling, not of the bookkeeping.
- Connection.AddConsumer: the contract states only the registry and peer-connection facts. The full effect is stated by `Connection.AddConsumerIsSubscribe` and `Connection.AddConsumerWants`.
- Connection.OnBuffer: the contract states only what stays unchanged. The buffers it records are stated by `Connection.OnBufferBuffers`, and the sending directions by `Connection.OnBufferSends`.
- Sessions.UpdateItem: the supplier effects of an update are listed after all of the participant's change events. In the source, the media-change event of a stream fires right after that stream's supplier changes, before the events of later fields.
- Sessions.DeleteItem: deleting `Me` under its actual id removes it from the index as written, but `me.destroy()` is not modelled. `Me`'s own streams and suppliers are not part of the conference model.
- Conferences.Destroy: `this.me.destroy()` (lib/Conference.js:238) is not modelled, for the same reason: `Me`'s own streams are not part of the conference model. Only the remote participants and the conference stream are released.
- Sdk.CreateMediaStream: arguments that are left out are `undefined` in the source, so its message then reads `undefined` where the model's reads `null`. The model has no `undefined`, so only the message for two explicit `null` arguments is stated.
- Connection.SetStream: what the new stream hands over while it is attached is a parameter (`audio`, `video`). It is the stream's current buffers, or what its supplier delivers at once, or nothing when the connection already consumed the stream. Which of these applies depends on the stream's supplier, which is not part of the connection model.
- Microphones.Settle: the settlement of `acquire` is one atomic step. In the source, with noise suppression on, the raw track is held and its `onended` handler is installed before the worklet loads. A `release`, `setMuted` or track end that arrives in that window is not modelled. The same holds for `Microphones.SettleAsWritten`.

## Findings

| source | as written | input that shows it | evidently intended | confidence | as-written member | corrected member |
|---|---|---|---|---|---|---|
| lib/Microphone.js:139-172 | without noise suppression, the acquired track keeps the browser's default `enabled = true`, whatever `muted` is | `setMuted(true)` before `acquire()` with noise suppression off: the consumers get an audible track | the track handed out is enabled exactly when the microphone is not muted, as `setMuted` ensures for an acquired microphone | medium, not executed | Microphones.MutedBeforeAcquireIsAudible | Microphones.MutedBeforeAcquireIsSilent |
| lib/Conference.js:209-214 | `splice(indexOf(p), 1)` with `indexOf` returning -1 for a participant that is indexed but not listed (the local participant) removes the last listed participant | `removeParticipant(me)` on a conference with remote participants drops the last remote participant from the list while it stays indexed | only a listed participant is spliced out of the list | medium, not executed | Conferences.RemoveMeDropsLastParticipant | Conferences.RemoveParticipantConsistent |
| lib/WebRtcConnection.js:852-875 | the frame-area check of layer `i` divides by `[4, 2, 1][i]` squared, while the layer is sent scaled down by `2^(adaptivity-1-i)` | a 640x360 buffer of adaptivity 2 with `maxVideoFrameArea` 57600: the top simulcast layer (and the second VP9 spatial layer) is sent at 230400 pixels | a layer is sent only if its actual frame area fits the cap | high, not executed | VideoEncoding.SimulcastAreaCounterexample | VideoEncoding.IntendedSimulcastRespectsFrameArea |

=== FILE: camera.dfy ===
/** `Camera`: a local video supplier. Its capture settings are validated
    when set; it acquires a track through a `getUserMedia` request that
    later succeeds with a track or fails, hands video buffers to its
    consumers, and releases the track on demand or when the track ends. */
module Cameras {
  import opened Wrappers
  import opened Numbers
  import opened Capture
  import MS = MediaStreams
  import VE = VideoEncoding

  datatype Facing = User | Environment

  /** `CameraFacing` values as the strings the API accepts. */
  function FacingName(f: Facing): string {
    if f == User then "user" else "environment"
  }

  /** Every camera field the model needs: id and label, the consumer set,
      the settings, `acquiringPromise != null` (`pending`), the track, and
      the facing to fall back to if the re-acquisition started by
      `setFacing` fails. */
  datatype Camera = Camera(
    id: string,
    name: string,
    consumers: seq<nat>,
    facing: Facing,
    width: int,
    height: int,
    fps: int,
    bitrate: int,
    adaptivity: int,
    pending: bool,
    track: Option<nat>,
    fallback: Option<Facing>)

  /** `new Camera(registry, id, label)`. */
  function New(id: string, name: string): (c: Camera)
    ensures Valid(c) && c.id == id && c.name == name && c.consumers == []
    ensures c.facing == User && c.width == 640 && c.height == 360 && c.fps == 30
    ensures c.bitrate == 1000000 && c.adaptivity == 2
    ensures !c.pending && c.track.None?
  {
    Camera(id, name, [], User, 640, 360, 30, 1000000, 2, false, None, None)
  }

  /** Settings stay within what the setters accept, consumers are a set,
      a track is only held once acquired, and a fallback facing is only
      kept while its re-acquisition is pending. */
  predicate Valid(c: Camera) {
    && c.width > 0 && c.height > 0 && c.fps > 0
    && c.bitrate > 100000 && 1 <= c.adaptivity <= 3
    && MS.Distinct(c.consumers)
    && (c.track.Some? ==> c.pending)
    && (c.fallback.Some? ==> c.pending && c.track.None?)
  }

  /** The buffer a camera holding `t` hands out: its resolution, bitrate
      and adaptivity, scale 1. */
  function Frame(c: Camera, t: nat): (b: VE.VideoBuffer)
    ensures Valid(c) ==> VE.ValidBuffer(b)
  {
    VE.VideoBuffer(t, false, Fin(c.width), Fin(c.height), c.bitrate, c.adaptivity, 1.0)
  }

  /** What a new or existing consumer is sent now: a buffer, or `null`
      without a track. */
  function Current(c: Camera): (b: Option<Buffer>)
    ensures b.Some? <==> c.track.Some?
  {
    if c.track.Some? then Some(VideoBuffer(Frame(c, c.track.value))) else None
  }

  /** `fireVideoBuffer`. */
  function Fire(c: Camera): seq<Effect> {
    Fanout(c.consumers, Current(c))
  }

  // ---------------------------------------------------------------------
  // Settings

  /** `setResolution`: a non-positive dimension is refused; a new size is
      stored and, with a track, applied to it as constraints. */
  function SetResolution(c: Camera, width: int, height: int): (r: Result<(Camera, seq<Effect>)>)
    ensures r.Err? <==> width <= 0 || height <= 0
    ensures r.Err? ==> r.error == "Can't change resolution to `" + IntToString(width) + "x" + IntToString(height) + "`"
    ensures r.Ok? ==> r.value.0 == c.(width := width, height := height)
    ensures r.Ok? ==> (r.value.1 != [] <==> (c.width != width || c.height != height) && c.track.Some?)
    ensures r.Ok? ==> forall e | e in r.value.1 :: e == Constrain(c.track.value)
  {
    if width <= 0 || height <= 0 then
      Err("Can't change resolution to `" + IntToString(width) + "x" + IntToString(height) + "`")
    else if c.width == width && c.height == height then Ok((c, []))
    else Ok((c.(width := width, height := height), if c.track.Some? then [Constrain(c.track.value)] else []))
  }

  /** `setFps`: a non-positive rate is refused; a new one is stored and,
      with a track, applied to it. */
  function SetFps(c: Camera, fps: int): (r: Result<(Camera, seq<Effect>)>)
    ensures r.Err? <==> fps <= 0
    ensures r.Err? ==> r.error == "Can't change FPS to `" + IntToString(fps) + "`"
    ensures r.Ok? ==> r.value.0 == c.(fps := fps)
    ensures r.Ok? ==> (r.value.1 != [] <==> c.fps != fps && c.track.Some?)
    ensures r.Ok? ==> forall e | e in r.value.1 :: e == Constrain(c.track.value)
  {
    if fps <= 0 then Err("Can't change FPS to `" + IntToString(fps) + "`")
    else if c.fps == fps then Ok((c, []))
    else Ok((c.(fps := fps), if c.track.Some? then [Constrain(c.track.value)] else []))
  }

  /** `setBitrate`: 100000 or less is refused; a new bitrate is stored and,
      with a track, a fresh buffer carrying it goes to every consumer. */
  function SetBitrate(c: Camera, bitrate: int): (r: Result<(Camera, seq<Effect>)>)
    ensures r.Err? <==> bitrate <= 100000
    ensures r.Err? ==> r.error == "Can't change bitrate to `" + IntToString(bitrate) + "`"
    ensures r.Ok? ==> r.value.0 == c.(bitrate := bitrate)
    ensures r.Ok? && c.bitrate != bitrate && c.track.Some? ==>
      r.value.1 == Fanout(c.consumers, Some(VideoBuffer(Frame(c, c.track.value).(bitrate := bitrate))))
    ensures r.Ok? && (c.bitrate == bitrate || c.track.None?) ==> r.value.1 == []
  {
    if bitrate <= 100000 then Err("Can't change bitrate to `" + IntToString(bitrate) + "`")
    else if c.bitrate == bitrate then Ok((c, []))
    else
      var c' := c.(bitrate := bitrate);
      Ok((c', if c.track.Some? then Fire(c') else []))
  }

  /** `setAdaptivity`: anything but 1, 2 or 3 is refused; a new value is
      stored and, with a track, re-announced to every consumer. */
  function SetAdaptivity(c: Camera, adaptivity: int): (r: Result<(Camera, seq<Effect>)>)
    ensures r.Err? <==> adaptivity !in {1, 2, 3}
    ensures r.Err? ==> r.error == "Can't change adaptivity to `" + IntToString(adaptivity) + "`"
    ensures r.Ok? ==> r.value.0 == c.(adaptivity := adaptivity)
    ensures r.Ok? && c.adaptivity != adaptivity && c.track.Some? ==>
      r.value.1 == Fanout(c.consumers, Some(VideoBuffer(Frame(c, c.track.value).(adaptivity := adaptivity))))
    ensures r.Ok? && (c.adaptivity == adaptivity || c.track.None?) ==> r.value.1 == []
  {
    if adaptivity != 1 && adaptivity != 2 && adaptivity != 3 then
      Err("Can't change adaptivity to `" + IntToString(adaptivity) + "`")
    else if c.adaptivity == adaptivity then Ok((c, []))
    else
      var c' := c.(adaptivity := adaptivity);
      Ok((c', if c.track.Some? then Fire(c') else []))
  }

  /** `setFacing(value)`: only "user" and "environment" are accepted. A new
      facing while a track is held stops the track and acquires again,
      remembering the old facing in case that acquisition fails. */
  function SetFacing(c: Camera, value: string): (r: Result<(Camera, seq<Effect>)>)
    ensures r.Err? <==> value != "user" && value != "environment"
    ensures r.Err? ==> r.error == "Invalid facing value: " + value
    ensures r.Ok? ==> FacingName(r.value.0.facing) == value
    ensures r.Ok? && (FacingName(c.facing) == value || c.track.None?) ==> r.value == (c.(facing := r.value.0.facing), [])
    ensures r.Ok? && FacingName(c.facing) != value && c.track.Some? ==>
      && r.value.0 == c.(facing := r.value.0.facing, pending := true, track := None, fallback := Some(c.facing))
      && r.value.1 == [Stop(c.track.value), Request]
  {
    if value != "user" && value != "environment" then Err("Invalid facing value: " + value)
    else
      var f := if value == "user" then User else Environment;
      if c.facing == f || c.track.None? then Ok((c.(facing := f), []))
      else Ok((c.(facing := f, pending := true, track := None, fallback := Some(c.facing)), [Stop(c.track.value), Request]))
  }

  // ---------------------------------------------------------------------
  // Acquisition

  /** `acquire()`: starts a request unless one is pending or done; the
      caller then shares the same promise. */
  function Acquire(c: Camera): (r: (Camera, seq<Effect>))
    ensures c.pending ==> r == (c, [])
    ensures !c.pending ==> r == (c.(pending := true), [Request])
  {
    if c.pending then (c, []) else (c.(pending := true), [Request])
  }

  datatype Outcome = Granted(track: nat) | Denied

  /** The pending request settles. Granted: the track is held, the device
      list is refreshed when it has a single camera, and every consumer
      gets the buffer. Denied: the pending promise is dropped, so a later
      `acquire` retries; if this was the re-acquisition after a facing
      change, the old facing is restored and acquired once more. */
  function Settle(c: Camera, o: Outcome, cameraCount: nat): (r: (Camera, seq<Effect>))
    requires c.pending && c.track.None?
    ensures o.Granted? ==> r.0 == c.(track := Some(o.track), fallback := None)
    ensures o.Granted? ==> r.1 == (if cameraCount == 1 then [RefreshDevices] else []) + Fire(r.0)
    ensures o.Denied? && c.fallback.None? ==> r == (c.(pending := false), [])
    ensures o.Denied? && c.fallback.Some? ==> r == (c.(facing := c.fallback.value, fallback := None), [Request])
  {
    match o
    case Granted(t) =>
      var c' := c.(track := Some(t), fallback := None);
      (c', (if cameraCount == 1 then [RefreshDevices] else []) + Fire(c'))
    case Denied =>
      if c.fallback.Some? then (c.(facing := c.fallback.value, fallback := None), [Request])
      else (c.(pending := false), [])
  }

  /** `release()`: refused while a request is pending without a track.
      Otherwise every consumer gets `null` if a track was held, the track
      is stopped, and the camera is left idle. */
  function Release(c: Camera): (r: Result<(Camera, seq<Effect>)>)
    ensures r.Err? <==> c.pending && c.track.None?
    ensures r.Err? ==> r.error == "Can't release camera in the middle of acquisition"
    ensures r.Ok? ==> r.value.0 == c.(pending := false, track := None)
    ensures r.Ok? && c.track.Some? ==> r.value.1 == Fanout(c.consumers, None) + [Stop(c.track.value)]
    ensures r.Ok? && c.track.None? ==> r.value.1 == []
  {
    if c.pending && c.track.None? then Err("Can't release camera in the middle of acquisition")
    else if c.track.Some? then Ok((c.(pending := false, track := None), Fanout(c.consumers, None) + [Stop(c.track.value)]))
    else Ok((c.(pending := false), []))
  }

  /** `destroy()` (and the track's `onended`): with a track, release it
      and tell the listener, if any; otherwise nothing. */
  function Destroy(c: Camera, listening: bool): (r: (Camera, seq<Effect>))
    ensures c.track.None? ==> r == (c, [])
    ensures c.track.Some? ==> r.0 == Release(c).value.0
    ensures c.track.Some? ==> r.1 == Release(c).value.1 + (if listening then [ReleasedForcibly] else [])
  {
    if c.track.None? then (c, [])
    else
      var released := Release(c).value;
      (released.0, released.1 + if listening then [ReleasedForcibly] else [])
  }

  function AddVideoConsumer(c: Camera, consumer: nat): (r: (Camera, seq<Effect>))
    ensures r.1 == [Deliver(consumer, Current(c))]
    ensures consumer in r.0.consumers && r.0 == c.(consumers := r.0.consumers)
  {
    var (cs, fx) := AddConsumer(c.consumers, consumer, Current(c));
    (c.(consumers := cs), fx)
  }

  function RemoveVideoConsumer(c: Camera, consumer: nat): (r: (Camera, seq<Effect>))
    ensures consumer !in r.0.consumers && r.0 == c.(consumers := r.0.consumers)
    ensures r.1 == if consumer in c.consumers then [Deliver(consumer, None)] else []
  {
    var (cs, fx) := RemoveConsumer(c.consumers, consumer);
    (c.(consumers := cs), fx)
  }

  // ---------------------------------------------------------------------
  // Properties

  datatype Op =
    | ResolutionSet(width: int, height: int)
    | FpsSet(fps: int)
    | BitrateSet(bitrate: int)
    | AdaptivitySet(adaptivity: int)
    | FacingSet(value: string)
    | Acquired
    | Settled(outcome: Outcome, cameraCount: nat)
    | Released
    | Destroyed(listening: bool)
    | ConsumerAdded(consumer: nat)
    | ConsumerRemoved(consumer: nat)

  /** Any operation, with a thrown error (or a settlement with nothing
      pending) leaving the camera as it was. */
  function Step(c: Camera, op: Op): (r: (Camera, seq<Effect>)) {
    match op
    case ResolutionSet(w, h) => var x := SetResolution(c, w, h); if x.Ok? then x.value else (c, [])
    case FpsSet(f) => var x := SetFps(c, f); if x.Ok? then x.value else (c, [])
    case BitrateSet(b) => var x := SetBitrate(c, b); if x.Ok? then x.value else (c, [])
    case AdaptivitySet(a) => var x := SetAdaptivity(c, a); if x.Ok? then x.value else (c, [])
    case FacingSet(v) => var x := SetFacing(c, v); if x.Ok? then x.value else (c, [])
    case Acquired => Acquire(c)
    case Settled(o, n) => if c.pending && c.track.None? then Settle(c, o, n) else (c, [])
    case Released => var x := Release(c); if x.Ok? then x.value else (c, [])
    case Destroyed(l) => Destroy(c, l)
    case ConsumerAdded(x) => AddVideoConsumer(c, x)
    case ConsumerRemoved(x) => RemoveVideoConsumer(c, x)
  }

  /** Every buffer handed out in `fx` is a video buffer the encoder
      accepts. */
  predicate BuffersValid(fx: seq<Effect>) {
    forall e | e in fx && e.Deliver? && e.buffer.Some? ::
      e.buffer.value.VideoBuffer? && VE.ValidBuffer(e.buffer.value.frame)
  }

  /** Every operation keeps the camera valid, so every buffer it hands out
      is a valid input to the encoder. */
  lemma StepKeepsValid(c: Camera, op: Op)
    requires Valid(c)
    ensures Valid(Step(c, op).0)
    ensures BuffersValid(Step(c, op).1)
  {
    if op.Settled? {
      SettledKeepsValid(c, op.outcome, op.cameraCount);
    } else if op.ResolutionSet? || op.FpsSet? || op.BitrateSet? || op.AdaptivitySet? || op.FacingSet? {
      SettingKeepsValid(c, op);
    } else {
      LifecycleKeepsValid(c, op);
    }
  }

  lemma SettledKeepsValid(c: Camera, o: Outcome, n: nat)
    requires Valid(c)
    ensures Valid(Step(c, Settled(o, n)).0) && BuffersValid(Step(c, Settled(o, n)).1)
  {
    if c.pending && c.track.None? && o.Granted? {
      var r := Settle(c, o, n);
      assert r.1 == (if n == 1 then [RefreshDevices] else []) + Fire(r.0);
    }
  }

  lemma SettingKeepsValid(c: Camera, op: Op)
    requires Valid(c)
    requires op.ResolutionSet? || op.FpsSet? || op.BitrateSet? || op.AdaptivitySet? || op.FacingSet?
    ensures Valid(Step(c, op).0) && BuffersValid(Step(c, op).1)
  {
  }

  lemma LifecycleKeepsValid(c: Camera, op: Op)
    requires Valid(c)
    requires op.Acquired? || op.Released? || op.Destroyed? || op.ConsumerAdded? || op.ConsumerRemoved?
    ensures Valid(Step(c, op).0) && BuffersValid(Step(c, op).1)
  {
  }

  /** While a request is pending, `acquire` hands back the same promise:
      no second request is made. */
  lemma AcquireIdempotent(c: Camera)
    ensures Acquire(Acquire(c).0) == (Acquire(c).0, [])
  {
  }

  /** A denied request leaves no pending promise behind, so the next
      `acquire` asks again. */
  lemma DeniedRetries(c: Camera, n: nat)
    requires c.pending && c.track.None? && c.fallback.None?
    ensures Acquire(Settle(c, Denied, n).0).1 == [Request]
  {
  }

  /** Releasing is idempotent once it succeeds, and the second release
      notifies nobody. */
  lemma ReleaseIdempotent(c: Camera)
    requires Release(c).Ok?
    ensures Release(Release(c).value.0) == Ok((Release(c).value.0, []))
  {
  }

  /** A successful release sends exactly one `null` to each consumer, and
      only when a track was held. */
  lemma ReleaseNullsOnce(c: Camera, consumer: nat)
    requires Valid(c) && Release(c).Ok?
    ensures DeliveriesTo(Release(c).value.1, consumer) == if c.track.Some? && consumer in c.consumers then 1 else 0
  {
    if c.track.Some? {
      FanoutOnce(c.consumers, None, consumer);
      DeliveriesAppend(Fanout(c.consumers, None), [Stop(c.track.value)], consumer);
    }
  }

  lemma {:induction false} DeliveriesAppend(a: seq<Effect>, b: seq<Effect>, c: nat)
    ensures DeliveriesTo(a + b, c) == DeliveriesTo(a, c) + DeliveriesTo(b, c)
    decreases |a|
  {
    if |a| == 0 {
      assert a + b == b;
    } else {
      assert (a + b)[1..] == a[1..] + b;
      DeliveriesAppend(a[1..], b, c);
    }
  }

  /** Changing the facing of a live camera and having the new facing
      denied ends up asking again with the old facing, the track gone. */
  lemma FacingFallback(c: Camera, value: string, n: nat)
    requires Valid(c) && c.track.Some?
    requires (value == "user" || value == "environment") && FacingName(c.facing) != value
    ensures var c1 := SetFacing(c, value).value.0;
      Settle(c1, Denied, n) == (c.(pending := true, track := None, fallback := None), [Request])
  {
  }
}

=== FILE: capture.dfy ===
/** What the local suppliers (camera, microphone, screen) share: the
    buffers they hand out, the calls they make, and their consumer sets.
    Each device tracks its acquisition as the source does, with the
    pending-acquisition flag (`acquiringPromise != null`) and the track(s)
    it holds; the `getUserMedia`/`getDisplayMedia` promise is split into a
    request (an effect) and a later settlement (an operation). */
module Capture {
  import opened Wrappers
  import MS = MediaStreams
  import VE = VideoEncoding

  /** A `MediaStreamAudioBuffer` (a track and whether it is remote) or a
      `MediaStreamVideoBuffer`. */
  datatype Buffer = AudioBuffer(track: nat, remote: bool) | VideoBuffer(frame: VE.VideoBuffer)

  datatype Effect =
    | Deliver(consumer: nat, buffer: Option<Buffer>)   // consumer.onXBuffer(buffer)
    | Request                                          // getUserMedia / getDisplayMedia
    | Stop(track: nat)                                 // track.stop()
    | Constrain(track: nat)                            // track.applyConstraints(...)
    | RefreshDevices                                   // deviceRegistry.update()
    | ReleasedForcibly                                 // listener.onXReleasedForcibly(...)

  /** `consumer.onXBuffer(b)` for every consumer, in insertion order. */
  function Fanout(consumers: seq<nat>, b: Option<Buffer>): (fx: seq<Effect>)
    ensures |fx| == |consumers|
    ensures forall i :: 0 <= i < |consumers| ==> fx[i] == Deliver(consumers[i], b)
    decreases |consumers|
  {
    if |consumers| == 0 then [] else [Deliver(consumers[0], b)] + Fanout(consumers[1..], b)
  }

  /** How many buffers the trace hands to `c`. */
  function DeliveriesTo(fx: seq<Effect>, c: nat): nat
    decreases |fx|
  {
    if |fx| == 0 then 0
    else (if fx[0].Deliver? && fx[0].consumer == c then 1 else 0) + DeliveriesTo(fx[1..], c)
  }

  lemma {:induction false} FanoutOnce(consumers: seq<nat>, b: Option<Buffer>, c: nat)
    requires MS.Distinct(consumers)
    ensures DeliveriesTo(Fanout(consumers, b), c) == if c in consumers then 1 else 0
    decreases |consumers|
  {
    if |consumers| > 0 {
      var fx := Fanout(consumers, b);
      assert fx[1..] == Fanout(consumers[1..], b);
      MS.DistinctTail(consumers);
      FanoutOnce(consumers[1..], b, c);
      assert consumers == [consumers[0]] + consumers[1..];
    }
  }

  /** `addXConsumer`: the consumer joins the set (a member keeps its
      place) and at once receives the current buffer, or `null` when no
      track is held, even if it was already a member. */
  function AddConsumer(consumers: seq<nat>, c: nat, current: Option<Buffer>): (r: (seq<nat>, seq<Effect>))
    ensures c in r.0 && forall x :: x in r.0 <==> x in consumers || x == c
    ensures c in consumers ==> r.0 == consumers
    ensures MS.Distinct(consumers) ==> MS.Distinct(r.0)
    ensures r.1 == [Deliver(c, current)]
  {
    if c in consumers then (consumers, [Deliver(c, current)])
    else
      var s := consumers + [c];
      assert MS.Distinct(consumers) ==> MS.Distinct(s) by {
        if MS.Distinct(consumers) {
          forall i, j | 0 <= i < j < |s|
            ensures s[i] != s[j]
          {
            if j == |s| - 1 {
              assert s[i] == consumers[i];
            }
          }
        }
      }
      (s, [Deliver(c, current)])
  }

  /** `removeXConsumer`: only a member is removed, and only a member is
      sent `null`. */
  function RemoveConsumer(consumers: seq<nat>, c: nat): (r: (seq<nat>, seq<Effect>))
    ensures forall x :: x in r.0 <==> x in consumers && x != c
    ensures MS.Distinct(consumers) ==> MS.Distinct(r.0)
    ensures c in consumers ==> r.1 == [Deliver(c, None)]
    ensures c !in consumers ==> r == (consumers, [])
  {
    assert MS.Distinct(consumers) ==> MS.Distinct(MS.Without(consumers, c)) by {
      if MS.Distinct(consumers) {
        MS.WithoutDistinct(consumers, c);
      }
    }
    if c in consumers then (MS.Without(consumers, c), [Deliver(c, None)]) else (consumers, [])
  }

  /** Adding a consumer that was not there and removing it again gives
      back the same set; the consumer saw the current buffer, then `null`. */
  lemma AddThenRemove(consumers: seq<nat>, c: nat, current: Option<Buffer>)
    requires c !in consumers
    ensures RemoveConsumer(AddConsumer(consumers, c, current).0, c).0 == consumers
    ensures AddConsumer(consumers, c, current).1 + RemoveConsumer(AddConsumer(consumers, c, current).0, c).1
      == [Deliver(c, current), Deliver(c, None)]
  {
    MS.WithoutAppended(consumers, c);
  }
}

=== FILE: conference.dfy ===
/** `Conference`: the conference as the local participant sees it: its
    name, layout and recording flag, the local participant (`Me`), the
    list of online remote participants, and an index from participant id
    to participant that also covers `Me`. */
module Conferences {
  import opened Wrappers
  import MS = MediaStreams
  import P = Participants

  /** The server's conference resource; its first participant is `Me`. */
  datatype Dto = Dto(id: string, name: string, layout: string, recording: bool, participants: seq<P.Dto>)

  /** What the index maps an id to: the local participant or a remote one.
      `Me` is represented only by its id. */
  datatype Entry = MeEntry | Remote(participant: P.Participant)

  datatype Conference = Conference(
    id: string,
    name: string,
    layout: string,
    recording: bool,
    me: string,
    participants: seq<P.Participant>,
    index: map<string, Entry>,
    stream: MS.Stream)

  /** The session listener's conference callbacks. */
  datatype Event =
    | NameChanged
    | RecordingStarted
    | RecordingStopped
    | Joined(id: string)
    | Exited(id: string)

  function IdSet(ps: seq<P.Participant>): set<string> {
    set i | 0 <= i < |ps| :: ps[i].id
  }

  predicate DistinctIds(ps: seq<P.Participant>) {
    forall i, j | 0 <= i < j < |ps| :: ps[i].id != ps[j].id
  }

  /** The index and the list agree: every listed participant is indexed
      under its id, and the index holds nothing else but `Me` under its
      own id. */
  predicate Consistent(c: Conference) {
    && DistinctIds(c.participants)
    && (forall i | 0 <= i < |c.participants| ::
          c.participants[i].id in c.index && c.index[c.participants[i].id] == Remote(c.participants[i]))
    && (forall id | id in c.index :: id in IdSet(c.participants) || (id == c.me && c.index[id] == MeEntry))
  }

  // ---------------------------------------------------------------------
  // Construction

  /** The online DTOs, order kept. */
  function OnlineDtos(dtos: seq<P.Dto>): (r: seq<P.Dto>)
    ensures forall d :: d in r <==> d in dtos && d.online
    ensures |r| <= |dtos|
    decreases |dtos|
  {
    if |dtos| == 0 then []
    else
      var rest := OnlineDtos(dtos[1..]);
      assert forall d :: d in dtos <==> d == dtos[0] || d in dtos[1..] by {
        assert dtos == [dtos[0]] + dtos[1..];
      }
      if dtos[0].online then [dtos[0]] + rest else rest
  }

  /** `index.set(me.id, me)` and then `index.set(p.id, p)` for each listed
      participant in order. */
  function Index(me: string, ps: seq<P.Participant>): map<string, Entry>
    decreases |ps|
  {
    if |ps| == 0 then map[me := MeEntry]
    else Index(me, ps[..|ps| - 1])[ps[|ps| - 1].id := Remote(ps[|ps| - 1])]
  }

  lemma {:induction false} IndexFacts(me: string, ps: seq<P.Participant>)
    requires DistinctIds(ps)
    requires forall i | 0 <= i < |ps| :: ps[i].id != me
    ensures me in Index(me, ps) && Index(me, ps)[me] == MeEntry
    ensures forall i | 0 <= i < |ps| :: ps[i].id in Index(me, ps) && Index(me, ps)[ps[i].id] == Remote(ps[i])
    ensures forall id | id in Index(me, ps) :: id == me || id in IdSet(ps)
    decreases |ps|
  {
    if |ps| > 0 {
      var init := ps[..|ps| - 1];
      var last := ps[|ps| - 1];
      assert DistinctIds(init) by {
        forall i, j | 0 <= i < j < |init|
          ensures init[i].id != init[j].id
        {
          assert init[i] == ps[i] && init[j] == ps[j];
        }
      }
      forall i | 0 <= i < |init|
        ensures init[i].id != me
      {
        assert init[i] == ps[i];
      }
      IndexFacts(me, init);
      forall i | 0 <= i < |ps|
        ensures ps[i].id in Index(me, ps) && Index(me, ps)[ps[i].id] == Remote(ps[i])
      {
        if i < |ps| - 1 {
          assert init[i] == ps[i];
          assert ps[i].id != last.id;
        }
      }
      forall id | id in Index(me, ps)
        ensures id == me || id in IdSet(ps)
      {
        if id != last.id && id != me {
          assert id in IdSet(init);
          var k :| 0 <= k < |init| && init[k].id == id;
          assert ps[k].id == id;
        }
      }
    }
  }

  /** Ids are unique across the DTO list: the local participant's and
      those of the online remote participants. */
  predicate DistinctDtoIds(dtos: seq<P.Dto>) {
    forall i, j | 0 <= i < j < |dtos| :: dtos[i].id != dtos[j].id
  }

  /** `Conference.fromDTO(session, dto)` and the constructor: the first
      DTO is `Me`; every later DTO that is online becomes a participant,
      in order; the conference stream is supplied by the connection for
      both kinds. */
  function FromDto(dto: Dto, conn: nat): (c: Conference)
    requires |dto.participants| >= 1
    ensures c.id == dto.id && c.name == dto.name && c.layout == dto.layout && c.recording == dto.recording
    ensures c.me == dto.participants[0].id
    ensures |c.participants| == |OnlineDtos(dto.participants[1..])|
    ensures forall i | 0 <= i < |c.participants| :: c.participants[i] == P.FromDto(OnlineDtos(dto.participants[1..])[i], conn)
    ensures c.stream.tag == "conference" && c.stream.audio.supplier == Some(conn) && c.stream.video.supplier == Some(conn)
    ensures c.index == Index(c.me, c.participants)
  {
    var online := OnlineDtos(dto.participants[1..]);
    var ps := seq(|online|, i requires 0 <= i < |online| => P.FromDto(online[i], conn));
    var me := dto.participants[0].id;
    Conference(dto.id, dto.name, dto.layout, dto.recording, me, ps, Index(me, ps),
      MS.Create("conference", Some(conn), Some(conn)))
  }

  /** With unique ids in the DTO, a constructed conference is consistent,
      indexes `Me`, and lists exactly the online remote participants. */
  lemma FromDtoConsistent(dto: Dto, conn: nat)
    requires |dto.participants| >= 1 && DistinctDtoIds(dto.participants)
    ensures Consistent(FromDto(dto, conn))
    ensures var c := FromDto(dto, conn); c.me in c.index && c.index[c.me] == MeEntry
    ensures forall d | d in dto.participants[1..] :: d.id in IdSet(FromDto(dto, conn).participants) <==> d.online
  {
    var c := FromDto(dto, conn);
    FromDtoDistinct(dto, conn);
    IndexFacts(c.me, c.participants);
    FromDtoLists(dto, conn);
  }

  /** The participants built from the DTO have distinct ids, none of them
      `Me`'s. */
  lemma FromDtoDistinct(dto: Dto, conn: nat)
    requires |dto.participants| >= 1 && DistinctDtoIds(dto.participants)
    ensures var c := FromDto(dto, conn);
      DistinctIds(c.participants) && forall i | 0 <= i < |c.participants| :: c.participants[i].id != c.me
  {
    var c := FromDto(dto, conn);
    var rest := dto.participants[1..];
    var online := OnlineDtos(rest);
    var ps := c.participants;
    assert forall i | 0 <= i < |ps| :: ps[i].id == online[i].id;
    RestDistinct(dto.participants);
    OnlineKeepsDistinct(rest);
    assert DistinctIds(ps) by {
      forall i, j | 0 <= i < j < |ps|
        ensures ps[i].id != ps[j].id
      {
        assert ps[i].id == online[i].id && ps[j].id == online[j].id;
      }
    }
    forall i | 0 <= i < |ps|
      ensures ps[i].id != c.me
    {
      NotMe(dto.participants, online[i]);
    }
  }

  /** A remote participant of the DTO is listed exactly when online. */
  lemma FromDtoLists(dto: Dto, conn: nat)
    requires |dto.participants| >= 1 && DistinctDtoIds(dto.participants)
    ensures forall d | d in dto.participants[1..] :: d.id in IdSet(FromDto(dto, conn).participants) <==> d.online
  {
    var rest := dto.participants[1..];
    var ps := FromDto(dto, conn).participants;
    RestDistinct(dto.participants);
    assert forall i | 0 <= i < |ps| :: ps[i].id == OnlineDtos(rest)[i].id;
    forall d | d in rest
      ensures d.id in IdSet(ps) <==> d.online
    {
      OnlineIds(rest, OnlineDtos(rest), ps, d);
    }
  }

  lemma RestDistinct(dtos: seq<P.Dto>)
    requires |dtos| >= 1 && DistinctDtoIds(dtos)
    ensures DistinctDtoIds(dtos[1..])
  {
    var rest := dtos[1..];
    forall a, b | 0 <= a < b < |rest|
      ensures rest[a].id != rest[b].id
    {
      assert rest[a] == dtos[a + 1] && rest[b] == dtos[b + 1];
    }
  }

  /** No later DTO carries the first DTO's id. */
  lemma NotMe(dtos: seq<P.Dto>, d: P.Dto)
    requires |dtos| >= 1 && DistinctDtoIds(dtos) && d in dtos[1..]
    ensures d.id != dtos[0].id
  {
    var k :| 0 <= k < |dtos[1..]| && dtos[1..][k] == d;
    assert dtos[k + 1] == d;
  }

  lemma OnlineIds(rest: seq<P.Dto>, online: seq<P.Dto>, ps: seq<P.Participant>, d: P.Dto)
    requires DistinctDtoIds(rest) && online == OnlineDtos(rest) && d in rest
    requires |ps| == |online| && forall i | 0 <= i < |ps| :: ps[i].id == online[i].id
    ensures d.id in IdSet(ps) <==> d.online
  {
    if d.online {
      assert d in online;
      var k :| 0 <= k < |online| && online[k] == d;
      assert ps[k].id == d.id;
    } else {
      forall i | 0 <= i < |ps|
        ensures ps[i].id != d.id
      {
        assert online[i] in rest && online[i] != d;
        SameIdSameDto(rest, online[i], d);
      }
    }
  }

  lemma SameIdSameDto(dtos: seq<P.Dto>, a: P.Dto, b: P.Dto)
    requires DistinctDtoIds(dtos) && a in dtos && b in dtos
    ensures a.id == b.id ==> a == b
  {
    var i :| 0 <= i < |dtos| && dtos[i] == a;
    var j :| 0 <= j < |dtos| && dtos[j] == b;
    if i < j {
      assert dtos[i].id != dtos[j].id;
    } else if j < i {
      assert dtos[j].id != dtos[i].id;
    }
  }

  lemma {:induction false} OnlineKeepsDistinct(dtos: seq<P.Dto>)
    requires DistinctDtoIds(dtos)
    ensures DistinctDtoIds(OnlineDtos(dtos))
    decreases |dtos|
  {
    if |dtos| > 0 {
      var rest := dtos[1..];
      RestDistinct(dtos);
      OnlineKeepsDistinct(rest);
      if dtos[0].online {
        var o := OnlineDtos(rest);
        var s := [dtos[0]] + o;
        assert OnlineDtos(dtos) == s;
        forall i, j | 0 <= i < j < |s|
          ensures s[i].id != s[j].id
        {
          if i == 0 {
            assert s[j] == o[j - 1] && o[j - 1] in rest;
            NotMe(dtos, o[j - 1]);
          } else {
            assert s[i] == o[i - 1] && s[j] == o[j - 1];
          }
        }
      }
    }
  }

  // ---------------------------------------------------------------------
  // Participants joining and leaving

  /** `getParticipantById(id)`: an index lookup, which also finds `Me`. */
  function GetParticipantById(c: Conference, id: string): (r: Option<Entry>)
    ensures r.Some? <==> id in c.index
    ensures Consistent(c) && r.Some? && r.value.Remote? ==> r.value.participant in c.participants
  {
    if id in c.index then Some(c.index[id]) else None
  }

  /** `addParticipant(p)`: a participant whose id is already indexed is
      ignored; otherwise it is indexed, appended and announced once. */
  function AddParticipant(c: Conference, p: P.Participant): (r: (Conference, seq<Event>))
    ensures p.id in c.index ==> r == (c, [])
    ensures p.id !in c.index ==> r.1 == [Joined(p.id)] && r.0 == c.(participants := c.participants + [p], index := c.index[p.id := Remote(p)])
    ensures Consistent(c) ==> Consistent(r.0)
    ensures GetParticipantById(r.0, p.id).Some?
  {
    if p.id in c.index then (c, [])
    else
      var c' := c.(participants := c.participants + [p], index := c.index[p.id := Remote(p)]);
      assert Consistent(c) ==> Consistent(c') by {
        if Consistent(c) {
          AddConsistent(c, p);
        }
      }
      (c', [Joined(p.id)])
  }

  lemma AddConsistent(c: Conference, p: P.Participant)
    requires Consistent(c) && p.id !in c.index
    ensures Consistent(c.(participants := c.participants + [p], index := c.index[p.id := Remote(p)]))
  {
    var ps := c.participants + [p];
    var ix := c.index[p.id := Remote(p)];
    forall i | 0 <= i < |c.participants|
      ensures c.participants[i].id != p.id
    {
      assert c.participants[i].id in c.index;
    }
    assert DistinctIds(ps) by {
      forall i, j | 0 <= i < j < |ps|
        ensures ps[i].id != ps[j].id
      {
        assert ps[i] == c.participants[i];
        if j < |c.participants| {
          assert ps[j] == c.participants[j];
        }
      }
    }
    forall i | 0 <= i < |ps|
      ensures ps[i].id in ix && ix[ps[i].id] == Remote(ps[i])
    {
      if i < |c.participants| {
        assert ps[i] == c.participants[i];
      }
    }
    forall id | id in ix
      ensures id in IdSet(ps) || (id == c.me && ix[id] == MeEntry)
    {
      if id == p.id {
        assert ps[|ps| - 1].id == id;
      } else if id in IdSet(c.participants) {
        var k :| 0 <= k < |c.participants| && c.participants[k].id == id;
        assert ps[k].id == id;
      }
    }
  }

  /** The id `participant.getId()` gives for an index entry. */
  function EntryId(c: Conference, who: Entry): string {
    if who.MeEntry? then c.me else who.participant.id
  }

  /** `participants.indexOf(who)`: the position of that very participant
      in the list, `-1` for `Me` or an unlisted participant. */
  function Position(ps: seq<P.Participant>, who: Entry): (k: int)
    ensures -1 <= k < |ps|
    ensures k >= 0 ==> who.Remote? && ps[k] == who.participant && who.participant !in ps[..k]
    ensures k == -1 <==> who.MeEntry? || who.participant !in ps
    decreases |ps|
  {
    if who.MeEntry? || |ps| == 0 then -1
    else if ps[0] == who.participant then 0
    else
      var k := Position(ps[1..], who);
      assert who.participant in ps <==> who.participant in ps[1..] by {
        assert ps == [ps[0]] + ps[1..];
      }
      if k == -1 then -1 else
        assert ps[..k + 1] == [ps[0]] + ps[1..][..k];
        k + 1
  }

  /** `array.splice(start, 1)`: a negative start counts from the end (and
      is clamped to 0), a start past the end removes nothing. */
  function SpliceOne(ps: seq<P.Participant>, start: int): (r: seq<P.Participant>)
    ensures 0 <= start < |ps| ==> r == ps[..start] + ps[start + 1..]
    ensures start == -1 && |ps| > 0 ==> r == ps[..|ps| - 1]
    ensures start >= |ps| ==> r == ps
  {
    var k := if start < 0 then (if |ps| + start > 0 then |ps| + start else 0) else start;
    if k < |ps| then ps[..k] + ps[k + 1..] else ps
  }

  /** `removeParticipant(who)` as written: the id is dropped from the
      index and, if it was there, the list loses the element at
      `indexOf(who)` and `Exited` fires. For `Me`, which is indexed but not
      listed, `indexOf` is `-1` and the splice drops the last remote
      participant. */
  function RemoveParticipantAsWritten(c: Conference, who: Entry): (r: (Conference, seq<Event>))
    ensures EntryId(c, who) !in c.index ==> r == (c, [])
    ensures EntryId(c, who) in c.index ==>
      && r.0 == c.(index := c.index - {EntryId(c, who)}, participants := SpliceOne(c.participants, Position(c.participants, who)))
      && r.1 == [Exited(EntryId(c, who))]
  {
    var id := EntryId(c, who);
    if id !in c.index then (c, [])
    else (c.(index := c.index - {id}, participants := SpliceOne(c.participants, Position(c.participants, who))), [Exited(id)])
  }

  /** Removing `Me` from a conference with remote participants drops the
      last of them from the list while its id stays indexed. */
  lemma RemoveMeDropsLastParticipant(c: Conference)
    requires Consistent(c) && c.me in c.index && c.index[c.me] == MeEntry && |c.participants| > 0
    ensures var r := RemoveParticipantAsWritten(c, MeEntry).0;
      && r.participants == c.participants[..|c.participants| - 1]
      && c.participants[|c.participants| - 1].id in r.index
      && !Consistent(r)
  {
    var ps := c.participants;
    var last := ps[|ps| - 1];
    assert c.index[last.id] == Remote(last);
    var r := RemoveParticipantAsWritten(c, MeEntry).0;
    assert last.id != c.me;
    assert last.id in r.index;
    assert last.id !in IdSet(r.participants) by {
      forall i | 0 <= i < |r.participants|
        ensures r.participants[i].id != last.id
      {
        assert r.participants[i] == ps[i];
      }
    }
  }

  /** `removeParticipant(who)` with the list spliced only when `who` is
      actually listed. */
  function RemoveParticipant(c: Conference, who: Entry): (r: (Conference, seq<Event>))
    ensures EntryId(c, who) !in c.index ==> r == (c, [])
    ensures EntryId(c, who) in c.index ==> r.1 == [Exited(EntryId(c, who))] && r.0.index == c.index - {EntryId(c, who)}
    ensures who.MeEntry? || who.participant !in c.participants ==> r.0.participants == c.participants
    ensures Position(c.participants, who) >= 0 && EntryId(c, who) in c.index ==>
      r.0.participants == SpliceOne(c.participants, Position(c.participants, who))
    ensures Position(c.participants, who) >= 0 ==> RemoveParticipantAsWritten(c, who) == r
  {
    var id := EntryId(c, who);
    var k := Position(c.participants, who);
    if id !in c.index then (c, [])
    else (c.(index := c.index - {id}, participants := if k >= 0 then SpliceOne(c.participants, k) else c.participants), [Exited(id)])
  }

  /** Removing whatever the index holds under some id keeps the index and
      the list in agreement, and that id is gone from both. */
  lemma RemoveParticipantConsistent(c: Conference, id: string)
    requires Consistent(c) && id in c.index
    ensures var r := RemoveParticipant(c, c.index[id]).0;
      Consistent(r) && id !in r.index && IdSet(r.participants) == IdSet(c.participants) - {id}
  {
    if c.index[id].MeEntry? {
      RemoveMeConsistent(c, id);
    } else {
      RemoveRemoteConsistent(c, id);
    }
  }

  lemma RemoveMeConsistent(c: Conference, id: string)
    requires Consistent(c) && id in c.index && c.index[id].MeEntry?
    ensures var r := RemoveParticipant(c, c.index[id]).0;
      Consistent(r) && id !in r.index && IdSet(r.participants) == IdSet(c.participants) - {id}
  {
    var ps := c.participants;
    var r := RemoveParticipant(c, c.index[id]).0;
    assert id == c.me;
    assert r.participants == ps && r.index == c.index - {id};
    assert id !in IdSet(ps) by {
      forall i | 0 <= i < |ps|
        ensures ps[i].id != id
      {
        assert c.index[ps[i].id] == Remote(ps[i]);
      }
    }
    forall x | x in r.index
      ensures x in IdSet(r.participants) || (x == r.me && r.index[x] == MeEntry)
    {
      assert x in c.index;
    }
  }

  lemma RemoveRemoteConsistent(c: Conference, id: string)
    requires Consistent(c) && id in c.index && c.index[id].Remote?
    ensures var r := RemoveParticipant(c, c.index[id]).0;
      Consistent(r) && id !in r.index && IdSet(r.participants) == IdSet(c.participants) - {id}
  {
    var ps := c.participants;
    var k := ListedAt(c, id);
    var r := RemoveParticipant(c, c.index[id]).0;
    assert r.participants == ps[..k] + ps[k + 1..] && r.index == c.index - {id};
    RemoveAtConsistent(c, k);
    RemoveAtIds(ps, k);
  }

  /** A remote participant in the index sits in the list at the position
      `Position` finds. */
  lemma ListedAt(c: Conference, id: string) returns (k: int)
    requires Consistent(c) && id in c.index && c.index[id].Remote?
    ensures 0 <= k < |c.participants| && c.participants[k].id == id
    ensures c.index[id] == Remote(c.participants[k]) && Position(c.participants, c.index[id]) == k
    ensures EntryId(c, c.index[id]) == id
  {
    var ps := c.participants;
    assert id in IdSet(ps);
    k :| 0 <= k < |ps| && ps[k].id == id;
    assert c.index[ps[k].id] == Remote(ps[k]);
    var pos := Position(ps, c.index[id]);
    assert ps[k] in ps;
    assert ps[pos].id == ps[k].id;
  }

  lemma RemoveAtConsistent(c: Conference, k: int)
    requires Consistent(c) && 0 <= k < |c.participants|
    ensures var id := c.participants[k].id;
      var r := c.(index := c.index - {id}, participants := c.participants[..k] + c.participants[k + 1..]);
      Consistent(r) && id !in IdSet(r.participants)
  {
    var ps := c.participants;
    var id := ps[k].id;
    var rest := ps[..k] + ps[k + 1..];
    var ix := c.index - {id};
    RemoveAtFacts(ps, k);
    forall i | 0 <= i < |rest|
      ensures rest[i].id in ix && ix[rest[i].id] == Remote(rest[i])
    {
      assert rest[i] == ps[Shift(i, k)];
    }
    forall x | x in ix
      ensures x in IdSet(rest) || (x == c.me && ix[x] == MeEntry)
    {
      assert x in c.index;
    }
  }

  function Shift(i: int, k: int): int {
    if i < k then i else i + 1
  }

  /** Removing position `k` keeps the other participants, whose ids are
      still unique, and loses exactly the id at `k`. */
  lemma RemoveAtFacts(ps: seq<P.Participant>, k: int)
    requires DistinctIds(ps) && 0 <= k < |ps|
    ensures var rest := ps[..k] + ps[k + 1..];
      && |rest| == |ps| - 1
      && (forall i | 0 <= i < |rest| :: 0 <= Shift(i, k) < |ps| && Shift(i, k) != k && rest[i] == ps[Shift(i, k)])
      && DistinctIds(rest)
      && (forall x :: x in IdSet(rest) <==> x in IdSet(ps) && x != ps[k].id)
  {
    RemoveAtShift(ps, k);
    RemoveAtDistinct(ps, k);
    RemoveAtIds(ps, k);
  }

  lemma RemoveAtShift(ps: seq<P.Participant>, k: int)
    requires 0 <= k < |ps|
    ensures var rest := ps[..k] + ps[k + 1..];
      |rest| == |ps| - 1 && forall i | 0 <= i < |rest| :: 0 <= Shift(i, k) < |ps| && Shift(i, k) != k && rest[i] == ps[Shift(i, k)]
  {
  }

  lemma RemoveAtDistinct(ps: seq<P.Participant>, k: int)
    requires DistinctIds(ps) && 0 <= k < |ps|
    ensures DistinctIds(ps[..k] + ps[k + 1..])
  {
    var rest := ps[..k] + ps[k + 1..];
    RemoveAtShift(ps, k);
    forall i, j | 0 <= i < j < |rest|
      ensures rest[i].id != rest[j].id
    {
      assert rest[i] == ps[Shift(i, k)] && rest[j] == ps[Shift(j, k)];
    }
  }

  lemma RemoveAtIds(ps: seq<P.Participant>, k: int)
    requires DistinctIds(ps) && 0 <= k < |ps|
    ensures forall x :: x in IdSet(ps[..k] + ps[k + 1..]) <==> x in IdSet(ps) && x != ps[k].id
  {
    var rest := ps[..k] + ps[k + 1..];
    RemoveAtShift(ps, k);
    forall x
      ensures x in IdSet(rest) <==> x in IdSet(ps) && x != ps[k].id
    {
      if x in IdSet(rest) {
        var i :| 0 <= i < |rest| && rest[i].id == x;
        assert ps[Shift(i, k)].id == x;
      }
      if x in IdSet(ps) && x != ps[k].id {
        var j :| 0 <= j < |ps| && ps[j].id == x;
        if j < k {
          assert rest[j].id == x;
        } else {
          assert rest[j - 1] == ps[Shift(j - 1, k)];
        }
      }
    }
  }

  /** The listed participant `p` is replaced by its updated self, in the
      list and in the index: the one object both hold is mutated in
      place. */
  function Replace(c: Conference, k: int, p: P.Participant): (r: Conference)
    requires 0 <= k < |c.participants| && p.id == c.participants[k].id
    ensures r.participants == c.participants[k := p] && r.me == c.me
    ensures r.index == c.index[p.id := Remote(p)]
    ensures IdSet(r.participants) == IdSet(c.participants)
    ensures Consistent(c) ==> Consistent(r)
  {
    var r := c.(participants := c.participants[k := p], index := c.index[p.id := Remote(p)]);
    var ps := r.participants;
    assert forall i | 0 <= i < |ps| :: ps[i].id == c.participants[i].id;
    assert IdSet(ps) == IdSet(c.participants) by {
      forall x | x in IdSet(c.participants)
        ensures x in IdSet(ps)
      {
        var j :| 0 <= j < |c.participants| && c.participants[j].id == x;
        assert ps[j].id == x;
      }
    }
    assert Consistent(c) ==> Consistent(r) by {
      if Consistent(c) {
        assert p.id != c.me || c.index[p.id] != MeEntry by {
          assert c.index[c.participants[k].id] == Remote(c.participants[k]);
        }
      }
    }
    r
  }

  /** `participant.update(dto)` as the conference sees it: the remote
      participant indexed under `id` becomes its updated self wherever the
      list and the index hold it. */
  function Mutate(c: Conference, id: string, p: P.Participant): (r: Conference)
    requires id in c.index && c.index[id].Remote? && p.id == c.index[id].participant.id
    ensures Consistent(c) ==> Consistent(r) && r.me == c.me && r.index.Keys == c.index.Keys
    ensures Consistent(c) ==> IdSet(r.participants) == IdSet(c.participants)
    ensures Consistent(c) ==> r.index[id] == Remote(p)
    ensures Consistent(c) ==> forall x | x in c.index && c.index[x] == MeEntry :: r.index[x] == MeEntry
  {
    var k := Position(c.participants, c.index[id]);
    assert Consistent(c) ==> k >= 0 && c.participants[k].id == id by {
      if Consistent(c) {
        var q := c.index[id].participant;
        assert id in IdSet(c.participants);
        var j :| 0 <= j < |c.participants| && c.participants[j].id == id;
        assert c.participants[j] == q;
      }
    }
    if k >= 0 then Replace(c, k, p) else c.(index := c.index[id := Remote(p)])
  }

  // ---------------------------------------------------------------------
  // Conference updates

  /** `update(dto)`: the name and the recording flag take the DTO's values;
      a changed name fires one event, and a flipped flag then fires started
      or stopped to match the new value. The layout is not updated. */
  function Update(c: Conference, dto: Dto): (r: (Conference, seq<Event>))
    ensures r.0 == c.(name := dto.name, recording := dto.recording)
    ensures NameChanged in r.1 <==> c.name != dto.name
    ensures RecordingStarted in r.1 <==> !c.recording && dto.recording
    ensures RecordingStopped in r.1 <==> c.recording && !dto.recording
    ensures forall e | e in r.1 :: !e.Joined? && !e.Exited?
    ensures |r.1| <= 2
    ensures c.name != dto.name ==> r.1[0] == NameChanged
    ensures c.recording != dto.recording ==> r.1[|r.1| - 1] == (if dto.recording then RecordingStarted else RecordingStopped)
  {
    var named := if c.name != dto.name then [NameChanged] else [];
    var recorded :=
      if c.recording == dto.recording then []
      else if dto.recording then [RecordingStarted] else [RecordingStopped];
    (c.(name := dto.name, recording := dto.recording), named + recorded)
  }

  /** The same DTO twice: the second update fires nothing. */
  lemma UpdateIdempotent(c: Conference, dto: Dto)
    ensures Update(Update(c, dto).0, dto) == (Update(c, dto).0, [])
  {
  }

  /** `destroy()`: every remote participant is destroyed and the
      conference stream loses both suppliers. `Me`'s own teardown is not
      modelled. */
  function Destroy(c: Conference): (r: (Conference, seq<MS.Effect>))
    ensures |r.0.participants| == |c.participants|
    ensures forall i | 0 <= i < |c.participants| :: r.0.participants[i] == P.Destroy(c.participants[i]).0
    ensures r.0.stream.audio.supplier.None? && r.0.stream.video.supplier.None?
  {
    var ps := seq(|c.participants|, i requires 0 <= i < |c.participants| => P.Destroy(c.participants[i]).0);
    var (a, fa) := MS.SetSupplier(c.stream.audio, None);
    var (v, fv) := MS.SetSupplier(c.stream.video, None);
    (c.(participants := ps, stream := c.stream.(audio := a, video := v)), DestroyEffects(c.participants) + fa + fv)
  }

  /** The supplier changes of destroying each participant, in list order. */
  function DestroyEffects(ps: seq<P.Participant>): (fx: seq<MS.Effect>)
    ensures forall e | e in fx :: e.Unregister?
    decreases |ps|
  {
    if |ps| == 0 then [] else P.Destroy(ps[0]).1 + DestroyEffects(ps[1..])
  }
}

=== FILE: connection.dfy ===
/** The bookkeeping of `WebRtcConnection`: the two publications (primary
    and secondary outgoing streams), the subscriptions of remote streams
    keyed by consumer, the transceivers each of them owns, and the reset
    performed by `abort`. Browser objects are abstract: a stream, consumer
    or buffer is a `nat` identity and a received track is named by the SDP
    section of its transceiver. Calls the connection makes into other
    objects are returned as a trace of `Notice`s. */
module Connection {
  import opened Wrappers
  import opened Numbers
  import opened Transceivers
  import N = Negotiation
  import D = Distortions

  /** A `WebRtcPublication`: the stream published, the last audio and video
      buffers it supplied, and the two sending transceivers. */
  datatype Publication = Publication(
    stream: Option<nat>,
    audioBuffer: Option<nat>,
    videoBuffer: Option<nat>,
    audioLeg: Option<Transceiver>,
    videoLeg: Option<Transceiver>)

  const EmptyPublication: Publication := Publication(None, None, None, None, None)

  /** A `WebRtcSubscription` of one remote stream (`consumer`): whether it
      is consumed as audio and as video, and the receiving transceivers. */
  datatype Subscription = Subscription(
    consumer: nat,
    audio: bool,
    video: bool,
    audioLeg: Option<Transceiver>,
    videoLeg: Option<Transceiver>)

  /** `peer` is `pc != null`, `channelOpen` is `dataChannelOpened`;
      `subscriptions` keeps the insertion order of the source's `Map`. */
  datatype Conn = Conn(
    destroyed: bool,
    peer: bool,
    channelOpen: bool,
    pool: Pool,
    primary: Publication,
    secondary: Publication,
    subscriptions: seq<Subscription>,
    negotiation: N.State,
    registry: D.Registry)

  const Initial: Conn :=
    Conn(false, false, false, InitialPool, EmptyPublication, EmptyPublication, [], N.Initial, D.EmptyRegistry)

  datatype Notice =
      /** `consumer.onAudioBuffer` / `onVideoBuffer`: a remote buffer on the
          track of the given section, or `null`. */
    | Deliver(consumer: nat, kind: Kind, track: Option<int>)
      /** `stream.addAudioConsumer(this)` and `addVideoConsumer(this)`. */
    | Attach(stream: nat)
      /** `stream.removeAudioConsumer(this)` and `removeVideoConsumer(this)`. */
    | Detach(stream: nat)
      /** `onOpened()`: the data channel opened. */
    | Opened
      /** A negotiation outcome reported to the session. */
    | Signal(effect: N.Effect)

  // ---------------------------------------------------------------------
  // Sections held by publications and subscriptions.

  function LegSection(leg: Option<Transceiver>): multiset<int> {
    if leg.Some? then multiset{leg.value.index} else multiset{}
  }

  function PublicationSections(p: Publication): multiset<int> {
    LegSection(p.audioLeg) + LegSection(p.videoLeg)
  }

  function SubscriptionSections(s: Subscription): multiset<int> {
    LegSection(s.audioLeg) + LegSection(s.videoLeg)
  }

  function AllSubscriptionSections(subs: seq<Subscription>): multiset<int>
    decreases |subs|
  {
    if |subs| == 0 then multiset{}
    else AllSubscriptionSections(subs[..|subs| - 1]) + SubscriptionSections(subs[|subs| - 1])
  }

  /** The sections of every transceiver in use. */
  function Held(c: Conn): multiset<int> {
    PublicationSections(c.primary) + PublicationSections(c.secondary) + AllSubscriptionSections(c.subscriptions)
  }

  lemma {:induction false} SectionsUpdate(subs: seq<Subscription>, i: int, s: Subscription)
    requires 0 <= i < |subs|
    ensures AllSubscriptionSections(subs[i := s]) + SubscriptionSections(subs[i])
         == AllSubscriptionSections(subs) + SubscriptionSections(s)
    decreases |subs|
  {
    var n := |subs| - 1;
    var u := subs[i := s];
    if i == n {
      assert u[..n] == subs[..n];
      assert AllSubscriptionSections(u) == AllSubscriptionSections(subs[..n]) + SubscriptionSections(s);
    } else {
      assert u[..n] == subs[..n][i := s];
      assert u[n] == subs[n];
      SectionsUpdate(subs[..n], i, s);
      var a := AllSubscriptionSections(subs[..n][i := s]);
      var b := SubscriptionSections(subs[n]);
      var d := AllSubscriptionSections(subs[..n]);
      assert a + SubscriptionSections(subs[i]) == d + SubscriptionSections(s);
      assert AllSubscriptionSections(u) == a + b;
      assert AllSubscriptionSections(subs) == d + b;
      MultisetSwap(a, b, SubscriptionSections(subs[i]), d, SubscriptionSections(s));
    }
  }

  lemma MultisetSwap(a: multiset<int>, b: multiset<int>, c: multiset<int>, d: multiset<int>, e: multiset<int>)
    requires a + c == d + e
    ensures (a + b) + c == (d + b) + e
  {
    assert (a + b) + c == (a + c) + b;
    assert (d + b) + e == (d + e) + b;
  }

  /** Pool validity only depends on the multiset of sections in use. */
  lemma SameSections(p: Pool, x: multiset<int>, y: multiset<int>)
    requires Transceivers.Valid(p, x) && x == y
    ensures Transceivers.Valid(p, y)
  {
  }

  lemma SectionsAppend(subs: seq<Subscription>, s: Subscription)
    ensures AllSubscriptionSections(subs + [s]) == AllSubscriptionSections(subs) + SubscriptionSections(s)
  {
    assert (subs + [s])[..|subs|] == subs;
  }

  lemma {:induction false} SectionsRemove(subs: seq<Subscription>, i: int)
    requires 0 <= i < |subs|
    ensures AllSubscriptionSections(subs[..i] + subs[i + 1..]) + SubscriptionSections(subs[i])
         == AllSubscriptionSections(subs)
    decreases |subs|
  {
    var n := |subs| - 1;
    if i == n {
      assert subs[..i] + subs[i + 1..] == subs[..n];
    } else {
      var front := subs[..n];
      var shorter := front[..i] + front[i + 1..];
      assert subs[..i] + subs[i + 1..] == shorter + [subs[n]];
      SectionsAppend(shorter, subs[n]);
      SectionsRemove(front, i);
      assert front[i] == subs[i];
      var a := AllSubscriptionSections(shorter);
      var d := AllSubscriptionSections(front);
      assert AllSubscriptionSections(subs) == d + SubscriptionSections(subs[n]);
      assert a + SubscriptionSections(subs[i]) == d + multiset{};
      MultisetSwap(a, SubscriptionSections(subs[n]), SubscriptionSections(subs[i]), d, multiset{});
      assert (d + SubscriptionSections(subs[n])) + multiset{} == d + SubscriptionSections(subs[n]);
    }
  }

  // ---------------------------------------------------------------------
  // The connection invariant.

  predicate SendLegOk(leg: Option<Transceiver>, k: Kind) {
    leg.Some? ==> leg.value.kind == k && leg.value.direction != RecvOnly
  }

  predicate RecvLegOk(leg: Option<Transceiver>, k: Kind) {
    leg.Some? ==> leg.value.kind == k && leg.value.direction == RecvOnly
  }

  predicate LegsOk(c: Conn) {
    && SendLegOk(c.primary.audioLeg, Audio) && SendLegOk(c.primary.videoLeg, Video)
    && SendLegOk(c.secondary.audioLeg, Audio) && SendLegOk(c.secondary.videoLeg, Video)
    && RecvLegsOk(c.subscriptions)
  }

  predicate UniqueConsumers(subs: seq<Subscription>) {
    forall i, j :: 0 <= i < j < |subs| ==> subs[i].consumer != subs[j].consumer
  }

  /** A sending leg sends exactly while its publication has a buffer. */
  predicate Sends(leg: Option<Transceiver>, buffer: Option<nat>) {
    leg.Some? && (leg.value.direction == SendOnly <==> buffer.Some?)
  }

  /** What `open` establishes once the data channel is open: all four
      sending legs exist and send exactly the buffers present, and a
      subscription has a receiving leg of a kind exactly while it consumes
      that kind. */
  predicate Reconciled(c: Conn) {
    && Sends(c.primary.audioLeg, c.primary.audioBuffer) && Sends(c.primary.videoLeg, c.primary.videoBuffer)
    && Sends(c.secondary.audioLeg, c.secondary.audioBuffer) && Sends(c.secondary.videoLeg, c.secondary.videoBuffer)
    && forall j :: 0 <= j < |c.subscriptions| ==>
         (c.subscriptions[j].audioLeg.Some? <==> c.subscriptions[j].audio)
         && (c.subscriptions[j].videoLeg.Some? <==> c.subscriptions[j].video)
  }

  /** No transceiver exists: the state before the data channel opens and
      after `abort`. */
  predicate NoLegs(c: Conn) {
    && c.primary.audioLeg.None? && c.primary.videoLeg.None?
    && c.secondary.audioLeg.None? && c.secondary.videoLeg.None?
    && c.pool == InitialPool
    && NoRecvLegs(c.subscriptions)
  }

  /** The four sending legs exist. */
  predicate AllSendLegs(c: Conn) {
    && c.primary.audioLeg.Some? && c.primary.videoLeg.Some?
    && c.secondary.audioLeg.Some? && c.secondary.videoLeg.Some?
  }

  /** What holds between a change of the bookkeeping and the `open` that
      follows it: every transceiver has its own section, legs have the
      right kind and direction, and either no transceiver exists or all
      four sending legs do. */
  predicate Core(c: Conn) {
    Transceivers.Valid(c.pool, Held(c)) && Shape(c)
  }

  /** The part of `Core` that does not depend on section numbers. */
  predicate Shape(c: Conn) {
    && LegsOk(c)
    && UniqueConsumers(c.subscriptions)
    && N.Valid(c.negotiation)
    && D.Valid(c.registry)
    && (c.channelOpen ==> c.peer)
    && (c.destroyed ==> !c.peer && c.subscriptions == [])
    && (NoLegs(c) || AllSendLegs(c))
  }

  /** The connection invariant: reconciled while the data channel is
      open, without transceivers while it is not. */
  predicate Consistent(c: Conn) {
    && Core(c)
    && (c.channelOpen ==> Reconciled(c))
    && (!c.channelOpen ==> NoLegs(c))
  }

  lemma {:induction false} NoLegsNoSections(subs: seq<Subscription>)
    requires NoRecvLegs(subs)
    ensures AllSubscriptionSections(subs) == multiset{}
    decreases |subs|
  {
    if |subs| > 0 {
      NoLegsNoSections(subs[..|subs| - 1]);
    }
  }

  lemma InitialConsistent()
    ensures Consistent(Initial)
  {
    InitialValid();
  }

  // ---------------------------------------------------------------------
  // `open`: allocate the sending legs, set their directions, and give each
  // subscription exactly the receiving legs it consumes.

  /** A sending leg is created, inactive, on a new section when missing. */
  function EnsureLeg(p: Pool, leg: Option<Transceiver>, k: Kind): (r: (Pool, Option<Transceiver>))
  {
    if leg.None? then var (p', t) := Allocate(p, k, Inactive); (p', Some(t)) else (p, leg)
  }

  lemma EnsureLegValid(p: Pool, rest: multiset<int>, leg: Option<Transceiver>, k: Kind)
    requires Transceivers.Valid(p, rest + LegSection(leg)) && SendLegOk(leg, k)
    ensures var r := EnsureLeg(p, leg, k);
      Transceivers.Valid(r.0, rest + LegSection(r.1)) && r.1.Some? && SendLegOk(r.1, k)
  {
    if leg.None? {
      assert rest + LegSection(leg) == rest;
      AllocateKeepsValid(p, rest, k, Inactive);
    }
  }

  function Direct(leg: Option<Transceiver>, sending: bool): Option<Transceiver> {
    if leg.Some? then Some(leg.value.(direction := if sending then SendOnly else Inactive)) else None
  }

  /** One receiving leg of one subscription: acquired when consumed and
      missing, released when present and no longer consumed. */
  function ReconcileLeg(p: Pool, k: Kind, wanted: bool, leg: Option<Transceiver>): (r: (Pool, Option<Transceiver>))
    ensures r.1.Some? <==> wanted
    ensures wanted && leg.Some? ==> r == (p, leg)
    ensures !wanted && leg.None? ==> r == (p, leg)
  {
    if wanted then
      if leg.None? then var (p', t) := Acquire(p, k); (p', Some(t)) else (p, leg)
    else
      if leg.Some? then (Release(p, leg.value), None) else (p, leg)
  }

  lemma ReconcileLegValid(p: Pool, rest: multiset<int>, k: Kind, wanted: bool, leg: Option<Transceiver>)
    requires Transceivers.Valid(p, rest + LegSection(leg)) && RecvLegOk(leg, k)
    ensures var r := ReconcileLeg(p, k, wanted, leg);
      Transceivers.Valid(r.0, rest + LegSection(r.1)) && RecvLegOk(r.1, k)
  {
    if wanted && leg.None? {
      assert rest + LegSection(leg) == rest;
      AcquireKeepsValid(p, rest, k);
    } else if !wanted && leg.Some? {
      ReleaseKeepsValid(p, rest, leg.value);
      assert rest + LegSection(None) == rest;
    }
  }

  function Arrival(consumer: nat, k: Kind, before: Option<Transceiver>, after: Option<Transceiver>): seq<Notice> {
    if before.None? && after.Some? then [Deliver(consumer, k, Some(after.value.index))] else []
  }

  /** Audio, then video, of one subscription; a newly acquired leg hands the
      consumer a remote buffer on its track. */
  function ReconcileSubscription(p: Pool, s: Subscription): (r: (Pool, Subscription, seq<Notice>))
    ensures r.1.consumer == s.consumer && r.1.audio == s.audio && r.1.video == s.video
    ensures r.1.audioLeg.Some? == s.audio && r.1.videoLeg.Some? == s.video
  {
    var (p1, a) := ReconcileLeg(p, Audio, s.audio, s.audioLeg);
    var (p2, v) := ReconcileLeg(p1, Video, s.video, s.videoLeg);
    (p2, s.(audioLeg := a, videoLeg := v), Arrival(s.consumer, Audio, s.audioLeg, a) + Arrival(s.consumer, Video, s.videoLeg, v))
  }

  lemma ReconcileSubscriptionValid(p: Pool, rest: multiset<int>, s: Subscription)
    requires Transceivers.Valid(p, rest + SubscriptionSections(s))
    requires RecvLegOk(s.audioLeg, Audio) && RecvLegOk(s.videoLeg, Video)
    ensures var r := ReconcileSubscription(p, s);
      && Transceivers.Valid(r.0, rest + SubscriptionSections(r.1))
      && RecvLegOk(r.1.audioLeg, Audio) && RecvLegOk(r.1.videoLeg, Video)
  {
    var (p1, a) := ReconcileLeg(p, Audio, s.audio, s.audioLeg);
    FirstLegValid(p, rest, LegSection(s.videoLeg), Audio, s.audio, s.audioLeg);
    SecondLegValid(p1, rest, LegSection(a), Video, s.video, s.videoLeg);
  }

  lemma RegroupFirst(rest: multiset<int>, other: multiset<int>, x: multiset<int>)
    ensures rest + (x + other) == (rest + other) + x
  {
  }

  lemma RegroupSecond(rest: multiset<int>, other: multiset<int>, x: multiset<int>)
    ensures rest + (other + x) == (rest + other) + x
  {
  }

  lemma FirstLegValid(p: Pool, rest: multiset<int>, other: multiset<int>, k: Kind, wanted: bool, leg: Option<Transceiver>)
    requires Transceivers.Valid(p, rest + (LegSection(leg) + other)) && RecvLegOk(leg, k)
    ensures var r := ReconcileLeg(p, k, wanted, leg);
      Transceivers.Valid(r.0, rest + (LegSection(r.1) + other)) && RecvLegOk(r.1, k)
  {
    var r := ReconcileLeg(p, k, wanted, leg);
    RegroupFirst(rest, other, LegSection(leg));
    SameSections(p, rest + (LegSection(leg) + other), (rest + other) + LegSection(leg));
    ReconcileLegValid(p, rest + other, k, wanted, leg);
    RegroupFirst(rest, other, LegSection(r.1));
    SameSections(r.0, (rest + other) + LegSection(r.1), rest + (LegSection(r.1) + other));
  }

  lemma SecondLegValid(p: Pool, rest: multiset<int>, other: multiset<int>, k: Kind, wanted: bool, leg: Option<Transceiver>)
    requires Transceivers.Valid(p, rest + (other + LegSection(leg))) && RecvLegOk(leg, k)
    ensures var r := ReconcileLeg(p, k, wanted, leg);
      Transceivers.Valid(r.0, rest + (other + LegSection(r.1))) && RecvLegOk(r.1, k)
  {
    var r := ReconcileLeg(p, k, wanted, leg);
    RegroupSecond(rest, other, LegSection(leg));
    SameSections(p, rest + (other + LegSection(leg)), (rest + other) + LegSection(leg));
    ReconcileLegValid(p, rest + other, k, wanted, leg);
    RegroupSecond(rest, other, LegSection(r.1));
    SameSections(r.0, (rest + other) + LegSection(r.1), rest + (other + LegSection(r.1)));
  }

  /** The subscriptions loop of `open`, from position `i` on, in map order. */
  function ReconcileFrom(p: Pool, subs: seq<Subscription>, i: int): (r: (Pool, seq<Subscription>, seq<Notice>))
    requires 0 <= i <= |subs|
    ensures |r.1| == |subs|
    ensures forall j :: 0 <= j < |subs| ==>
      r.1[j].consumer == subs[j].consumer && r.1[j].audio == subs[j].audio && r.1[j].video == subs[j].video
    ensures forall j :: 0 <= j < i ==> r.1[j] == subs[j]
    ensures forall j :: i <= j < |subs| ==>
      r.1[j].audioLeg.Some? == subs[j].audio && r.1[j].videoLeg.Some? == subs[j].video
    decreases |subs| - i
  {
    if i == |subs| then (p, subs, [])
    else
      var (p1, s1, fx1) := ReconcileSubscription(p, subs[i]);
      var (p2, subs2, fx2) := ReconcileFrom(p1, subs[i := s1], i + 1);
      (p2, subs2, fx1 + fx2)
  }

  /** The loop hands a remote buffer to every consumer that gains a
      receiving leg, and nothing else. */
  lemma {:induction false} ReconcileFromNotices(p: Pool, subs: seq<Subscription>, i: int)
    requires 0 <= i <= |subs|
    ensures var r := ReconcileFrom(p, subs, i);
      && (forall n :: n in r.2 ==> n.Deliver? && n.track.Some?)
      && (forall j :: i <= j < |subs| && subs[j].audio && subs[j].audioLeg.None? ==>
           Deliver(subs[j].consumer, Audio, Some(r.1[j].audioLeg.value.index)) in r.2)
      && (forall j :: i <= j < |subs| && subs[j].video && subs[j].videoLeg.None? ==>
           Deliver(subs[j].consumer, Video, Some(r.1[j].videoLeg.value.index)) in r.2)
    decreases |subs| - i
  {
    if i < |subs| {
      var (p1, s1, fx1) := ReconcileSubscription(p, subs[i]);
      var subs1 := subs[i := s1];
      ReconcileFromNotices(p1, subs1, i + 1);
      var r := ReconcileFrom(p, subs, i);
      var r1 := ReconcileFrom(p1, subs1, i + 1);
      assert r.1 == r1.1 && r.2 == fx1 + r1.2;
      assert r.1[i] == s1;
      forall j | i < j < |subs|
        ensures subs1[j] == subs[j]
      {
      }
    }
  }

  lemma MultisetRegroup(base: multiset<int>, all: multiset<int>, cleared: multiset<int>, earlier: multiset<int>)
    requires cleared + earlier == all
    ensures base + all == (base + cleared) + earlier
  {
  }

  lemma MultisetRegroupBack(base: multiset<int>, cleared: multiset<int>, later: multiset<int>, all: multiset<int>)
    requires all == cleared + later
    ensures (base + cleared) + later == base + all
  {
  }

  function Cleared(s: Subscription): (r: Subscription)
    ensures SubscriptionSections(r) == multiset{}
  {
    s.(audioLeg := None, videoLeg := None)
  }

  lemma ClearValid(p: Pool, base: multiset<int>, subs: seq<Subscription>, i: int)
    requires 0 <= i < |subs|
    requires Transceivers.Valid(p, base + AllSubscriptionSections(subs))
    ensures Transceivers.Valid(p, (base + AllSubscriptionSections(subs[i := Cleared(subs[i])])) + SubscriptionSections(subs[i]))
  {
    var cleared := subs[i := Cleared(subs[i])];
    SectionsUpdate(subs, i, Cleared(subs[i]));
    MultisetRegroup(base, AllSubscriptionSections(subs), AllSubscriptionSections(cleared), SubscriptionSections(subs[i]));
    SameSections(p, base + AllSubscriptionSections(subs), (base + AllSubscriptionSections(cleared)) + SubscriptionSections(subs[i]));
  }

  lemma RefillValid(p: Pool, base: multiset<int>, subs: seq<Subscription>, i: int, s: Subscription)
    requires 0 <= i < |subs|
    requires Transceivers.Valid(p, (base + AllSubscriptionSections(subs[i := Cleared(subs[i])])) + SubscriptionSections(s))
    ensures Transceivers.Valid(p, base + AllSubscriptionSections(subs[i := s]))
  {
    var cleared := subs[i := Cleared(subs[i])];
    assert cleared[i := s] == subs[i := s];
    SectionsUpdate(cleared, i, s);
    MultisetRegroupBack(base, AllSubscriptionSections(cleared), SubscriptionSections(s), AllSubscriptionSections(subs[i := s]));
    SameSections(p, (base + AllSubscriptionSections(cleared)) + SubscriptionSections(s), base + AllSubscriptionSections(subs[i := s]));
  }

  lemma ReconcileOneValid(p: Pool, base: multiset<int>, subs: seq<Subscription>, i: int)
    requires 0 <= i < |subs|
    requires Transceivers.Valid(p, base + AllSubscriptionSections(subs))
    requires RecvLegOk(subs[i].audioLeg, Audio) && RecvLegOk(subs[i].videoLeg, Video)
    ensures var r := ReconcileSubscription(p, subs[i]);
      && Transceivers.Valid(r.0, base + AllSubscriptionSections(subs[i := r.1]))
      && RecvLegOk(r.1.audioLeg, Audio) && RecvLegOk(r.1.videoLeg, Video)
  {
    var (p1, s1, _) := ReconcileSubscription(p, subs[i]);
    ClearValid(p, base, subs, i);
    ReconcileSubscriptionValid(p, base + AllSubscriptionSections(subs[i := Cleared(subs[i])]), subs[i]);
    RefillValid(p1, base, subs, i, s1);
  }

  lemma RecvAfterUpdate(subs: seq<Subscription>, i: int, s: Subscription)
    requires 0 <= i < |subs|
    requires RecvLegsOk(subs)
    requires RecvLegOk(s.audioLeg, Audio) && RecvLegOk(s.videoLeg, Video)
    ensures RecvLegsOk(subs[i := s])
  {
  }

  lemma UnfoldReconcileFrom(p: Pool, subs: seq<Subscription>, i: int)
    requires 0 <= i < |subs|
    ensures var r := ReconcileSubscription(p, subs[i]);
      && ReconcileFrom(p, subs, i).0 == ReconcileFrom(r.0, subs[i := r.1], i + 1).0
      && ReconcileFrom(p, subs, i).1 == ReconcileFrom(r.0, subs[i := r.1], i + 1).1
  {
  }

  lemma {:induction false} ReconcileFromValid(p: Pool, base: multiset<int>, subs: seq<Subscription>, i: int)
    requires 0 <= i <= |subs|
    requires Transceivers.Valid(p, base + AllSubscriptionSections(subs))
    requires RecvLegsOk(subs)
    ensures var r := ReconcileFrom(p, subs, i);
      && Transceivers.Valid(r.0, base + AllSubscriptionSections(r.1))
      && RecvLegsOk(r.1)
    decreases |subs| - i
  {
    if i < |subs| {
      var one := ReconcileSubscription(p, subs[i]);
      ReconcileOneValid(p, base, subs, i);
      RecvAfterUpdate(subs, i, one.1);
      ReconcileFromValid(one.0, base, subs[i := one.1], i + 1);
      UnfoldReconcileFrom(p, subs, i);
    }
  }

  // ---------------------------------------------------------------------
  // `open` with the data channel open.

  /** The sending legs of one publication, created in audio, video order
      when missing. */
  function EnsurePublication(p: Pool, pub: Publication): (r: (Pool, Publication))
    ensures r.1.audioLeg.Some? && r.1.videoLeg.Some?
    ensures r.1.stream == pub.stream && r.1.audioBuffer == pub.audioBuffer && r.1.videoBuffer == pub.videoBuffer
  {
    var (p1, a) := EnsureLeg(p, pub.audioLeg, Audio);
    var (p2, v) := EnsureLeg(p1, pub.videoLeg, Video);
    (p2, pub.(audioLeg := a, videoLeg := v))
  }

  /** Each sending leg of a publication sends exactly while its buffer is
      present, and is inactive otherwise. */
  function DirectPublication(pub: Publication): (r: Publication)
    ensures pub.audioLeg.Some? ==> Sends(r.audioLeg, r.audioBuffer)
    ensures pub.videoLeg.Some? ==> Sends(r.videoLeg, r.videoBuffer)
    ensures PublicationSections(r) == PublicationSections(pub)
    ensures r.stream == pub.stream && r.audioBuffer == pub.audioBuffer && r.videoBuffer == pub.videoBuffer
  {
    pub.(audioLeg := Direct(pub.audioLeg, pub.audioBuffer.Some?), videoLeg := Direct(pub.videoLeg, pub.videoBuffer.Some?))
  }

  /** The body of `open` once the data channel is open: the four sending
      legs, their directions, then every subscription. */
  function Reconcile(c: Conn): (r: (Conn, seq<Notice>))
    ensures Reconciled(r.0)
    ensures SameRequests(c, r.0) && r.0.peer == c.peer && r.0.negotiation == c.negotiation
    ensures forall n :: n in r.1 ==> n.Deliver? && n.track.Some?
    ensures forall j :: 0 <= j < |c.subscriptions| && c.subscriptions[j].audio && c.subscriptions[j].audioLeg.None? ==>
      Deliver(c.subscriptions[j].consumer, Audio, Some(r.0.subscriptions[j].audioLeg.value.index)) in r.1
    ensures forall j :: 0 <= j < |c.subscriptions| && c.subscriptions[j].video && c.subscriptions[j].videoLeg.None? ==>
      Deliver(c.subscriptions[j].consumer, Video, Some(r.0.subscriptions[j].videoLeg.value.index)) in r.1
  {
    var (p1, primary) := EnsurePublication(c.pool, c.primary);
    var (p2, secondary) := EnsurePublication(p1, c.secondary);
    var (p3, subs, fx) := ReconcileFrom(p2, c.subscriptions, 0);
    ReconcileFromNotices(p2, c.subscriptions, 0);
    (c.(pool := p3, primary := DirectPublication(primary), secondary := DirectPublication(secondary), subscriptions := subs), fx)
  }

  predicate SamePublication(a: Publication, b: Publication) {
    a.stream == b.stream && a.audioBuffer == b.audioBuffer && a.videoBuffer == b.videoBuffer
  }

  predicate SameConsumers(a: seq<Subscription>, b: seq<Subscription>) {
    && |a| == |b|
    && forall j :: 0 <= j < |a| ==> a[j].consumer == b[j].consumer && a[j].audio == b[j].audio && a[j].video == b[j].video
  }

  lemma SameConsumersTrans(a: seq<Subscription>, b: seq<Subscription>, d: seq<Subscription>)
    requires SameConsumers(a, b) && SameConsumers(b, d)
    ensures SameConsumers(a, d)
  {
  }

  /** Everything the connection was asked for is unchanged: published
      streams and buffers, the consumers and what they consume, the
      watched tracks, and the channel and lifecycle flags. */
  predicate SameRequests(c: Conn, r: Conn) {
    && r.destroyed == c.destroyed && r.channelOpen == c.channelOpen && r.registry == c.registry
    && SamePublication(c.primary, r.primary) && SamePublication(c.secondary, r.secondary)
    && SameConsumers(c.subscriptions, r.subscriptions)
  }

  lemma FourLegsValid()
    ensures Transceivers.Valid(Pool(5, [], []), multiset{2} + multiset{3} + (multiset{4} + multiset{5}) + multiset{})
  {
    var m := multiset{2} + multiset{3} + (multiset{4} + multiset{5}) + multiset{};
    assert m == multiset{2, 3, 4, 5};
    assert Sections(Pool(5, [], []), m) == m;
  }

  lemma SendLegsValid(c: Conn)
    requires Core(c)
    ensures var first := EnsurePublication(c.pool, c.primary);
      var second := EnsurePublication(first.0, c.secondary);
      && Transceivers.Valid(second.0, PublicationSections(first.1) + PublicationSections(second.1) + AllSubscriptionSections(c.subscriptions))
      && SendLegOk(first.1.audioLeg, Audio) && SendLegOk(first.1.videoLeg, Video)
      && SendLegOk(second.1.audioLeg, Audio) && SendLegOk(second.1.videoLeg, Video)
  {
    if !AllSendLegs(c) {
      NoLegsNoSections(c.subscriptions);
      FourLegsValid();
    }
  }

  lemma ReconcileValid(c: Conn)
    requires Core(c)
    ensures Transceivers.Valid(Reconcile(c).0.pool, Held(Reconcile(c).0)) && LegsOk(Reconcile(c).0)
  {
    var (p1, primary) := EnsurePublication(c.pool, c.primary);
    var (p2, secondary) := EnsurePublication(p1, c.secondary);
    SendLegsValid(c);
    var base := PublicationSections(primary) + PublicationSections(secondary);
    ReconcileFromValid(p2, base, c.subscriptions, 0);
    var (p3, subs, _) := ReconcileFrom(p2, c.subscriptions, 0);
    var r := Reconcile(c).0;
    assert r.pool == p3 && r.subscriptions == subs;
    assert r.primary == DirectPublication(primary) && r.secondary == DirectPublication(secondary);
    DirectLegsOk(primary);
    DirectLegsOk(secondary);
  }

  lemma DirectLegsOk(pub: Publication)
    requires SendLegOk(pub.audioLeg, Audio) && SendLegOk(pub.videoLeg, Video)
    ensures var d := DirectPublication(pub);
      SendLegOk(d.audioLeg, Audio) && SendLegOk(d.videoLeg, Video)
  {
  }

  lemma ReconcileKeepsCore(c: Conn)
    requires Core(c)
    ensures Core(Reconcile(c).0)
  {
    ReconcileValid(c);
    var r := Reconcile(c).0;
    assert SameConsumers(c.subscriptions, r.subscriptions);
    assert UniqueConsumers(r.subscriptions);
  }

  // ---------------------------------------------------------------------
  // `open` and `abort`.

  /** `open`: the peer connection is created if missing; with the data
      channel open the transceivers are reconciled; a negotiation is
      requested in every case. */
  function Open(c: Conn): (r: (Conn, seq<Notice>))
    ensures r.0.peer && r.0.negotiation == N.Request(c.negotiation)
    ensures SameRequests(c, r.0)
    ensures c.channelOpen ==> Reconciled(r.0)
    ensures !c.channelOpen ==> r == (c.(peer := true, negotiation := N.Request(c.negotiation)), [])
  {
    var (c1, fx) := if c.channelOpen then Reconcile(c) else (c, []);
    (c1.(peer := true, negotiation := N.Request(c.negotiation)), fx)
  }

  /** Whatever was changed before `open`, it restores the invariant,
      provided no transceiver exists while the data channel is closed. */
  lemma OpenConsistent(c: Conn)
    requires Core(c) && !c.destroyed && (!c.channelOpen ==> NoLegs(c))
    ensures Consistent(Open(c).0)
  {
    if c.channelOpen {
      ReconcileKeepsCore(c);
    }
  }

  function Consumes(s: Subscription, k: Kind): bool {
    if k == Audio then s.audio else s.video
  }

  /** `onAudioBuffer(null)` / `onVideoBuffer(null)` for every kind each
      subscription consumes, in map order. */
  function Hangups(subs: seq<Subscription>): (fx: seq<Notice>)
    ensures forall n :: n in fx ==> n.Deliver? && n.track.None?
    ensures forall n :: n in fx ==> exists j :: 0 <= j < |subs| && subs[j].consumer == n.consumer && Consumes(subs[j], n.kind)
    ensures forall j, k :: 0 <= j < |subs| && Consumes(subs[j], k) ==> Deliver(subs[j].consumer, k, None) in fx
    decreases |subs|
  {
    if |subs| == 0 then []
    else
      var rest := Hangups(subs[1..]);
      assert forall j :: 1 <= j < |subs| ==> subs[j] == subs[1..][j - 1];
      (if subs[0].audio then [Deliver(subs[0].consumer, Audio, None)] else [])
      + (if subs[0].video then [Deliver(subs[0].consumer, Video, None)] else [])
      + rest
  }

  function Unlegged(pub: Publication): (r: Publication)
    ensures SamePublication(pub, r) && r.audioLeg.None? && r.videoLeg.None?
  {
    pub.(audioLeg := None, videoLeg := None)
  }

  function ClearAll(subs: seq<Subscription>): (r: seq<Subscription>)
    ensures SameConsumers(subs, r)
    ensures forall j :: 0 <= j < |r| ==> r[j].audioLeg.None? && r[j].videoLeg.None?
  {
    seq(|subs|, j requires 0 <= j < |subs| => Cleared(subs[j]))
  }

  /** `abort`: negotiation state reset, data channel closed; if a peer
      connection exists it is closed, every consumer is handed `null` for
      what it consumes, and all transceivers are forgotten. */
  function Abort(c: Conn): (r: (Conn, seq<Notice>))
    ensures !r.0.peer && !r.0.channelOpen && r.0.destroyed == c.destroyed
    ensures r.0.negotiation == N.Abort(c.negotiation) && r.0.registry == c.registry
    ensures SamePublication(c.primary, r.0.primary) && SamePublication(c.secondary, r.0.secondary)
    ensures SameConsumers(c.subscriptions, r.0.subscriptions)
    ensures c.peer || NoLegs(c) ==> NoLegs(r.0)
    ensures !c.peer ==> r.1 == []
    ensures forall n :: n in r.1 ==> n.Deliver? && n.track.None?
    ensures c.peer ==> forall j, k :: 0 <= j < |c.subscriptions| && Consumes(c.subscriptions[j], k) ==>
      Deliver(c.subscriptions[j].consumer, k, None) in r.1
  {
    var idle := c.(channelOpen := false, negotiation := N.Abort(c.negotiation));
    if c.peer then
      (idle.(peer := false, pool := InitialPool, primary := Unlegged(c.primary), secondary := Unlegged(c.secondary),
             subscriptions := ClearAll(c.subscriptions)),
       Hangups(c.subscriptions))
    else (idle, [])
  }

  lemma AbortConsistent(c: Conn)
    requires Consistent(c)
    ensures Consistent(Abort(c).0)
  {
    AbortSettles(c);
  }

  lemma AbortSettles(c: Conn)
    requires UniqueConsumers(c.subscriptions) && D.Valid(c.registry)
    requires c.peer || NoLegs(c)
    requires c.destroyed ==> !c.peer && c.subscriptions == []
    ensures Consistent(Abort(c).0)
  {
    var r := Abort(c).0;
    NoLegsValid(r);
    assert UniqueConsumers(r.subscriptions);
  }

  /** Without transceivers the pool invariant holds trivially. */
  lemma NoLegsValid(c: Conn)
    requires NoLegs(c)
    ensures Transceivers.Valid(c.pool, Held(c))
  {
    NoLegsNoSections(c.subscriptions);
    InitialValid();
    assert Held(c) == multiset{};
  }

  // ---------------------------------------------------------------------
  // Consumers of remote streams.

  /** Position of the subscription of `consumer`, or -1 (the source's
      `Map.get`). */
  function Find(subs: seq<Subscription>, consumer: nat): (j: int)
    ensures -1 <= j < |subs|
    ensures j >= 0 ==> subs[j].consumer == consumer
    ensures j == -1 <==> forall i :: 0 <= i < |subs| ==> subs[i].consumer != consumer
    decreases |subs|
  {
    if |subs| == 0 then -1
    else if subs[|subs| - 1].consumer == consumer then |subs| - 1
    else Find(subs[..|subs| - 1], consumer)
  }

  /** Whether `consumer` is subscribed for kind `k`. */
  predicate Wants(subs: seq<Subscription>, consumer: nat, k: Kind) {
    var j := Find(subs, consumer);
    j >= 0 && Consumes(subs[j], k)
  }

  lemma {:induction false} FindUnique(subs: seq<Subscription>, consumer: nat, i: int)
    requires UniqueConsumers(subs) && 0 <= i < |subs| && subs[i].consumer == consumer
    ensures Find(subs, consumer) == i
    decreases |subs|
  {
    if i < |subs| - 1 {
      FindUnique(subs[..|subs| - 1], consumer, i);
    }
  }

  lemma {:induction false} FindSameConsumers(a: seq<Subscription>, b: seq<Subscription>, consumer: nat)
    requires |a| == |b| && forall j :: 0 <= j < |a| ==> a[j].consumer == b[j].consumer
    ensures Find(a, consumer) == Find(b, consumer)
    decreases |a|
  {
    if |a| > 0 {
      FindSameConsumers(a[..|a| - 1], b[..|b| - 1], consumer);
    }
  }

  /** Which consumers want which kinds is all `SameConsumers` needs to keep. */
  lemma WantsSameConsumers(a: seq<Subscription>, b: seq<Subscription>)
    requires SameConsumers(a, b)
    ensures forall x, k :: Wants(a, x, k) == Wants(b, x, k)
  {
    forall x, k
      ensures Wants(a, x, k) == Wants(b, x, k)
    {
      FindSameConsumers(a, b, x);
    }
  }

  function SetConsumes(s: Subscription, k: Kind, on: bool): (r: Subscription)
    ensures Consumes(r, k) == on && Consumes(r, Other(k)) == Consumes(s, Other(k))
    ensures r.consumer == s.consumer && r.audioLeg == s.audioLeg && r.videoLeg == s.videoLeg
  {
    if k == Audio then s.(audio := on) else s.(video := on)
  }

  /** The track-id suffix of a consumed kind, as watched by the distortion
      registry. */
  function Suffix(k: Kind): string {
    if k == Audio then "#audio" else "#video"
  }

  /** `addAudioConsumer` / `addVideoConsumer`: the consumer's subscription
      is found or appended, marked as consuming `k`, its track watched for
      distortions, and `open` runs. Nothing happens once destroyed. */
  function AddConsumer(c: Conn, consumer: nat, tag: string, k: Kind, now: int): (r: (Conn, seq<Notice>))
    ensures c.destroyed ==> r == (c, [])
    ensures !c.destroyed ==> tag + Suffix(k) in r.0.registry.mtids && r.0.peer
  {
    if c.destroyed then (c, [])
    else
      var j := Find(c.subscriptions, consumer);
      var subs := if j < 0 then c.subscriptions + [Subscription(consumer, false, false, None, None)] else c.subscriptions;
      var at := if j < 0 then |c.subscriptions| else j;
      Open(c.(subscriptions := subs[at := SetConsumes(subs[at], k, true)],
              registry := D.AddMtid(c.registry, tag + Suffix(k), now)))
  }

  /** The subscriptions with entry `j` deleted. */
  function RemoveAt(subs: seq<Subscription>, j: int): (r: seq<Subscription>)
    requires 0 <= j < |subs|
    ensures |r| == |subs| - 1
    ensures forall i :: 0 <= i < |r| ==> r[i] == (if i < j then subs[i] else subs[i + 1])
  {
    subs[..j] + subs[j + 1..]
  }

  /** `removeAudioConsumer` / `removeVideoConsumer`: the consumer stops
      consuming `k`, its track is no longer watched, it is handed `null`,
      `open` runs, and the subscription goes once it consumes nothing.
      The source dereferences the missing subscription of an unknown
      consumer, which throws. */
  function RemoveConsumer(c: Conn, consumer: nat, tag: string, k: Kind): (r: Result<(Conn, seq<Notice>)>)
    ensures r.Err? <==> !c.destroyed && Find(c.subscriptions, consumer) < 0
    ensures c.destroyed ==> r == Ok((c, []))
    ensures r.Ok? && !c.destroyed ==>
      && tag + Suffix(k) !in r.value.0.registry.mtids
      && |r.value.1| >= 1 && r.value.1[0] == Deliver(consumer, k, None)
  {
    if c.destroyed then Ok((c, []))
    else
      var j := Find(c.subscriptions, consumer);
      if j < 0 then Err("Cannot read properties of undefined")
      else
        var (c1, fx) := Open(c.(subscriptions := Unsubscribe(c.subscriptions, j, k),
                                registry := D.RemoveMtid(c.registry, tag + Suffix(k))));
        Ok((c1.(subscriptions := Prune(c1.subscriptions, j)), [Deliver(consumer, k, None)] + fx))
  }

  function Unsubscribe(subs: seq<Subscription>, j: int, k: Kind): (r: seq<Subscription>)
    requires 0 <= j < |subs|
    ensures |r| == |subs| && !Consumes(r[j], k)
  {
    subs[j := SetConsumes(subs[j], k, false)]
  }

  /** The subscription at `j` goes once it consumes nothing. */
  function Prune(subs: seq<Subscription>, j: int): (r: seq<Subscription>)
    requires 0 <= j < |subs|
    ensures |r| == if !subs[j].audio && !subs[j].video then |subs| - 1 else |subs|
  {
    if !subs[j].audio && !subs[j].video then RemoveAt(subs, j) else subs
  }

  /** Changing which kinds subscriptions consume, or adding one without
      transceivers, keeps everything but reconciliation. */
  lemma RelabelKeepsCore(c: Conn, subs: seq<Subscription>, reg: D.Registry)
    requires Core(c) && !c.destroyed && (!c.channelOpen ==> NoLegs(c))
    requires AllSubscriptionSections(subs) == AllSubscriptionSections(c.subscriptions)
    requires RecvLegsOk(subs)
    requires NoLegs(c) ==> NoRecvLegs(subs)
    requires UniqueConsumers(subs) && D.Valid(reg)
    ensures var c' := c.(subscriptions := subs, registry := reg);
      Core(c') && (!c'.channelOpen ==> NoLegs(c'))
  {
    var c' := c.(subscriptions := subs, registry := reg);
    SameSections(c.pool, Held(c), Held(c'));
    RelabelShape(c, subs, reg);
  }

  lemma RelabelShape(c: Conn, subs: seq<Subscription>, reg: D.Registry)
    requires Shape(c) && !c.destroyed && (!c.channelOpen ==> NoLegs(c))
    requires RecvLegsOk(subs)
    requires NoLegs(c) ==> NoRecvLegs(subs)
    requires UniqueConsumers(subs) && D.Valid(reg)
    ensures var c' := c.(subscriptions := subs, registry := reg);
      Shape(c') && (!c'.channelOpen ==> NoLegs(c'))
  {
  }

  lemma MultisetCancel(a: multiset<int>, b: multiset<int>, x: multiset<int>)
    requires a + x == b + x
    ensures a == b
  {
    assert a == (a + x) - x;
    assert b == (b + x) - x;
  }

  /** Updating a subscription without touching its legs keeps the sections. */
  lemma UpdateKeepsSections(subs: seq<Subscription>, j: int, s: Subscription)
    requires 0 <= j < |subs| && s.audioLeg == subs[j].audioLeg && s.videoLeg == subs[j].videoLeg
    ensures AllSubscriptionSections(subs[j := s]) == AllSubscriptionSections(subs)
  {
    SectionsUpdate(subs, j, s);
    MultisetCancel(AllSubscriptionSections(subs[j := s]), AllSubscriptionSections(subs), SubscriptionSections(s));
  }

  /** The bookkeeping `AddConsumer` does before it calls `open`. */
  function Subscribe(subs: seq<Subscription>, consumer: nat, k: Kind): (r: seq<Subscription>)
    ensures Find(subs, consumer) < 0 ==> r == subs + [SetConsumes(Subscription(consumer, false, false, None, None), k, true)]
    ensures Find(subs, consumer) >= 0 ==> r == subs[Find(subs, consumer) := SetConsumes(subs[Find(subs, consumer)], k, true)]
  {
    var j := Find(subs, consumer);
    var grown := if j < 0 then subs + [Subscription(consumer, false, false, None, None)] else subs;
    var at := if j < 0 then |subs| else j;
    grown[at := SetConsumes(grown[at], k, true)]
  }

  lemma AddConsumerIsSubscribe(c: Conn, consumer: nat, tag: string, k: Kind, now: int)
    requires !c.destroyed
    ensures AddConsumer(c, consumer, tag, k, now)
         == Open(c.(subscriptions := Subscribe(c.subscriptions, consumer, k), registry := D.AddMtid(c.registry, tag + Suffix(k), now)))
  {
  }

  predicate RecvLegsOk(subs: seq<Subscription>) {
    forall j :: 0 <= j < |subs| ==> RecvLegOk(subs[j].audioLeg, Audio) && RecvLegOk(subs[j].videoLeg, Video)
  }

  predicate NoRecvLegs(subs: seq<Subscription>) {
    forall j :: 0 <= j < |subs| ==> subs[j].audioLeg.None? && subs[j].videoLeg.None?
  }

  /** `Subscribe` touches no transceiver and keeps consumers unique. */
  lemma SubscribeFacts(subs: seq<Subscription>, consumer: nat, k: Kind)
    requires RecvLegsOk(subs) && UniqueConsumers(subs)
    ensures var r := Subscribe(subs, consumer, k);
      && AllSubscriptionSections(r) == AllSubscriptionSections(subs)
      && RecvLegsOk(r) && UniqueConsumers(r)
      && (NoRecvLegs(subs) ==> NoRecvLegs(r))
  {
    var j := Find(subs, consumer);
    if j < 0 {
      SubscribeNewFacts(subs, consumer, k);
    } else {
      var n := SetConsumes(subs[j], k, true);
      assert Subscribe(subs, consumer, k) == subs[j := n];
      UpdateKeepsSections(subs, j, n);
      UpdateSameLegs(subs, j, n);
    }
  }

  /** Replacing a subscription by one with the same consumer and legs keeps
      consumers unique and legs well-formed. */
  lemma UpdateSameLegs(subs: seq<Subscription>, j: int, n: Subscription)
    requires 0 <= j < |subs| && n.consumer == subs[j].consumer
    requires n.audioLeg == subs[j].audioLeg && n.videoLeg == subs[j].videoLeg
    requires RecvLegsOk(subs) && UniqueConsumers(subs)
    ensures RecvLegsOk(subs[j := n]) && UniqueConsumers(subs[j := n])
    ensures NoRecvLegs(subs) ==> NoRecvLegs(subs[j := n])
  {
  }

  lemma SubscribeNewFacts(subs: seq<Subscription>, consumer: nat, k: Kind)
    requires RecvLegsOk(subs) && UniqueConsumers(subs) && Find(subs, consumer) < 0
    ensures var r := Subscribe(subs, consumer, k);
      && AllSubscriptionSections(r) == AllSubscriptionSections(subs)
      && RecvLegsOk(r) && UniqueConsumers(r)
      && (NoRecvLegs(subs) ==> NoRecvLegs(r))
  {
    var n := SetConsumes(Subscription(consumer, false, false, None, None), k, true);
    var r := subs + [n];
    assert Subscribe(subs, consumer, k) == r;
    SectionsAppend(subs, n);
    assert SubscriptionSections(n) == multiset{} by {
      assert n.audioLeg.None? && n.videoLeg.None?;
    }
    assert forall i :: 0 <= i < |subs| ==> subs[i].consumer != consumer;
    AppendUnique(subs, n);
  }

  lemma AppendUnique(subs: seq<Subscription>, n: Subscription)
    requires UniqueConsumers(subs) && forall i :: 0 <= i < |subs| ==> subs[i].consumer != n.consumer
    requires RecvLegsOk(subs) && n.audioLeg.None? && n.videoLeg.None?
    ensures UniqueConsumers(subs + [n]) && RecvLegsOk(subs + [n])
    ensures NoRecvLegs(subs) ==> NoRecvLegs(subs + [n])
  {
    var r := subs + [n];
    assert forall i :: 0 <= i < |subs| ==> r[i] == subs[i];
    assert r[|subs|] == n;
  }

  lemma SubscribeKeepsCore(c: Conn, consumer: nat, k: Kind, reg: D.Registry)
    requires Core(c) && !c.destroyed && (!c.channelOpen ==> NoLegs(c)) && D.Valid(reg)
    ensures var c' := c.(subscriptions := Subscribe(c.subscriptions, consumer, k), registry := reg);
      Core(c') && (!c'.channelOpen ==> NoLegs(c'))
  {
    assert RecvLegsOk(c.subscriptions);
    assert NoLegs(c) ==> NoRecvLegs(c.subscriptions);
    SubscribeFacts(c.subscriptions, consumer, k);
    RelabelKeepsCore(c, Subscribe(c.subscriptions, consumer, k), reg);
  }

  /** Adding a consumer keeps the connection invariant. */
  lemma AddConsumerConsistent(c: Conn, consumer: nat, tag: string, k: Kind, now: int)
    requires Consistent(c)
    ensures Consistent(AddConsumer(c, consumer, tag, k, now).0)
  {
    if !c.destroyed {
      var reg := D.AddMtid(c.registry, tag + Suffix(k), now);
      SubscribeKeepsCore(c, consumer, k, reg);
      AddConsumerIsSubscribe(c, consumer, tag, k, now);
      OpenConsistent(c.(subscriptions := Subscribe(c.subscriptions, consumer, k), registry := reg));
    }
  }

  lemma SubscribeWants(subs: seq<Subscription>, consumer: nat, k: Kind)
    ensures forall x, kk :: Wants(Subscribe(subs, consumer, k), x, kk) <==> Wants(subs, x, kk) || (x == consumer && kk == k)
  {
    var r := Subscribe(subs, consumer, k);
    var j := Find(subs, consumer);
    forall x, kk
      ensures Wants(r, x, kk) <==> Wants(subs, x, kk) || (x == consumer && kk == k)
    {
      if j < 0 {
        assert r[..|subs|] == subs;
      } else {
        FindSameConsumers(subs, r, x);
        if x != consumer {
          assert Find(subs, x) != j;
        } else if kk != k {
          assert kk == Other(k);
        }
      }
    }
  }

  /** After `AddConsumer` the consumer wants `k` in addition to what was
      wanted before, and nothing else changes. */
  lemma AddConsumerWants(c: Conn, consumer: nat, tag: string, k: Kind, now: int)
    requires !c.destroyed
    ensures var r := AddConsumer(c, consumer, tag, k, now).0;
      forall x, kk :: Wants(r.subscriptions, x, kk) <==> Wants(c.subscriptions, x, kk) || (x == consumer && kk == k)
  {
    var subs := Subscribe(c.subscriptions, consumer, k);
    AddConsumerIsSubscribe(c, consumer, tag, k, now);
    SubscribeWants(c.subscriptions, consumer, k);
    WantsSameConsumers(subs, AddConsumer(c, consumer, tag, k, now).0.subscriptions);
  }

  lemma RemoveConsumerIsOpen(c: Conn, consumer: nat, tag: string, k: Kind)
    requires !c.destroyed && Find(c.subscriptions, consumer) >= 0
    ensures var j := Find(c.subscriptions, consumer);
      var c1 := Open(c.(subscriptions := Unsubscribe(c.subscriptions, j, k),
                        registry := D.RemoveMtid(c.registry, tag + Suffix(k)))).0;
      && RemoveConsumer(c, consumer, tag, k).Ok?
      && RemoveConsumer(c, consumer, tag, k).value.0 == c1.(subscriptions := Prune(c1.subscriptions, j))
  {
  }

  lemma UnsubscribeFacts(subs: seq<Subscription>, j: int, k: Kind)
    requires 0 <= j < |subs| && RecvLegsOk(subs) && UniqueConsumers(subs)
    ensures var r := Unsubscribe(subs, j, k);
      && AllSubscriptionSections(r) == AllSubscriptionSections(subs)
      && RecvLegsOk(r) && UniqueConsumers(r)
      && (NoRecvLegs(subs) ==> NoRecvLegs(r))
  {
    var r := subs[j := SetConsumes(subs[j], k, false)];
    UpdateKeepsSections(subs, j, r[j]);
    SameLegsFacts(subs, r);
  }

  lemma SameLegsFacts(subs: seq<Subscription>, r: seq<Subscription>)
    requires |r| == |subs| && RecvLegsOk(subs) && UniqueConsumers(subs)
    requires forall i :: 0 <= i < |r| ==>
      r[i].consumer == subs[i].consumer && r[i].audioLeg == subs[i].audioLeg && r[i].videoLeg == subs[i].videoLeg
    ensures RecvLegsOk(r) && UniqueConsumers(r) && (NoRecvLegs(subs) ==> NoRecvLegs(r))
  {
  }

  lemma DropSections(c: Conn, j: int)
    requires Transceivers.Valid(c.pool, Held(c)) && 0 <= j < |c.subscriptions|
    requires c.subscriptions[j].audioLeg.None? && c.subscriptions[j].videoLeg.None?
    ensures Transceivers.Valid(c.pool, Held(c.(subscriptions := RemoveAt(c.subscriptions, j))))
  {
    SectionsRemove(c.subscriptions, j);
    SameSections(c.pool, Held(c), Held(c.(subscriptions := RemoveAt(c.subscriptions, j))));
  }

  lemma DropShape(c: Conn, j: int)
    requires Shape(c) && 0 <= j < |c.subscriptions|
    requires c.channelOpen ==> Reconciled(c)
    requires !c.channelOpen ==> NoLegs(c)
    ensures var c' := c.(subscriptions := RemoveAt(c.subscriptions, j));
      Shape(c') && (c'.channelOpen ==> Reconciled(c')) && (!c'.channelOpen ==> NoLegs(c'))
  {
    var c' := c.(subscriptions := RemoveAt(c.subscriptions, j));
    assert UniqueConsumers(c'.subscriptions) by {
      forall a, b | 0 <= a < b < |c'.subscriptions|
        ensures c'.subscriptions[a].consumer != c'.subscriptions[b].consumer
      {
        var a' := if a < j then a else a + 1;
        var b' := if b < j then b else b + 1;
        assert c'.subscriptions[a] == c.subscriptions[a'] && c'.subscriptions[b] == c.subscriptions[b'];
      }
    }
  }

  /** Deleting a subscription without transceivers keeps the invariant. */
  lemma DropIdleConsistent(c: Conn, j: int)
    requires Consistent(c) && 0 <= j < |c.subscriptions|
    requires c.subscriptions[j].audioLeg.None? && c.subscriptions[j].videoLeg.None?
    ensures Consistent(c.(subscriptions := RemoveAt(c.subscriptions, j)))
  {
    DropSections(c, j);
    DropShape(c, j);
  }

  lemma UnsubscribeKeepsCore(c: Conn, j: int, k: Kind, reg: D.Registry)
    requires Core(c) && !c.destroyed && (!c.channelOpen ==> NoLegs(c)) && D.Valid(reg)
    requires 0 <= j < |c.subscriptions|
    ensures var c' := c.(subscriptions := Unsubscribe(c.subscriptions, j, k), registry := reg);
      Core(c') && (!c'.channelOpen ==> NoLegs(c'))
  {
    UnsubscribeFacts(c.subscriptions, j, k);
    RelabelKeepsCore(c, Unsubscribe(c.subscriptions, j, k), reg);
  }

  /** A subscription that consumes nothing has no transceivers. */
  lemma IdleHasNoLegs(c: Conn, j: int)
    requires Consistent(c) && 0 <= j < |c.subscriptions|
    requires !c.subscriptions[j].audio && !c.subscriptions[j].video
    ensures c.subscriptions[j].audioLeg.None? && c.subscriptions[j].videoLeg.None?
  {
  }

  /** Removing a consumer keeps the connection invariant. */
  lemma RemoveConsumerConsistent(c: Conn, consumer: nat, tag: string, k: Kind)
    requires Consistent(c)
    ensures RemoveConsumer(c, consumer, tag, k).Ok? ==> Consistent(RemoveConsumer(c, consumer, tag, k).value.0)
  {
    var j := Find(c.subscriptions, consumer);
    if !c.destroyed && j >= 0 {
      var reg := D.RemoveMtid(c.registry, tag + Suffix(k));
      UnsubscribeKeepsCore(c, j, k, reg);
      var c1 := c.(subscriptions := Unsubscribe(c.subscriptions, j, k), registry := reg);
      OpenConsistent(c1);
      var c2 := Open(c1).0;
      RemoveConsumerIsOpen(c, consumer, tag, k);
      if !c2.subscriptions[j].audio && !c2.subscriptions[j].video {
        IdleHasNoLegs(c2, j);
        DropIdleConsistent(c2, j);
      }
    }
  }

  lemma UnsubscribeWants(subs: seq<Subscription>, j: int, k: Kind)
    requires 0 <= j < |subs| && UniqueConsumers(subs)
    ensures var r := Unsubscribe(subs, j, k);
      forall x, kk :: Wants(r, x, kk) <==> Wants(subs, x, kk) && !(x == subs[j].consumer && kk == k)
  {
    var r := subs[j := SetConsumes(subs[j], k, false)];
    forall x, kk
      ensures Wants(r, x, kk) <==> Wants(subs, x, kk) && !(x == subs[j].consumer && kk == k)
    {
      FindSameConsumers(subs, r, x);
      if x != subs[j].consumer {
        assert Find(subs, x) != j;
      } else {
        FindUnique(subs, x, j);
        if kk != k {
          assert kk == Other(k);
        }
      }
    }
  }

  lemma WantsRemoveAt(subs: seq<Subscription>, j: int)
    requires 0 <= j < |subs| && UniqueConsumers(subs)
    ensures forall x, kk :: Wants(RemoveAt(subs, j), x, kk) <==> Wants(subs, x, kk) && x != subs[j].consumer
    ensures Find(RemoveAt(subs, j), subs[j].consumer) < 0
  {
    var r := RemoveAt(subs, j);
    assert UniqueConsumers(r) by {
      forall a, b | 0 <= a < b < |r|
        ensures r[a].consumer != r[b].consumer
      {
        var a' := if a < j then a else a + 1;
        var b' := if b < j then b else b + 1;
        assert r[a] == subs[a'] && r[b] == subs[b'];
      }
    }
    forall x, kk
      ensures Wants(r, x, kk) <==> Wants(subs, x, kk) && x != subs[j].consumer
    {
      var i := Find(subs, x);
      if i >= 0 && i != j {
        var i' := if i < j then i else i - 1;
        assert r[i'] == subs[i];
        FindUnique(r, x, i');
      } else {
        forall i' | 0 <= i' < |r|
          ensures r[i'].consumer != x
        {
          var i2 := if i' < j then i' else i' + 1;
          assert r[i'] == subs[i2];
        }
      }
    }
    forall i' | 0 <= i' < |r|
      ensures r[i'].consumer != subs[j].consumer
    {
      var i2 := if i' < j then i' else i' + 1;
      assert r[i'] == subs[i2];
    }
  }

  lemma UniqueSameConsumers(a: seq<Subscription>, b: seq<Subscription>)
    requires |a| == |b| && UniqueConsumers(a)
    requires forall j :: 0 <= j < |a| ==> a[j].consumer == b[j].consumer
    ensures UniqueConsumers(b)
  {
  }

  /** The sequence part of `RemoveConsumer`: `u` is the subscriptions with
      `k` cleared at `j`, `v` the same consumers after `open`. */
  lemma DropWants(subs: seq<Subscription>, v: seq<Subscription>, j: int, k: Kind)
    requires 0 <= j < |subs| && UniqueConsumers(subs)
    requires SameConsumers(Unsubscribe(subs, j, k), v)
    ensures var r := Prune(v, j);
      && (forall x, kk :: Wants(r, x, kk) <==> Wants(subs, x, kk) && !(x == subs[j].consumer && kk == k))
      && (Find(r, subs[j].consumer) < 0 <==> !Consumes(subs[j], Other(k)))
  {
    var u := Unsubscribe(subs, j, k);
    var consumer := subs[j].consumer;
    UnsubscribeWants(subs, j, k);
    WantsSameConsumers(u, v);
    FindSameConsumers(subs, v, consumer);
    FindUnique(subs, consumer, j);
    if !v[j].audio && !v[j].video {
      UniqueSameConsumers(subs, u);
      UniqueSameConsumers(u, v);
      WantsRemoveAt(v, j);
      if k == Audio { assert !Consumes(subs[j], Video); } else { assert !Consumes(subs[j], Audio); }
    } else {
      assert Consumes(v[j], Other(k));
    }
  }

  /** After `RemoveConsumer` the consumer no longer wants `k`, nothing else
      changes, and its subscription is gone exactly when it wants nothing. */
  lemma RemoveConsumerWants(c: Conn, consumer: nat, tag: string, k: Kind)
    requires !c.destroyed && UniqueConsumers(c.subscriptions) && Find(c.subscriptions, consumer) >= 0
    ensures RemoveConsumer(c, consumer, tag, k).Ok?
    ensures var r := RemoveConsumer(c, consumer, tag, k).value.0;
      && (forall x, kk :: Wants(r.subscriptions, x, kk) <==> Wants(c.subscriptions, x, kk) && !(x == consumer && kk == k))
      && (Find(r.subscriptions, consumer) < 0 <==> !Wants(c.subscriptions, consumer, Other(k)))
  {
    var j := Find(c.subscriptions, consumer);
    var c1 := c.(subscriptions := Unsubscribe(c.subscriptions, j, k), registry := D.RemoveMtid(c.registry, tag + Suffix(k)));
    RemoveConsumerIsOpen(c, consumer, tag, k);
    DropWants(c.subscriptions, Open(c1).0.subscriptions, j, k);
  }

  // ---------------------------------------------------------------------
  // Re-running `open` on a reconciled connection changes nothing.

  lemma {:induction false} ReconcileFromIdle(p: Pool, subs: seq<Subscription>, i: int)
    requires 0 <= i <= |subs|
    requires forall j :: 0 <= j < |subs| ==> (subs[j].audioLeg.Some? <==> subs[j].audio) && (subs[j].videoLeg.Some? <==> subs[j].video)
    ensures ReconcileFrom(p, subs, i) == (p, subs, [])
    decreases |subs| - i
  {
    if i < |subs| {
      var s := subs[i];
      assert ReconcileLeg(p, Audio, s.audio, s.audioLeg) == (p, s.audioLeg);
      assert ReconcileLeg(p, Video, s.video, s.videoLeg) == (p, s.videoLeg);
      assert s.(audioLeg := s.audioLeg, videoLeg := s.videoLeg) == s;
      assert Arrival(s.consumer, Audio, s.audioLeg, s.audioLeg) == [];
      assert Arrival(s.consumer, Video, s.videoLeg, s.videoLeg) == [];
      var none: seq<Notice> := [];
      assert none + none == none;
      assert ReconcileSubscription(p, subs[i]) == (p, subs[i], []);
      assert subs[i := subs[i]] == subs;
      ReconcileFromIdle(p, subs, i + 1);
    }
  }

  lemma DirectIdle(pub: Publication)
    requires Sends(pub.audioLeg, pub.audioBuffer) && Sends(pub.videoLeg, pub.videoBuffer)
    requires SendLegOk(pub.audioLeg, Audio) && SendLegOk(pub.videoLeg, Video)
    ensures DirectPublication(pub) == pub
  {
  }

  /** On a consistent connection whose data channel is open, the body of
      `open` is the identity and notifies nobody. */
  lemma ReconcileIdle(c: Conn)
    requires Consistent(c) && c.channelOpen
    ensures Reconcile(c) == (c, [])
  {
    DirectIdle(c.primary);
    DirectIdle(c.secondary);
    ReconcileFromIdle(c.pool, c.subscriptions, 0);
  }

  /** `open` is idempotent: right after it, a second `open` only repeats
      the negotiation request, which is already pending. */
  lemma OpenIdempotent(c: Conn)
    requires Core(c) && !c.destroyed && (!c.channelOpen ==> NoLegs(c))
    ensures Open(Open(c).0) == (Open(c).0, [])
  {
    OpenConsistent(c);
    var c1 := Open(c).0;
    if c1.channelOpen {
      ReconcileIdle(c1);
    }
  }

  /** Adding the same consumer of the same kind twice is the same as adding
      it once: no second subscription, transceiver or delivery. */
  lemma AddConsumerIdempotent(c: Conn, consumer: nat, tag: string, k: Kind, now: int)
    requires Consistent(c)
    ensures var r := AddConsumer(c, consumer, tag, k, now).0;
      AddConsumer(r, consumer, tag, k, now) == (r, [])
  {
    if !c.destroyed {
      var r := AddConsumer(c, consumer, tag, k, now).0;
      AddConsumerConsistent(c, consumer, tag, k, now);
      AddConsumerWants(c, consumer, tag, k, now);
      AddConsumerIsSubscribe(c, consumer, tag, k, now);
      assert r.negotiation.timerPending;
      AddConsumerAgain(r, consumer, tag, k, now);
    }
  }

  /** A consumer already subscribed, with its media type already
      registered at the same time, is added again without effect. */
  lemma AddConsumerAgain(r: Conn, consumer: nat, tag: string, k: Kind, now: int)
    requires Consistent(r) && !r.destroyed && r.peer && r.negotiation.timerPending
    requires Wants(r.subscriptions, consumer, k)
    requires tag + Suffix(k) in r.registry.mtids && r.registry.mtids[tag + Suffix(k)] == now
    ensures AddConsumer(r, consumer, tag, k, now) == (r, [])
  {
    var j := Find(r.subscriptions, consumer);
    assert r.subscriptions[j := SetConsumes(r.subscriptions[j], k, true)] == r.subscriptions;
    assert D.AddMtid(r.registry, tag + Suffix(k), now) == r.registry;
    AddConsumerIsSubscribe(r, consumer, tag, k, now);
    assert r.(subscriptions := Subscribe(r.subscriptions, consumer, k), registry := D.AddMtid(r.registry, tag + Suffix(k), now)) == r;
    OpenIdle(r);
  }

  /** `open` on a reconciled connection whose negotiation is already
      requested changes nothing. */
  lemma OpenIdle(c: Conn)
    requires Consistent(c) && c.peer && c.negotiation.timerPending
    ensures Open(c) == (c, [])
  {
    if c.channelOpen {
      ReconcileIdle(c);
    }
    assert N.Request(c.negotiation) == c.negotiation;
  }

  // ---------------------------------------------------------------------
  // Published streams and their buffers.

  datatype Slot = Primary | Secondary

  function PublicationAt(c: Conn, slot: Slot): Publication {
    if slot == Primary then c.primary else c.secondary
  }

  function WithPublication(c: Conn, slot: Slot, pub: Publication): (r: Conn)
    ensures PublicationAt(r, slot) == pub
    ensures forall other :: other != slot ==> PublicationAt(r, other) == PublicationAt(c, other)
  {
    if slot == Primary then c.(primary := pub) else c.(secondary := pub)
  }

  function BufferOf(pub: Publication, k: Kind): Option<nat> {
    if k == Audio then pub.audioBuffer else pub.videoBuffer
  }

  function LegOf(pub: Publication, k: Kind): Option<Transceiver> {
    if k == Audio then pub.audioLeg else pub.videoLeg
  }

  function WithBuffer(pub: Publication, k: Kind, buffer: Option<nat>): (r: Publication)
    ensures BufferOf(r, k) == buffer && BufferOf(r, Other(k)) == BufferOf(pub, Other(k))
    ensures r.stream == pub.stream && r.audioLeg == pub.audioLeg && r.videoLeg == pub.videoLeg
  {
    if k == Audio then pub.(audioBuffer := buffer) else pub.(videoBuffer := buffer)
  }

  /** One publication's half of `onAudioBuffer` / `onVideoBuffer`: a
      changed buffer from the published stream is recorded and `open`
      runs. */
  function Feed(c: Conn, slot: Slot, supplier: nat, k: Kind, buffer: Option<nat>): (r: (Conn, seq<Notice>))
    ensures PublicationAt(c, slot).stream == Some(supplier) ==> BufferOf(PublicationAt(r.0, slot), k) == buffer
    ensures PublicationAt(c, slot).stream != Some(supplier) ==> r == (c, [])
    ensures forall other :: other != slot ==> SamePublication(PublicationAt(c, other), PublicationAt(r.0, other))
    ensures PublicationAt(r.0, slot).stream == PublicationAt(c, slot).stream
    ensures BufferOf(PublicationAt(r.0, slot), Other(k)) == BufferOf(PublicationAt(c, slot), Other(k))
    ensures SameConsumers(c.subscriptions, r.0.subscriptions) && r.0.registry == c.registry && r.0.destroyed == c.destroyed
    ensures r.0.channelOpen == c.channelOpen
  {
    var pub := PublicationAt(c, slot);
    if pub.stream == Some(supplier) && BufferOf(pub, k) != buffer then
      Open(WithPublication(c, slot, WithBuffer(pub, k, buffer)))
    else (c, [])
  }

  /** `onAudioBuffer` / `onVideoBuffer`: the buffer a stream supplies is
      taken by every publication of that stream, in primary, secondary
      order; nothing happens once destroyed. */
  function OnBuffer(c: Conn, supplier: nat, k: Kind, buffer: Option<nat>): (r: (Conn, seq<Notice>))
    ensures c.destroyed ==> r == (c, [])
    ensures SameConsumers(c.subscriptions, r.0.subscriptions) && r.0.registry == c.registry
    ensures r.0.channelOpen == c.channelOpen && r.0.destroyed == c.destroyed
  {
    if c.destroyed then (c, [])
    else
      var (c1, fx1) := Feed(c, Primary, supplier, k, buffer);
      var (c2, fx2) := Feed(c1, Secondary, supplier, k, buffer);
      SameConsumersTrans(c.subscriptions, c1.subscriptions, c2.subscriptions);
      (c2, fx1 + fx2)
  }

  /** After `OnBuffer`, every publication of the supplying stream holds the
      new buffer of that kind; every other buffer, and every published
      stream, is as before. */
  lemma OnBufferBuffers(c: Conn, supplier: nat, k: Kind, buffer: Option<nat>, slot: Slot)
    requires !c.destroyed
    ensures var pub := PublicationAt(OnBuffer(c, supplier, k, buffer).0, slot);
      && (PublicationAt(c, slot).stream == Some(supplier) ==> BufferOf(pub, k) == buffer)
      && (PublicationAt(c, slot).stream != Some(supplier) ==> BufferOf(pub, k) == BufferOf(PublicationAt(c, slot), k))
      && pub.stream == PublicationAt(c, slot).stream
      && BufferOf(pub, Other(k)) == BufferOf(PublicationAt(c, slot), Other(k))
  {
    var c1 := Feed(c, Primary, supplier, k, buffer).0;
    var c2 := Feed(c1, Secondary, supplier, k, buffer).0;
    assert OnBuffer(c, supplier, k, buffer).0 == c2;
    if slot == Primary {
      assert SamePublication(PublicationAt(c1, Primary), PublicationAt(c2, Primary));
    } else {
      assert SamePublication(PublicationAt(c1, Secondary), PublicationAt(c, Secondary));
    }
  }

  /** Replacing a publication by one with the same legs keeps `Core`. */
  lemma SameLegsCore(c: Conn, slot: Slot, pub: Publication)
    requires Core(c)
    requires pub.audioLeg == PublicationAt(c, slot).audioLeg && pub.videoLeg == PublicationAt(c, slot).videoLeg
    ensures Core(WithPublication(c, slot, pub))
    ensures NoLegs(c) ==> NoLegs(WithPublication(c, slot, pub))
  {
    SameSections(c.pool, Held(c), Held(WithPublication(c, slot, pub)));
    SameLegsShape(c, slot, pub);
  }

  lemma SameLegsShape(c: Conn, slot: Slot, pub: Publication)
    requires Shape(c)
    requires pub.audioLeg == PublicationAt(c, slot).audioLeg && pub.videoLeg == PublicationAt(c, slot).videoLeg
    ensures Shape(WithPublication(c, slot, pub))
  {
  }

  lemma FeedConsistent(c: Conn, slot: Slot, supplier: nat, k: Kind, buffer: Option<nat>)
    requires Consistent(c) && !c.destroyed
    ensures Consistent(Feed(c, slot, supplier, k, buffer).0) && !Feed(c, slot, supplier, k, buffer).0.destroyed
  {
    var pub := PublicationAt(c, slot);
    if pub.stream == Some(supplier) && BufferOf(pub, k) != buffer {
      var fed := WithBuffer(pub, k, buffer);
      var c' := WithPublication(c, slot, fed);
      assert Feed(c, slot, supplier, k, buffer) == Open(c');
      SameLegsCore(c, slot, fed);
      OpenConsistent(c');
    }
  }

  lemma OnBufferConsistent(c: Conn, supplier: nat, k: Kind, buffer: Option<nat>)
    requires Consistent(c)
    ensures Consistent(OnBuffer(c, supplier, k, buffer).0)
  {
    if !c.destroyed {
      FeedConsistent(c, Primary, supplier, k, buffer);
      FeedConsistent(Feed(c, Primary, supplier, k, buffer).0, Secondary, supplier, k, buffer);
    }
  }

  /** While the data channel is open, a publication's leg sends exactly
      when its stream has supplied a buffer. */
  lemma OnBufferSends(c: Conn, supplier: nat, k: Kind, buffer: Option<nat>, slot: Slot)
    requires Consistent(c) && c.channelOpen && PublicationAt(c, slot).stream == Some(supplier)
    ensures var pub := PublicationAt(OnBuffer(c, supplier, k, buffer).0, slot);
      LegOf(pub, k).Some? && (LegOf(pub, k).value.direction == SendOnly <==> buffer.Some?)
  {
    var r := OnBuffer(c, supplier, k, buffer).0;
    OnBufferConsistent(c, supplier, k, buffer);
    OnBufferBuffers(c, supplier, k, buffer, slot);
    ReconciledSends(r, slot, k);
  }

  lemma ReconciledSends(c: Conn, slot: Slot, k: Kind)
    requires Reconciled(c)
    ensures Sends(LegOf(PublicationAt(c, slot), k), BufferOf(PublicationAt(c, slot), k))
  {
  }

  /** What `removeAudioConsumer(this)` and `removeVideoConsumer(this)` on a
      withdrawn stream call straight back: `onAudioBuffer(null, prior)` and
      `onVideoBuffer(null, prior)`, which empty every publication of that
      stream and run `open`. */
  function Withdraw(c: Conn, prior: Option<nat>): (r: (Conn, seq<Notice>))
    ensures prior.None? ==> r == (c, [])
    ensures SameConsumers(c.subscriptions, r.0.subscriptions) && r.0.registry == c.registry
    ensures r.0.channelOpen == c.channelOpen && r.0.destroyed == c.destroyed
  {
    if prior.None? then (c, [])
    else
      var (c1, fx1) := OnBuffer(c, prior.value, Audio, None);
      var (c2, fx2) := OnBuffer(c1, prior.value, Video, None);
      SameConsumersTrans(c.subscriptions, c1.subscriptions, c2.subscriptions);
      (c2, fx1 + fx2)
  }

  /** After the withdrawal every publication of the prior stream holds no
      buffer, every other publication is as before, and no published
      stream changes. */
  lemma WithdrawBuffers(c: Conn, prior: Option<nat>, slot: Slot)
    requires !c.destroyed
    ensures var pub := PublicationAt(Withdraw(c, prior).0, slot);
      && pub.stream == PublicationAt(c, slot).stream
      && (prior.Some? && PublicationAt(c, slot).stream == prior ==> pub.audioBuffer.None? && pub.videoBuffer.None?)
      && (prior.None? || PublicationAt(c, slot).stream != prior ==> SamePublication(pub, PublicationAt(c, slot)))
  {
    if prior.Some? {
      var c1 := OnBuffer(c, prior.value, Audio, None).0;
      OnBufferBuffers(c, prior.value, Audio, None, slot);
      OnBufferBuffers(c1, prior.value, Video, None, slot);
      assert Withdraw(c, prior).0 == OnBuffer(c1, prior.value, Video, None).0;
    }
  }

  lemma WithdrawConsistent(c: Conn, prior: Option<nat>)
    requires Consistent(c) && !c.destroyed
    ensures Consistent(Withdraw(c, prior).0)
  {
    if prior.Some? {
      OnBufferConsistent(c, prior.value, Audio, None);
      OnBufferConsistent(OnBuffer(c, prior.value, Audio, None).0, prior.value, Video, None);
    }
  }

  /** What `addAudioConsumer(this)` and `addVideoConsumer(this)` on a newly
      published stream hand straight back: `onAudioBuffer(audio, stream)`
      and then `onVideoBuffer(video, stream)`, each recorded and followed
      by `open` when it changes a buffer. `audio` and `video` are what the
      stream delivers during those calls: its current buffers, or what its
      supplier hands it at once, or `None` when it delivers nothing. */
  function Handover(c: Conn, stream: Option<nat>, audio: Option<nat>, video: Option<nat>): (r: (Conn, seq<Notice>))
    ensures stream.None? ==> r == (c, [])
    ensures SameConsumers(c.subscriptions, r.0.subscriptions) && r.0.registry == c.registry
    ensures r.0.channelOpen == c.channelOpen && r.0.destroyed == c.destroyed
  {
    if stream.None? then (c, [])
    else
      var (c1, fx1) := OnBuffer(c, stream.value, Audio, audio);
      var (c2, fx2) := OnBuffer(c1, stream.value, Video, video);
      SameConsumersTrans(c.subscriptions, c1.subscriptions, c2.subscriptions);
      (c2, fx1 + fx2)
  }

  /** After the handover every publication of the new stream holds the
      buffers it delivered, and every other publication is as before. */
  lemma HandoverBuffers(c: Conn, stream: Option<nat>, audio: Option<nat>, video: Option<nat>, slot: Slot)
    requires !c.destroyed
    ensures var pub := PublicationAt(Handover(c, stream, audio, video).0, slot);
      && pub.stream == PublicationAt(c, slot).stream
      && (stream.Some? && PublicationAt(c, slot).stream == stream ==> pub.audioBuffer == audio && pub.videoBuffer == video)
      && (stream.None? || PublicationAt(c, slot).stream != stream ==> SamePublication(pub, PublicationAt(c, slot)))
  {
    if stream.Some? {
      var c1 := OnBuffer(c, stream.value, Audio, audio).0;
      OnBufferBuffers(c, stream.value, Audio, audio, slot);
      OnBufferBuffers(c1, stream.value, Video, video, slot);
      assert Handover(c, stream, audio, video).0 == OnBuffer(c1, stream.value, Video, video).0;
    }
  }

  lemma HandoverConsistent(c: Conn, stream: Option<nat>, audio: Option<nat>, video: Option<nat>)
    requires Consistent(c)
    ensures Consistent(Handover(c, stream, audio, video).0)
  {
    if stream.Some? {
      OnBufferConsistent(c, stream.value, Audio, audio);
      OnBufferConsistent(OnBuffer(c, stream.value, Audio, audio).0, stream.value, Video, video);
    }
  }

  /** `setPrimaryMediaStream` / `setSecondaryMediaStream`: the connection
      stops consuming the prior stream, which at once hands it `null` for
      both kinds; then the slot takes the new stream, the connection starts
      consuming it, and the buffers it delivers during that call are
      recorded. */
  function SetStream(c: Conn, slot: Slot, stream: Option<nat>, audio: Option<nat>, video: Option<nat>): (r: Result<(Conn, seq<Notice>)>)
    ensures r.Err? <==> c.destroyed
    ensures r.Ok? ==> PublicationAt(r.value.0, slot).stream == stream
    ensures r.Ok? && PublicationAt(c, slot).stream == stream ==> r.value == (c, [])
    ensures r.Ok? && PublicationAt(c, slot).stream != stream ==>
      && (PublicationAt(c, slot).stream.Some? ==> [Detach(PublicationAt(c, slot).stream.value)] <= r.value.1)
      && (stream.Some? && PublicationAt(c, slot).stream.Some? ==> Attach(stream.value) in r.value.1[1..])
      && (stream.Some? ==> Attach(stream.value) in r.value.1)
    ensures r.Ok? ==> SameConsumers(c.subscriptions, r.value.0.subscriptions) && r.value.0.registry == c.registry
  {
    if c.destroyed then Err("WebRTC connection has been already destroyed")
    else
      var pub := PublicationAt(c, slot);
      if pub.stream == stream then Ok((c, []))
      else
        var (c1, fx1) := Withdraw(c, pub.stream);
        var c2 := WithPublication(c1, slot, PublicationAt(c1, slot).(stream := stream));
        var (c3, fx2) := Handover(c2, stream, audio, video);
        SameConsumersTrans(c.subscriptions, c1.subscriptions, c3.subscriptions);
        HandoverBuffers(c2, stream, audio, video, slot);
        Ok((c3, SwitchNotices(pub.stream, fx1, stream, fx2)))
  }

  /** The notices of a stream change: the prior stream is detached, its
      withdrawal is reported, the new stream is attached and its handover
      is reported. */
  function SwitchNotices(prior: Option<nat>, withdrawal: seq<Notice>, stream: Option<nat>, handover: seq<Notice>): (r: seq<Notice>)
    ensures prior.Some? ==> [Detach(prior.value)] <= r
    ensures stream.Some? ==> Attach(stream.value) in r
    ensures prior.Some? && stream.Some? ==> Attach(stream.value) in r[1..]
    ensures |r| == |Detaches(prior)| + |withdrawal| + |Attaches(stream)| + |handover|
  {
    var r := Detaches(prior) + withdrawal + Attaches(stream) + handover;
    assert stream.Some? ==> r[|Detaches(prior) + withdrawal|] == Attach(stream.value);
    assert prior.Some? && stream.Some? ==> r[1..][|withdrawal|] == Attach(stream.value);
    r
  }

  function Detaches(stream: Option<nat>): seq<Notice> {
    if stream.Some? then [Detach(stream.value)] else []
  }

  function Attaches(stream: Option<nat>): seq<Notice> {
    if stream.Some? then [Attach(stream.value)] else []
  }

  /** A publication without a stream holds no buffer. */
  predicate Unorphaned(c: Conn) {
    forall slot: Slot :: PublicationAt(c, slot).stream.None? ==>
      PublicationAt(c, slot).audioBuffer.None? && PublicationAt(c, slot).videoBuffer.None?
  }

  lemma InitialUnorphaned()
    ensures Unorphaned(Initial)
  {
    assert PublicationAt(Initial, Primary) == EmptyPublication;
  }

  /** A buffer is only ever taken from a published stream. */
  lemma OnBufferUnorphaned(c: Conn, supplier: nat, k: Kind, buffer: Option<nat>)
    requires Unorphaned(c)
    ensures Unorphaned(OnBuffer(c, supplier, k, buffer).0)
  {
    if !c.destroyed {
      forall slot: Slot
        ensures var pub := PublicationAt(OnBuffer(c, supplier, k, buffer).0, slot);
          pub.stream.None? ==> pub.audioBuffer.None? && pub.videoBuffer.None?
      {
        OnBufferBuffers(c, supplier, k, buffer, slot);
      }
    }
  }

  /** The publication `SetStream` builds before the handover. */
  function Republished(c: Conn, slot: Slot, stream: Option<nat>): Conn {
    var c1 := Withdraw(c, PublicationAt(c, slot).stream).0;
    WithPublication(c1, slot, PublicationAt(c1, slot).(stream := stream))
  }

  lemma SetStreamIs(c: Conn, slot: Slot, stream: Option<nat>, audio: Option<nat>, video: Option<nat>)
    requires !c.destroyed && PublicationAt(c, slot).stream != stream
    ensures SetStream(c, slot, stream, audio, video).value.0 == Handover(Republished(c, slot, stream), stream, audio, video).0
  {
  }

  /** Before the handover, the slot holds no buffer, the other slot keeps
      its stream and loses its buffers if it published the prior stream. */
  lemma RepublishedBuffers(c: Conn, slot: Slot, stream: Option<nat>, other: Slot)
    requires Unorphaned(c) && !c.destroyed && PublicationAt(c, slot).stream != stream && other != slot
    ensures var r := Republished(c, slot, stream);
      var prior := PublicationAt(c, slot).stream;
      && PublicationAt(r, slot).stream == stream
      && PublicationAt(r, slot).audioBuffer.None? && PublicationAt(r, slot).videoBuffer.None?
      && PublicationAt(r, other).stream == PublicationAt(c, other).stream
      && (prior.Some? && PublicationAt(c, other).stream == prior ==>
            PublicationAt(r, other).audioBuffer.None? && PublicationAt(r, other).videoBuffer.None?)
      && (PublicationAt(c, other).stream != prior ==> SamePublication(PublicationAt(r, other), PublicationAt(c, other)))
  {
    var prior := PublicationAt(c, slot).stream;
    WithdrawBuffers(c, prior, slot);
    WithdrawBuffers(c, prior, other);
  }

  /** Changing a published stream leaves no buffer of the prior stream
      behind: the slot holds exactly what the new stream delivered (nothing
      for no stream), another publication of the prior stream is emptied,
      another publication of the new stream takes the delivered buffers as
      well, and any other publication is untouched. */
  lemma SetStreamBuffers(c: Conn, slot: Slot, stream: Option<nat>, audio: Option<nat>, video: Option<nat>, other: Slot)
    requires Unorphaned(c) && !c.destroyed && PublicationAt(c, slot).stream != stream && other != slot
    ensures var r := SetStream(c, slot, stream, audio, video).value.0;
      var prior := PublicationAt(c, slot).stream;
      && PublicationAt(r, slot).audioBuffer == (if stream.Some? then audio else None)
      && PublicationAt(r, slot).videoBuffer == (if stream.Some? then video else None)
      && PublicationAt(r, other).stream == PublicationAt(c, other).stream
      && (stream.Some? && PublicationAt(c, other).stream == stream ==>
            PublicationAt(r, other).audioBuffer == audio && PublicationAt(r, other).videoBuffer == video)
      && (prior.Some? && PublicationAt(c, other).stream == prior ==>
            PublicationAt(r, other).audioBuffer.None? && PublicationAt(r, other).videoBuffer.None?)
      && (PublicationAt(c, other).stream != prior && PublicationAt(c, other).stream != stream ==>
            SamePublication(PublicationAt(r, other), PublicationAt(c, other)))
  {
    var c2 := Republished(c, slot, stream);
    RepublishedBuffers(c, slot, stream, other);
    SetStreamIs(c, slot, stream, audio, video);
    HandoverBuffers(c2, stream, audio, video, slot);
    HandoverBuffers(c2, stream, audio, video, other);
  }

  lemma HandoverUnorphaned(c: Conn, stream: Option<nat>, audio: Option<nat>, video: Option<nat>)
    requires Unorphaned(c)
    ensures Unorphaned(Handover(c, stream, audio, video).0)
  {
    if stream.Some? {
      OnBufferUnorphaned(c, stream.value, Audio, audio);
      OnBufferUnorphaned(OnBuffer(c, stream.value, Audio, audio).0, stream.value, Video, video);
    }
  }

  lemma RepublishedUnorphaned(c: Conn, slot: Slot, stream: Option<nat>)
    requires Unorphaned(c) && !c.destroyed && PublicationAt(c, slot).stream != stream
    ensures Unorphaned(Republished(c, slot, stream))
  {
    var other := if slot == Primary then Secondary else Primary;
    RepublishedBuffers(c, slot, stream, other);
    var r := Republished(c, slot, stream);
    forall s: Slot
      ensures PublicationAt(r, s).stream.None? ==> PublicationAt(r, s).audioBuffer.None? && PublicationAt(r, s).videoBuffer.None?
    {
      if s != slot {
        assert s == other;
      }
    }
  }

  lemma SetStreamUnorphaned(c: Conn, slot: Slot, stream: Option<nat>, audio: Option<nat>, video: Option<nat>)
    requires Unorphaned(c)
    ensures SetStream(c, slot, stream, audio, video).Ok? ==> Unorphaned(SetStream(c, slot, stream, audio, video).value.0)
  {
    if !c.destroyed && PublicationAt(c, slot).stream != stream {
      RepublishedUnorphaned(c, slot, stream);
      HandoverUnorphaned(Republished(c, slot, stream), stream, audio, video);
      SetStreamIs(c, slot, stream, audio, video);
    }
  }

  lemma SetStreamConsistent(c: Conn, slot: Slot, stream: Option<nat>, audio: Option<nat>, video: Option<nat>)
    requires Consistent(c)
    ensures SetStream(c, slot, stream, audio, video).Ok? ==> Consistent(SetStream(c, slot, stream, audio, video).value.0)
  {
    if !c.destroyed && PublicationAt(c, slot).stream != stream {
      var prior := PublicationAt(c, slot).stream;
      WithdrawConsistent(c, prior);
      RepublishConsistent(Withdraw(c, prior).0, slot, stream);
      HandoverConsistent(Republished(c, slot, stream), stream, audio, video);
      SetStreamIs(c, slot, stream, audio, video);
    }
  }

  /** Replacing only the stream of a publication keeps the invariant: the
      legs and buffers it is stated over are untouched. */
  lemma RepublishConsistent(c: Conn, slot: Slot, stream: Option<nat>)
    requires Consistent(c)
    ensures Consistent(WithPublication(c, slot, PublicationAt(c, slot).(stream := stream)))
  {
    var pub := PublicationAt(c, slot).(stream := stream);
    SameLegsCore(c, slot, pub);
    if c.channelOpen {
      SameLegsReconciled(c, slot, pub);
    }
  }

  /** With the data channel open, a publication whose stream was just
      changed keeps both sending legs, and each sends exactly when the new
      stream delivered a buffer of its kind during the change: a stream
      that delivered nothing, or no stream, leaves neither sending. */
  lemma SetStreamSends(c: Conn, slot: Slot, stream: Option<nat>, audio: Option<nat>, video: Option<nat>)
    requires Consistent(c) && Unorphaned(c) && !c.destroyed && c.channelOpen && PublicationAt(c, slot).stream != stream
    ensures var pub := PublicationAt(SetStream(c, slot, stream, audio, video).value.0, slot);
      && pub.audioLeg.Some? && (pub.audioLeg.value.direction == SendOnly <==> stream.Some? && audio.Some?)
      && pub.videoLeg.Some? && (pub.videoLeg.value.direction == SendOnly <==> stream.Some? && video.Some?)
  {
    var r := SetStream(c, slot, stream, audio, video).value.0;
    var other := if slot == Primary then Secondary else Primary;
    SetStreamConsistent(c, slot, stream, audio, video);
    SetStreamBuffers(c, slot, stream, audio, video, other);
    ReconciledSends(r, slot, Audio);
    ReconciledSends(r, slot, Video);
  }

  lemma SameLegsReconciled(c: Conn, slot: Slot, pub: Publication)
    requires Reconciled(c)
    requires pub.audioLeg == PublicationAt(c, slot).audioLeg && pub.videoLeg == PublicationAt(c, slot).videoLeg
    requires pub.audioBuffer == PublicationAt(c, slot).audioBuffer && pub.videoBuffer == PublicationAt(c, slot).videoBuffer
    ensures Reconciled(WithPublication(c, slot, pub))
  {
  }

  // ---------------------------------------------------------------------
  // `close`.

  function Released(pub: Publication): (r: Publication)
    ensures r.stream.None? && r.audioBuffer.None? && r.videoBuffer.None?
    ensures r.audioLeg == pub.audioLeg && r.videoLeg == pub.videoLeg
  {
    pub.(stream := None, audioBuffer := None, videoBuffer := None)
  }

  /** `close`: destroyed for good, aborted, both published streams
      released, all subscriptions dropped. */
  function Close(c: Conn): (r: (Conn, seq<Notice>))
    ensures r.0.destroyed && !r.0.peer && !r.0.channelOpen && r.0.subscriptions == []
    ensures forall slot :: (PublicationAt(r.0, slot).stream.None?
      && BufferOf(PublicationAt(r.0, slot), Audio).None? && BufferOf(PublicationAt(r.0, slot), Video).None?)
    ensures forall slot :: PublicationAt(c, slot).stream.Some? ==> Detach(PublicationAt(c, slot).stream.value) in r.1
  {
    var (c1, fx) := Abort(c.(destroyed := true));
    (c1.(primary := Released(c1.primary), secondary := Released(c1.secondary), subscriptions := []),
     fx + Detaches(c.primary.stream) + Detaches(c.secondary.stream))
  }

  lemma CloseConsistent(c: Conn)
    requires Consistent(c)
    ensures Consistent(Close(c).0)
  {
    var d := c.(destroyed := true);
    assert d.peer || NoLegs(d);
    NoLegsValid(Close(c).0);
  }

  // ---------------------------------------------------------------------
  // Negotiation, failures and the data channel.

  /** The negotiation events the browser and the promise chain deliver to
      the connection; whether the data channel is open is read from the
      connection itself. */
  datatype Trigger = NegotiationNeeded | TimerFired | ExchangeSettled(outcome: N.Outcome)

  function ToEvent(t: Trigger, channelOpen: bool): N.Event {
    match t
    case NegotiationNeeded => N.NegotiationNeeded
    case TimerFired => N.TimerFired
    case ExchangeSettled(o) => N.ExchangeSettled(o, channelOpen)
  }

  function Signals(fx: seq<N.Effect>): (r: seq<Notice>)
    ensures |r| == |fx| && forall i :: 0 <= i < |fx| ==> r[i] == Signal(fx[i])
  {
    seq(|fx|, i requires 0 <= i < |fx| => Signal(fx[i]))
  }

  /** `onFailed`: abort, then report the failure. */
  function Fail(c: Conn): (r: (Conn, seq<Notice>))
    ensures !r.0.peer && !r.0.channelOpen
    ensures |r.1| >= 1 && r.1[|r.1| - 1] == Signal(N.Failed)
  {
    var (c1, fx) := Abort(c);
    (c1, fx + [Signal(N.Failed)])
  }

  /** A negotiation event; a failed exchange fails the connection. Without
      a peer connection no such event arises. */
  function Negotiate(c: Conn, t: Trigger): (r: (Conn, seq<Notice>))
    ensures !c.peer ==> r == (c, [])
    ensures Signal(N.Failed) in r.1 ==> !r.0.peer && !r.0.channelOpen
    ensures Signal(N.Failed) !in r.1 ==> r.0 == c.(negotiation := r.0.negotiation)
    ensures r.0.destroyed == c.destroyed && r.0.registry == c.registry && SameConsumers(c.subscriptions, r.0.subscriptions)
  {
    var e := ToEvent(t, c.channelOpen);
    if !c.peer || !N.Enabled(c.negotiation, e) then (c, [])
    else
      var (s, fx) := N.Step(c.negotiation, e);
      if N.Failed in fx then Fail(c)
      else (c.(negotiation := s), Signals(fx))
  }

  lemma NegotiateConsistent(c: Conn, t: Trigger)
    requires Consistent(c)
    ensures Consistent(Negotiate(c, t).0)
  {
    var e := ToEvent(t, c.channelOpen);
    if c.peer && N.Enabled(c.negotiation, e) {
      var (s, fx) := N.Step(c.negotiation, e);
      if N.Failed in fx {
        AbortConsistent(c);
      } else {
        SameSections(c.pool, Held(c), Held(c.(negotiation := s)));
      }
    }
  }

  /** The connection state failed, or the data channel closed while a peer
      connection exists. */
  lemma FailConsistent(c: Conn)
    requires Consistent(c)
    ensures Consistent(Fail(c).0)
  {
    AbortConsistent(c);
  }

  /** `dataChannel.onopen`: the channel is open, `open` runs, and the
      session is told. */
  function ChannelOpened(c: Conn): (r: (Conn, seq<Notice>))
    ensures r.0.channelOpen && r.0.peer && Reconciled(r.0)
    ensures |r.1| >= 1 && r.1[|r.1| - 1] == Opened
    ensures SameConsumers(c.subscriptions, r.0.subscriptions)
  {
    var (c1, fx) := Open(c.(channelOpen := true));
    (c1, fx + [Opened])
  }

  lemma ChannelOpenedConsistent(c: Conn)
    requires Consistent(c) && c.peer
    ensures Consistent(ChannelOpened(c).0)
  {
    var c' := c.(channelOpen := true);
    SameSections(c.pool, Held(c), Held(c'));
    OpenConsistent(c');
  }

  /** When the data channel first opens, the four sending legs take
      sections 2 to 5 in the order primary audio, primary video, secondary
      audio, secondary video, and every consumer is handed a track for each
      kind it consumes. */
  lemma FirstOpening(c: Conn)
    requires Consistent(c) && c.peer && !c.channelOpen
    ensures var r := ChannelOpened(c);
      && r.0.primary.audioLeg.value.index == 2 && r.0.primary.videoLeg.value.index == 3
      && r.0.secondary.audioLeg.value.index == 4 && r.0.secondary.videoLeg.value.index == 5
      && forall j, k :: 0 <= j < |c.subscriptions| && Consumes(c.subscriptions[j], k) ==>
           exists t :: Deliver(c.subscriptions[j].consumer, k, Some(t)) in r.1
  {
    var c' := c.(channelOpen := true);
    var r := Reconcile(c');
    forall j, k | 0 <= j < |c.subscriptions| && Consumes(c.subscriptions[j], k)
      ensures exists t :: Deliver(c.subscriptions[j].consumer, k, Some(t)) in ChannelOpened(c).1
    {
      var leg := LegOf(Publication(None, None, None, r.0.subscriptions[j].audioLeg, r.0.subscriptions[j].videoLeg), k);
      assert Deliver(c.subscriptions[j].consumer, k, Some(leg.value.index)) in r.1;
    }
  }

  /** What arrives on the data channel: the closing codes 4000 and 4001,
      or a message for the session. */
  datatype Message = Closing(code: int) | Text(data: string)

  function Classify(data: string): (m: Message)
    ensures m.Closing? <==> data == "4000" || data == "4001"
    ensures m.Closing? ==> ParseInt(data) == Some(m.code)
    ensures m.Text? ==> m.data == data
  {
    ClosingCodes();
    if data == "4000" then Closing(4000) else if data == "4001" then Closing(4001) else Text(data)
  }

  /** `parseInt` of the two closing codes. */
  lemma ClosingCodes()
    ensures ParseInt("4000") == Some(4000) && ParseInt("4001") == Some(4001)
  {
    assert "4000"[..3] == "400" && "400"[..2] == "40" && "40"[..1] == "4";
    assert "4001"[..3] == "400";
  }
}

=== FILE: devices.dfy ===
/** `DeviceRegistry.update`: reconciles the registry's microphone and
    camera lists with the devices the browser enumerates. Each list is
    either empty or starts with the "default" entry, which stands for the
    system default device; the other entries are named devices. The
    enumeration is a parameter; `destroy` calls and the listener call are
    returned as outputs. */
module Devices {

  datatype DeviceKind = AudioInput | VideoInput | AudioOutput

  /** A `MediaDeviceInfo`: kind, `deviceId` and `label`. */
  datatype MediaDevice = MediaDevice(kind: DeviceKind, id: string, name: string)

  /** A `Microphone` or `Camera` in the registry, known by id and label. */
  datatype Entry = Entry(id: string, name: string)

  const DefaultId: string := "default"
  const DefaultMicrophone: Entry := Entry(DefaultId, "Default Microphone")
  const DefaultCamera: Entry := Entry(DefaultId, "Default Camera")

  /** Browsers hide labels until access is granted and list a "default"
      pseudo-device; only devices with a real label get their own entry. */
  predicate Labelled(d: MediaDevice) {
    d.name != "" && d.name != "default"
  }

  predicate HasKind(devs: seq<MediaDevice>, k: DeviceKind) {
    exists j :: 0 <= j < |devs| && devs[j].kind == k
  }

  predicate HasId(devs: seq<MediaDevice>, k: DeviceKind, id: string) {
    exists j :: 0 <= j < |devs| && devs[j].kind == k && devs[j].id == id
  }

  predicate Listed(list: seq<Entry>, id: string) {
    exists i :: 0 <= i < |list| && list[i].id == id
  }

  predicate DistinctIds(list: seq<Entry>) {
    forall i, j :: 0 <= i < j < |list| ==> list[i].id != list[j].id
  }

  /** A registry list: ids are unique and a non-empty list starts with the
      default entry. */
  predicate WellFormed(list: seq<Entry>) {
    DistinctIds(list) && (|list| > 0 ==> list[0].id == DefaultId)
  }

  /** Whether the entry at index `i` is still backed by a device: the
      default entry by any device of the kind, the others by a device of
      the kind with the same id. */
  predicate Survives(list: seq<Entry>, i: int, devs: seq<MediaDevice>, k: DeviceKind)
    requires 0 <= i < |list|
  {
    if i == 0 then HasKind(devs, k) else HasId(devs, k, list[i].id)
  }

  // ---------------------------------------------------------------------
  // Removal

  /** The removal loop, which walks the list from its end: returns the
      entries kept, in order, and those removed (and destroyed), in the
      order they are removed. */
  function Prune(list: seq<Entry>, devs: seq<MediaDevice>, k: DeviceKind): (r: (seq<Entry>, seq<Entry>))
    ensures |r.0| + |r.1| == |list|
    ensures forall x | x in r.0 :: x in list
    ensures forall x | x in r.1 :: x in list
    ensures !HasKind(devs, k) ==> r.0 == []
    ensures |list| > 0 && HasKind(devs, k) ==> |r.0| > 0 && r.0[0] == list[0]
    decreases |list|
  {
    if |list| == 0 then ([], [])
    else
      var n := |list| - 1;
      var (kept, removed) := Prune(list[..n], devs, k);
      if Survives(list, n, devs, k) then (kept + [list[n]], removed) else (kept, [list[n]] + removed)
  }

  lemma DistinctPrefix(list: seq<Entry>, n: nat)
    requires DistinctIds(list) && n <= |list|
    ensures DistinctIds(list[..n])
  {
    forall i, j | 0 <= i < j < n
      ensures list[..n][i].id != list[..n][j].id
    {
      assert list[..n][i] == list[i] && list[..n][j] == list[j];
    }
  }

  /** With unique ids, an entry is kept exactly when it `Survives`; the
      kept entries keep unique ids. */
  lemma PruneSurvivors(list: seq<Entry>, devs: seq<MediaDevice>, k: DeviceKind)
    requires DistinctIds(list)
    ensures forall i | 0 <= i < |list| :: list[i] in Prune(list, devs, k).0 <==> Survives(list, i, devs, k)
    ensures DistinctIds(Prune(list, devs, k).0)
  {
    PruneKeeps(list, devs, k);
    PruneDistinct(list, devs, k);
  }

  lemma {:induction false} PruneKeeps(list: seq<Entry>, devs: seq<MediaDevice>, k: DeviceKind)
    requires DistinctIds(list)
    ensures forall i | 0 <= i < |list| :: list[i] in Prune(list, devs, k).0 <==> Survives(list, i, devs, k)
    decreases |list|
  {
    if |list| > 0 {
      var n := |list| - 1;
      var pre := list[..n];
      DistinctPrefix(list, n);
      PruneKeeps(pre, devs, k);
      forall i | 0 <= i < |list|
        ensures list[i] in Prune(list, devs, k).0 <==> Survives(list, i, devs, k)
      {
        if i < n {
          assert pre[i] == list[i];
          assert Survives(pre, i, devs, k) == Survives(list, i, devs, k);
          assert list[i].id != list[n].id;
        }
      }
    }
  }

  lemma {:induction false} PruneDistinct(list: seq<Entry>, devs: seq<MediaDevice>, k: DeviceKind)
    requires DistinctIds(list)
    ensures DistinctIds(Prune(list, devs, k).0)
    decreases |list|
  {
    if |list| > 0 {
      var n := |list| - 1;
      var pre := list[..n];
      DistinctPrefix(list, n);
      PruneDistinct(pre, devs, k);
      var kept := Prune(pre, devs, k).0;
      if Survives(list, n, devs, k) {
        var s := kept + [list[n]];
        forall i, j | 0 <= i < j < |s|
          ensures s[i].id != s[j].id
        {
          if j == |s| - 1 {
            assert s[i] in kept;
            var m :| 0 <= m < n && pre[m] == s[i];
            assert list[m] == s[i];
          }
        }
      }
    }
  }

  /** A list whose every entry survives is kept whole. */
  lemma {:induction false} PruneKeepsAll(list: seq<Entry>, devs: seq<MediaDevice>, k: DeviceKind)
    requires forall i | 0 <= i < |list| :: Survives(list, i, devs, k)
    ensures Prune(list, devs, k) == (list, [])
    decreases |list|
  {
    if |list| > 0 {
      var n := |list| - 1;
      forall i | 0 <= i < n
        ensures Survives(list[..n], i, devs, k)
      {
        assert list[..n][i] == list[i];
        assert Survives(list, i, devs, k);
      }
      PruneKeepsAll(list[..n], devs, k);
      assert list[..n] + [list[n]] == list;
    }
  }

  // ---------------------------------------------------------------------
  // Addition

  /** One device of the `forEach`: a device of the kind puts the default
      entry into an empty list; a labelled one whose id is not listed yet
      is appended, which reports an addition. */
  function AddOne(list: seq<Entry>, d: MediaDevice, k: DeviceKind, dflt: Entry): (r: (seq<Entry>, bool))
  {
    if d.kind != k then (list, false)
    else
      var l1 := if |list| == 0 then [dflt] else list;
      if Labelled(d) && !Listed(l1, d.id) then (l1 + [Entry(d.id, d.name)], true) else (l1, false)
  }

  /** The addition pass over the enumerated devices, in order. */
  function AddAll(list: seq<Entry>, devs: seq<MediaDevice>, k: DeviceKind, dflt: Entry): (r: (seq<Entry>, bool))
    ensures |r.0| >= |list| && r.0[..|list|] == list
    ensures |list| == 0 && HasKind(devs, k) ==> |r.0| > 0 && r.0[0] == dflt
    ensures !HasKind(devs, k) ==> r == (list, false)
    ensures r.1 <==> |r.0| > (if |list| == 0 && HasKind(devs, k) then 1 else |list|)
    decreases |devs|
  {
    if |devs| == 0 then (list, false)
    else
      var (l1, a1) := AddOne(list, devs[0], k, dflt);
      var (l2, a2) := AddAll(l1, devs[1..], k, dflt);
      assert HasKind(devs, k) <==> devs[0].kind == k || HasKind(devs[1..], k) by {
        if HasKind(devs[1..], k) {
          var j :| 0 <= j < |devs[1..]| && devs[1..][j].kind == k;
          assert devs[j + 1].kind == k;
        }
        if HasKind(devs, k) && devs[0].kind != k {
          var j :| 0 <= j < |devs| && devs[j].kind == k;
          assert devs[1..][j - 1].kind == k;
        }
      }
      assert l2[..|list|] == l1[..|l1|][..|list|];
      (l2, a1 || a2)
  }

  /** Every labelled device of the kind has an entry afterwards. */
  lemma {:induction false} AddAllComplete(list: seq<Entry>, devs: seq<MediaDevice>, k: DeviceKind, dflt: Entry)
    ensures forall j | 0 <= j < |devs| && devs[j].kind == k && Labelled(devs[j]) :: Listed(AddAll(list, devs, k, dflt).0, devs[j].id)
    decreases |devs|
  {
    if |devs| > 0 {
      var l1 := AddOne(list, devs[0], k, dflt).0;
      var l2 := AddAll(l1, devs[1..], k, dflt).0;
      AddAllComplete(l1, devs[1..], k, dflt);
      forall j | 0 <= j < |devs| && devs[j].kind == k && Labelled(devs[j])
        ensures Listed(l2, devs[j].id)
      {
        if j == 0 {
          var i :| 0 <= i < |l1| && l1[i].id == devs[0].id;
          assert l2[..|l1|][i] == l1[i];
        } else {
          assert devs[1..][j - 1] == devs[j];
        }
      }
    }
  }

  /** An entry appended by the pass comes from a labelled device of the
      kind, or is the default entry at the head of a list that was empty. */
  predicate FromDevice(devs: seq<MediaDevice>, k: DeviceKind, e: Entry) {
    exists j :: 0 <= j < |devs| && devs[j].kind == k && Labelled(devs[j]) && e == Entry(devs[j].id, devs[j].name)
  }

  lemma {:induction false} AddAllOrigin(list: seq<Entry>, devs: seq<MediaDevice>, k: DeviceKind, dflt: Entry)
    ensures var l := AddAll(list, devs, k, dflt).0;
      forall i | |list| <= i < |l| :: (i == 0 && l[i] == dflt) || FromDevice(devs, k, l[i])
    decreases |devs|
  {
    if |devs| > 0 {
      var l1 := AddOne(list, devs[0], k, dflt).0;
      var l := AddAll(list, devs, k, dflt).0;
      assert l == AddAll(l1, devs[1..], k, dflt).0;
      AddAllOrigin(l1, devs[1..], k, dflt);
      forall i | |list| <= i < |l|
        ensures (i == 0 && l[i] == dflt) || FromDevice(devs, k, l[i])
      {
        if i < |l1| {
          assert l[..|l1|][i] == l1[i];
          if i > 0 || l1[i] != dflt {
            assert FromDevice(devs, k, l[i]) by {
              assert devs[0].kind == k && Labelled(devs[0]) && l[i] == Entry(devs[0].id, devs[0].name);
            }
          }
        } else {
          assert (i == 0 && l[i] == dflt) || FromDevice(devs[1..], k, l[i]);
          if FromDevice(devs[1..], k, l[i]) {
            var j :| 0 <= j < |devs[1..]| && devs[1..][j].kind == k && Labelled(devs[1..][j]) && l[i] == Entry(devs[1..][j].id, devs[1..][j].name);
            assert devs[j + 1] == devs[1..][j];
            assert FromDevice(devs, k, l[i]);
          }
        }
      }
    }
  }

  lemma AddOneWellFormed(list: seq<Entry>, d: MediaDevice, k: DeviceKind, dflt: Entry)
    requires WellFormed(list) && dflt.id == DefaultId
    ensures WellFormed(AddOne(list, d, k, dflt).0)
  {
    if d.kind == k {
      var l1 := if |list| == 0 then [dflt] else list;
      if Labelled(d) && !Listed(l1, d.id) {
        var s := l1 + [Entry(d.id, d.name)];
        forall i, j | 0 <= i < j < |s|
          ensures s[i].id != s[j].id
        {
          if j == |s| - 1 {
            assert s[i] == l1[i];
          }
        }
      }
    }
  }

  lemma {:induction false} AddAllWellFormed(list: seq<Entry>, devs: seq<MediaDevice>, k: DeviceKind, dflt: Entry)
    requires WellFormed(list) && dflt.id == DefaultId
    ensures WellFormed(AddAll(list, devs, k, dflt).0)
    decreases |devs|
  {
    if |devs| > 0 {
      AddOneWellFormed(list, devs[0], k, dflt);
      AddAllWellFormed(AddOne(list, devs[0], k, dflt).0, devs[1..], k, dflt);
    }
  }

  /** A pass over devices that are all listed already adds nothing. */
  lemma {:induction false} AddAllNothingNew(list: seq<Entry>, devs: seq<MediaDevice>, k: DeviceKind, dflt: Entry)
    requires |list| > 0 || !HasKind(devs, k)
    requires forall j | 0 <= j < |devs| && devs[j].kind == k && Labelled(devs[j]) :: Listed(list, devs[j].id)
    ensures AddAll(list, devs, k, dflt) == (list, false)
    decreases |devs|
  {
    if |devs| > 0 {
      if !HasKind(devs, k) {
      } else {
        assert AddOne(list, devs[0], k, dflt) == (list, false);
        forall j | 0 <= j < |devs[1..]| && devs[1..][j].kind == k && Labelled(devs[1..][j])
          ensures Listed(list, devs[1..][j].id)
        {
          assert devs[1..][j] == devs[j + 1];
        }
        AddAllNothingNew(list, devs[1..], k, dflt);
      }
    }
  }

  // ---------------------------------------------------------------------
  // One kind

  /** The new list, the entries removed (and destroyed) in removal order,
      and whether a labelled device was added. */
  datatype KindUpdate = KindUpdate(entries: seq<Entry>, removed: seq<Entry>, added: bool)

  function UpdateKind(list: seq<Entry>, devs: seq<MediaDevice>, k: DeviceKind, dflt: Entry): (r: KindUpdate)
    ensures |r.entries| > 0 <==> HasKind(devs, k)
    ensures forall x | x in r.removed :: x in list
    ensures r.added ==> |r.entries| > 1
    ensures !r.added && |r.removed| == 0 ==> r.entries == list || (list == [] && r.entries == [dflt])
  {
    var (kept, removed) := Prune(list, devs, k);
    var (l, a) := AddAll(kept, devs, k, dflt);
    assert |removed| == 0 ==> kept == list by {
      if |removed| == 0 {
        PruneSubsequence(list, devs, k);
      }
    }
    KindUpdate(l, removed, a)
  }

  lemma {:induction false} PruneSubsequence(list: seq<Entry>, devs: seq<MediaDevice>, k: DeviceKind)
    ensures |Prune(list, devs, k).1| == 0 ==> Prune(list, devs, k).0 == list
    decreases |list|
  {
    if |list| > 0 {
      var n := |list| - 1;
      PruneSubsequence(list[..n], devs, k);
      assert list[..n] + [list[n]] == list;
    }
  }

  lemma UpdateKindWellFormed(list: seq<Entry>, devs: seq<MediaDevice>, k: DeviceKind, dflt: Entry)
    requires WellFormed(list) && dflt.id == DefaultId
    ensures WellFormed(UpdateKind(list, devs, k, dflt).entries)
  {
    PruneSurvivors(list, devs, k);
    AddAllWellFormed(Prune(list, devs, k).0, devs, k, dflt);
  }

  /** The entries of the old list that remain are exactly those that
      `Survive`, and each labelled device of the kind has an entry. */
  lemma UpdateKindMembers(list: seq<Entry>, devs: seq<MediaDevice>, k: DeviceKind, dflt: Entry)
    requires WellFormed(list) && dflt.id == DefaultId
    ensures forall i | 0 <= i < |list| :: list[i] in UpdateKind(list, devs, k, dflt).entries <==> Survives(list, i, devs, k)
    ensures forall j | 0 <= j < |devs| && devs[j].kind == k && Labelled(devs[j]) :: Listed(UpdateKind(list, devs, k, dflt).entries, devs[j].id)
  {
    var kept := Prune(list, devs, k).0;
    var l := UpdateKind(list, devs, k, dflt).entries;
    assert l == AddAll(kept, devs, k, dflt).0;
    PruneSurvivors(list, devs, k);
    AddAllOrigin(kept, devs, k, dflt);
    AddAllComplete(kept, devs, k, dflt);
    forall i | 0 <= i < |list|
      ensures list[i] in l <==> Survives(list, i, devs, k)
    {
      if Survives(list, i, devs, k) {
        var m :| 0 <= m < |kept| && kept[m] == list[i];
        assert l[..|kept|][m] == l[m];
      }
      if list[i] in l && i > 0 {
        var m :| 0 <= m < |l| && l[m] == list[i];
        if m < |kept| {
          assert l[..|kept|][m] == l[m];
          assert list[i] in kept;
        } else {
          assert list[i].id != list[0].id;
          OriginAt(kept, devs, k, dflt, m);
          var j :| 0 <= j < |devs| && devs[j].kind == k && Labelled(devs[j]) && l[m] == Entry(devs[j].id, devs[j].name);
          assert devs[j].id == list[i].id;
        }
      }
    }
  }

  /** `AddAllOrigin` at one index past the head. */
  lemma OriginAt(list: seq<Entry>, devs: seq<MediaDevice>, k: DeviceKind, dflt: Entry, i: int)
    requires |list| <= i < |AddAll(list, devs, k, dflt).0|
    requires AddAll(list, devs, k, dflt).0[i].id != dflt.id
    ensures FromDevice(devs, k, AddAll(list, devs, k, dflt).0[i])
  {
    AddAllOrigin(list, devs, k, dflt);
  }

  /** Every entry of an updated list is backed by the same enumeration. */
  lemma UpdateKindAllSurvive(list: seq<Entry>, devs: seq<MediaDevice>, k: DeviceKind, dflt: Entry)
    requires WellFormed(list) && dflt.id == DefaultId
    ensures var l := UpdateKind(list, devs, k, dflt).entries;
      forall i | 0 <= i < |l| :: Survives(l, i, devs, k)
  {
    var kept := Prune(list, devs, k).0;
    var l := UpdateKind(list, devs, k, dflt).entries;
    assert l == AddAll(kept, devs, k, dflt).0;
    PruneSurvivors(list, devs, k);
    UpdateKindWellFormed(list, devs, k, dflt);
    forall i | 0 <= i < |l|
      ensures Survives(l, i, devs, k)
    {
      if i > 0 {
        if i < |kept| {
          assert l[..|kept|][i] == l[i];
          assert kept[i].id != kept[0].id;
          assert kept[i] in kept;
          var m :| 0 <= m < |list| && list[m] == kept[i];
          assert m != 0;
          assert Survives(list, m, devs, k);
        } else {
          assert l[i].id != DefaultId;
          OriginAt(kept, devs, k, dflt, i);
          var j :| 0 <= j < |devs| && devs[j].kind == k && Labelled(devs[j]) && l[i] == Entry(devs[j].id, devs[j].name);
        }
      }
    }
  }

  /** A second update with the same enumeration changes nothing, removes
      nothing and reports nothing. */
  lemma UpdateKindIdempotent(list: seq<Entry>, devs: seq<MediaDevice>, k: DeviceKind, dflt: Entry)
    requires WellFormed(list) && dflt.id == DefaultId
    ensures var l := UpdateKind(list, devs, k, dflt).entries;
      UpdateKind(l, devs, k, dflt) == KindUpdate(l, [], false)
  {
    var l := UpdateKind(list, devs, k, dflt).entries;
    UpdateKindAllSurvive(list, devs, k, dflt);
    UpdateKindMembers(list, devs, k, dflt);
    PruneKeepsAll(l, devs, k);
    AddAllNothingNew(l, devs, k, dflt);
  }

  // ---------------------------------------------------------------------
  // The registry

  datatype Registry = Registry(microphones: seq<Entry>, cameras: seq<Entry>)

  /** The new lists, every entry `destroy` is called on, in call order,
      and whether `onDeviceRegistryChanged` is called. */
  datatype Outcome = Outcome(registry: Registry, destroyed: seq<Entry>, notified: bool)

  predicate Valid(reg: Registry) {
    WellFormed(reg.microphones) && WellFormed(reg.cameras)
  }

  /** `update()` given the enumeration and whether a listener is set:
      removed microphones, then removed cameras, are destroyed; the default
      entry of a kind is destroyed (but kept) when a labelled device of
      that kind was added; the listener hears of additions and removals
      only. */
  function Update(reg: Registry, devs: seq<MediaDevice>, listening: bool): (r: Outcome)
    ensures |r.registry.microphones| > 0 <==> HasKind(devs, AudioInput)
    ensures |r.registry.cameras| > 0 <==> HasKind(devs, VideoInput)
    ensures r.notified ==> listening
    ensures listening && !r.notified ==> r.destroyed == []
  {
    var mic := UpdateKind(reg.microphones, devs, AudioInput, DefaultMicrophone);
    var cam := UpdateKind(reg.cameras, devs, VideoInput, DefaultCamera);
    var defaults := (if mic.added then [mic.entries[0]] else []) + (if cam.added then [cam.entries[0]] else []);
    Outcome(Registry(mic.entries, cam.entries), mic.removed + cam.removed + defaults,
      listening && (|mic.removed| > 0 || |cam.removed| > 0 || mic.added || cam.added))
  }

  lemma InitialValid()
    ensures Valid(Registry([], []))
  {
  }

  lemma UpdateKeepsValid(reg: Registry, devs: seq<MediaDevice>, listening: bool)
    requires Valid(reg)
    ensures Valid(Update(reg, devs, listening).registry)
  {
    UpdateKindWellFormed(reg.microphones, devs, AudioInput, DefaultMicrophone);
    UpdateKindWellFormed(reg.cameras, devs, VideoInput, DefaultCamera);
  }

  /** A labelled device is added only as a new entry, and its kind's
      default entry is then destroyed: the destroyed defaults are exactly
      one per kind that gained a labelled device. */
  lemma UpdateDestroysDefault(reg: Registry, devs: seq<MediaDevice>, listening: bool)
    requires Valid(reg)
    ensures var mic := UpdateKind(reg.microphones, devs, AudioInput, DefaultMicrophone);
      var cam := UpdateKind(reg.cameras, devs, VideoInput, DefaultCamera);
      var r := Update(reg, devs, listening);
      && (mic.added ==> DefaultMicrophone.id == r.registry.microphones[0].id)
      && (cam.added ==> DefaultCamera.id == r.registry.cameras[0].id)
      && |r.destroyed| == |mic.removed| + |cam.removed| + (if mic.added then 1 else 0) + (if cam.added then 1 else 0)
  {
    UpdateKindWellFormed(reg.microphones, devs, AudioInput, DefaultMicrophone);
    UpdateKindWellFormed(reg.cameras, devs, VideoInput, DefaultCamera);
  }

  /** Without a notification, the lists changed at most by gaining their
      default entry: inserting the default entry alone is not reported. */
  lemma SilentUpdate(reg: Registry, devs: seq<MediaDevice>)
    ensures var r := Update(reg, devs, true);
      !r.notified ==>
        && (r.registry.microphones == reg.microphones || (reg.microphones == [] && r.registry.microphones == [DefaultMicrophone]))
        && (r.registry.cameras == reg.cameras || (reg.cameras == [] && r.registry.cameras == [DefaultCamera]))
  {
  }

  /** Updating twice with the same enumeration: the second update leaves
      the registry as it is, destroys nothing and notifies nobody. */
  lemma UpdateIdempotent(reg: Registry, devs: seq<MediaDevice>, listening: bool)
    requires Valid(reg)
    ensures var r := Update(reg, devs, listening);
      Update(r.registry, devs, listening) == Outcome(r.registry, [], false)
  {
    UpdateKindIdempotent(reg.microphones, devs, AudioInput, DefaultMicrophone);
    UpdateKindIdempotent(reg.cameras, devs, VideoInput, DefaultCamera);
  }
}

=== FILE: distortion.dfy ===
/** Distortion detection for received media: a `Distortion` is one
    interval of degraded reception on a media track (identified by its
    `mtid`), and the `DistortionRegistry` opens, prolongs and closes such
    intervals and reports them over the data channel. `Date.now()` is the
    explicit parameter `now` (milliseconds). */
module Distortions {
  import opened Wrappers
  import opened Numbers

  datatype Distortion = Distortion(mtid: string, timestamp: int, duration: int)

  /** A distortion is always reported with a one-second delay: it is
      opened one second in the past and lasts one second so far. */
  function NewDistortion(mtid: string, now: int): (d: Distortion)
    ensures d.mtid == mtid
    ensures d.timestamp + d.duration == now && d.duration == 1000
  {
    Distortion(mtid, now - 1000, 1000)
  }

  /** Ended once more than 1.5 s have passed since its last moment. */
  predicate IsEnded(d: Distortion, now: int) {
    now - (d.timestamp + d.duration) > 1500
  }

  /** Extends a distortion that has not ended so that it lasts until
      `now`; an ended one is left alone and `false` is returned. */
  function Prolong(d: Distortion, now: int): (r: (bool, Distortion))
    ensures r.0 <==> !IsEnded(d, now)
    ensures r.0 ==> (r.1.mtid == d.mtid && r.1.timestamp == d.timestamp
                     && r.1.timestamp + r.1.duration == now && !IsEnded(r.1, now))
    ensures !r.0 ==> r.1 == d
  {
    if !IsEnded(d, now) then (true, d.(duration := now - d.timestamp)) else (false, d)
  }

  /** The wire text: version `1`, the track, the start in milliseconds and
      the duration rounded to whole seconds, separated by colons. */
  function Text(d: Distortion): string {
    "1:" + d.mtid + ":" + IntToString(d.timestamp) + ":" + IntToString(RoundMillisToSeconds(d.duration))
  }

  /** Reads a wire text back into (mtid, start, seconds). */
  function ParseText(s: string): Option<(string, int, int)> {
    var parts := Split(s, ':');
    if |parts| == 4 && parts[0] == "1" then
      match (ParseInt(parts[2]), ParseInt(parts[3]))
      case (Some(t), Some(secs)) => Some((parts[1], t, secs))
      case _ => None
    else None
  }

  /** The wire text of a distortion whose mtid has no colon determines the
      mtid, the start and the rounded duration. */
  lemma TextRoundTrip(d: Distortion)
    requires ':' !in d.mtid
    ensures ParseText(Text(d)) == Some((d.mtid, d.timestamp, RoundMillisToSeconds(d.duration)))
  {
    var t := IntToString(d.timestamp);
    var secs := IntToString(RoundMillisToSeconds(d.duration));
    var parts := ["1", d.mtid, t, secs];
    TextJoin(d.mtid, t, secs);
    SplitJoinAll(parts, ':');
    ParseIntToString(d.timestamp);
    ParseIntToString(RoundMillisToSeconds(d.duration));
  }

  /** The wire text is its four fields joined by colons. */
  lemma TextJoin(m: string, t: string, secs: string)
    ensures "1:" + m + ":" + t + ":" + secs == Join(["1", m, t, secs], ':')
  {
    var ps := ["1", m, t, secs];
    assert Join(ps[3..], ':') == secs;
    assert Join(ps[2..], ':') == t + ":" + secs;
    assert Join(ps[1..], ':') == m + ":" + t + ":" + secs;
  }

  // ---------------------------------------------------------------------
  // The registry.

  /** `mtids` maps each watched track to when it was added; `distortions`
      is the insertion-ordered map of open distortions (one per mtid);
      `messages` are texts waiting for the next report. */
  datatype Registry = Registry(mtids: map<string, int>, distortions: seq<Distortion>, messages: seq<string>)

  const EmptyRegistry: Registry := Registry(map[], [], [])

  predicate UniqueMtids(ds: seq<Distortion>) {
    forall i, j :: 0 <= i < j < |ds| ==> ds[i].mtid != ds[j].mtid
  }

  predicate Valid(r: Registry) {
    UniqueMtids(r.distortions)
  }

  function AddMtid(r: Registry, mtid: string, now: int): (r': Registry)
    ensures mtid in r'.mtids && r'.mtids[mtid] == now
    ensures forall m :: m != mtid ==> (m in r'.mtids <==> m in r.mtids)
    ensures r'.distortions == r.distortions && r'.messages == r.messages
  {
    r.(mtids := r.mtids[mtid := now])
  }

  function RemoveMtid(r: Registry, mtid: string): (r': Registry)
    ensures mtid !in r'.mtids
    ensures forall m :: m != mtid ==> (m in r'.mtids <==> m in r.mtids)
    ensures r'.distortions == r.distortions && r'.messages == r.messages
  {
    r.(mtids := r.mtids - {mtid})
  }

  /** Position of the open distortion of `mtid`, or -1. */
  function Find(ds: seq<Distortion>, mtid: string): (k: int)
    ensures -1 <= k < |ds|
    ensures k == -1 <==> forall i :: 0 <= i < |ds| ==> ds[i].mtid != mtid
    ensures k >= 0 ==> ds[k].mtid == mtid
    decreases |ds|
  {
    if |ds| == 0 then -1
    else if ds[|ds| - 1].mtid == mtid then |ds| - 1
    else Find(ds[..|ds| - 1], mtid)
  }

  /** Whether distortions of `mtid` are being counted at `now`: the track is
      watched and has been for more than three seconds. */
  predicate Watched(r: Registry, mtid: string, now: int) {
    mtid in r.mtids && now - r.mtids[mtid] > 3000
  }

  /** `registerDistortion`: prolong the open distortion of a watched track,
      or queue the text of the ended one and open a new one in its place. */
  function RegisterDistortion(r: Registry, mtid: string, now: int): (r': Registry)
    requires Valid(r)
    ensures Valid(r')
    ensures r'.mtids == r.mtids
    ensures !Watched(r, mtid, now) ==> r' == r
    ensures Watched(r, mtid, now) ==> |r'.distortions| >= |r.distortions|
    ensures Watched(r, mtid, now) ==>
      var k := Find(r.distortions, mtid);
      if k == -1 then
        r'.distortions == r.distortions + [NewDistortion(mtid, now)] && r'.messages == r.messages
      else if !IsEnded(r.distortions[k], now) then
        r'.distortions == r.distortions[k := Prolong(r.distortions[k], now).1] && r'.messages == r.messages
      else
        r'.distortions == r.distortions[k := NewDistortion(mtid, now)]
        && r'.messages == r.messages + [Text(r.distortions[k])]
  {
    if Watched(r, mtid, now) then
      var k := Find(r.distortions, mtid);
      if k >= 0 then
        var (prolonged, d) := Prolong(r.distortions[k], now);
        if prolonged then r.(distortions := r.distortions[k := d])
        else r.(distortions := r.distortions[k := NewDistortion(mtid, now)], messages := r.messages + [Text(r.distortions[k])])
      else
        r.(distortions := r.distortions + [NewDistortion(mtid, now)])
    else r
  }

  /** The open distortions that have ended by `now`, in map order. */
  function Ended(ds: seq<Distortion>, now: int): (e: seq<Distortion>)
    ensures |e| <= |ds|
    decreases |ds|
  {
    if |ds| == 0 then [] else Dropped(ds[0], now) + Ended(ds[1..], now)
  }

  /** `d` when it has ended, nothing otherwise. */
  function Dropped(d: Distortion, now: int): seq<Distortion> {
    if IsEnded(d, now) then [d] else []
  }

  /** `d` while it has not ended, nothing otherwise. */
  function Kept(d: Distortion, now: int): seq<Distortion> {
    if IsEnded(d, now) then [] else [d]
  }

  /** The open distortions that have not ended by `now`, in map order. */
  function Live(ds: seq<Distortion>, now: int): (l: seq<Distortion>)
    ensures |l| <= |ds|
    ensures forall i :: 0 <= i < |l| ==> !IsEnded(l[i], now) && l[i] in ds
    decreases |ds|
  {
    if |ds| == 0 then [] else Kept(ds[0], now) + Live(ds[1..], now)
  }

  function Texts(ds: seq<Distortion>): (ts: seq<string>)
    ensures |ts| == |ds| && forall i :: 0 <= i < |ds| ==> ts[i] == Text(ds[i])
  {
    if |ds| == 0 then [] else [Text(ds[0])] + Texts(ds[1..])
  }

  /** Reporting splits the open distortions: every one is either kept or
      reported, and the counts add up. */
  lemma {:induction false} EndedLivePartition(ds: seq<Distortion>, now: int)
    ensures |Ended(ds, now)| + |Live(ds, now)| == |ds|
    decreases |ds|
  {
    if |ds| > 0 {
      EndedLivePartition(ds[1..], now);
    }
  }

  lemma {:induction false} LiveKeepsUnique(ds: seq<Distortion>, now: int)
    requires UniqueMtids(ds)
    ensures UniqueMtids(Live(ds, now))
    decreases |ds|
  {
    if |ds| > 0 {
      LiveKeepsUnique(ds[1..], now);
      var l := Live(ds, now);
      if !IsEnded(ds[0], now) {
        forall j | 0 < j < |l|
          ensures l[0].mtid != l[j].mtid
        {
          assert l[j] in Live(ds[1..], now);
          assert l[j] in ds[1..];
        }
      }
    }
  }

  lemma {:induction false} LiveAppend(a: seq<Distortion>, d: Distortion, now: int)
    ensures Live(a + [d], now) == Live(a, now) + Kept(d, now)
    decreases |a|
  {
    if |a| == 0 {
      assert a + [d] == [d] && [d][1..] == [];
    } else {
      var x := a + [d];
      assert x[0] == a[0] && x[1..] == a[1..] + [d];
      LiveAppend(a[1..], d, now);
      assert Live(x, now) == Kept(a[0], now) + (Live(a[1..], now) + Kept(d, now));
    }
  }

  lemma {:induction false} EndedAppend(a: seq<Distortion>, d: Distortion, now: int)
    ensures Ended(a + [d], now) == Ended(a, now) + Dropped(d, now)
    decreases |a|
  {
    if |a| == 0 {
      assert a + [d] == [d] && [d][1..] == [];
    } else {
      var x := a + [d];
      assert x[0] == a[0] && x[1..] == a[1..] + [d];
      EndedAppend(a[1..], d, now);
      assert Ended(x, now) == Dropped(a[0], now) + (Ended(a[1..], now) + Dropped(d, now));
    }
  }

  lemma TextsAppend(a: seq<Distortion>, d: Distortion)
    ensures Texts(a + [d]) == Texts(a) + [Text(d)]
  {
  }

  lemma ReportStep(ds: seq<Distortion>, i: int, now: int)
    requires 0 <= i < |ds|
    ensures Live(ds[..i + 1], now) == Live(ds[..i], now) + Kept(ds[i], now)
    ensures Texts(Ended(ds[..i + 1], now)) == Texts(Ended(ds[..i], now)) + Texts(Dropped(ds[i], now))
  {
    assert ds[..i + 1] == ds[..i] + [ds[i]];
    LiveAppend(ds[..i], ds[i], now);
    EndedAppend(ds[..i], ds[i], now);
    TextsConcat(Ended(ds[..i], now), Dropped(ds[i], now));
  }

  lemma TextsConcat(a: seq<Distortion>, b: seq<Distortion>)
    requires |b| <= 1
    ensures Texts(a + b) == Texts(a) + Texts(b)
  {
    if |b| == 1 {
      TextsAppend(a, b[0]);
      assert b == [b[0]];
    } else {
      assert a + b == a;
    }
  }

  /** The loop of `report` over the open distortions: the ones still
      open are kept and the texts of the ended ones are collected, in map
      order. */
  method Sweep(ds: seq<Distortion>, now: int) returns (kept: seq<Distortion>, texts: seq<string>)
    ensures kept == Live(ds, now)
    ensures texts == Texts(Ended(ds, now))
  {
    kept, texts := [], [];
    var i := 0;
    while i < |ds|
      invariant 0 <= i <= |ds|
      invariant kept == Live(ds[..i], now)
      invariant texts == Texts(Ended(ds[..i], now))
    {
      ReportStep(ds, i, now);
      texts := texts + Texts(Dropped(ds[i], now));
      kept := kept + Kept(ds[i], now);
      i := i + 1;
    }
    assert ds[..i] == ds;
  }

  /** `report`: queue the text of every ended distortion and drop it, then
      send every queued message in order; the queue is left empty. */
  method Report(r: Registry, now: int) returns (r': Registry, sent: seq<string>)
    requires Valid(r)
    ensures Valid(r')
    ensures r'.mtids == r.mtids && r'.messages == []
    ensures r'.distortions == Live(r.distortions, now)
    ensures sent == r.messages + Texts(Ended(r.distortions, now))
    ensures forall d :: d in r'.distortions ==> !IsEnded(d, now)
  {
    var kept, texts := Sweep(r.distortions, now);
    LiveKeepsUnique(r.distortions, now);
    r' := Registry(r.mtids, kept, []);
    sent := r.messages + texts;
  }

  /** Once a track is removed, distortions reported for it are ignored. */
  lemma RemovedTrackIgnored(r: Registry, mtid: string, now: int)
    requires Valid(r)
    ensures Valid(RemoveMtid(r, mtid))
    ensures RegisterDistortion(RemoveMtid(r, mtid), mtid, now) == RemoveMtid(r, mtid)
  {
  }

  /** A freshly watched track is in its three-second grace period. */
  lemma GracePeriod(r: Registry, mtid: string, added: int, now: int)
    requires Valid(r) && now <= added + 3000
    ensures RegisterDistortion(AddMtid(r, mtid, added), mtid, now) == AddMtid(r, mtid, added)
  {
  }

  /** Reporting twice at the same instant sends nothing the second time. */
  method ReportTwiceSendsNothing(r: Registry, now: int) returns (sent: seq<string>)
    requires Valid(r)
    ensures sent == []
  {
    var r1, _ := Report(r, now);
    var r2;
    r2, sent := Report(r1, now);
    EndedOfLive(r.distortions, now);
  }

  lemma {:induction false} EndedOfLive(ds: seq<Distortion>, now: int)
    ensures Ended(Live(ds, now), now) == []
    decreases |ds|
  {
    if |ds| > 0 {
      EndedOfLive(ds[1..], now);
      var l := Live(ds[1..], now);
      if !IsEnded(ds[0], now) {
        assert ([ds[0]] + l)[1..] == l;
      } else {
        assert [] + l == l;
      }
    }
  }
}

=== FILE: encoding.dfy ===
/** The encoding allocator of the WebRTC connection: how one video buffer
    plus the caps of the stream it belongs to become the RTP encoding
    parameters of a sending transceiver, either as three independent
    simulcast encodings (VP8) or as one scalable VP9 encoding with spatial
    layers. */
module VideoEncoding {
  import opened Wrappers
  import opened Numbers

  /** A `MediaStreamVideoBuffer`: width and height are `+Infinity` for a
      screen capture; `adaptivity` is the number of layers (1 to 3). */
  datatype VideoBuffer = VideoBuffer(
    track: nat,
    remote: bool,
    width: Ext,
    height: Ext,
    bitrate: int,
    adaptivity: int,
    scale: real)

  predicate ValidBuffer(b: VideoBuffer) {
    && IsPositive(b.width)
    && IsPositive(b.height)
    && b.bitrate > 0
    && 1 <= b.adaptivity <= 3
    && b.scale > 0.0
  }

  /** The `maxVideo*` caps of the stream being sent; each is positive or
      `+Infinity` (the default). */
  datatype Caps = Caps(maxBitrate: Ext, maxFrameArea: Ext, maxFrameRate: Ext)

  /** One `RTCRtpEncodingParameters` entry; `None` is `undefined`. */
  datatype Encoding = Encoding(
    active: bool,
    scaleDownBy: real,
    maxBitrate: int,
    scalabilityMode: Option<string>,
    maxFramerate: Option<int>)

  /** Cumulative bitrate share of 1, 2 and 3 layers: 1, 1 + 4, 1 + 4 + 16. */
  const BitrateFractions: seq<int> := [1, 5, 21]

  /** The resolution divisor the source looks up by absolute layer index. */
  const ResolutionScales: seq<int> := [4, 2, 1]

  /** Which resolution divisor the frame-area check uses for layer `i`:
      `AsWritten` is the table lookup of the source, `Intended` is the
      divisor the layer is actually sent with, `2^(adaptivity - 1 - i)`.
      The two differ only for adaptivity 2 (see README, Findings). */
  datatype AreaRule = AsWritten | Intended

  function AreaDivisor(rule: AreaRule, adaptivity: int, i: int): (d: int)
    requires 1 <= adaptivity <= 3 && 0 <= i < adaptivity
    ensures d >= 1
  {
    match rule
    case AsWritten => ResolutionScales[i]
    case Intended => PowPositive(2, adaptivity - 1 - i); Pow(2, adaptivity - 1 - i)
  }

  /** `width * height / divisor^2 <= cap`, exact on integers; an infinite
      dimension only fits an infinite cap. */
  predicate AreaFits(w: Ext, h: Ext, divisor: int, cap: Ext) {
    cap.Inf? || (w.Fin? && h.Fin? && w.n * h.n <= cap.n * divisor * divisor)
  }

  /** `maxFramerate` is left `undefined` for an unlimited frame rate. */
  function FramerateCap(caps: Caps): Option<int> {
    if caps.maxFrameRate.Inf? then None else Some(caps.maxFrameRate.n)
  }

  // ---------------------------------------------------------------------
  // Simulcast (VP8): three encodings, lowest quality first.

  /** `Math.floor(bitrate / fraction)`, the bitrate of the lowest layer. */
  function BaseBitrate(b: VideoBuffer): int
    requires ValidBuffer(b)
  {
    b.bitrate / BitrateFractions[b.adaptivity - 1]
  }

  /** The bitrate of layer `i`: four times that of the layer below it. */
  function LayerBitrate(b: VideoBuffer, i: nat): int
    requires ValidBuffer(b)
  {
    BaseBitrate(b) * Pow(4, i)
  }

  /** The sum of `4^k` for `k` from 0 to `i`. */
  function SumPow4(i: nat): nat {
    if i == 0 then 1 else SumPow4(i - 1) + Pow(4, i)
  }

  /** Bitrate of layers 0 to `i` together, stated in closed form. */
  function CumulativeBitrate(b: VideoBuffer, i: nat): int
    requires ValidBuffer(b)
  {
    BaseBitrate(b) * SumPow4(i)
  }

  /** Whether simulcast layer `i` is sent: it exists for this adaptivity
      and is the lowest layer or fits both the bitrate and area caps. */
  predicate LayerActive(rule: AreaRule, b: VideoBuffer, caps: Caps, i: int)
    requires ValidBuffer(b) && 0 <= i
  {
    && i < b.adaptivity
    && (i == 0 ||
        (&& Leq(Fin(CumulativeBitrate(b, i)), caps.maxBitrate)
         && AreaFits(b.width, b.height, AreaDivisor(rule, b.adaptivity, i), caps.maxFrameArea)))
  }

  function Reset(e: Encoding): Encoding {
    e.(active := false, scaleDownBy := 1.0, maxBitrate := 0)
  }

  function ActiveLayer(e: Encoding, b: VideoBuffer, caps: Caps, i: int): Encoding
    requires ValidBuffer(b) && 0 <= i < b.adaptivity
  {
    e.(active := true,
       scaleDownBy := b.scale * Pow(2, b.adaptivity - 1 - i) as real,
       maxBitrate := LayerBitrate(b, i),
       scalabilityMode := Some("L1T3"),
       maxFramerate := FramerateCap(caps))
  }

  /** The simulcast branch of `configureVideoTransceiver`: every encoding is
      first deactivated; only when there are exactly three are the layers
      allowed by the caps switched on, and the lowest always is. */
  method ConfigureSimulcast(rule: AreaRule, prev: seq<Encoding>, b: VideoBuffer, caps: Caps) returns (r: seq<Encoding>)
    requires ValidBuffer(b)
    ensures |r| == |prev|
    ensures |prev| != 3 ==> forall i :: 0 <= i < |r| ==> r[i] == Reset(prev[i])
    ensures |prev| == 3 ==> r[0].active
    ensures |prev| == 3 ==> forall i :: 0 <= i < 3 ==>
      r[i] == (if LayerActive(rule, b, caps, i) then ActiveLayer(prev[i], b, caps, i) else Reset(prev[i]))
  {
    r := ResetAll(prev);
    if |r| == 3 {
      r := EnableLayers(rule, prev, r, b, caps);
    }
  }

  /** The first loop: every encoding deactivated. */
  method ResetAll(prev: seq<Encoding>) returns (r: seq<Encoding>)
    ensures |r| == |prev|
    ensures forall i :: 0 <= i < |r| ==> r[i] == Reset(prev[i])
  {
    r := prev;
    var i := 0;
    while i < |r|
      invariant 0 <= i <= |r| == |prev|
      invariant forall j :: 0 <= j < i ==> r[j] == Reset(prev[j])
      invariant forall j :: i <= j < |r| ==> r[j] == prev[j]
    {
      r := r[i := r[i].(active := false, scaleDownBy := 1.0, maxBitrate := 0)];
      i := i + 1;
    }
  }

  /** The second loop: layer `i` switched on while the running bitrate and
      the frame area stay within the caps, the lowest one unconditionally. */
  method EnableLayers(rule: AreaRule, prev: seq<Encoding>, reset: seq<Encoding>, b: VideoBuffer, caps: Caps) returns (r: seq<Encoding>)
    requires ValidBuffer(b) && |prev| == |reset| == 3
    requires forall j :: 0 <= j < 3 ==> reset[j] == Reset(prev[j])
    ensures |r| == 3
    ensures forall i :: 0 <= i < 3 ==>
      r[i] == (if LayerActive(rule, b, caps, i) then ActiveLayer(prev[i], b, caps, i) else Reset(prev[i]))
  {
    r := reset;
    var total := 0;
    var base := b.bitrate / BitrateFractions[b.adaptivity - 1];
    var i := 0;
    while i < b.adaptivity
      invariant 0 <= i <= b.adaptivity
      invariant |r| == 3
      invariant total == if i == 0 then 0 else CumulativeBitrate(b, i - 1)
      invariant forall j :: 0 <= j < i ==>
        r[j] == (if LayerActive(rule, b, caps, j) then ActiveLayer(prev[j], b, caps, j) else Reset(prev[j]))
      invariant forall j :: i <= j < 3 ==> r[j] == Reset(prev[j])
    {
      var maxBitrate := base * Pow(4, i);
      total := total + maxBitrate;
      LayerStep(rule, b, caps, i, total);
      if i == 0 || (Leq(Fin(total), caps.maxBitrate) && AreaFits(b.width, b.height, AreaDivisor(rule, b.adaptivity, i), caps.maxFrameArea)) {
        r := r[i := r[i].(active := true,
                          scaleDownBy := b.scale * Pow(2, b.adaptivity - 1 - i) as real,
                          maxBitrate := maxBitrate,
                          scalabilityMode := Some("L1T3"),
                          maxFramerate := if caps.maxFrameRate.Inf? then None else Some(caps.maxFrameRate.n))];
      }
      i := i + 1;
    }
  }

  /** The running total after layer `i` is the cumulative bitrate, so the
      loop's test is `LayerActive`. */
  lemma LayerStep(rule: AreaRule, b: VideoBuffer, caps: Caps, i: int, total: int)
    requires ValidBuffer(b) && 0 <= i < b.adaptivity
    requires total == (if i == 0 then 0 else CumulativeBitrate(b, i - 1)) + BaseBitrate(b) * Pow(4, i)
    ensures total == CumulativeBitrate(b, i)
    ensures LayerActive(rule, b, caps, i) <==>
      i == 0 || (Leq(Fin(total), caps.maxBitrate) && AreaFits(b.width, b.height, AreaDivisor(rule, b.adaptivity, i), caps.maxFrameArea))
  {
    if i > 0 {
      assert BaseBitrate(b) * SumPow4(i) == BaseBitrate(b) * SumPow4(i - 1) + BaseBitrate(b) * Pow(4, i);
    }
  }

  lemma {:induction false} SumPow4Increasing(i: nat, j: nat)
    requires i <= j
    ensures SumPow4(i) <= SumPow4(j)
    decreases j - i
  {
    if i < j {
      SumPow4Increasing(i, j - 1);
    }
  }

  lemma AreaFitsMonotone(w: Ext, h: Ext, d1: int, d2: int, cap: Ext)
    requires IsPositive(w) && IsPositive(h) && 1 <= d1 <= d2
    requires AreaFits(w, h, d1, cap)
    ensures AreaFits(w, h, d2, cap)
  {
    if cap.Fin? {
      assert w.n * h.n > 0;
      assert cap.n > 0;
      assert cap.n * d1 <= cap.n * d2;
      assert cap.n * d1 * d1 <= cap.n * d2 * d1 <= cap.n * d2 * d2;
    }
  }

  lemma AreaDivisorDecreasing(rule: AreaRule, a: int, i: int, j: int)
    requires 1 <= a <= 3 && 0 <= i <= j < a
    ensures AreaDivisor(rule, a, j) <= AreaDivisor(rule, a, i)
  {
  }

  /** Under either area rule the active simulcast layers form a prefix:
      when a layer is sent, every lower layer is sent too. */
  lemma ActiveLayersArePrefix(rule: AreaRule, b: VideoBuffer, caps: Caps, i: int, j: int)
    requires ValidBuffer(b) && 0 <= i <= j
    requires LayerActive(rule, b, caps, j)
    ensures LayerActive(rule, b, caps, i)
  {
    if i > 0 {
      SumPow4Increasing(i, j);
      assert BaseBitrate(b) >= 0;
      assert CumulativeBitrate(b, i) <= CumulativeBitrate(b, j) by {
        assert BaseBitrate(b) * SumPow4(i) <= BaseBitrate(b) * SumPow4(j);
      }
      AreaDivisorDecreasing(rule, b.adaptivity, i, j);
      AreaFitsMonotone(b.width, b.height, AreaDivisor(rule, b.adaptivity, j), AreaDivisor(rule, b.adaptivity, i), caps.maxFrameArea);
    }
  }

  /** Total `maxBitrate` of the layers that are sent. */
  function ActiveBitrate(rule: AreaRule, b: VideoBuffer, caps: Caps, n: nat): int
    requires ValidBuffer(b) && n <= 3
  {
    if n == 0 then 0
    else ActiveBitrate(rule, b, caps, n - 1) + (if LayerActive(rule, b, caps, n - 1) then LayerBitrate(b, n - 1) else 0)
  }

  lemma {:induction false} ActiveBitratePrefix(rule: AreaRule, b: VideoBuffer, caps: Caps, n: nat, k: nat)
    requires ValidBuffer(b) && k < n <= 3
    requires LayerActive(rule, b, caps, k)
    requires forall j :: k < j < n ==> !LayerActive(rule, b, caps, j)
    ensures ActiveBitrate(rule, b, caps, n) == CumulativeBitrate(b, k)
    decreases n
  {
    if n - 1 > k {
      ActiveBitratePrefix(rule, b, caps, n - 1, k);
    } else {
      ActiveBitrateAllActive(rule, b, caps, k);
    }
  }

  lemma {:induction false} ActiveBitrateAllActive(rule: AreaRule, b: VideoBuffer, caps: Caps, k: nat)
    requires ValidBuffer(b) && k < 3
    requires LayerActive(rule, b, caps, k)
    ensures ActiveBitrate(rule, b, caps, k + 1) == CumulativeBitrate(b, k)
    decreases k
  {
    if k > 0 {
      ActiveLayersArePrefix(rule, b, caps, k - 1, k);
      ActiveBitrateAllActive(rule, b, caps, k - 1);
    }
  }

  /** The caps bound what is sent, except for the mandatory lowest layer:
      once a second layer is sent the total bitrate fits `maxBitrate`;
      otherwise exactly the lowest layer is sent. */
  lemma SimulcastRespectsBitrateCap(rule: AreaRule, b: VideoBuffer, caps: Caps)
    requires ValidBuffer(b)
    ensures LayerActive(rule, b, caps, 0)
    ensures LayerActive(rule, b, caps, 1) ==> Leq(Fin(ActiveBitrate(rule, b, caps, 3)), caps.maxBitrate)
    ensures !LayerActive(rule, b, caps, 1) ==> ActiveBitrate(rule, b, caps, 3) == LayerBitrate(b, 0)
  {
    if LayerActive(rule, b, caps, 2) {
      ActiveBitratePrefix(rule, b, caps, 3, 2);
    } else if LayerActive(rule, b, caps, 1) {
      ActiveBitratePrefix(rule, b, caps, 3, 1);
    } else {
      if LayerActive(rule, b, caps, 2) {
        ActiveLayersArePrefix(rule, b, caps, 1, 2);
      }
      ActiveBitratePrefix(rule, b, caps, 3, 0);
    }
  }

  // ---------------------------------------------------------------------
  // Scalable layering (VP9): one encoding with 1 to `adaptivity` spatial
  // layers.

  /** `Math.floor(maxBitrate / (bitrate / fraction))`. */
  function MaxBitrateFraction(b: VideoBuffer, caps: Caps): Ext
    requires ValidBuffer(b)
  {
    if caps.maxBitrate.Inf? then Inf
    else Fin(caps.maxBitrate.n * BitrateFractions[b.adaptivity - 1] / b.bitrate)
  }

  /** Whether the VP9 loop may go from `i` to `i + 1` spatial layers. */
  predicate SpatialLayerFits(rule: AreaRule, b: VideoBuffer, caps: Caps, i: int)
    requires ValidBuffer(b) && 1 <= i < b.adaptivity
  {
    && Leq(Fin(BitrateFractions[i]), MaxBitrateFraction(b, caps))
    && AreaFits(b.width, b.height, AreaDivisor(rule, b.adaptivity, i), caps.maxFrameArea)
  }

  /** The counting loop with its `break`, from index `i` on. */
  function SpatialLayersFrom(rule: AreaRule, b: VideoBuffer, caps: Caps, i: int): (n: int)
    requires ValidBuffer(b) && 1 <= i <= b.adaptivity
    ensures i <= n <= b.adaptivity
    ensures forall j :: i <= j < n ==> SpatialLayerFits(rule, b, caps, j)
    ensures n < b.adaptivity ==> !SpatialLayerFits(rule, b, caps, n)
    decreases b.adaptivity - i
  {
    if i < b.adaptivity && SpatialLayerFits(rule, b, caps, i) then SpatialLayersFrom(rule, b, caps, i + 1) else i
  }

  /** The number of spatial layers: it starts at one and grows while both
      caps hold, stopping at the first layer that does not fit. */
  function SpatialLayers(rule: AreaRule, b: VideoBuffer, caps: Caps): (n: int)
    requires ValidBuffer(b)
    ensures 1 <= n <= b.adaptivity
    ensures forall j :: 1 <= j < n ==> SpatialLayerFits(rule, b, caps, j)
    ensures n < b.adaptivity ==> !SpatialLayerFits(rule, b, caps, n)
  {
    SpatialLayersFrom(rule, b, caps, 1)
  }

  function ScalabilityMode(n: nat): string {
    if n > 1 then "L" + NatToString(n) + "T3_KEY" else "L1T3"
  }

  /** The VP9 branch of `configureVideoTransceiver`. It writes the first
      encoding only; with no encoding at all the source throws. */
  function ConfigureVp9(rule: AreaRule, prev: seq<Encoding>, b: VideoBuffer, caps: Caps): (r: Result<seq<Encoding>>)
    requires ValidBuffer(b)
    ensures r.Err? <==> |prev| == 0
    ensures r.Ok? ==> |r.value| == |prev| && r.value[1..] == prev[1..]
    ensures r.Ok? ==> r.value[0].active && r.value[0].maxFramerate == FramerateCap(caps)
    ensures r.Ok? ==> r.value[0].maxBitrate <= b.bitrate && Leq(Fin(r.value[0].maxBitrate), caps.maxBitrate)
    ensures r.Ok? ==> r.value[0].maxBitrate == b.bitrate || (caps.maxBitrate.Fin? && r.value[0].maxBitrate == caps.maxBitrate.n)
    ensures r.Ok? ==> r.value[0].scalabilityMode == Some(ScalabilityMode(SpatialLayers(rule, b, caps)))
    ensures r.Ok? ==> r.value[0].scaleDownBy == b.scale * Pow(2, b.adaptivity - SpatialLayers(rule, b, caps)) as real
    ensures r.Ok? ==> r.value[0].scaleDownBy >= b.scale
    ensures r.Ok? && SpatialLayers(rule, b, caps) == b.adaptivity ==> r.value[0].scaleDownBy == b.scale
  {
    PowPositive(2, b.adaptivity - SpatialLayers(rule, b, caps));
    if |prev| == 0 then Err("Cannot set properties of undefined")
    else
      var n := SpatialLayers(rule, b, caps);
      var e := prev[0].(active := true,
                        scaleDownBy := b.scale * Pow(2, b.adaptivity - n) as real,
                        maxBitrate := MinFin(b.bitrate, caps.maxBitrate),
                        scalabilityMode := Some(if n > 1 then "L" + NatToString(n) + "T3_KEY" else "L1T3"),
                        maxFramerate := if caps.maxFrameRate.Inf? then None else Some(caps.maxFrameRate.n));
      Ok([e] + prev[1..])
  }

  lemma FloorDivAtLeast(k: int, x: int, d: int)
    requires d > 0
    ensures k <= x / d <==> k * d <= x
  {
    var q := x / d;
    assert x == q * d + x % d;
    if k <= q {
      assert k * d <= q * d;
    } else {
      assert (q + 1) * d <= k * d;
    }
  }

  /** The floored bitrate fraction admits `i + 1` spatial layers exactly when
      their exact share of the buffer bitrate fits the cap:
      `bitrate * fraction(i) / fraction(adaptivity) <= maxBitrate`. */
  lemma SpatialBitrateFitsExactly(b: VideoBuffer, caps: Caps, i: int)
    requires ValidBuffer(b) && 1 <= i < b.adaptivity && caps.maxBitrate.Fin?
    ensures Leq(Fin(BitrateFractions[i]), MaxBitrateFraction(b, caps))
        <==> b.bitrate * BitrateFractions[i] <= caps.maxBitrate.n * BitrateFractions[b.adaptivity - 1]
  {
    FloorDivAtLeast(BitrateFractions[i], caps.maxBitrate.n * BitrateFractions[b.adaptivity - 1], b.bitrate);
  }

  /** Distinct layer counts give distinct scalability-mode tags. */
  lemma ScalabilityModeInjective(m: nat, n: nat)
    requires 1 <= m <= 3 && 1 <= n <= 3 && m != n
    ensures ScalabilityMode(m) != ScalabilityMode(n)
  {
    if m > 1 && n > 1 {
      assert ScalabilityMode(m)[1] != ScalabilityMode(n)[1];
    } else {
      assert |ScalabilityMode(m)| != |ScalabilityMode(n)|;
    }
  }

  // ---------------------------------------------------------------------
  // Frame-area check against the resolution a layer is really sent at.

  /** Layer `i` is sent at `width * height / (2^(adaptivity - 1 - i))^2`
      pixels; this says that area fits the cap. */
  predicate SentAreaFits(b: VideoBuffer, caps: Caps, i: int)
    requires ValidBuffer(b) && 0 <= i < b.adaptivity
  {
    AreaFits(b.width, b.height, AreaDivisor(Intended, b.adaptivity, i), caps.maxFrameArea)
  }

  /** A camera at its defaults (640x360, adaptivity 2) sending to a stream
      capped at 320x180 pixels. */
  const CameraDefaults: VideoBuffer := VideoBuffer(0, false, Fin(640), Fin(360), 1000000, 2, 1.0)
  const QuarterAreaCaps: Caps := Caps(Inf, Fin(57600), Inf)

  /** As written, the full-resolution simulcast layer is activated although
      its 230400 pixels exceed the 57600-pixel cap. */
  lemma SimulcastAreaCounterexample()
    ensures LayerActive(AsWritten, CameraDefaults, QuarterAreaCaps, 1)
    ensures ActiveLayer(Reset(Encoding(false, 1.0, 0, None, None)), CameraDefaults, QuarterAreaCaps, 1).scaleDownBy == 1.0
    ensures !SentAreaFits(CameraDefaults, QuarterAreaCaps, 1)
  {
    assert 640 * 360 <= 57600 * 2 * 2;
  }

  /** As written, VP9 also picks two spatial layers, the top one at full
      resolution, for the same buffer and caps. */
  lemma SpatialAreaCounterexample()
    ensures SpatialLayers(AsWritten, CameraDefaults, QuarterAreaCaps) == 2
    ensures !SentAreaFits(CameraDefaults, QuarterAreaCaps, 1)
  {
    assert SpatialLayerFits(AsWritten, CameraDefaults, QuarterAreaCaps, 1);
  }

  /** With the intended divisor every simulcast layer that is sent, other
      than the mandatory lowest one, fits the frame-area cap at the
      resolution it is sent with, and so does every lower layer. */
  lemma IntendedSimulcastRespectsFrameArea(b: VideoBuffer, caps: Caps, i: int)
    requires ValidBuffer(b) && 0 < i < b.adaptivity
    requires LayerActive(Intended, b, caps, i)
    ensures forall j :: 0 < j <= i ==> LayerActive(Intended, b, caps, j) && SentAreaFits(b, caps, j)
  {
    forall j | 0 < j <= i
      ensures LayerActive(Intended, b, caps, j) && SentAreaFits(b, caps, j)
    {
      ActiveLayersArePrefix(Intended, b, caps, j, i);
    }
  }

  /** With the intended divisor the top spatial layer of the VP9 encoding
      (sent at scale `2^(adaptivity - n)`) fits the frame-area cap whenever
      more than one spatial layer is used. */
  lemma IntendedSpatialRespectsFrameArea(b: VideoBuffer, caps: Caps)
    requires ValidBuffer(b)
    ensures var n := SpatialLayers(Intended, b, caps);
      n > 1 ==> SentAreaFits(b, caps, n - 1) && AreaDivisor(Intended, b.adaptivity, n - 1) == Pow(2, b.adaptivity - n)
  {
    var n := SpatialLayers(Intended, b, caps);
    if n > 1 {
      assert SpatialLayerFits(Intended, b, caps, n - 1);
    }
  }

  /** With the intended divisor, the VP9 encoding is scaled down by
      exactly the divisor of its top spatial layer, and when more than one
      spatial layer is used that layer fits the frame-area cap at the
      resolution it is sent with. */
  lemma IntendedVp9RespectsFrameArea(prev: seq<Encoding>, b: VideoBuffer, caps: Caps)
    requires ValidBuffer(b) && |prev| > 0
    ensures var r := ConfigureVp9(Intended, prev, b, caps); var n := SpatialLayers(Intended, b, caps);
      && r.Ok?
      && r.value[0].scaleDownBy == b.scale * AreaDivisor(Intended, b.adaptivity, n - 1) as real
      && (n > 1 ==> SentAreaFits(b, caps, n - 1))
  {
    IntendedSpatialRespectsFrameArea(b, caps);
  }
}

=== FILE: media_stream.dfy ===
/** `MediaStream`: a broker between at most one supplier and a set of
    consumers, separately for audio and for video. The stream registers
    with its supplier lazily (only while it has a consumer of that kind),
    forwards each new buffer to every consumer, and keeps three caps on the
    video it asks for. Suppliers, consumers and buffers are opaque ids;
    the calls the stream makes on them are returned as an effect trace. */
module MediaStreams {
  import opened Wrappers
  import opened Numbers
  import T = Transceivers

  /** The published statistics of one kind: the zero record the stream
      starts with (and resets to), or an opaque computed sample. */
  datatype Stats = Zero | Reported(sample: nat)

  /** One kind's half of a stream: the supplier (`None` for `null`), the
      consumer `Set` in insertion order, the last buffer (`None` for
      `null`) and the published statistics. */
  datatype Channel = Channel(supplier: Option<nat>, consumers: seq<nat>, buffer: Option<nat>, stats: Stats)

  /** A call the stream makes: `consumer.onXBuffer(buffer, stream)`,
      `supplier.addXConsumer(stream)` or `supplier.removeXConsumer(stream)`. */
  datatype Effect =
    | Deliver(consumer: nat, buffer: Option<nat>)
    | Register(supplier: nat)
    | Unregister(supplier: nat)

  datatype Stream = Stream(tag: string, audio: Channel, video: Channel, maxFrameArea: Ext, maxFrameRate: Ext, maxBitrate: Ext)

  predicate Distinct(s: seq<nat>) {
    forall i, j :: 0 <= i < j < |s| ==> s[i] != s[j]
  }

  /** The stream should be registered with its supplier exactly while it
      has one and has at least one consumer. */
  predicate Linked(ch: Channel) {
    ch.supplier.Some? && |ch.consumers| > 0
  }

  /** The suppliers this channel ought to be registered with. */
  function Registrations(ch: Channel): (r: set<nat>)
    ensures |r| <= 1
    ensures r != {} <==> Linked(ch)
  {
    if Linked(ch) then {ch.supplier.value} else {}
  }

  /** The suppliers a channel is registered with after a trace of effects,
      as seen from the suppliers' side. */
  function Apply(reg: set<nat>, fx: seq<Effect>): set<nat>
    decreases |fx|
  {
    if |fx| == 0 then reg
    else
      var reg' := match fx[0]
        case Register(s) => reg + {s}
        case Unregister(s) => reg - {s}
        case Deliver(_, _) => reg;
      Apply(reg', fx[1..])
  }

  lemma {:induction false} ApplyAppend(reg: set<nat>, a: seq<Effect>, b: seq<Effect>)
    ensures Apply(reg, a + b) == Apply(Apply(reg, a), b)
    decreases |a|
  {
    if |a| == 0 {
      assert a + b == b;
    } else {
      assert (a + b)[0] == a[0];
      assert (a + b)[1..] == a[1..] + b;
      var reg' := match a[0]
        case Register(s) => reg + {s}
        case Unregister(s) => reg - {s}
        case Deliver(_, _) => reg;
      ApplyAppend(reg', a[1..], b);
    }
  }

  /** Consumers are a set, and a channel that is not linked publishes the
      zero statistics. */
  predicate Valid(ch: Channel) {
    Distinct(ch.consumers) && (!Linked(ch) ==> ch.stats == Zero)
  }

  /** An operation's outcome keeps a valid channel valid, and what it tells
      the suppliers keeps their view of the registrations in step with it. */
  predicate Keeps(ch: Channel, r: (Channel, seq<Effect>)) {
    Valid(ch) ==> Valid(r.0) && Apply(Registrations(ch), r.1) == Registrations(r.0)
  }

  // ---------------------------------------------------------------------
  // Construction

  const Idle: Channel := Channel(None, [], None, Zero)

  /** `new MediaStream(label, audioSupplier, videoSupplier)`: no consumers,
      no buffers, zero statistics, every cap at `+Infinity`. */
  function Create(tag: string, audioSupplier: Option<nat>, videoSupplier: Option<nat>): (m: Stream)
    ensures Valid(m.audio) && Valid(m.video)
    ensures m.tag == tag && m.audio.supplier == audioSupplier && m.video.supplier == videoSupplier
    ensures Registrations(m.audio) == {} && Registrations(m.video) == {}
    ensures m.audio.buffer.None? && m.video.buffer.None?
    ensures m.maxFrameArea.Inf? && m.maxFrameRate.Inf? && m.maxBitrate.Inf?
  {
    Stream(tag, Idle.(supplier := audioSupplier), Idle.(supplier := videoSupplier), Inf, Inf, Inf)
  }

  // ---------------------------------------------------------------------
  // Suppliers

  /** `setAudioSupplier` (and `setVideoSupplier`): only a different supplier
      does anything. Without consumers it is only stored. With consumers,
      the old supplier is dropped first, then the new one is registered
      with, or the statistics are reset when there is no new one. */
  function SetSupplier(ch: Channel, s: Option<nat>): (r: (Channel, seq<Effect>))
    ensures r.0.supplier == s && r.0.consumers == ch.consumers && r.0.buffer == ch.buffer
    ensures s == ch.supplier ==> r == (ch, [])
    ensures |ch.consumers| == 0 ==> r.1 == [] && r.0.stats == ch.stats
    ensures s != ch.supplier && |ch.consumers| > 0 ==>
      && (s.None? ==> r.0.stats == Zero)
      && (s.Some? ==> r.0.stats == ch.stats)
      && (ch.supplier.Some? ==> |r.1| > 0 && r.1[0] == Unregister(ch.supplier.value))
      && (ch.supplier.None? ==> forall e | e in r.1 :: !e.Unregister?)
      && (s.Some? ==> |r.1| > 0 && r.1[|r.1| - 1] == Register(s.value))
      && (s.None? ==> forall e | e in r.1 :: !e.Register?)
      && (forall e | e in r.1 :: !e.Deliver?)
    ensures s.None? ==> forall e | e in r.1 :: e.Unregister?
  {
    if s == ch.supplier then (ch, [])
    else if |ch.consumers| > 0 then
      var dropped := if ch.supplier.Some? then [Unregister(ch.supplier.value)] else [];
      if s.Some? then (ch.(supplier := s), dropped + [Register(s.value)])
      else (ch.(supplier := s, stats := Zero), dropped)
    else (ch.(supplier := s), [])
  }

  /** After a supplier change, the stream is registered with the new
      supplier and only with it, exactly when it has consumers. */
  lemma SetSupplierKeeps(ch: Channel, s: Option<nat>)
    ensures Keeps(ch, SetSupplier(ch, s))
  {
    var r := SetSupplier(ch, s);
    if Valid(ch) && s != ch.supplier && |ch.consumers| > 0 {
      var dropped := if ch.supplier.Some? then [Unregister(ch.supplier.value)] else [];
      assert Apply(Registrations(ch), dropped) == {};
      if s.Some? {
        ApplyAppend(Registrations(ch), dropped, [Register(s.value)]);
      }
    }
  }

  // ---------------------------------------------------------------------
  // Buffers

  /** `consumer.onXBuffer(buffer, stream)` for every consumer, in insertion
      order. */
  function Fanout(consumers: seq<nat>, b: Option<nat>): (fx: seq<Effect>)
    ensures |fx| == |consumers|
    ensures forall i :: 0 <= i < |consumers| ==> fx[i] == Deliver(consumers[i], b)
    decreases |consumers|
  {
    if |consumers| == 0 then [] else [Deliver(consumers[0], b)] + Fanout(consumers[1..], b)
  }

  /** How many buffers the trace hands to `c`. */
  function DeliveriesTo(fx: seq<Effect>, c: nat): nat
    decreases |fx|
  {
    if |fx| == 0 then 0
    else (if fx[0].Deliver? && fx[0].consumer == c then 1 else 0) + DeliveriesTo(fx[1..], c)
  }

  /** `onAudioBuffer` (and `onVideoBuffer`): a buffer identical to the
      stored one is ignored; a new one is stored and forwarded. */
  function OnBuffer(ch: Channel, b: Option<nat>): (r: (Channel, seq<Effect>))
    ensures r.0 == ch.(buffer := b)
    ensures b == ch.buffer ==> r.1 == []
    ensures b != ch.buffer ==> r.1 == Fanout(ch.consumers, b)
  {
    if b == ch.buffer then (ch, []) else (ch.(buffer := b), Fanout(ch.consumers, b))
  }

  lemma {:induction false} FanoutOnce(consumers: seq<nat>, b: Option<nat>, c: nat)
    requires Distinct(consumers)
    ensures DeliveriesTo(Fanout(consumers, b), c) == if c in consumers then 1 else 0
    decreases |consumers|
  {
    if |consumers| > 0 {
      var fx := Fanout(consumers, b);
      assert fx[1..] == Fanout(consumers[1..], b);
      DistinctTail(consumers);
      FanoutOnce(consumers[1..], b, c);
      assert consumers == [consumers[0]] + consumers[1..];
    }
  }

  /** Without its first element a set is still a set, and lacks that
      element. */
  lemma DistinctTail(s: seq<nat>)
    requires Distinct(s) && |s| > 0
    ensures Distinct(s[1..]) && s[0] !in s[1..]
  {
    forall i | 0 <= i < |s[1..]|
      ensures s[1..][i] != s[0]
    {
      assert s[1..][i] == s[i + 1];
    }
  }

  /** A new buffer reaches every consumer exactly once and nobody else;
      the stored buffer reaches nobody. */
  lemma OnBufferDeliversOnce(ch: Channel, b: Option<nat>, c: nat)
    requires Valid(ch)
    ensures DeliveriesTo(OnBuffer(ch, b).1, c) == if b != ch.buffer && c in ch.consumers then 1 else 0
  {
    if b != ch.buffer {
      FanoutOnce(ch.consumers, b, c);
    }
  }

  lemma {:induction false} FanoutRegisters(reg: set<nat>, consumers: seq<nat>, b: Option<nat>)
    ensures Apply(reg, Fanout(consumers, b)) == reg
    decreases |consumers|
  {
    if |consumers| > 0 {
      assert Fanout(consumers, b)[1..] == Fanout(consumers[1..], b);
      FanoutRegisters(reg, consumers[1..], b);
    }
  }

  lemma OnBufferKeeps(ch: Channel, b: Option<nat>)
    ensures Keeps(ch, OnBuffer(ch, b))
  {
    FanoutRegisters(Registrations(ch), ch.consumers, b);
  }

  /** Forwarding is idempotent: the same buffer a second time is ignored. */
  lemma OnBufferIdempotent(ch: Channel, b: Option<nat>)
    ensures OnBuffer(OnBuffer(ch, b).0, b) == (OnBuffer(ch, b).0, [])
  {
  }

  // ---------------------------------------------------------------------
  // Consumers

  /** `addAudioConsumer` (and `addVideoConsumer`): a known consumer is
      ignored. The first consumer makes the stream register with its
      supplier, which will then send the buffer; otherwise the consumer
      gets the stored buffer (possibly `null`) at once. */
  function AddConsumer(ch: Channel, c: nat): (r: (Channel, seq<Effect>))
    ensures c in ch.consumers ==> r == (ch, [])
    ensures c !in ch.consumers ==> r.0 == ch.(consumers := ch.consumers + [c]) && |r.1| == 1
    ensures c !in ch.consumers && |ch.consumers| == 0 && ch.supplier.Some? ==> r.1 == [Register(ch.supplier.value)]
    ensures c !in ch.consumers && (|ch.consumers| > 0 || ch.supplier.None?) ==> r.1 == [Deliver(c, ch.buffer)]
  {
    if c in ch.consumers then (ch, [])
    else
      var ch' := ch.(consumers := ch.consumers + [c]);
      if |ch'.consumers| == 1 && ch.supplier.Some? then (ch', [Register(ch.supplier.value)])
      else (ch', [Deliver(c, ch.buffer)])
  }

  /** `Set.delete`: the sequence without `c`. */
  function Without(s: seq<nat>, c: nat): (r: seq<nat>)
    ensures forall x :: x in r <==> x in s && x != c
    ensures c !in s ==> r == s
    ensures Distinct(s) && c in s ==> |r| == |s| - 1
    decreases |s|
  {
    if |s| == 0 then []
    else if s[0] == c then Without(s[1..], c)
    else [s[0]] + Without(s[1..], c)
  }

  lemma {:induction false} WithoutDistinct(s: seq<nat>, c: nat)
    requires Distinct(s)
    ensures Distinct(Without(s, c))
    decreases |s|
  {
    if |s| > 0 {
      assert Distinct(s[1..]) by {
        forall i, j | 0 <= i < j < |s[1..]|
          ensures s[1..][i] != s[1..][j]
        {
          assert s[1..][i] == s[i + 1] && s[1..][j] == s[j + 1];
        }
      }
      WithoutDistinct(s[1..], c);
      if s[0] != c {
        var w := Without(s[1..], c);
        assert s[0] !in s[1..] by {
          forall i | 0 <= i < |s[1..]|
            ensures s[1..][i] != s[0]
          {
            assert s[1..][i] == s[i + 1];
          }
        }
        assert s[0] !in w;
        forall i, j | 0 <= i < j < |[s[0]] + w|
          ensures ([s[0]] + w)[i] != ([s[0]] + w)[j]
        {
          if i > 0 {
            assert ([s[0]] + w)[i] == w[i - 1];
          }
          assert ([s[0]] + w)[j] == w[j - 1];
        }
      }
    }
  }

  /** `removeAudioConsumer` (and `removeVideoConsumer`): a stranger is
      ignored. A member receives one `null` buffer; if it was the last
      consumer, the stream leaves its supplier and resets the statistics. */
  function RemoveConsumer(ch: Channel, c: nat): (r: (Channel, seq<Effect>))
    ensures c !in ch.consumers ==> r == (ch, [])
    ensures c in ch.consumers ==>
      && r.0.consumers == Without(ch.consumers, c)
      && r.0.supplier == ch.supplier && r.0.buffer == ch.buffer
      && |r.1| >= 1 && r.1[0] == Deliver(c, None)
      && (|r.1| == 2 <==> Linked(ch) && !Linked(r.0))
      && (|r.1| == 2 ==> r.1[1] == Unregister(ch.supplier.value) && r.0.stats == Zero)
      && (|r.1| == 1 ==> r.0.stats == ch.stats)
  {
    if c !in ch.consumers then (ch, [])
    else
      var ch' := ch.(consumers := Without(ch.consumers, c));
      if |ch'.consumers| == 0 && ch.supplier.Some? then
        (ch'.(stats := Zero), [Deliver(c, None), Unregister(ch.supplier.value)])
      else (ch', [Deliver(c, None)])
  }

  lemma AddConsumerKeeps(ch: Channel, c: nat)
    ensures Keeps(ch, AddConsumer(ch, c))
  {
    var r := AddConsumer(ch, c);
    if Valid(ch) && c !in ch.consumers {
      var s := ch.consumers + [c];
      forall i, j | 0 <= i < j < |s|
        ensures s[i] != s[j]
      {
        if j == |s| - 1 {
          assert s[i] == ch.consumers[i];
        }
      }
      assert Apply(Registrations(ch), r.1) == Registrations(r.0);
    }
  }

  lemma RemoveConsumerKeeps(ch: Channel, c: nat)
    ensures Keeps(ch, RemoveConsumer(ch, c))
  {
    if Valid(ch) && c in ch.consumers {
      WithoutDistinct(ch.consumers, c);
      var fx := RemoveConsumer(ch, c).1;
      var reg := Registrations(ch);
      assert Apply(reg, fx) == Apply(reg, fx[1..]);
      if |fx| == 2 {
        assert fx[1..][1..] == [];
      }
    }
  }

  /** Removing a consumer hands it exactly one buffer, `null`. */
  lemma RemoveConsumerNullOnce(ch: Channel, c: nat)
    requires c in ch.consumers
    ensures DeliveriesTo(RemoveConsumer(ch, c).1, c) == 1
    ensures forall e | e in RemoveConsumer(ch, c).1 && e.Deliver? :: e == Deliver(c, None)
  {
    var fx := RemoveConsumer(ch, c).1;
    assert DeliveriesTo(fx[1..], c) == 0 by {
      if |fx| == 2 {
        assert fx[1..][1..] == [];
      }
    }
  }

  /** Adding a new consumer and removing it again restores the channel:
      the consumer saw one buffer and then `null`, and a supplier
      registered with for it alone is left again. */
  lemma AddThenRemove(ch: Channel, c: nat)
    requires Valid(ch) && c !in ch.consumers
    ensures RemoveConsumer(AddConsumer(ch, c).0, c).0 == ch
    ensures Apply(Registrations(ch), AddConsumer(ch, c).1 + RemoveConsumer(AddConsumer(ch, c).0, c).1) == Registrations(ch)
  {
    var ch1 := AddConsumer(ch, c).0;
    WithoutAppended(ch.consumers, c);
    AddConsumerKeeps(ch, c);
    RemoveConsumerKeeps(ch1, c);
    ApplyAppend(Registrations(ch), AddConsumer(ch, c).1, RemoveConsumer(ch1, c).1);
  }

  lemma {:induction false} WithoutAppended(s: seq<nat>, c: nat)
    requires c !in s
    ensures Without(s + [c], c) == s
    decreases |s|
  {
    if |s| == 0 {
      assert Without([c][1..], c) == [];
    } else {
      assert (s + [c])[1..] == s[1..] + [c];
      WithoutAppended(s[1..], c);
      assert s == [s[0]] + s[1..];
    }
  }

  // ---------------------------------------------------------------------
  // Caps and statistics

  /** The supplier is asked again for video when the caps change; it only
      happens while the stream is registered with it. */
  function Reregister(ch: Channel): (fx: seq<Effect>)
    ensures fx != [] <==> Linked(ch)
    ensures forall e | e in fx :: e == Register(ch.supplier.value)
  {
    if |ch.consumers| > 0 && ch.supplier.Some? then [Register(ch.supplier.value)] else []
  }

  lemma ReregisterKeeps(ch: Channel)
    ensures Keeps(ch, (ch, Reregister(ch)))
  {
  }

  datatype Cap = FrameArea | FrameRate | Bitrate

  /** The words naming a cap in the setters' error message. */
  function CapName(cap: Cap): string {
    match cap
    case FrameArea => "frame area"
    case FrameRate => "frame rate"
    case Bitrate => "bitrate"
  }

  function CapOf(m: Stream, cap: Cap): Ext {
    match cap
    case FrameArea => m.maxFrameArea
    case FrameRate => m.maxFrameRate
    case Bitrate => m.maxBitrate
  }

  /** `setMaxVideoFrameArea`, `setMaxVideoFrameRate`, `setMaxVideoBitrate`:
      a non-positive value is refused (`+Infinity`, which lifts the cap, is
      accepted); a new value is stored and, while the stream has video
      consumers and a video supplier, the supplier is asked again so it
      can apply the cap. */
  function SetCap(m: Stream, cap: Cap, v: Ext): (r: Result<(Stream, seq<Effect>)>)
    ensures r.Err? <==> !IsPositive(v)
    ensures r.Err? ==> r.error == "Can't change max video " + CapName(cap) + " to `" + IntToString(v.n) + "`"
    ensures r.Ok? ==>
      && CapOf(r.value.0, cap) == v
      && (forall other | other != cap :: CapOf(r.value.0, other) == CapOf(m, other))
      && r.value.0.audio == m.audio && r.value.0.video == m.video && r.value.0.tag == m.tag
      && (r.value.1 != [] <==> CapOf(m, cap) != v && Linked(m.video))
      && r.value.1 == (if CapOf(m, cap) != v && Linked(m.video) then [Register(m.video.supplier.value)] else [])
  {
    if !IsPositive(v) then Err("Can't change max video " + CapName(cap) + " to `" + IntToString(v.n) + "`")
    else if CapOf(m, cap) == v then Ok((m, []))
    else
      var m' := match cap
        case FrameArea => m.(maxFrameArea := v)
        case FrameRate => m.(maxFrameRate := v)
        case Bitrate => m.(maxBitrate := v);
      Ok((m', Reregister(m.video)))
  }

  /** Setting a cap to the value it already has changes nothing. */
  lemma SetCapIdempotent(m: Stream, cap: Cap, v: Ext)
    requires IsPositive(v)
    ensures SetCap(SetCap(m, cap, v).value.0, cap, v) == Ok((SetCap(m, cap, v).value.0, []))
  {
  }

  /** Computed statistics are published only while the stream has both a
      supplier and a consumer of that kind. */
  function Publish(ch: Channel, sample: nat): (r: Channel)
    ensures r.stats == Reported(sample) <==> Linked(ch) || ch.stats == Reported(sample)
    ensures r.(stats := ch.stats) == ch
    ensures !Linked(ch) ==> r == ch
  {
    if Linked(ch) then ch.(stats := Reported(sample)) else ch
  }

  lemma PublishKeeps(ch: Channel, sample: nat)
    ensures Keeps(ch, (Publish(ch, sample), []))
  {
  }

  // ---------------------------------------------------------------------
  // Runs of operations on one kind

  datatype Op =
    | SupplierSet(supplier: Option<nat>)
    | BufferArrived(buffer: Option<nat>)
    | ConsumerAdded(consumer: nat)
    | ConsumerRemoved(consumer: nat)
    | StatsComputed(sample: nat)
    | CapChanged

  function Perform(ch: Channel, op: Op): (r: (Channel, seq<Effect>))
    ensures Keeps(ch, r)
  {
    match op
    case SupplierSet(s) => SetSupplierKeeps(ch, s); SetSupplier(ch, s)
    case BufferArrived(b) => OnBufferKeeps(ch, b); OnBuffer(ch, b)
    case ConsumerAdded(c) => AddConsumerKeeps(ch, c); AddConsumer(ch, c)
    case ConsumerRemoved(c) => RemoveConsumerKeeps(ch, c); RemoveConsumer(ch, c)
    case StatsComputed(x) => PublishKeeps(ch, x); (Publish(ch, x), [])
    case CapChanged => ReregisterKeeps(ch); (ch, Reregister(ch))
  }

  function Run(ch: Channel, ops: seq<Op>): (r: (Channel, seq<Effect>))
    decreases |ops|
  {
    if |ops| == 0 then (ch, [])
    else
      var (ch1, fx1) := Perform(ch, ops[0]);
      var (ch2, fx2) := Run(ch1, ops[1..]);
      (ch2, fx1 + fx2)
  }

  /** Whatever the stream is asked to do, its consumers stay a set, it
      reports zero statistics while unlinked, and the suppliers it is
      registered with are exactly its current supplier while it has
      consumers, and none otherwise: registration is lazy and never stale. */
  lemma {:induction false} RunKeeps(ch: Channel, ops: seq<Op>)
    requires Valid(ch)
    ensures Valid(Run(ch, ops).0)
    ensures Apply(Registrations(ch), Run(ch, ops).1) == Registrations(Run(ch, ops).0)
    decreases |ops|
  {
    if |ops| > 0 {
      var (ch1, fx1) := Perform(ch, ops[0]);
      RunKeeps(ch1, ops[1..]);
      ApplyAppend(Registrations(ch), fx1, Run(ch1, ops[1..]).1);
    }
  }

  // ---------------------------------------------------------------------
  // The two kinds of a stream

  function ChannelOf(m: Stream, k: T.Kind): Channel {
    if k == T.Audio then m.audio else m.video
  }

  /** An operation on one kind leaves the other kind and the caps alone;
      audio and video follow the same rules. */
  function PerformOn(m: Stream, k: T.Kind, op: Op): (r: (Stream, seq<Effect>))
    ensures ChannelOf(r.0, k) == Perform(ChannelOf(m, k), op).0
    ensures ChannelOf(r.0, T.Other(k)) == ChannelOf(m, T.Other(k))
    ensures r.0.tag == m.tag && r.0.maxFrameArea == m.maxFrameArea
    ensures r.0.maxFrameRate == m.maxFrameRate && r.0.maxBitrate == m.maxBitrate
    ensures Valid(ChannelOf(m, k)) ==> Valid(ChannelOf(r.0, k))
  {
    var (ch, fx) := Perform(ChannelOf(m, k), op);
    (if k == T.Audio then m.(audio := ch) else m.(video := ch), fx)
  }

  /** `hasAudioSupplier` / `hasVideoSupplier`. */
  predicate HasSupplier(m: Stream, k: T.Kind) {
    ChannelOf(m, k).supplier.Some?
  }
}

=== FILE: microphone.dfy ===
/** `Microphone`: a local audio supplier. It acquires a track through a
    `getUserMedia` request, optionally routes it through the
    noise-suppression worklet graph, hands audio buffers to its consumers
    and applies the muted state by enabling or disabling the track it hands
    out. */
module Microphones {
  import opened Wrappers
  import opened Capture
  import MS = MediaStreams

  /** The microphone's fields the model needs. `enabled` is the raw
      track's `enabled` flag; `graph` is the noise-suppression graph's
      output track (`mediaStreamDestination`) and `graphEnabled` its flag. */
  datatype Microphone = Microphone(
    id: string,
    name: string,
    consumers: seq<nat>,
    noiseSuppression: bool,
    muted: bool,
    pending: bool,
    track: Option<nat>,
    enabled: bool,
    graph: Option<nat>,
    graphEnabled: bool)

  /** `new Microphone(registry, id, label)`. */
  function New(id: string, name: string): (m: Microphone)
    ensures Valid(m) && m.id == id && m.name == name && m.consumers == []
    ensures !m.noiseSuppression && !m.muted && !m.pending && m.track.None? && m.graph.None?
  {
    Microphone(id, name, [], false, false, false, None, true, None, true)
  }

  /** Consumers are a set, a track is only held once acquired, and the
      graph only exists around a held track. */
  predicate WellFormed(m: Microphone) {
    && MS.Distinct(m.consumers)
    && (m.track.Some? ==> m.pending)
    && (m.graph.Some? ==> m.track.Some?)
  }

  /** The muted state holds on every track the microphone has: a track is
      enabled exactly when the microphone is not muted. */
  predicate Silenced(m: Microphone) {
    && (m.track.Some? ==> m.enabled == !m.muted)
    && (m.graph.Some? ==> m.graphEnabled == !m.muted)
  }

  predicate Valid(m: Microphone) {
    WellFormed(m) && Silenced(m)
  }

  /** The track consumers receive: the graph's output when there is one,
      the raw track otherwise. */
  function Current(m: Microphone): (b: Option<Buffer>)
    ensures b.Some? <==> m.track.Some?
    ensures b.Some? ==> b.value == AudioBuffer(if m.graph.Some? then m.graph.value else m.track.value, false)
  {
    if m.track.None? then None
    else Some(AudioBuffer(if m.graph.Some? then m.graph.value else m.track.value, false))
  }

  /** Whether what consumers receive is live sound rather than silence. */
  predicate Audible(m: Microphone) {
    m.track.Some? && (if m.graph.Some? then m.graphEnabled else m.enabled)
  }

  /** Under the invariant, the microphone is audible exactly when it holds
      a track and is not muted. */
  lemma AudibleIffUnmuted(m: Microphone)
    requires Valid(m)
    ensures Audible(m) <==> m.track.Some? && !m.muted
  {
  }

  // ---------------------------------------------------------------------
  // Settings

  /** `setNoiseSuppression`: the flag is stored and nothing else changes;
      it takes effect at the next acquisition. */
  function SetNoiseSuppression(m: Microphone, on: bool): (r: Microphone)
    ensures r.noiseSuppression == on
    ensures Current(r) == Current(m) && Audible(r) == Audible(m)
    ensures Valid(m) ==> Valid(r)
  {
    m.(noiseSuppression := on)
  }

  /** `setMuted`: a changed state is stored and, while a track is held,
      applied to it and to the graph's output track. */
  function SetMuted(m: Microphone, muted: bool): (r: Microphone)
    ensures r.muted == muted && r.track == m.track && r.graph == m.graph && Current(r) == Current(m)
    ensures m.track.Some? && Silenced(m) ==> Silenced(r)
    ensures m.track.None? ==> r == m.(muted := muted)
  {
    if m.muted == muted then m
    else if m.track.None? then m.(muted := muted)
    else m.(muted := muted, enabled := !muted, graphEnabled := if m.graph.Some? then !muted else m.graphEnabled)
  }

  // ---------------------------------------------------------------------
  // Acquisition

  /** `acquire()`: starts a request unless one is pending or done. */
  function Acquire(m: Microphone): (r: (Microphone, seq<Effect>))
    ensures m.pending ==> r == (m, [])
    ensures !m.pending ==> r == (m.(pending := true), [Request])
  {
    if m.pending then (m, []) else (m.(pending := true), [Request])
  }

  /** How the request settles: with a track and, when noise suppression is
      on, the output track of the graph if the worklet could be loaded, or
      with an error. */
  datatype Outcome = Granted(track: nat, graph: Option<nat>) | Denied

  /** The settlement as the source writes it. Granted: the device list is
      refreshed when it has a single microphone, the raw track is held as
      the browser delivers it (enabled), a graph built for noise
      suppression has its output enabled exactly when not muted, and every
      consumer gets the buffer. Denied: the pending promise is dropped. */
  function SettleAsWritten(m: Microphone, o: Outcome, microphoneCount: nat): (r: (Microphone, seq<Effect>))
    requires m.pending && m.track.None?
    ensures o.Denied? ==> r == (m.(pending := false), [])
    ensures o.Granted? ==> r.0.track == Some(o.track) && r.0.enabled
    ensures o.Granted? ==> r.0.graph == (if m.noiseSuppression then o.graph else None)
    ensures o.Granted? ==> r.1 == (if microphoneCount == 1 then [RefreshDevices] else []) + Fanout(m.consumers, Current(r.0))
  {
    match o
    case Denied => (m.(pending := false), [])
    case Granted(t, g) =>
      var graph := if m.noiseSuppression then g else None;
      var m' := m.(track := Some(t), enabled := true, graph := graph, graphEnabled := !m.muted);
      (m', (if microphoneCount == 1 then [RefreshDevices] else []) + Fanout(m.consumers, Current(m')))
  }

  /** The settlement with the muted state also applied to the raw track,
      as it is on every other path that touches a track. */
  function Settle(m: Microphone, o: Outcome, microphoneCount: nat): (r: (Microphone, seq<Effect>))
    requires m.pending && m.track.None?
    ensures o.Denied? ==> r == SettleAsWritten(m, o, microphoneCount)
    ensures o.Granted? ==> r.0 == SettleAsWritten(m, o, microphoneCount).0.(enabled := !m.muted)
    ensures r.1 == SettleAsWritten(m, o, microphoneCount).1
    ensures o.Granted? || Silenced(m) ==> Silenced(r.0)
  {
    var w := SettleAsWritten(m, o, microphoneCount);
    if o.Granted? then (w.0.(enabled := !m.muted), w.1) else w
  }

  /** A microphone muted before it is acquired without noise suppression
      ends up handing out an enabled track: the muted state is lost. */
  lemma MutedBeforeAcquireIsAudible()
    ensures var m0 := SetMuted(New("default", "Default Microphone"), true);
      var m1 := Acquire(m0).0;
      m0.muted && Audible(SettleAsWritten(m1, Granted(7, None), 1).0)
  {
  }

  /** With the muted state applied on settlement the same sequence stays
      silent. */
  lemma MutedBeforeAcquireIsSilent()
    ensures var m0 := SetMuted(New("default", "Default Microphone"), true);
      var m1 := Acquire(m0).0;
      !Audible(Settle(m1, Granted(7, None), 1).0)
  {
  }

  /** `release()`: refused while a request is pending without a track.
      Otherwise the graph is torn down, every consumer gets `null` if a
      track was held, the track is stopped, and the microphone is idle. */
  function Release(m: Microphone): (r: Result<(Microphone, seq<Effect>)>)
    ensures r.Err? <==> m.pending && m.track.None?
    ensures r.Err? ==> r.error == "Can't release microphone in the middle of acquisition"
    ensures r.Ok? ==> r.value.0 == m.(pending := false, track := None, graph := None)
    ensures r.Ok? && m.track.Some? ==> r.value.1 == Fanout(m.consumers, None) + [Stop(m.track.value)]
    ensures r.Ok? && m.track.None? ==> r.value.1 == []
  {
    if m.pending && m.track.None? then Err("Can't release microphone in the middle of acquisition")
    else if m.track.Some? then Ok((m.(pending := false, track := None, graph := None), Fanout(m.consumers, None) + [Stop(m.track.value)]))
    else Ok((m.(pending := false, graph := None), []))
  }

  /** `destroy()` (and the track's `onended`): with a track, release it
      and tell the listener, if any; otherwise nothing. */
  function Destroy(m: Microphone, listening: bool): (r: (Microphone, seq<Effect>))
    ensures m.track.None? ==> r == (m, [])
    ensures m.track.Some? ==> r.0 == Release(m).value.0
    ensures m.track.Some? ==> r.1 == Release(m).value.1 + (if listening then [ReleasedForcibly] else [])
  {
    if m.track.None? then (m, [])
    else
      var released := Release(m).value;
      (released.0, released.1 + if listening then [ReleasedForcibly] else [])
  }

  function AddAudioConsumer(m: Microphone, consumer: nat): (r: (Microphone, seq<Effect>))
    ensures r.1 == [Deliver(consumer, Current(m))]
    ensures consumer in r.0.consumers && r.0 == m.(consumers := r.0.consumers)
  {
    var (cs, fx) := AddConsumer(m.consumers, consumer, Current(m));
    (m.(consumers := cs), fx)
  }

  function RemoveAudioConsumer(m: Microphone, consumer: nat): (r: (Microphone, seq<Effect>))
    ensures consumer !in r.0.consumers && r.0 == m.(consumers := r.0.consumers)
    ensures r.1 == if consumer in m.consumers then [Deliver(consumer, None)] else []
  {
    var (cs, fx) := RemoveConsumer(m.consumers, consumer);
    (m.(consumers := cs), fx)
  }

  // ---------------------------------------------------------------------
  // Properties

  datatype Op =
    | NoiseSuppressionSet(on: bool)
    | MutedSet(muted: bool)
    | Acquired
    | Settled(outcome: Outcome, microphoneCount: nat)
    | Released
    | Destroyed(listening: bool)
    | ConsumerAdded(consumer: nat)
    | ConsumerRemoved(consumer: nat)

  /** Any operation on the corrected microphone, with a thrown error (or a
      settlement with nothing pending) leaving it as it was. */
  function Step(m: Microphone, op: Op): (r: (Microphone, seq<Effect>)) {
    match op
    case NoiseSuppressionSet(on) => (SetNoiseSuppression(m, on), [])
    case MutedSet(muted) => (SetMuted(m, muted), [])
    case Acquired => Acquire(m)
    case Settled(o, n) => if m.pending && m.track.None? then Settle(m, o, n) else (m, [])
    case Released => var x := Release(m); if x.Ok? then x.value else (m, [])
    case Destroyed(l) => Destroy(m, l)
    case ConsumerAdded(x) => AddAudioConsumer(m, x)
    case ConsumerRemoved(x) => RemoveAudioConsumer(m, x)
  }

  /** Every operation keeps the invariant, so at every moment consumers
      hear sound exactly when a track is held and the microphone is not
      muted. */
  lemma StepKeepsValid(m: Microphone, op: Op)
    requires Valid(m)
    ensures Valid(Step(m, op).0)
    ensures Audible(Step(m, op).0) <==> Step(m, op).0.track.Some? && !Step(m, op).0.muted
  {
    AudibleIffUnmuted(Step(m, op).0);
  }

  /** While a request is pending, `acquire` makes no second request. */
  lemma AcquireIdempotent(m: Microphone)
    ensures Acquire(Acquire(m).0) == (Acquire(m).0, [])
  {
  }

  /** Releasing is idempotent once it succeeds. */
  lemma ReleaseIdempotent(m: Microphone)
    requires Release(m).Ok?
    ensures Release(Release(m).value.0) == Ok((Release(m).value.0, []))
  {
  }
}

=== FILE: negotiation.dfy ===
/** The negotiation scheduler of the WebRTC connection: `onnegotiationneeded`
    coalesces requests into one zero-delay timer, the timer callback counts
    requests and starts an offer/answer exchange only for the first, and
    the exchange's outcome either re-triggers, clears the lagging flag,
    enters lagging, or fails the connection. Timers and the promise chain
    become explicit events. */
module Negotiation {

  /** `negotiationTimeoutId != null`, the `negotiations` counter and the
      `lagging` flag, plus `exchanges`: how many offer/answer exchanges are
      in flight (a quantity the source does not store). */
  datatype State = State(timerPending: bool, negotiations: int, lagging: bool, exchanges: nat)

  const Initial: State := State(false, 0, false, 0)

  /** How the offer/answer promise chain settles. */
  datatype Outcome = Answered | TimedOut | Rejected

  datatype Event =
    | NegotiationNeeded
    | TimerFired
    | ExchangeSettled(outcome: Outcome, channelOpen: bool)
    | Aborted

  datatype Effect = StartExchange | StartedLagging | StoppedLagging | Failed

  /** At most one exchange is in flight, and one is exactly while the
      counter is positive. */
  predicate Valid(s: State) {
    && s.negotiations >= 0
    && s.exchanges <= 1
    && (s.exchanges == 1 <==> s.negotiations >= 1)
  }

  predicate Enabled(s: State, e: Event) {
    match e
    case TimerFired => s.timerPending
    case ExchangeSettled(_, _) => s.exchanges == 1
    case _ => true
  }

  /** `abort()`: the timer is cleared, the counter and lagging reset; the
      exchange in flight is abandoned. */
  function Abort(s: State): (r: State)
    ensures Valid(r) && !r.timerPending && !r.lagging
  {
    State(false, 0, false, 0)
  }

  /** `onnegotiationneeded`: schedule the timer unless one is pending. */
  function Request(s: State): (r: State)
    ensures r.timerPending
    ensures r.(timerPending := s.timerPending) == s
  {
    if s.timerPending then s else s.(timerPending := true)
  }

  function Step(s: State, e: Event): (r: (State, seq<Effect>))
    requires Enabled(s, e)
    ensures Valid(s) ==> Valid(r.0)
    ensures Valid(s) && StartExchange in r.1 ==> e.TimerFired? && s.exchanges == 0 && r.0.exchanges == 1
    ensures e.TimerFired? && Valid(s) ==> (StartExchange in r.1 <==> s.negotiations == 0)
    ensures StartedLagging in r.1 <==> !s.lagging && r.0.lagging
    ensures StoppedLagging in r.1 ==> s.lagging && !r.0.lagging
    ensures s.lagging && !r.0.lagging ==> StoppedLagging in r.1 || Failed in r.1 || e.Aborted?
    ensures Failed in r.1 ==> r.0 == Abort(s)
  {
    match e
    case NegotiationNeeded => (Request(s), [])
    case TimerFired =>
      var n := s.negotiations + 1;
      if n == 1 then (State(false, n, s.lagging, s.exchanges + 1), [StartExchange])
      else (State(false, n, s.lagging, s.exchanges), [])
    case ExchangeSettled(outcome, channelOpen) =>
      var idle := s.(exchanges := 0);
      if outcome.Answered? then
        var n := s.negotiations - 1;
        if n > 0 then (Request(idle.(negotiations := 0)), [])
        else if s.lagging then (idle.(negotiations := n, lagging := false), [StoppedLagging])
        else (idle.(negotiations := n), [])
      else if channelOpen && outcome.TimedOut? then
        var retry := Request(idle.(negotiations := 0, lagging := true));
        (retry, if s.lagging then [] else [StartedLagging])
      else (Abort(s), [Failed])
    case Aborted => (Abort(s), [])
  }

  /** Runs a sequence of events, skipping those that cannot occur in the
      state reached (a settled exchange with none in flight, a timer that
      is not pending). */
  function Run(s: State, events: seq<Event>): (r: (State, seq<Effect>))
    decreases |events|
  {
    if |events| == 0 then (s, [])
    else
      var (s1, fx1) := if Enabled(s, events[0]) then Step(s, events[0]) else (s, []);
      var (s2, fx2) := Run(s1, events[1..]);
      (s2, fx1 + fx2)
  }

  lemma {:induction false} RunKeepsValid(s: State, events: seq<Event>)
    requires Valid(s)
    ensures Valid(Run(s, events).0)
    decreases |events|
  {
    if |events| > 0 {
      var s1 := if Enabled(s, events[0]) then Step(s, events[0]).0 else s;
      RunKeepsValid(s1, events[1..]);
    }
  }

  /** From the initial state, no sequence of events ever has two exchanges
      in flight. */
  lemma AtMostOneExchange(events: seq<Event>)
    ensures Run(Initial, events).0.exchanges <= 1
  {
    RunKeepsValid(Initial, events);
  }

  function Repeat(e: Event, k: nat): (r: seq<Event>)
    ensures |r| == k && forall i :: 0 <= i < k ==> r[i] == e
  {
    if k == 0 then [] else [e] + Repeat(e, k - 1)
  }

  lemma {:induction false} RequestsCoalesce(s: State, k: nat)
    requires k >= 1
    ensures Run(s, Repeat(NegotiationNeeded, k)) == (Request(s), [])
    decreases k
  {
    var events := Repeat(NegotiationNeeded, k);
    assert Step(s, events[0]) == (Request(s), []);
    if k > 1 {
      assert events[1..] == Repeat(NegotiationNeeded, k - 1);
      RequestsCoalesce(Request(s), k - 1);
      assert Request(Request(s)) == Request(s);
    } else {
      assert events[1..] == [];
      assert Run(Request(s), events[1..]) == (Request(s), []);
      var none: seq<Effect> := [];
      assert none + none == none;
      assert Run(s, events) == (Request(s), none + none);
    }
  }

  lemma RunAppend(s: State, a: seq<Event>, b: seq<Event>)
    ensures Run(s, a + b) == (Run(Run(s, a).0, b).0, Run(s, a).1 + Run(Run(s, a).0, b).1)
    decreases |a|
  {
    if |a| > 0 {
      assert (a + b)[0] == a[0];
      assert (a + b)[1..] == a[1..] + b;
      var (s1, fx1) := if Enabled(s, a[0]) then Step(s, a[0]) else (s, []);
      RunAppend(s1, a[1..], b);
      var ra := Run(s1, a[1..]);
      var rb := Run(ra.0, b);
      assert Run(s, a) == (ra.0, fx1 + ra.1);
      assert Run(s, a + b) == (rb.0, fx1 + (ra.1 + rb.1));
      assert fx1 + (ra.1 + rb.1) == (fx1 + ra.1) + rb.1;
    } else {
      assert a + b == b;
      assert Run(s, a) == (s, []);
      assert [] + Run(s, b).1 == Run(s, b).1;
    }
  }

  /** However many `negotiationneeded` events arrive while the connection
      is idle, the timer then starts exactly one exchange. */
  lemma BurstStartsOneExchange(s: State, k: nat)
    requires Valid(s) && s.exchanges == 0 && k >= 1
    ensures Run(s, Repeat(NegotiationNeeded, k) + [TimerFired]).1 == [StartExchange]
    ensures Run(s, Repeat(NegotiationNeeded, k) + [TimerFired]).0.exchanges == 1
  {
    RunAppend(s, Repeat(NegotiationNeeded, k), [TimerFired]);
    RequestsCoalesce(s, k);
  }

  /** A request made while an exchange is in flight is not lost: when the
      exchange is answered, the counter is reset and the timer is
      scheduled, so the next timer starts a fresh exchange. */
  lemma PendingRequestRetriggers(s: State)
    requires Valid(s) && s.exchanges == 1 && s.negotiations >= 2
    ensures var r := Step(s, ExchangeSettled(Answered, true)).0;
      r.timerPending && r.negotiations == 0 && r.exchanges == 0
      && Step(r, TimerFired).1 == [StartExchange]
  {
  }

  /** The lagging notifications of an effect trace, with `Failed` standing
      for the reset that `abort` performs. */
  predicate Alternates(fx: seq<Effect>, lagging: bool)
    decreases |fx|
  {
    if |fx| == 0 then true
    else match fx[0]
      case StartedLagging => !lagging && Alternates(fx[1..], true)
      case StoppedLagging => lagging && Alternates(fx[1..], false)
      case Failed => Alternates(fx[1..], false)
      case StartExchange => Alternates(fx[1..], lagging)
  }

  /** The lagging flag after an effect trace that `Alternates`. */
  function LaggingAfter(fx: seq<Effect>, lagging: bool): bool
    decreases |fx|
  {
    if |fx| == 0 then lagging
    else match fx[0]
      case StartedLagging => LaggingAfter(fx[1..], true)
      case StoppedLagging => LaggingAfter(fx[1..], false)
      case Failed => LaggingAfter(fx[1..], false)
      case StartExchange => LaggingAfter(fx[1..], lagging)
  }

  lemma {:induction false} AlternatesAppend(a: seq<Effect>, b: seq<Effect>, lagging: bool)
    ensures Alternates(a + b, lagging) <==> Alternates(a, lagging) && Alternates(b, LaggingAfter(a, lagging))
    ensures LaggingAfter(a + b, lagging) == LaggingAfter(b, LaggingAfter(a, lagging))
    decreases |a|
  {
    if |a| > 0 {
      assert (a + b)[1..] == a[1..] + b;
      match a[0]
      case StartedLagging => AlternatesAppend(a[1..], b, true);
      case StoppedLagging => AlternatesAppend(a[1..], b, false);
      case Failed => AlternatesAppend(a[1..], b, false);
      case StartExchange => AlternatesAppend(a[1..], b, lagging);
    } else {
      assert a + b == b;
    }
  }

  lemma StepAlternates(s: State, e: Event)
    requires Enabled(s, e) && !e.Aborted?
    ensures Alternates(Step(s, e).1, s.lagging)
    ensures LaggingAfter(Step(s, e).1, s.lagging) == Step(s, e).0.lagging
  {
  }

  /** Without an external `abort`, `onStartedLagging` and `onStoppedLagging`
      strictly alternate (a failure resets the flag), and the last of them
      tells the current lagging state: consecutive timeouts report lagging
      once. */
  lemma {:induction false} LaggingNotificationsAlternate(s: State, events: seq<Event>)
    requires forall i :: 0 <= i < |events| ==> !events[i].Aborted?
    ensures Alternates(Run(s, events).1, s.lagging)
    ensures LaggingAfter(Run(s, events).1, s.lagging) == Run(s, events).0.lagging
    decreases |events|
  {
    if |events| > 0 {
      var (s1, fx1) := if Enabled(s, events[0]) then Step(s, events[0]) else (s, []);
      if Enabled(s, events[0]) {
        StepAlternates(s, events[0]);
      }
      LaggingNotificationsAlternate(s1, events[1..]);
      AlternatesAppend(fx1, Run(s1, events[1..]).1, s.lagging);
    }
  }
}

=== FILE: noise_suppression.dfy ===
/** The index bookkeeping of the noise-suppression audio worklet. Input
    arrives in 128-sample frames and is written into a 1920-sample circular
    buffer per channel; RNNoise denoises it in place in 480-sample frames;
    output is read back four input frames (512 samples) behind the writer.
    Only the indices and the counter are modelled, not the samples. */
module NoiseSuppression {
  import opened Wrappers
  import opened Numbers

  /** `PROCESS_FRAME_SIZE`, `RNNOISE_FRAME_SIZE` and `RNNOISE_BUFFER_SIZE`. */
  const ProcessFrame: int := 128
  const DenoiseFrame: int := 480
  const BufferSize: int := 1920

  /** The worklet's state: how many channels have an RNNoise instance, the
      three buffer indices and the count of written but not yet denoised
      samples. */
  datatype Worklet = Worklet(filters: nat, writing: int, processing: int, reading: int, unprocessed: int)

  const Initial: Worklet := Worklet(0, 0, 0, -512, 0)

  /** What one `process` call does besides updating the state: its return
      value, where it denoised (the same index for every channel), where it
      read the output from (`None`: the output is left silent), and how many
      RNNoise instances it destroyed. */
  datatype Frame = Frame(keepAlive: bool, denoisedAt: Option<int>, readFrom: Option<int>, destroyed: nat)

  /** How far `a` lies behind `b` in the circular buffer. */
  function Behind(a: int, b: int): (d: int)
    ensures 0 <= d < BufferSize
  {
    (b - a) % BufferSize
  }

  function Max(a: nat, b: nat): nat {
    if a >= b then a else b
  }

  /** `process(inputs, outputs)` with `channels` input channels. */
  function Process(w: Worklet, channels: nat): (r: (Worklet, Frame))
    ensures r.1.keepAlive <==> channels > 0
    ensures channels == 0 ==> r.0 == Initial && r.1.destroyed == w.filters && r.1.denoisedAt.None? && r.1.readFrom.None?
    ensures channels > 0 ==>
      && r.1.destroyed == 0
      && r.0.filters == Max(w.filters, channels)
      && (r.1.denoisedAt.Some? <==> w.unprocessed + ProcessFrame >= DenoiseFrame)
      && (r.1.readFrom.Some? <==> w.reading >= 0)
  {
    if channels > 0 then
      var count := w.unprocessed + ProcessFrame;
      var denoise := count >= DenoiseFrame;
      var w' := Worklet(
        Max(w.filters, channels),
        JsRem(w.writing + ProcessFrame, BufferSize),
        if denoise then JsRem(w.processing + DenoiseFrame, BufferSize) else w.processing,
        JsRem(w.reading + ProcessFrame, BufferSize),
        if denoise then count - DenoiseFrame else count);
      (w', Frame(true, if denoise then Some(w.processing) else None, if w.reading >= 0 then Some(w.reading) else None, 0))
    else
      (Initial, Frame(false, None, None, w.filters))
  }

  /** The index invariant: every index is a whole frame of its size inside
      the buffer (the reading index may still be in its initial negative
      stretch), the reader is exactly 512 samples behind the writer, and the
      denoiser is behind the writer by the count of undenoised samples,
      which is less than one RNNoise frame. */
  predicate Valid(w: Worklet) {
    && 0 <= w.writing < BufferSize && w.writing % ProcessFrame == 0
    && 0 <= w.processing < BufferSize && w.processing % DenoiseFrame == 0
    && -512 <= w.reading < BufferSize && w.reading % ProcessFrame == 0
    && 0 <= w.unprocessed < DenoiseFrame
    && (w.reading == w.writing - 512 || w.reading == w.writing - 512 + BufferSize)
    && (w.processing + w.unprocessed == w.writing || w.processing + w.unprocessed == w.writing + BufferSize)
    && (w.reading < 0 ==> w.reading == w.writing - 512)
  }

  lemma BehindIs(a: int, b: int, d: int)
    requires 0 <= d < BufferSize
    requires b - a == d || b - a == d - BufferSize || b - a == d + BufferSize
    ensures Behind(a, b) == d
  {
  }

  /** The distances the invariant keeps, read circularly. */
  lemma ValidDistances(w: Worklet)
    requires Valid(w)
    ensures Behind(w.reading, w.writing) == 512
    ensures Behind(w.processing, w.writing) == w.unprocessed
  {
    BehindIs(w.reading, w.writing, 512);
    BehindIs(w.processing, w.writing, w.unprocessed);
  }

  lemma InitialValid()
    ensures Valid(Initial)
  {
  }

  /** JavaScript `%` by the buffer size on the values that occur: a number
      just below zero is left as it is, and one past the end wraps once. */
  lemma Wrap(a: int)
    requires -BufferSize < a < 2 * BufferSize
    ensures JsRem(a, BufferSize) == if a >= BufferSize then a - BufferSize else a
  {
    if a < 0 {
      assert (-a) % BufferSize == -a;
    }
  }

  lemma StepFrame(x: int, step: int)
    requires step == ProcessFrame || step == DenoiseFrame
    requires 0 <= x < BufferSize && x % step == 0
    ensures var y := JsRem(x + step, BufferSize);
      0 <= y < BufferSize && y % step == 0 && (y == x + step || y == x + step - BufferSize)
  {
    Wrap(x + step);
  }

  lemma StepReading(x: int)
    requires -512 <= x < BufferSize && x % ProcessFrame == 0
    ensures var y := JsRem(x + ProcessFrame, BufferSize);
      -512 <= y < BufferSize && y % ProcessFrame == 0 && (y == x + ProcessFrame || y == x + ProcessFrame - BufferSize)
      && (y < 0 ==> y == x + ProcessFrame)
  {
    Wrap(x + ProcessFrame);
  }

  /** A call keeps the index invariant; in particular the undenoised count
      is below 480 after every call. */
  lemma ProcessKeepsValid(w: Worklet, channels: nat)
    requires Valid(w)
    ensures Valid(Process(w, channels).0)
  {
    if channels > 0 {
      var w' := Process(w, channels).0;
      StepFrame(w.writing, ProcessFrame);
      StepReading(w.reading);
      if w.unprocessed + ProcessFrame >= DenoiseFrame {
        StepFrame(w.processing, DenoiseFrame);
      }
      assert w'.reading == w'.writing - 512 || w'.reading == w'.writing - 512 + BufferSize;
      assert w'.processing + w'.unprocessed == w'.writing || w'.processing + w'.unprocessed == w'.writing + BufferSize;
    }
  }

  /** The frame RNNoise denoises has been written in full, and the writer
      has not lapped it. */
  lemma DenoisesWrittenSamples(w: Worklet, channels: nat)
    requires Valid(w) && channels > 0
    ensures Process(w, channels).1.denoisedAt.Some? ==>
      DenoiseFrame <= Behind(Process(w, channels).1.denoisedAt.value, w.writing + ProcessFrame) < BufferSize - ProcessFrame
  {
    BehindIs(w.processing, w.writing + ProcessFrame, w.unprocessed + ProcessFrame);
  }

  /** The output frame lies wholly in the denoised part of the buffer: at
      least 128 samples behind where denoising has reached after the call,
      and never more than 640. */
  lemma OutputIsDenoised(w: Worklet, channels: nat)
    requires Valid(w) && channels > 0
    ensures var w' := Process(w, channels).0;
      ProcessFrame <= Behind(w.reading, w'.processing) <= 640
  {
    var w' := Process(w, channels).0;
    Wrap(w.processing + DenoiseFrame);
    BehindIs(w.reading, w'.processing, 640 - w'.unprocessed);
  }

  /** `n` consecutive non-empty calls. */
  function Feed(w: Worklet, n: nat): Worklet
    decreases n
  {
    if n == 0 then w else Feed(Process(w, 1).0, n - 1)
  }

  lemma {:induction false} FeedWarmup(n: nat)
    requires n <= 4
    ensures Feed(Initial, n).reading == -512 + ProcessFrame * n
    ensures Valid(Feed(Initial, n))
    decreases n
  {
    if n > 0 {
      FeedWarmup(n - 1);
      FeedSplit(Initial, n - 1);
      ProcessKeepsValid(Feed(Initial, n - 1), 1);
      Wrap(Feed(Initial, n - 1).reading + ProcessFrame);
    } else {
      InitialValid();
    }
  }

  lemma {:induction false} FeedSplit(w: Worklet, n: nat)
    ensures Feed(w, n + 1) == Process(Feed(w, n), 1).0
    decreases n
  {
    if n > 0 {
      FeedSplit(Process(w, 1).0, n - 1);
    }
  }

  lemma {:induction false} FeedSteady(n: nat)
    requires n >= 4
    ensures Feed(Initial, n).reading >= 0
    ensures Valid(Feed(Initial, n))
    decreases n
  {
    if n == 4 {
      FeedWarmup(4);
    } else {
      FeedSteady(n - 1);
      FeedSplit(Initial, n - 1);
      ProcessKeepsValid(Feed(Initial, n - 1), 1);
    }
  }

  /** After a start or a reset, the first four calls leave the output
      silent and every later call fills it. */
  lemma OutputAfterFourFrames(n: nat)
    ensures Process(Feed(Initial, n), 1).1.readFrom.Some? <==> n >= 4
  {
    if n >= 4 {
      FeedSteady(n);
    } else {
      FeedWarmup(n);
    }
  }

  /** An empty input resets the worklet, so the next input starts afresh. */
  lemma ResetRestarts(w: Worklet)
    ensures Process(w, 0).0 == Initial && Valid(Process(w, 0).0)
  {
  }
}

=== FILE: numbers.dfy ===
/** Number semantics the source relies on: JavaScript numbers that may be
    `+Infinity`, truncating `%`, `Math.round`, and the decimal text that
    string concatenation produces for an integer. */
module Numbers {
  import opened Wrappers

  /** A JavaScript number restricted to the two shapes the core uses:
      a finite integer or `Number.POSITIVE_INFINITY`. */
  datatype Ext = Fin(n: int) | Inf

  /** `a <= b` on extended numbers (`x <= Infinity` always holds). */
  predicate Leq(a: Ext, b: Ext) {
    b.Inf? || (a.Fin? && a.n <= b.n)
  }

  /** `x > 0`, the guard of every cap and dimension setter. */
  predicate IsPositive(x: Ext) {
    x.Inf? || x.n > 0
  }

  /** `Math.min(x, y)` for a finite `x`. */
  function MinFin(x: int, y: Ext): (r: int)
    ensures Leq(Fin(r), y) || r == x
    ensures r <= x
    ensures y.Fin? ==> r <= y.n
    ensures r == x || (y.Fin? && r == y.n)
  {
    if y.Inf? || x <= y.n then x else y.n
  }

  function Pow(b: nat, e: nat): (r: nat)
    decreases e
  {
    if e == 0 then 1 else b * Pow(b, e - 1)
  }

  lemma {:induction false} PowPositive(b: nat, e: nat)
    requires b > 0
    ensures Pow(b, e) > 0
    decreases e
  {
    if e > 0 {
      PowPositive(b, e - 1);
    }
  }

  /** The quotient of JavaScript integer division, truncated towards zero. */
  function TruncQuot(a: int, m: int): int
    requires m > 0
  {
    if a >= 0 then a / m else -((-a) / m)
  }

  /** JavaScript `a % m` for `m > 0`: the remainder takes the sign of the
      dividend (truncating division), unlike Dafny's Euclidean `%`. */
  function JsRem(a: int, m: int): (r: int)
    requires m > 0
    ensures a >= 0 ==> 0 <= r < m
    ensures a < 0 ==> -m < r <= 0
    ensures a == TruncQuot(a, m) * m + r
  {
    if a >= 0 then a % m else -((-a) % m)
  }

  /** `Math.round(ms / 1000)`: the nearest whole number of seconds, halves
      rounded towards `+Infinity`. */
  function RoundMillisToSeconds(ms: int): (s: int)
    ensures s * 1000 - 500 <= ms < s * 1000 + 500
  {
    (ms + 500) / 1000
  }

  // ---------------------------------------------------------------------
  // Decimal text of integers (what `"" + n` yields for a safe integer).

  const Digits: string := "0123456789"

  predicate IsDigit(c: char) {
    '0' <= c <= '9'
  }

  predicate AllDigits(s: string) {
    forall i :: 0 <= i < |s| ==> IsDigit(s[i])
  }

  function DigitValue(c: char): (d: nat)
    requires IsDigit(c)
    ensures d < 10
  {
    (c as int - '0' as int) as nat
  }

  function DigitChar(d: nat): (c: char)
    requires d < 10
    ensures IsDigit(c) && DigitValue(c) == d
  {
    Digits[d]
  }

  /** Decimal digits of `n`, most significant first, without leading zeros. */
  function NatToString(n: nat): (s: string)
    ensures |s| >= 1 && AllDigits(s)
    ensures n > 0 ==> s[0] != '0'
    decreases n
  {
    if n < 10 then [DigitChar(n)] else NatToString(n / 10) + [DigitChar(n % 10)]
  }

  /** `"" + i` for an integer `i`. */
  function IntToString(i: int): (s: string)
    ensures |s| >= 1
    ensures ':' !in s
  {
    var s := if i < 0 then "-" + NatToString(-i) else NatToString(i);
    assert s[0] != ':' && AllDigits(s[1..]);
    s
  }

  function ParseNat(s: string): (n: nat)
    requires |s| >= 1 && AllDigits(s)
    decreases |s|
  {
    if |s| == 1 then DigitValue(s[0])
    else 10 * ParseNat(s[..|s| - 1]) + DigitValue(s[|s| - 1])
  }

  /** Reads back the text `IntToString` produces; `None` for anything else. */
  function ParseInt(s: string): Option<int> {
    if |s| >= 2 && s[0] == '-' && AllDigits(s[1..]) then Some(-(ParseNat(s[1..]) as int))
    else if |s| >= 1 && AllDigits(s) then Some(ParseNat(s))
    else None
  }

  lemma {:induction false} ParseNatToString(n: nat)
    ensures ParseNat(NatToString(n)) == n
    decreases n
  {
    if n >= 10 {
      var s := NatToString(n);
      assert s[..|s| - 1] == NatToString(n / 10);
      ParseNatToString(n / 10);
    }
  }

  /** The decimal text of an integer reads back as that integer. */
  lemma ParseIntToString(i: int)
    ensures ParseInt(IntToString(i)) == Some(i)
  {
    if i < 0 {
      ParseNegativeToString(i);
    } else {
      ParseNatToString(i);
      ParseDigits(NatToString(i));
    }
  }

  lemma ParseNegativeToString(i: int)
    requires i < 0
    ensures ParseInt(IntToString(i)) == Some(i)
  {
    var n: nat := -i;
    assert IntToString(i) == "-" + NatToString(n);
    ParseNegative(n);
  }

  lemma ParseDigits(t: string)
    requires |t| >= 1 && AllDigits(t)
    ensures ParseInt(t) == Some(ParseNat(t))
  {
    assert IsDigit(t[0]);
  }

  /** A minus sign before the digits of `n` reads back as `-n`. */
  lemma ParseNegative(n: nat)
    ensures ParseInt("-" + NatToString(n)) == Some(-(n as int))
  {
    var t := NatToString(n);
    ParseNatToString(n);
    assert ("-" + t)[1..] == t;
  }

  // ---------------------------------------------------------------------
  // Splitting text on a separator (`String.prototype.split`).

  function IndexOf(s: string, c: char): (k: int)
    ensures -1 <= k
    ensures k == -1 <==> c !in s
    ensures 0 <= k ==> k < |s| && s[k] == c && c !in s[..k]
    decreases |s|
  {
    if |s| == 0 then -1
    else if s[0] == c then 0
    else
      var k := IndexOf(s[1..], c);
      if k == -1 then -1 else
        assert s[..k + 1] == [s[0]] + s[1..][..k];
        k + 1
  }

  /** `s.split(c)`: the maximal pieces of `s` that do not contain `c`. */
  function Split(s: string, c: char): (parts: seq<string>)
    ensures |parts| >= 1
    decreases |s|
  {
    var k := IndexOf(s, c);
    if k == -1 then [s] else [s[..k]] + Split(s[k + 1..], c)
  }

  /** Splitting `x + c + y` where `x` has no separator yields `x` first. */
  lemma SplitJoin(x: string, c: char, y: string)
    requires c !in x
    ensures Split(x + [c] + y, c) == [x] + Split(y, c)
  {
    var s := x + [c] + y;
    assert c in s by { assert s[|x|] == c; }
    var k := IndexOf(s, c);
    IndexOfAfter(x, c, y);
    assert s[..k] == x;
    assert s[k + 1..] == y;
  }

  lemma {:induction false} IndexOfAfter(x: string, c: char, y: string)
    requires c !in x
    ensures IndexOf(x + [c] + y, c) == |x|
    decreases |x|
  {
    if |x| > 0 {
      assert (x + [c] + y)[1..] == x[1..] + [c] + y;
      IndexOfAfter(x[1..], c, y);
    }
  }

  /** `parts.join(c)`. */
  function Join(parts: seq<string>, c: char): string
    requires |parts| >= 1
  {
    if |parts| == 1 then parts[0] else parts[0] + [c] + Join(parts[1..], c)
  }

  /** Splitting undoes joining when no part holds the separator. */
  lemma {:induction false} SplitJoinAll(parts: seq<string>, c: char)
    requires |parts| >= 1 && forall i | 0 <= i < |parts| :: c !in parts[i]
    ensures Split(Join(parts, c), c) == parts
    decreases |parts|
  {
    if |parts| == 1 {
      SplitNoSeparator(parts[0], c);
    } else {
      SplitJoin(parts[0], c, Join(parts[1..], c));
      SplitJoinAll(parts[1..], c);
      assert parts == [parts[0]] + parts[1..];
    }
  }

  lemma SplitNoSeparator(x: string, c: char)
    requires c !in x
    ensures Split(x, c) == [x]
  {
  }
}

=== FILE: participant.dfy ===
/** `Participant`: a remote participant. Its primary and secondary media
    streams are supplied by the session's WebRTC connection for each kind
    the server says the participant streams; an update from the server
    changes the fields that differ and fires one event per change. */
module Participants {
  import opened Wrappers
  import MS = MediaStreams
  import T = Transceivers

  /** Which kinds a stream carries (`media` / `secondaryMedia` of a DTO). */
  datatype Media = Media(audio: bool, video: bool)

  /** The server's participant resource. */
  datatype Dto = Dto(
    id: string,
    name: string,
    priority: real,
    language: string,
    role: string,
    online: bool,
    media: Media,
    secondaryMedia: Media)

  datatype Participant = Participant(
    id: string,
    name: string,
    priority: real,
    language: string,
    role: string,
    primary: MS.Stream,
    secondary: MS.Stream)

  /** The session listener's participant callbacks. */
  datatype Event =
    | NameChanged
    | PriorityChanged
    | LanguageChanged
    | RoleChanged
    | MediaChanged
    | SecondaryMediaChanged

  /** The connection when the flag is set, `null` otherwise. */
  function Supplier(flag: bool, conn: nat): (s: Option<nat>)
    ensures s.Some? <==> flag
    ensures s.Some? ==> s.value == conn
  {
    if flag then Some(conn) else None
  }

  /** Which kinds a stream has a supplier for. */
  function Streaming(m: MS.Stream): (media: Media)
    ensures media.audio <==> MS.HasSupplier(m, T.Audio)
    ensures media.video <==> MS.HasSupplier(m, T.Video)
  {
    Media(MS.HasSupplier(m, T.Audio), MS.HasSupplier(m, T.Video))
  }

  predicate StreamValid(m: MS.Stream) {
    MS.Valid(m.audio) && MS.Valid(m.video)
  }

  predicate StreamsValid(p: Participant) {
    StreamValid(p.primary) && StreamValid(p.secondary)
  }

  /** Every supplier of the participant's streams is the connection. */
  predicate SuppliedBy(p: Participant, conn: nat) {
    && (p.primary.audio.supplier.Some? ==> p.primary.audio.supplier.value == conn)
    && (p.primary.video.supplier.Some? ==> p.primary.video.supplier.value == conn)
    && (p.secondary.audio.supplier.Some? ==> p.secondary.audio.supplier.value == conn)
    && (p.secondary.video.supplier.Some? ==> p.secondary.video.supplier.value == conn)
  }

  /** `Participant.fromDTO(session, dto)`: the fields of the DTO, and two
      fresh streams labelled `<id>#primary` and `<id>#secondary` supplied
      by the connection for exactly the kinds the DTO flags. */
  function FromDto(dto: Dto, conn: nat): (p: Participant)
    ensures p.id == dto.id && p.name == dto.name && p.priority == dto.priority
    ensures p.language == dto.language && p.role == dto.role
    ensures p.primary.tag == dto.id + "#primary" && p.secondary.tag == dto.id + "#secondary"
    ensures Streaming(p.primary) == dto.media && Streaming(p.secondary) == dto.secondaryMedia
    ensures SuppliedBy(p, conn) && StreamsValid(p)
    ensures p.primary.audio.consumers == [] && p.primary.video.consumers == []
    ensures p.secondary.audio.consumers == [] && p.secondary.video.consumers == []
  {
    Participant(dto.id, dto.name, dto.priority, dto.language, dto.role,
      MS.Create(dto.id + "#primary", Supplier(dto.media.audio, conn), Supplier(dto.media.video, conn)),
      MS.Create(dto.id + "#secondary", Supplier(dto.secondaryMedia.audio, conn), Supplier(dto.secondaryMedia.video, conn)))
  }

  /** `isStreamingAudio` / `isStreamingVideo` and their secondary
      counterparts. */
  predicate IsStreamingAudio(p: Participant) {
    MS.HasSupplier(p.primary, T.Audio)
  }

  predicate IsStreamingVideo(p: Participant) {
    MS.HasSupplier(p.primary, T.Video)
  }

  predicate IsStreamingSecondaryAudio(p: Participant) {
    MS.HasSupplier(p.secondary, T.Audio)
  }

  predicate IsStreamingSecondaryVideo(p: Participant) {
    MS.HasSupplier(p.secondary, T.Video)
  }

  /** A participant built from a DTO streams exactly what the DTO says. */
  lemma FromDtoStreaming(dto: Dto, conn: nat)
    ensures IsStreamingAudio(FromDto(dto, conn)) == dto.media.audio
    ensures IsStreamingVideo(FromDto(dto, conn)) == dto.media.video
    ensures IsStreamingSecondaryAudio(FromDto(dto, conn)) == dto.secondaryMedia.audio
    ensures IsStreamingSecondaryVideo(FromDto(dto, conn)) == dto.secondaryMedia.video
  {
  }

  /** `setAudioSupplier` then `setVideoSupplier` on one stream: the stream
      ends up supplied for exactly the kinds of `media`, nothing else about
      it changes, and it stays registered exactly with its new suppliers. */
  function SetMedia(m: MS.Stream, media: Media, conn: nat): (r: (MS.Stream, seq<MS.Effect>))
    ensures Streaming(r.0) == media
    ensures r.0.audio.supplier == Supplier(media.audio, conn) && r.0.video.supplier == Supplier(media.video, conn)
    ensures r.0 == m.(audio := r.0.audio, video := r.0.video)
    ensures r.0.audio.consumers == m.audio.consumers && r.0.video.consumers == m.video.consumers
    ensures StreamValid(m) ==> StreamValid(r.0)
    ensures forall e | e in r.1 :: !e.Deliver?
  {
    var (a, fa) := MS.SetSupplier(m.audio, Supplier(media.audio, conn));
    var (v, fv) := MS.SetSupplier(m.video, Supplier(media.video, conn));
    assert StreamValid(m) ==> StreamValid(m.(audio := a, video := v)) by {
      MS.SetSupplierKeeps(m.audio, Supplier(media.audio, conn));
      MS.SetSupplierKeeps(m.video, Supplier(media.video, conn));
    }
    (m.(audio := a, video := v), fa + fv)
  }

  /** The position of an event in the order `update` fires them. */
  function Rank(e: Event): nat {
    match e
    case NameChanged => 0
    case PriorityChanged => 1
    case LanguageChanged => 2
    case RoleChanged => 3
    case MediaChanged => 4
    case SecondaryMediaChanged => 5
  }

  /** Events in firing order, none twice. */
  predicate InOrder(events: seq<Event>) {
    forall i, j | 0 <= i < j < |events| :: Rank(events[i]) < Rank(events[j])
  }

  /** Whether `update(dto)` fires `e`: its field, or one of its stream's
      flags, differs from the DTO. */
  predicate Differs(p: Participant, dto: Dto, e: Event) {
    match e
    case NameChanged => p.name != dto.name
    case PriorityChanged => p.priority != dto.priority
    case LanguageChanged => p.language != dto.language
    case RoleChanged => p.role != dto.role
    case MediaChanged => Streaming(p.primary) != dto.media
    case SecondaryMediaChanged => Streaming(p.secondary) != dto.secondaryMedia
  }

  /** `e` when `update(dto)` fires it, nothing otherwise. */
  function Fire(p: Participant, dto: Dto, e: Event): (r: seq<Event>)
    ensures forall x | x in r :: x == e
  {
    if Differs(p, dto, e) then [e] else []
  }

  /** One event per differing field, in firing order. */
  function Fired(p: Participant, dto: Dto): seq<Event> {
    Fire(p, dto, NameChanged) + Fire(p, dto, PriorityChanged) + Fire(p, dto, LanguageChanged)
    + Fire(p, dto, RoleChanged) + Fire(p, dto, MediaChanged) + Fire(p, dto, SecondaryMediaChanged)
  }

  lemma FiredInOrder(p: Participant, dto: Dto)
    ensures InOrder(Fired(p, dto))
  {
    var e1 := Fire(p, dto, NameChanged);
    var e2 := e1 + Fire(p, dto, PriorityChanged);
    var e3 := e2 + Fire(p, dto, LanguageChanged);
    var e4 := e3 + Fire(p, dto, RoleChanged);
    var e5 := e4 + Fire(p, dto, MediaChanged);
    FireThen(e1, p, dto, PriorityChanged);
    FireThen(e2, p, dto, LanguageChanged);
    FireThen(e3, p, dto, RoleChanged);
    FireThen(e4, p, dto, MediaChanged);
    FireThen(e5, p, dto, SecondaryMediaChanged);
  }

  lemma FiredMembers(p: Participant, dto: Dto)
    ensures forall e :: e in Fired(p, dto) <==> Differs(p, dto, e)
  {
    forall e
      ensures e in Fired(p, dto) <==> Differs(p, dto, e)
    {
      assert e in Fire(p, dto, e) <==> Differs(p, dto, e);
    }
  }

  /** The events `update(dto)` fires, in firing order: one per field that
      differs, then one per stream whose flags differ. */
  function Changes(p: Participant, dto: Dto): (events: seq<Event>)
    ensures forall e :: e in events <==> Differs(p, dto, e)
    ensures NameChanged in events <==> p.name != dto.name
    ensures PriorityChanged in events <==> p.priority != dto.priority
    ensures LanguageChanged in events <==> p.language != dto.language
    ensures RoleChanged in events <==> p.role != dto.role
    ensures MediaChanged in events <==> Streaming(p.primary) != dto.media
    ensures SecondaryMediaChanged in events <==> Streaming(p.secondary) != dto.secondaryMedia
    ensures InOrder(events)
  {
    FiredInOrder(p, dto);
    FiredMembers(p, dto);
    Fired(p, dto)
  }

  /** Firing `e` after events of lower rank keeps the firing order. */
  lemma FireThen(a: seq<Event>, p: Participant, dto: Dto, e: Event)
    requires InOrder(a) && forall x | x in a :: Rank(x) < Rank(e)
    ensures InOrder(a + Fire(p, dto, e))
    ensures forall x | x in a + Fire(p, dto, e) :: Rank(x) <= Rank(e)
  {
    InOrderAppend(a, Fire(p, dto, e));
  }

  lemma InOrderAppend(a: seq<Event>, b: seq<Event>)
    requires InOrder(a) && InOrder(b)
    requires forall x, y | x in a && y in b :: Rank(x) < Rank(y)
    ensures InOrder(a + b)
  {
    forall i, j | 0 <= i < j < |a + b|
      ensures Rank((a + b)[i]) < Rank((a + b)[j])
    {
      if j < |a| {
        assert (a + b)[i] == a[i] && (a + b)[j] == a[j];
      } else if i >= |a| {
        assert (a + b)[i] == b[i - |a|] && (a + b)[j] == b[j - |a|];
      } else {
        assert (a + b)[i] in a && (a + b)[j] in b;
      }
    }
  }

  /** `update(dto)`: each of name, priority, language and role takes the
      DTO's value and fires its event only if it differed. If either flag
      of a stream differs from what it streams, both of its suppliers are
      reset from the DTO and one media event fires. */
  function Update(p: Participant, dto: Dto, conn: nat): (r: (Participant, seq<Event>, seq<MS.Effect>))
    ensures r.0.id == p.id && r.0.name == dto.name && r.0.priority == dto.priority
    ensures r.0.language == dto.language && r.0.role == dto.role
    ensures Streaming(r.0.primary) == dto.media && Streaming(r.0.secondary) == dto.secondaryMedia
    ensures r.1 == Changes(p, dto)
    ensures Streaming(p.primary) == dto.media ==> r.0.primary == p.primary
    ensures Streaming(p.secondary) == dto.secondaryMedia ==> r.0.secondary == p.secondary
    ensures StreamsValid(p) ==> StreamsValid(r.0)
    ensures SuppliedBy(p, conn) ==> SuppliedBy(r.0, conn)
  {
    var (primary, fp) := if Streaming(p.primary) != dto.media then SetMedia(p.primary, dto.media, conn) else (p.primary, []);
    var (secondary, fs) := if Streaming(p.secondary) != dto.secondaryMedia then SetMedia(p.secondary, dto.secondaryMedia, conn) else (p.secondary, []);
    (p.(name := dto.name, priority := dto.priority, language := dto.language, role := dto.role,
        primary := primary, secondary := secondary), Changes(p, dto), fp + fs)
  }

  /** An update agrees with a participant freshly built from the same DTO
      on everything the application can observe. */
  lemma UpdateMatchesFromDto(p: Participant, dto: Dto, conn: nat)
    ensures var u := Update(p, dto, conn).0; var f := FromDto(dto, conn);
      && u.name == f.name && u.priority == f.priority && u.language == f.language && u.role == f.role
      && IsStreamingAudio(u) == IsStreamingAudio(f) && IsStreamingVideo(u) == IsStreamingVideo(f)
      && IsStreamingSecondaryAudio(u) == IsStreamingSecondaryAudio(f)
      && IsStreamingSecondaryVideo(u) == IsStreamingSecondaryVideo(f)
  {
  }

  /** Applying the same DTO twice: the second update changes nothing,
      fires nothing and touches no supplier. */
  lemma UpdateIdempotent(p: Participant, dto: Dto, conn: nat)
    ensures var u := Update(p, dto, conn).0;
      Update(u, dto, conn) == (u, [], [])
  {
  }

  /** The four suppliers cleared, in the order `destroy()` clears them. */
  function Cleared(p: Participant): (r: (Participant, seq<MS.Effect>)) {
    var (a, fa) := MS.SetSupplier(p.primary.audio, None);
    var (v, fv) := MS.SetSupplier(p.primary.video, None);
    var (sa, fsa) := MS.SetSupplier(p.secondary.audio, None);
    var (sv, fsv) := MS.SetSupplier(p.secondary.video, None);
    (p.(primary := p.primary.(audio := a, video := v), secondary := p.secondary.(audio := sa, video := sv)),
     fa + fv + fsa + fsv)
  }

  lemma ClearedValid(p: Participant)
    ensures StreamsValid(p) ==> StreamsValid(Cleared(p).0)
  {
    MS.SetSupplierKeeps(p.primary.audio, None);
    MS.SetSupplierKeeps(p.primary.video, None);
    MS.SetSupplierKeeps(p.secondary.audio, None);
    MS.SetSupplierKeeps(p.secondary.video, None);
  }

  /** `destroy()`: all four suppliers become `null`; consumers stay. */
  function Destroy(p: Participant): (r: (Participant, seq<MS.Effect>))
    ensures !IsStreamingAudio(r.0) && !IsStreamingVideo(r.0)
    ensures !IsStreamingSecondaryAudio(r.0) && !IsStreamingSecondaryVideo(r.0)
    ensures r.0 == p.(primary := r.0.primary, secondary := r.0.secondary)
    ensures r.0.primary.audio.consumers == p.primary.audio.consumers
    ensures r.0.primary.video.consumers == p.primary.video.consumers
    ensures r.0.secondary.audio.consumers == p.secondary.audio.consumers
    ensures r.0.secondary.video.consumers == p.secondary.video.consumers
    ensures StreamsValid(p) ==> StreamsValid(r.0)
    ensures forall e | e in r.1 :: e.Unregister?
  {
    ClearedValid(p);
    Cleared(p)
  }

  /** After `destroy`, no stream of the participant is registered with any
      supplier. */
  lemma DestroyUnregisters(p: Participant)
    ensures var d := Destroy(p).0;
      && MS.Registrations(d.primary.audio) == {} && MS.Registrations(d.primary.video) == {}
      && MS.Registrations(d.secondary.audio) == {} && MS.Registrations(d.secondary.video) == {}
  {
  }
}

=== FILE: screen.dfy ===
/** `Screen`: a local video supplier (and, optionally, audio supplier)
    backed by `getDisplayMedia`. Its video buffers carry no resolution
    limit, a fixed adaptivity of 1 and scale 1. */
module Screens {
  import opened Wrappers
  import opened Numbers
  import opened Capture
  import MS = MediaStreams
  import VE = VideoEncoding

  datatype Screen = Screen(
    audioConsumers: seq<nat>,
    videoConsumers: seq<nat>,
    audioCapturing: bool,
    fps: int,
    bitrate: int,
    pending: bool,
    audio: Option<nat>,
    video: Option<nat>)

  /** `new Screen()`. */
  const Initial: Screen := Screen([], [], false, 30, 1000000, false, None, None)

  /** Settings stay within what the setters accept, the consumer sets are
      sets, tracks are held only after a request, and the audio track only
      together with the video track. */
  predicate Valid(s: Screen) {
    && s.fps > 0 && s.bitrate > 100000
    && MS.Distinct(s.audioConsumers) && MS.Distinct(s.videoConsumers)
    && (s.video.Some? ==> s.pending)
    && (s.audio.Some? ==> s.video.Some?)
  }

  lemma InitialValid()
    ensures Valid(Initial)
  {
  }

  /** The video buffer for track `t`: unbounded frame size, the bitrate,
      adaptivity 1, scale 1. */
  function Frame(s: Screen, t: nat): (b: VE.VideoBuffer)
    ensures b.width.Inf? && b.height.Inf? && b.adaptivity == 1
    ensures s.bitrate > 0 ==> VE.ValidBuffer(b)
  {
    VE.VideoBuffer(t, false, Inf, Inf, s.bitrate, 1, 1.0)
  }

  function CurrentAudio(s: Screen): (b: Option<Buffer>)
    ensures b.Some? <==> s.audio.Some?
  {
    if s.audio.Some? then Some(AudioBuffer(s.audio.value, false)) else None
  }

  function CurrentVideo(s: Screen): (b: Option<Buffer>)
    ensures b.Some? <==> s.video.Some?
  {
    if s.video.Some? then Some(VideoBuffer(Frame(s, s.video.value))) else None
  }

  /** `setAudioCapturing`: refused while any track is held. */
  function SetAudioCapturing(s: Screen, on: bool): (r: Result<Screen>)
    ensures r.Err? <==> s.audio.Some? || s.video.Some?
    ensures r.Err? ==> r.error == "Can't enable/disable audio on the fly"
    ensures r.Ok? ==> r.value == s.(audioCapturing := on)
  {
    if s.audio.Some? || s.video.Some? then Err("Can't enable/disable audio on the fly")
    else Ok(s.(audioCapturing := on))
  }

  /** `setFps`: a non-positive rate is refused; a new one is stored and,
      with a video track, applied to it. */
  function SetFps(s: Screen, fps: int): (r: Result<(Screen, seq<Effect>)>)
    ensures r.Err? <==> fps <= 0
    ensures r.Err? ==> r.error == "Can't change FPS to `" + IntToString(fps) + "`"
    ensures r.Ok? ==> r.value.0 == s.(fps := fps)
    ensures r.Ok? ==> (r.value.1 != [] <==> s.fps != fps && s.video.Some?)
    ensures r.Ok? ==> forall e | e in r.value.1 :: e == Constrain(s.video.value)
  {
    if fps <= 0 then Err("Can't change FPS to `" + IntToString(fps) + "`")
    else if s.fps == fps then Ok((s, []))
    else Ok((s.(fps := fps), if s.video.Some? then [Constrain(s.video.value)] else []))
  }

  /** `setBitrate`: 100000 or less is refused; a new bitrate is stored and,
      with a video track, a buffer carrying it goes to every video
      consumer. */
  function SetBitrate(s: Screen, bitrate: int): (r: Result<(Screen, seq<Effect>)>)
    ensures r.Err? <==> bitrate <= 100000
    ensures r.Err? ==> r.error == "Can't change bitrate to `" + IntToString(bitrate) + "`"
    ensures r.Ok? ==> r.value.0 == s.(bitrate := bitrate)
    ensures r.Ok? && s.bitrate != bitrate && s.video.Some? ==>
      r.value.1 == Fanout(s.videoConsumers, Some(VideoBuffer(Frame(s, s.video.value).(bitrate := bitrate))))
    ensures r.Ok? && (s.bitrate == bitrate || s.video.None?) ==> r.value.1 == []
  {
    if bitrate <= 100000 then Err("Can't change bitrate to `" + IntToString(bitrate) + "`")
    else if s.bitrate == bitrate then Ok((s, []))
    else
      var s' := s.(bitrate := bitrate);
      Ok((s', if s.video.Some? then Fanout(s.videoConsumers, CurrentVideo(s')) else []))
  }

  /** `acquire()`: starts a request unless one is pending or done. */
  function Acquire(s: Screen): (r: (Screen, seq<Effect>))
    ensures s.pending ==> r == (s, [])
    ensures !s.pending ==> r == (s.(pending := true), [Request])
  {
    if s.pending then (s, []) else (s.(pending := true), [Request])
  }

  /** How the request settles: a video track and perhaps an audio track,
      or an error (the user refused or cancelled). */
  datatype Outcome = Granted(audio: Option<nat>, video: nat) | Denied

  /** Granted: the tracks are held and the audio consumers get the audio
      buffer (if there is an audio track) before the video consumers get
      the video buffer. Denied: the pending promise is dropped. */
  function Settle(s: Screen, o: Outcome): (r: (Screen, seq<Effect>))
    requires s.pending && s.video.None?
    ensures o.Denied? ==> r == (s.(pending := false), [])
    ensures o.Granted? ==> r.0 == s.(audio := o.audio, video := Some(o.video))
    ensures o.Granted? ==>
      r.1 == (if o.audio.Some? then Fanout(s.audioConsumers, CurrentAudio(r.0)) else [])
        + Fanout(s.videoConsumers, CurrentVideo(r.0))
  {
    match o
    case Denied => (s.(pending := false), [])
    case Granted(a, v) =>
      var s' := s.(audio := a, video := Some(v));
      (s', (if a.Some? then Fanout(s.audioConsumers, CurrentAudio(s')) else []) + Fanout(s.videoConsumers, CurrentVideo(s')))
  }

  /** `release()`: refused while a request is pending without a video
      track. Otherwise each held track's consumers get `null` and the track
      is stopped, audio first, and the screen is idle. */
  function Release(s: Screen): (r: Result<(Screen, seq<Effect>)>)
    ensures r.Err? <==> s.pending && s.video.None?
    ensures r.Err? ==> r.error == "Can't release screen in the middle of acquisition"
    ensures r.Ok? ==> r.value.0 == s.(pending := false, audio := None, video := None)
    ensures r.Ok? ==>
      r.value.1 == (if s.audio.Some? then Fanout(s.audioConsumers, None) + [Stop(s.audio.value)] else [])
        + (if s.video.Some? then Fanout(s.videoConsumers, None) + [Stop(s.video.value)] else [])
  {
    if s.pending && s.video.None? then Err("Can't release screen in the middle of acquisition")
    else
      Ok((s.(pending := false, audio := None, video := None),
        (if s.audio.Some? then Fanout(s.audioConsumers, None) + [Stop(s.audio.value)] else [])
        + (if s.video.Some? then Fanout(s.videoConsumers, None) + [Stop(s.video.value)] else [])))
  }

  /** Either track's `onended`: the whole screen is released and the
      listener, if any, is told. */
  function TrackEnded(s: Screen, listening: bool): (r: (Screen, seq<Effect>))
    requires s.video.Some?
    ensures r.0 == s.(pending := false, audio := None, video := None)
    ensures r.1 == Release(s).value.1 + (if listening then [ReleasedForcibly] else [])
  {
    var released := Release(s).value;
    (released.0, released.1 + if listening then [ReleasedForcibly] else [])
  }

  function AddAudioConsumer(s: Screen, consumer: nat): (r: (Screen, seq<Effect>))
    ensures r.1 == [Deliver(consumer, CurrentAudio(s))]
    ensures consumer in r.0.audioConsumers && r.0 == s.(audioConsumers := r.0.audioConsumers)
  {
    var (cs, fx) := AddConsumer(s.audioConsumers, consumer, CurrentAudio(s));
    (s.(audioConsumers := cs), fx)
  }

  function RemoveAudioConsumer(s: Screen, consumer: nat): (r: (Screen, seq<Effect>))
    ensures consumer !in r.0.audioConsumers && r.0 == s.(audioConsumers := r.0.audioConsumers)
    ensures r.1 == if consumer in s.audioConsumers then [Deliver(consumer, None)] else []
  {
    var (cs, fx) := RemoveConsumer(s.audioConsumers, consumer);
    (s.(audioConsumers := cs), fx)
  }

  function AddVideoConsumer(s: Screen, consumer: nat): (r: (Screen, seq<Effect>))
    ensures r.1 == [Deliver(consumer, CurrentVideo(s))]
    ensures consumer in r.0.videoConsumers && r.0 == s.(videoConsumers := r.0.videoConsumers)
  {
    var (cs, fx) := AddConsumer(s.videoConsumers, consumer, CurrentVideo(s));
    (s.(videoConsumers := cs), fx)
  }

  function RemoveVideoConsumer(s: Screen, consumer: nat): (r: (Screen, seq<Effect>))
    ensures consumer !in r.0.videoConsumers && r.0 == s.(videoConsumers := r.0.videoConsumers)
    ensures r.1 == if consumer in s.videoConsumers then [Deliver(consumer, None)] else []
  {
    var (cs, fx) := RemoveConsumer(s.videoConsumers, consumer);
    (s.(videoConsumers := cs), fx)
  }

  // ---------------------------------------------------------------------
  // Properties

  datatype Op =
    | AudioCapturingSet(on: bool)
    | FpsSet(fps: int)
    | BitrateSet(bitrate: int)
    | Acquired
    | Settled(outcome: Outcome)
    | Released
    | Ended(listening: bool)
    | AudioConsumerAdded(consumer: nat)
    | AudioConsumerRemoved(consumer: nat)
    | VideoConsumerAdded(consumer: nat)
    | VideoConsumerRemoved(consumer: nat)

  function Step(s: Screen, op: Op): (r: (Screen, seq<Effect>)) {
    match op
    case AudioCapturingSet(on) => var x := SetAudioCapturing(s, on); if x.Ok? then (x.value, []) else (s, [])
    case FpsSet(f) => var x := SetFps(s, f); if x.Ok? then x.value else (s, [])
    case BitrateSet(b) => var x := SetBitrate(s, b); if x.Ok? then x.value else (s, [])
    case Acquired => Acquire(s)
    case Settled(o) => if s.pending && s.video.None? then Settle(s, o) else (s, [])
    case Released => var x := Release(s); if x.Ok? then x.value else (s, [])
    case Ended(l) => if s.video.Some? then TrackEnded(s, l) else (s, [])
    case AudioConsumerAdded(x) => AddAudioConsumer(s, x)
    case AudioConsumerRemoved(x) => RemoveAudioConsumer(s, x)
    case VideoConsumerAdded(x) => AddVideoConsumer(s, x)
    case VideoConsumerRemoved(x) => RemoveVideoConsumer(s, x)
  }

  /** Every video buffer in `fx` is valid for the encoder and carries no
      resolution limit. */
  predicate VideoBuffersValid(fx: seq<Effect>) {
    forall e | e in fx && e.Deliver? && e.buffer.Some? && e.buffer.value.VideoBuffer? ::
      VE.ValidBuffer(e.buffer.value.frame) && e.buffer.value.frame.width.Inf?
  }

  lemma VideoBuffersValidAppend(a: seq<Effect>, b: seq<Effect>)
    requires VideoBuffersValid(a) && VideoBuffersValid(b)
    ensures VideoBuffersValid(a + b)
  {
  }

  /** Every operation keeps the screen valid, and every video buffer it
      hands out is a valid, unbounded input to the encoder. */
  lemma StepKeepsValid(s: Screen, op: Op)
    requires Valid(s)
    ensures Valid(Step(s, op).0)
    ensures VideoBuffersValid(Step(s, op).1)
  {
    if op.Settled? {
      SettledKeepsValid(s, op.outcome);
    } else if op.AudioCapturingSet? || op.FpsSet? || op.BitrateSet? || op.Acquired? || op.Released? || op.Ended? {
      LifecycleKeepsValid(s, op);
    } else {
      ConsumersKeepValid(s, op);
    }
  }

  lemma SettledKeepsValid(s: Screen, o: Outcome)
    requires Valid(s)
    ensures Valid(Step(s, Settled(o)).0) && VideoBuffersValid(Step(s, Settled(o)).1)
  {
    if s.pending && s.video.None? && o.Granted? {
      var s' := Settle(s, o).0;
      var audio := if o.audio.Some? then Fanout(s.audioConsumers, CurrentAudio(s')) else [];
      VideoBuffersValidAppend(audio, Fanout(s.videoConsumers, CurrentVideo(s')));
    }
  }

  lemma LifecycleKeepsValid(s: Screen, op: Op)
    requires Valid(s)
    requires op.AudioCapturingSet? || op.FpsSet? || op.BitrateSet? || op.Acquired? || op.Released? || op.Ended?
    ensures Valid(Step(s, op).0) && VideoBuffersValid(Step(s, op).1)
  {
  }

  lemma ConsumersKeepValid(s: Screen, op: Op)
    requires Valid(s)
    requires op.AudioConsumerAdded? || op.AudioConsumerRemoved? || op.VideoConsumerAdded? || op.VideoConsumerRemoved?
    ensures Valid(Step(s, op).0) && VideoBuffersValid(Step(s, op).1)
  {
  }

  /** Audio capturing can only be switched while nothing is captured, and
      switching it changes nothing else. */
  lemma AudioCapturingOnlyWhenIdle(s: Screen, on: bool)
    requires Valid(s)
    ensures SetAudioCapturing(s, on).Ok? <==> s.video.None?
  {
  }

  /** Releasing is idempotent once it succeeds. */
  lemma ReleaseIdempotent(s: Screen)
    requires Release(s).Ok?
    ensures Release(Release(s).value.0) == Ok((Release(s).value.0, []))
  {
  }

  /** A denied request leaves no pending promise behind, so the next
      `acquire` asks again. */
  lemma DeniedRetries(s: Screen)
    requires s.pending && s.video.None?
    ensures Acquire(Settle(s, Denied).0).1 == [Request]
  {
  }
}

=== FILE: sdk.dfy ===
/** `MindSDK`: the entry points that validate their arguments before
    handing over to a media stream or a session. */
module Sdk {
  import opened Wrappers
  import opened Numbers
  import MS = MediaStreams
  import S = Sessions

  // ---------------------------------------------------------------------
  // Local media streams

  /** `createMediaStream(audioSupplier, videoSupplier)`: at least one
      supplier is needed; the stream is the local one, and an absent
      supplier stays absent. */
  function CreateMediaStream(audio: Option<nat>, video: Option<nat>): (r: Result<MS.Stream>)
    ensures r.Err? <==> audio.None? && video.None?
    ensures r.Err? ==> r.error == "Can't create MediaStream of `null` audio supplier and `null` video supplier"
    ensures r.Ok? ==> r.value.tag == "local" && r.value.audio.supplier == audio && r.value.video.supplier == video
    ensures r.Ok? ==> r.value == MS.Create("local", audio, video)
  {
    if audio.None? && video.None? then
      Err("Can't create MediaStream of `null` audio supplier and `null` video supplier")
    else
      Ok(MS.Create("local", audio, video))
  }

  // ---------------------------------------------------------------------
  // Conference URIs

  predicate HexDigit(c: char) {
    '0' <= c <= '9' || 'a' <= c <= 'f'
  }

  /** `[0-9a-f]*`. */
  predicate AllHex(s: string)
    decreases |s|
  {
    |s| == 0 || (HexDigit(s[0]) && AllHex(s[1..]))
  }

  lemma {:induction false} AllHexAt(s: string, i: int)
    requires AllHex(s) && 0 <= i < |s|
    ensures HexDigit(s[i])
    decreases i
  {
    if i > 0 {
      AllHexAt(s[1..], i - 1);
    }
  }

  /** `[0-9a-f]{8}-[0-9a-f]{4}-[0-9a-f]{4}-[0-9a-f]{4}-[0-9a-f]{12}`. */
  predicate Uuid(s: string) {
    && |s| == 36
    && AllHex(s[..8]) && s[8] == '-'
    && AllHex(s[9..13]) && s[13] == '-'
    && AllHex(s[14..18]) && s[18] == '-'
    && AllHex(s[19..23]) && s[23] == '-'
    && AllHex(s[24..])
  }

  /** The pieces of a conference URI
      `http[s]://host/application/conference[/]`. */
  datatype UriParts = UriParts(secure: bool, host: string, app: string, conf: string, slash: bool)

  /** What the pattern of `join` admits: a non-empty host without slashes
      and two lower-case UUIDs. */
  predicate WellFormed(p: UriParts) {
    |p.host| > 0 && '/' !in p.host && Uuid(p.app) && Uuid(p.conf)
  }

  function Scheme(secure: bool): string {
    if secure then "https://" else "http://"
  }

  /** What follows the scheme. */
  function After(host: string, app: string, conf: string, slash: bool): string {
    host + "/" + app + "/" + conf + Tail(slash)
  }

  function Build(p: UriParts): string {
    Scheme(p.secure) + After(p.host, p.app, p.conf, p.slash)
  }

  function Tail(slash: bool): string {
    if slash then "/" else ""
  }

  /** `<uuid>/<uuid>/?$`: the two ids and whether a slash follows. */
  function ParsePath(path: string): (r: Option<(string, string, bool)>)
    ensures r.Some? ==> Uuid(r.value.0) && Uuid(r.value.1) && path == r.value.0 + "/" + r.value.1 + Tail(r.value.2)
  {
    if (|path| == 73 || (|path| == 74 && path[73] == '/')) && Uuid(path[..36]) && path[36] == '/' && Uuid(path[37..73]) then
      assert path[73..] == Tail(|path| == 74);
      assert path == path[..36] + "/" + path[37..73] + path[73..];
      Some((path[..36], path[37..73], |path| == 74))
    else None
  }

  /** `[^/]+/<uuid>/<uuid>/?$`: the host runs up to the first slash. */
  function ParseRest(rest: string): (r: Option<(string, string, string, bool)>)
    ensures r.Some? ==> |r.value.0| > 0 && '/' !in r.value.0 && Uuid(r.value.1) && Uuid(r.value.2)
    ensures r.Some? ==> rest == After(r.value.0, r.value.1, r.value.2, r.value.3)
  {
    var k := IndexOf(rest, '/');
    if k <= 0 then None
    else
      match ParsePath(rest[k + 1..])
      case None => None
      case Some((app, conf, slash)) =>
        AfterAt(rest, k, app, conf, slash);
        Some((rest[..k], app, conf, slash))
  }

  /** A string cut at a slash is the host before it and the path after. */
  lemma AfterAt(rest: string, k: int, app: string, conf: string, slash: bool)
    requires 0 < k < |rest| && rest[k] == '/' && rest[k + 1..] == app + "/" + conf + Tail(slash)
    ensures rest == After(rest[..k], app, conf, slash)
  {
    assert rest == rest[..k] + "/" + rest[k + 1..];
  }

  /** Matching `^https?://[^/]+/<uuid>/<uuid>/?$`: the pieces of a URI the
      pattern admits, or nothing. */
  function Parse(uri: string): (r: Option<UriParts>)
    ensures r.Some? ==> WellFormed(r.value) && Build(r.value) == uri
  {
    var secure := S.StartsWith(uri, "https://");
    if !secure && !S.StartsWith(uri, "http://") then None
    else
      var rest := uri[|Scheme(secure)|..];
      match ParseRest(rest)
      case None => None
      case Some((host, app, conf, slash)) =>
        assert uri == Scheme(secure) + rest;
        Some(UriParts(secure, host, app, conf, slash))
  }

  lemma ParsePathOf(app: string, conf: string, slash: bool)
    requires Uuid(app) && Uuid(conf)
    ensures ParsePath(app + "/" + conf + Tail(slash)) == Some((app, conf, slash))
  {
    var path := app + "/" + conf + Tail(slash);
    assert path[..36] == app && path[36] == '/' && path[37..73] == conf;
  }

  lemma ParseRestOf(host: string, app: string, conf: string, slash: bool)
    requires |host| > 0 && '/' !in host && Uuid(app) && Uuid(conf)
    ensures ParseRest(After(host, app, conf, slash)) == Some((host, app, conf, slash))
  {
    var path := app + "/" + conf + Tail(slash);
    var rest := host + "/" + path;
    assert host + "/" + app + "/" + conf + Tail(slash) == host + ['/'] + path;
    IndexOfAfter(host, '/', path);
    assert rest[..|host|] == host;
    assert rest[|host| + 1..] == path;
    ParsePathOf(app, conf, slash);
  }

  /** Every URI of that shape is admitted, and its pieces are recovered. */
  lemma ParseBuild(p: UriParts)
    requires WellFormed(p)
    ensures Parse(Build(p)) == Some(p)
  {
    var uri := Build(p);
    var rest := After(p.host, p.app, p.conf, p.slash);
    assert uri == Scheme(p.secure) + rest;
    assert p.secure <==> S.StartsWith(uri, "https://") by {
      assert uri[4] == (if p.secure then 's' else ':');
    }
    assert S.StartsWith(uri, Scheme(p.secure)) && uri[|Scheme(p.secure)|..] == rest;
    ParseRestOf(p.host, p.app, p.conf, p.slash);
  }

  /** `join(uri, …)`: a malformed URI throws; otherwise a session is
      created over it and opened on the connection `conn`. */
  function Join(uri: string, conn: nat): (r: Result<S.Session>)
    ensures r.Err? <==> Parse(uri).None?
    ensures r.Err? ==> r.error == "Conference URI is malformed"
    ensures r.Ok? ==> r.value == S.Open(uri, conn)
  {
    if Parse(uri).None? then Err("Conference URI is malformed") else Ok(S.Open(uri, conn))
  }

  lemma UuidHasNoSlash(s: string)
    requires Uuid(s)
    ensures '/' !in s
  {
    forall i | 0 <= i < |s|
      ensures s[i] != '/'
    {
      if i < 8 {
        AllHexAt(s[..8], i);
      } else if 8 < i < 13 {
        AllHexAt(s[9..13], i - 9);
      } else if 13 < i < 18 {
        AllHexAt(s[14..18], i - 14);
      } else if 18 < i < 23 {
        AllHexAt(s[19..23], i - 19);
      } else if 23 < i {
        AllHexAt(s[24..], i - 24);
      }
    }
  }

  /** The URI without its optional trailing slash. */
  function Stem(p: UriParts): string {
    (if p.secure then "https:" else "http:") + "//" + p.host + "/" + p.app + "/" + p.conf
  }

  lemma BuildAsPath(p: UriParts)
    ensures Build(p) == Stem(p) + S.Slashes(if p.slash then 1 else 0)
  {
    assert Tail(p.slash) == S.Slashes(if p.slash then 1 else 0);
  }

  /** The stem of a well-formed URI carries its two UUIDs where a session
      looks for them. */
  lemma StemIds(p: UriParts)
    requires WellFormed(p)
    ensures S.StripSlashes(Build(p)) == Stem(p)
    ensures S.ApplicationId(Stem(p)) == Some(p.app) && S.ConferenceId(Stem(p)) == Some(p.conf)
  {
    BuildAsPath(p);
    UuidHasNoSlash(p.app);
    UuidHasNoSlash(p.conf);
    S.UriIds(if p.secure then "https:" else "http:", p.host, p.app, p.conf, if p.slash then 1 else 0);
  }

  /** Joining a well-formed URI gives a session whose application and
      conference ids are the URI's two UUIDs, whether or not it ended in a
      slash. */
  lemma JoinIds(p: UriParts, conn: nat)
    requires WellFormed(p)
    ensures Join(Build(p), conn).Ok?
    ensures var s := Join(Build(p), conn).value;
      S.ApplicationId(s.uri) == Some(p.app) && S.ConferenceId(s.uri) == Some(p.conf)
  {
    ParseBuild(p);
    StemIds(p);
  }

  // ---------------------------------------------------------------------
  // Leaving

  /** `exit2(session)`: nothing without a session; otherwise it is
      closed. */
  function Exit2(session: Option<S.Session>): (r: Option<S.Session>)
    ensures session.None? ==> r.None?
    ensures session.Some? ==> r.Some? && r.value.closed && r.value.conference.None? && !r.value.scheduled
    ensures session.Some? ==> r.value.uri == session.value.uri && r.value.state == session.value.state
  {
    if session.None? then None else Some(S.Close(session.value))
  }

  /** Leaving twice is leaving once. */
  lemma Exit2Idempotent(session: Option<S.Session>)
    ensures Exit2(Exit2(session)) == Exit2(session)
  {
  }
}

=== FILE: session.dfy ===
/** `Session`: one participation in a conference. It owns the signalling
    connection, queues the server's notifications and applies them to the
    conference model, and recovers from connection failures by reopening
    the connection with a growing delay. */
module Sessions {
  import opened Wrappers
  import opened Numbers
  import P = Participants
  import C = Conferences
  import MS = MediaStreams

  datatype State = Normal | Lagging | Failed

  /** What a notification's `resource` holds, for the locations the
      session understands. */
  datatype Resource =
    | ConferenceDoc(conference: C.Dto)
    | ParticipantDoc(participant: P.Dto)
    | MessageDoc(sentBy: string, text: string)

  /** A queued notification once parsed. `Other` is one of another type;
      `Unparsable` is text `JSON.parse` rejects. */
  datatype Notification =
    | Created(location: string, resource: Resource)
    | Updated(location: string, resource: Resource)
    | Deleted(location: string)
    | Other
    | Unparsable

  /** What reached `recover`: an error with its message, or a `TypeError`
      the model code raised by reading a field of `null` or `undefined` (a
      conference resource without participants, a conference that is
      gone). */
  datatype Failure = Message(text: string) | TypeError

  /** What the session tells the outside world: listener callbacks, the
      settlement of the promise `open()` returns, the scheduling of a
      reconnection after `delay` seconds, and what a remote participant's
      change of supplier does to the signalling connection. */
  datatype Event =
    | StateChanged(state: State)
    | ConferenceChanged(change: C.Event)
    | ParticipantChanged(id: string, update: P.Event)
    | MeUpdated
    | ConferenceEnded
    | MeExpelled
    | MessageFromApplication(text: string)
    | MessageFromParticipant(text: string, sender: Option<C.Entry>)
    | Resolved
    | Rejected(failure: Failure)
    | Reopen(delay: nat)
    | SupplierChanged(effect: MS.Effect)

  /** The session's fields the model needs. `conn` identifies the
      signalling connection, which also supplies every remote stream;
      `settled` records that the promise of `open()` was resolved or
      rejected; `scheduled` that a reconnection timer is pending; `closed`
      that `close()` ran, after which the connection is gone. */
  datatype Session = Session(
    uri: string,
    conn: nat,
    state: State,
    recoveryDelay: nat,
    conference: Option<C.Conference>,
    notifications: seq<Notification>,
    settled: bool,
    scheduled: bool,
    closed: bool)

  /** Handling a notification touches only the conference, and whether
      the session is closed. */
  predicate SameShell(s: Session, t: Session) {
    && t.uri == s.uri && t.conn == s.conn && t.state == s.state && t.recoveryDelay == s.recoveryDelay
    && t.notifications == s.notifications && t.settled == s.settled
  }

  /** The result of handling one notification: the session, the events
      fired, and whether the handler threw (after firing those events). */
  datatype Handled = Handled(s: Session, events: seq<Event>, threw: bool)

  // ---------------------------------------------------------------------
  // The conference URI

  /** `uri.replace(/\/+$/, "")`: the maximal run of trailing slashes goes. */
  function StripSlashes(uri: string): (r: string)
    ensures |r| <= |uri| && r == uri[..|r|]
    ensures |r| == 0 || r[|r| - 1] != '/'
    ensures forall i | |r| <= i < |uri| :: uri[i] == '/'
    decreases |uri|
  {
    if |uri| > 0 && uri[|uri| - 1] == '/' then StripSlashes(uri[..|uri| - 1]) else uri
  }

  function Slashes(n: nat): (r: string)
    ensures |r| == n && forall i | 0 <= i < n :: r[i] == '/'
  {
    seq(n, _ => '/')
  }

  /** Only the trailing slashes go: whatever else the URI ends with stays. */
  lemma {:induction false} StripSlashesExact(x: string, n: nat)
    requires |x| == 0 || x[|x| - 1] != '/'
    ensures StripSlashes(x + Slashes(n)) == x
    decreases n
  {
    if n > 0 {
      var y := x + Slashes(n);
      assert y[..|y| - 1] == x + Slashes(n - 1);
      StripSlashesExact(x, n - 1);
    }
  }

  /** `uri.split("/")[k]`, or `undefined` past the last piece. */
  function Segment(uri: string, k: nat): (r: Option<string>)
    ensures r.Some? <==> k < |Split(uri, '/')|
  {
    var parts := Split(uri, '/');
    if k < |parts| then Some(parts[k]) else None
  }

  function ApplicationId(uri: string): Option<string> {
    Segment(uri, 3)
  }

  function ConferenceId(uri: string): Option<string> {
    Segment(uri, 4)
  }

  lemma JoinUri(scheme: string, host: string, app: string, conf: string)
    ensures Join([scheme, "", host, app, conf], '/') == scheme + "//" + host + "/" + app + "/" + conf
  {
    var ps := [scheme, "", host, app, conf];
    assert Join(ps[4..], '/') == conf;
    assert Join(ps[3..], '/') == app + "/" + conf;
    assert Join(ps[2..], '/') == host + "/" + app + "/" + conf;
    assert Join(ps[1..], '/') == "/" + host + "/" + app + "/" + conf;
  }

  /** The pieces of `scheme//host/application/conference`. */
  lemma SplitUri(scheme: string, host: string, app: string, conf: string)
    requires '/' !in scheme && '/' !in host && '/' !in app && '/' !in conf
    ensures Split(scheme + "//" + host + "/" + app + "/" + conf, '/') == [scheme, "", host, app, conf]
  {
    JoinUri(scheme, host, app, conf);
    SplitJoinAll([scheme, "", host, app, conf], '/');
  }

  /** `scheme://host/application/conference` followed by any number of
      slashes: the session's URI loses the slashes, and its application and
      conference ids are the third and fourth path pieces. */
  lemma UriIds(scheme: string, host: string, app: string, conf: string, n: nat)
    requires '/' !in scheme && '/' !in host && '/' !in app && '/' !in conf && |conf| > 0
    ensures var uri := StripSlashes(scheme + "//" + host + "/" + app + "/" + conf + Slashes(n));
      uri == scheme + "//" + host + "/" + app + "/" + conf
      && ApplicationId(uri) == Some(app) && ConferenceId(uri) == Some(conf)
  {
    var x := scheme + "//" + host + "/" + app + "/" + conf;
    assert x[|x| - 1] == conf[|conf| - 1];
    StripSlashesExact(x, n);
    SplitUri(scheme, host, app, conf);
  }

  // ---------------------------------------------------------------------
  // Construction and state

  /** `new Session(uri, …)` followed by `open()`, which creates the
      connection `conn`. */
  function Open(uri: string, conn: nat): (s: Session)
    ensures s.state == Normal && s.recoveryDelay == 0 && s.conference.None? && s.notifications == []
    ensures !s.settled && !s.scheduled && !s.closed && s.conn == conn
    ensures s.uri == StripSlashes(uri)
  {
    Session(StripSlashes(uri), conn, Normal, 0, None, [], false, false, false)
  }

  /** `setState`: the listener hears of a state only when it changes. */
  function SetState(s: Session, state: State): (r: (Session, seq<Event>))
    ensures r.0 == s.(state := state)
    ensures |r.1| <= 1 && (r.1 == [] <==> s.state == state)
    ensures forall e | e in r.1 :: e == StateChanged(state)
  {
    if s.state == state then (s, []) else (s.(state := state), [StateChanged(state)])
  }

  /** Setting the state it is already in tells nobody. */
  lemma SetStateIdempotent(s: Session, state: State)
    ensures SetState(SetState(s, state).0, state) == (SetState(s, state).0, [])
  {
  }

  /** `close()`: the conference and the connection are dropped and a
      pending reconnection is cancelled. */
  function Close(s: Session): Session {
    s.(conference := None, closed := true, scheduled := false)
  }

  // ---------------------------------------------------------------------
  // Applying notifications to the model

  const ParticipantsPrefix := "/participants/"
  const MessagesPrefix := "/messages/"
  const MeLocation := "/participants/me"

  predicate StartsWith(s: string, prefix: string) {
    |prefix| <= |s| && s[..|prefix|] == prefix
  }

  function Location(id: string): string {
    ParticipantsPrefix + id
  }

  /** A participant's location names it, and is the `me` alias only for
      the id `me`. */
  lemma LocationFacts(id: string)
    ensures StartsWith(Location(id), ParticipantsPrefix) && Location(id)[|ParticipantsPrefix|..] == id
    ensures Location(id) != "/" && !StartsWith(Location(id), MessagesPrefix)
    ensures Location(id) == MeLocation <==> id == "me"
  {
    assert Location(id)[..|ParticipantsPrefix|] == ParticipantsPrefix;
    assert Location(id)[1] == 'p';
    if Location(id) == MeLocation {
      assert id == Location(id)[|ParticipantsPrefix|..];
    }
  }

  /** A resource describes an online participant (`dto.online`). */
  predicate Online(r: Resource) {
    r.ParticipantDoc? && r.participant.online
  }

  function ConferenceEvents(es: seq<C.Event>): seq<Event> {
    seq(|es|, i requires 0 <= i < |es| => ConferenceChanged(es[i]))
  }

  function ParticipantEvents(id: string, es: seq<P.Event>): seq<Event> {
    seq(|es|, i requires 0 <= i < |es| => ParticipantChanged(id, es[i]))
  }

  function SupplierEvents(fx: seq<MS.Effect>): seq<Event> {
    seq(|fx|, i requires 0 <= i < |fx| => SupplierChanged(fx[i]))
  }

  function Done(s: Session, events: seq<Event>): Handled {
    Handled(s, events, false)
  }

  /** `createModelItem`: an online participant joins the conference; a
      message from the application or from a participant reaches `Me`.
      Both need the conference and throw without it. */
  function CreateItem(s: Session, location: string, resource: Resource): (o: Handled)
    ensures o.threw ==> o == Handled(s, [], true) && s.conference.None?
    ensures o.s == s.(conference := o.s.conference)
    ensures StartsWith(location, ParticipantsPrefix) && Online(resource) && s.conference.Some? ==>
      var p := P.FromDto(resource.participant, s.conn);
      var added := C.AddParticipant(s.conference.value, p);
      o == Done(s.(conference := Some(added.0)), ConferenceEvents(added.1))
    ensures !StartsWith(location, ParticipantsPrefix) && !StartsWith(location, MessagesPrefix) ==> o == Done(s, [])
    ensures !StartsWith(location, ParticipantsPrefix) && StartsWith(location, MessagesPrefix) && resource.MessageDoc? && s.conference.Some? ==>
      && o.s == s && !o.threw && |o.events| == 1
      && (o.events[0].MessageFromApplication? || o.events[0].MessageFromParticipant?)
      && (o.events[0].MessageFromApplication? <==> ApplicationId(s.uri) == Some(resource.sentBy))
      && o.events[0].text == resource.text
      && (o.events[0].MessageFromParticipant? ==> o.events[0].sender == C.GetParticipantById(s.conference.value, resource.sentBy))
    ensures SameShell(s, o.s)
  {
    if StartsWith(location, ParticipantsPrefix) then
      if !Online(resource) then Done(s, [])
      else if s.conference.None? then Handled(s, [], true)
      else
        var (c, es) := C.AddParticipant(s.conference.value, P.FromDto(resource.participant, s.conn));
        Done(s.(conference := Some(c)), ConferenceEvents(es))
    else if StartsWith(location, MessagesPrefix) then
      match resource
      case MessageDoc(sentBy, text) =>
        if s.conference.None? then Handled(s, [], true)
        else if ApplicationId(s.uri) == Some(sentBy) then Done(s, [MessageFromApplication(text)])
        else Done(s, [MessageFromParticipant(text, C.GetParticipantById(s.conference.value, sentBy))])
      case _ => Done(s, [])
    else Done(s, [])
  }

  /** `deleteModelItem`: deleting the conference, or expelling `Me`, ends
      the session; deleting a known participant removes it from the
      conference, as `removeParticipant` is written, and then destroys it,
      which releases its streams' suppliers. */
  function DeleteItem(s: Session, location: string): (o: Handled)
    ensures location == "/" ==> o == Done(Close(s), [ConferenceEnded])
    ensures location == MeLocation ==> o.s == Close(s)
    ensures location == MeLocation ==> (o.threw <==> s.conference.None?)
    ensures location == MeLocation && s.conference.Some? ==> o.events == [MeExpelled]
    ensures location != "/" && location != MeLocation ==> o.s == s.(conference := o.s.conference)
    ensures location != MeLocation && StartsWith(location, ParticipantsPrefix) && s.conference.Some? ==>
      var c := s.conference.value; var id := location[|ParticipantsPrefix|..];
      && (id !in c.index ==> o == Done(s, []))
      && (id in c.index ==> !o.threw && o.s.conference == Some(C.RemoveParticipantAsWritten(c, c.index[id]).0))
      && (id in c.index && c.index[id].Remote? ==>
            var gone := C.RemoveParticipantAsWritten(c, c.index[id]).1;
            o.events == ConferenceEvents(gone) + SupplierEvents(P.Destroy(c.index[id].participant).1))
    ensures o.threw ==> o.events == []
    ensures SameShell(s, o.s)
  {
    if location == "/" then Done(Close(s), [ConferenceEnded])
    else if location == MeLocation then
      if s.conference.None? then Handled(Close(s), [], true) else Done(Close(s), [MeExpelled])
    else if StartsWith(location, ParticipantsPrefix) then
      if s.conference.None? then Handled(s, [], true)
      else
        var c := s.conference.value;
        match C.GetParticipantById(c, location[|ParticipantsPrefix|..])
        case None => Done(s, [])
        case Some(who) =>
          var (c', es) := C.RemoveParticipantAsWritten(c, who);
          var fx := if who.Remote? then P.Destroy(who.participant).1 else [];
          Done(s.(conference := Some(c')), ConferenceEvents(es) + SupplierEvents(fx))
    else Done(s, [])
  }

  /** `updateModelItem`: the conference or a participant is updated; an
      unknown online participant is created, an offline one deleted. */
  function UpdateItem(s: Session, location: string, resource: Resource): (o: Handled)
    ensures location == "/" && s.conference.None? ==> o == Handled(s, [], true)
    ensures location == "/" && s.conference.Some? && resource.ConferenceDoc? ==>
      var u := C.Update(s.conference.value, resource.conference);
      o == Done(s.(conference := Some(u.0)), ConferenceEvents(u.1))
    ensures location != "/" && StartsWith(location, ParticipantsPrefix) && !Online(resource) ==> o == DeleteItem(s, location)
    ensures location != "/" && StartsWith(location, ParticipantsPrefix) && Online(resource) && s.conference.Some? ==>
      var id := location[|ParticipantsPrefix|..]; var c := s.conference.value;
      && (id !in c.index ==> o == CreateItem(s, location, resource))
      && (id in c.index && c.index[id] == C.MeEntry ==> o == Done(s, [MeUpdated]))
      && (id in c.index && c.index[id].Remote? ==>
            var p := c.index[id].participant;
            var u := P.Update(p, resource.participant, s.conn);
            o == Done(s.(conference := Some(C.Mutate(c, id, u.0))), ParticipantEvents(p.id, u.1) + SupplierEvents(u.2)))
    ensures o.threw ==> o.events == []
    ensures SameShell(s, o.s)
  {
    if location == "/" then
      if s.conference.None? then Handled(s, [], true)
      else
        match resource
        case ConferenceDoc(d) =>
          var (c, es) := C.Update(s.conference.value, d);
          Done(s.(conference := Some(c)), ConferenceEvents(es))
        case _ => Done(s, [])
    else if StartsWith(location, ParticipantsPrefix) then
      if !Online(resource) then DeleteItem(s, location)
      else if s.conference.None? then Handled(s, [], true)
      else
        var c := s.conference.value;
        var id := location[|ParticipantsPrefix|..];
        match C.GetParticipantById(c, id)
        case None => CreateItem(s, location, resource)
        case Some(MeEntry) => Done(s, [MeUpdated])
        case Some(Remote(p)) =>
          var (p', es, fx) := P.Update(p, resource.participant, s.conn);
          Done(s.(conference := Some(C.Mutate(c, id, p'))), ParticipantEvents(p.id, es) + SupplierEvents(fx))
    else Done(s, [])
  }

  /** One notification of the queue. */
  function Handle(s: Session, n: Notification): (o: Handled)
    ensures SameShell(s, o.s)
  {
    match n
    case Created(location, resource) => CreateItem(s, location, resource)
    case Updated(location, resource) => UpdateItem(s, location, resource)
    case Deleted(location) => DeleteItem(s, location)
    case Other => Done(s, [])
    case Unparsable => Done(s, [])
  }

  /** The loop of `processNotifications`: each notification is handled in
      turn; one that throws is abandoned, with what it did kept, and the
      next one is handled. */
  function ProcessAll(s: Session, q: seq<Notification>): (r: (Session, seq<Event>))
    ensures SameShell(s, r.0)
    decreases |q|
  {
    if |q| == 0 then (s, [])
    else
      var o := Handle(s, q[0]);
      var rest := ProcessAll(o.s, q[1..]);
      (rest.0, o.events + rest.1)
  }

  /** `processNotifications`: the whole queue is applied, then emptied. */
  function ProcessNotifications(s: Session): (r: (Session, seq<Event>))
    ensures r.0.notifications == []
    ensures r.0 == ProcessAll(s, s.notifications).0.(notifications := [])
    ensures r.1 == ProcessAll(s, s.notifications).1
  {
    var (t, es) := ProcessAll(s, s.notifications);
    (t.(notifications := []), es)
  }

  /** Applying two queues one after the other is applying their
      concatenation. */
  lemma {:induction false} ProcessAllAppend(s: Session, q1: seq<Notification>, q2: seq<Notification>)
    ensures var a := ProcessAll(s, q1); var b := ProcessAll(a.0, q2);
      ProcessAll(s, q1 + q2) == (b.0, a.1 + b.1)
    decreases |q1|
  {
    if |q1| > 0 {
      assert (q1 + q2)[1..] == q1[1..] + q2;
      assert (q1 + q2)[0] == q1[0];
      var o := Handle(s, q1[0]);
      ProcessAllAppend(o.s, q1[1..], q2);
      var a := ProcessAll(o.s, q1[1..]);
      var b := ProcessAll(a.0, q2);
      assert o.events + (a.1 + b.1) == (o.events + a.1) + b.1;
    } else {
      assert q1 + q2 == q2;
      assert ProcessAll(s, q1) == (s, []);
      assert [] + ProcessAll(s, q2).1 == ProcessAll(s, q2).1;
    }
  }

  /** Notifications of other types and unparsable text change nothing. */
  lemma {:induction false} IgnoredNotifications(s: Session, q: seq<Notification>)
    requires forall i | 0 <= i < |q| :: q[i].Other? || q[i].Unparsable?
    ensures ProcessAll(s, q) == (s, [])
    decreases |q|
  {
    if |q| > 0 {
      assert forall i | 0 <= i < |q[1..]| :: q[1..][i] == q[i + 1];
      IgnoredNotifications(s, q[1..]);
      var o := Handle(s, q[0]);
      assert o == Done(s, []);
      var rest := ProcessAll(o.s, q[1..]);
      assert rest == (s, []);
      assert o.events + rest.1 == [];
    }
  }

  // ---------------------------------------------------------------------
  // Reconciling the whole model after a reconnection

  function Ids(ps: seq<P.Participant>): (ids: seq<string>)
    ensures |ids| == |ps| && forall i | 0 <= i < |ps| :: ids[i] == ps[i].id
  {
    seq(|ps|, i requires 0 <= i < |ps| => ps[i].id)
  }

  function OnlineIds(dtos: seq<P.Dto>): set<string> {
    set d | d in dtos && d.online :: d.id
  }

  /** The second loop of `updateEntireModel`: from the last id to the
      first, a participant that is not online is deleted. */
  function DeleteMissing(s: Session, ids: seq<string>, online: set<string>): (o: Handled)
    decreases |ids|
  {
    if |ids| == 0 then Done(s, [])
    else
      var o := DeleteOne(s, ids[|ids| - 1], online);
      if o.threw then o
      else
        var rest := DeleteMissing(o.s, ids[..|ids| - 1], online);
        Handled(rest.s, o.events + rest.events, rest.threw)
  }

  /** One turn of the second loop of `updateEntireModel`. */
  function DeleteOne(s: Session, id: string, online: set<string>): Handled {
    if id in online then Done(s, []) else DeleteItem(s, Location(id))
  }

  /** One turn of the third loop of `updateEntireModel`. */
  function UpsertOne(s: Session, d: P.Dto): Handled {
    if !d.online then Done(s, [])
    else if s.conference.None? then Handled(s, [], true)
    else if C.GetParticipantById(s.conference.value, d.id).Some? then UpdateItem(s, Location(d.id), ParticipantDoc(d))
    else CreateItem(s, Location(d.id), ParticipantDoc(d))
  }

  /** The third loop of `updateEntireModel`: each online participant is
      updated when the conference knows it and created otherwise. */
  function Upsert(s: Session, dtos: seq<P.Dto>): (o: Handled)
    decreases |dtos|
  {
    if |dtos| == 0 then Done(s, [])
    else
      var o := UpsertOne(s, dtos[0]);
      if o.threw then o
      else
        var rest := Upsert(o.s, dtos[1..]);
        Handled(rest.s, o.events + rest.events, rest.threw)
  }

  /** `updateEntireModel`: after a reconnection the conference is updated
      from the fresh resource, participants that are no longer online are
      deleted, and the online ones are updated or created. */
  function UpdateEntireModel(s: Session, dto: C.Dto): Handled
    requires s.conference.Some?
  {
    var (c, es) := C.Update(s.conference.value, dto);
    var o1 := Done(s.(conference := Some(c)), ConferenceEvents(es));
    var o2 := DeleteMissing(o1.s, Ids(c.participants), OnlineIds(dto.participants));
    if o2.threw then Handled(o2.s, o1.events + o2.events, true)
    else
      var o3 := Upsert(o2.s, dto.participants);
      Handled(o3.s, o1.events + o2.events + o3.events, o3.threw)
  }

  /** A session whose conference model is usable: the index and the list
      agree and `Me` is indexed under its own id. */
  predicate Live(s: Session) {
    && s.conference.Some? && !s.closed
    && C.Consistent(s.conference.value)
    && s.conference.value.me in s.conference.value.index
    && s.conference.value.index[s.conference.value.me] == C.MeEntry
  }

  function Listed(s: Session): set<string>
    requires s.conference.Some?
  {
    C.IdSet(s.conference.value.participants)
  }

  /** Everything but the conference model is as it was. */
  predicate Kept(s: Session, t: Session) {
    t == s.(conference := t.conference)
  }

  /** `Me` is never a listed remote participant. */
  lemma MeNotListed(s: Session)
    requires Live(s)
    ensures s.conference.value.me !in Listed(s)
  {
    var c := s.conference.value;
    forall i | 0 <= i < |c.participants|
      ensures c.participants[i].id != c.me
    {
      assert c.index[c.participants[i].id] == C.Remote(c.participants[i]);
    }
  }

  /** Deleting a listed participant (other than through the `me` alias)
      removes exactly its id. */
  lemma DeleteStep(s: Session, id: string)
    requires Live(s) && id in Listed(s) && id != "me"
    ensures var o := DeleteItem(s, Location(id));
      !o.threw && Live(o.s) && Kept(s, o.s) && o.s.conference.value.me == s.conference.value.me
      && Listed(o.s) == Listed(s) - {id}
  {
    LocationFacts(id);
    var c := s.conference.value;
    var j :| 0 <= j < |c.participants| && c.participants[j].id == id;
    assert c.index[id] == C.Remote(c.participants[j]);
    var k := C.ListedAt(c, id);
    C.RemoveParticipantConsistent(c, id);
  }

  /** Deleting a listed participant reports its exit and then only
      unregisters its streams from their suppliers. */
  lemma DeleteReleasesSuppliers(s: Session, id: string)
    requires Live(s) && id in Listed(s) && id != "me"
    ensures var o := DeleteItem(s, Location(id));
      && !o.threw && |o.events| >= 1 && o.events[0] == ConferenceChanged(C.Exited(id))
      && forall i | 1 <= i < |o.events| :: o.events[i].SupplierChanged? && o.events[i].effect.Unregister?
  {
    LocationFacts(id);
    var c := s.conference.value;
    var j :| 0 <= j < |c.participants| && c.participants[j].id == id;
    assert c.index[id] == C.Remote(c.participants[j]);
    var fx := P.Destroy(c.participants[j]).1;
    var o := DeleteItem(s, Location(id));
    assert o.events == [ConferenceChanged(C.Exited(id))] + SupplierEvents(fx);
    forall i | 1 <= i < |o.events|
      ensures o.events[i].SupplierChanged? && o.events[i].effect.Unregister?
    {
      assert o.events[i] == SupplierChanged(fx[i - 1]);
      assert fx[i - 1] in fx;
    }
  }

  /** Deleting `Me` under its actual id, with `removeParticipant` as
      written, leaves the conference model with its index and list in
      disagreement whenever a remote participant is listed. */
  lemma DeleteMeByIdBreaksAgreement(s: Session)
    requires Live(s) && s.conference.value.me != "me" && |s.conference.value.participants| > 0
    ensures var o := DeleteItem(s, Location(s.conference.value.me));
      !o.threw && o.s.conference.Some? && !C.Consistent(o.s.conference.value)
  {
    var c := s.conference.value;
    LocationFacts(c.me);
    C.RemoveMeDropsLastParticipant(c);
  }

  /** Updating `Me` from its own DTO tells the listener and changes
      nothing else. */
  lemma UpdateMeStep(s: Session, d: P.Dto)
    requires Live(s) && d.online && d.id in s.conference.value.index
    requires s.conference.value.index[d.id] == C.MeEntry
    ensures UpdateItem(s, Location(d.id), ParticipantDoc(d)) == Done(s, [MeUpdated])
    ensures d.id == s.conference.value.me
  {
    LocationFacts(d.id);
    var c := s.conference.value;
    forall j | 0 <= j < |c.participants|
      ensures c.participants[j].id != d.id
    {
      assert c.index[c.participants[j].id] == C.Remote(c.participants[j]);
    }
  }

  /** Updating a known remote participant keeps the listed ids. */
  lemma UpdateRemoteStep(s: Session, d: P.Dto)
    requires Live(s) && d.online && d.id in s.conference.value.index
    requires s.conference.value.index[d.id].Remote?
    ensures var o := UpdateItem(s, Location(d.id), ParticipantDoc(d));
      !o.threw && Live(o.s) && Kept(s, o.s) && o.s.conference.value.me == s.conference.value.me
      && Listed(o.s) == Listed(s)
  {
    LocationFacts(d.id);
  }

  /** Creating an unknown online participant lists its id. */
  lemma CreateStep(s: Session, d: P.Dto)
    requires Live(s) && d.online && d.id !in s.conference.value.index
    ensures var o := CreateItem(s, Location(d.id), ParticipantDoc(d));
      !o.threw && Live(o.s) && Kept(s, o.s) && o.s.conference.value.me == s.conference.value.me
      && Listed(o.s) == Listed(s) + {d.id} && d.id != s.conference.value.me
  {
    LocationFacts(d.id);
    var c := s.conference.value;
    var p := P.FromDto(d, s.conn);
    C.AddConsistent(c, p);
    assert C.IdSet(c.participants + [p]) == C.IdSet(c.participants) + {d.id} by {
      var ps := c.participants + [p];
      assert ps[|ps| - 1].id == d.id;
      forall x | x in C.IdSet(c.participants)
        ensures x in C.IdSet(ps)
      {
        var j :| 0 <= j < |c.participants| && c.participants[j].id == x;
        assert ps[j].id == x;
      }
    }
  }

  /** Updating or creating one online participant lists its id, unless it
      is `Me`'s. */
  lemma UpsertStep(s: Session, d: P.Dto)
    requires Live(s)
    ensures var c := s.conference.value; var o := UpsertOne(s, d);
      !o.threw && Live(o.s) && Kept(s, o.s) && o.s.conference.value.me == c.me
      && Listed(o.s) == Listed(s) + (if d.online then {d.id} - {c.me} else {})
  {
    var c := s.conference.value;
    if !d.online {
    } else if d.id !in c.index {
      UpsertNew(s, d);
    } else if c.index[d.id] == C.MeEntry {
      UpsertMe(s, d);
    } else {
      UpsertRemote(s, d);
    }
  }

  lemma UpsertNew(s: Session, d: P.Dto)
    requires Live(s) && d.online && d.id !in s.conference.value.index
    ensures var c := s.conference.value; var o := UpsertOne(s, d);
      !o.threw && Live(o.s) && Kept(s, o.s) && o.s.conference.value.me == c.me
      && Listed(o.s) == Listed(s) + ({d.id} - {c.me})
  {
    assert UpsertOne(s, d) == CreateItem(s, Location(d.id), ParticipantDoc(d));
    CreateStep(s, d);
  }

  lemma UpsertMe(s: Session, d: P.Dto)
    requires Live(s) && d.online && d.id in s.conference.value.index
    requires s.conference.value.index[d.id] == C.MeEntry
    ensures var c := s.conference.value; var o := UpsertOne(s, d);
      !o.threw && Live(o.s) && Kept(s, o.s) && o.s.conference.value.me == c.me
      && Listed(o.s) == Listed(s) + ({d.id} - {c.me})
  {
    assert UpsertOne(s, d) == UpdateItem(s, Location(d.id), ParticipantDoc(d));
    UpdateMeStep(s, d);
  }

  lemma UpsertRemote(s: Session, d: P.Dto)
    requires Live(s) && d.online && d.id in s.conference.value.index
    requires s.conference.value.index[d.id].Remote?
    ensures var c := s.conference.value; var o := UpsertOne(s, d);
      !o.threw && Live(o.s) && Kept(s, o.s) && o.s.conference.value.me == c.me
      && Listed(o.s) == Listed(s) + ({d.id} - {c.me})
  {
    var c := s.conference.value;
    var p := c.index[d.id].participant;
    UpsertRemoteIs(s, d);
    MutateStep(s, d.id, P.Update(p, d, s.conn).0);
  }

  lemma UpsertRemoteIs(s: Session, d: P.Dto)
    requires s.conference.Some? && d.online && d.id in s.conference.value.index
    requires s.conference.value.index[d.id].Remote?
    ensures var c := s.conference.value; var p := c.index[d.id].participant; var o := UpsertOne(s, d);
      !o.threw && o.s == s.(conference := Some(C.Mutate(c, d.id, P.Update(p, d, s.conn).0)))
  {
    LocationFacts(d.id);
    assert UpsertOne(s, d) == UpdateItem(s, Location(d.id), ParticipantDoc(d));
  }

  /** Mutating a listed remote participant keeps the model usable and the
      listed ids. */
  lemma MutateStep(s: Session, id: string, p: P.Participant)
    requires Live(s) && id in s.conference.value.index && s.conference.value.index[id].Remote?
    requires p.id == s.conference.value.index[id].participant.id
    ensures var c := s.conference.value; var t := s.(conference := Some(C.Mutate(c, id, p)));
      Live(t) && Kept(s, t) && t.conference.value.me == c.me && Listed(t) == Listed(s)
      && id in Listed(s) && id != c.me
  {
    var c := s.conference.value;
    assert id in C.IdSet(c.participants) || id == c.me;
  }

  lemma {:induction false} DeleteMissingFacts(s: Session, ids: seq<string>, online: set<string>)
    requires Live(s)
    requires forall i | 0 <= i < |ids| :: ids[i] in Listed(s) && ids[i] != "me"
    requires forall i, j | 0 <= i < j < |ids| :: ids[i] != ids[j]
    ensures var o := DeleteMissing(s, ids, online);
      !o.threw && Live(o.s) && Kept(s, o.s) && o.s.conference.value.me == s.conference.value.me
      && Listed(o.s) == Listed(s) - (set x | x in ids && x !in online)
    decreases |ids|
  {
    if |ids| > 0 {
      var id := ids[|ids| - 1];
      var init := ids[..|ids| - 1];
      var o := DeleteOne(s, id, online);
      DeleteOneStep(s, id, online);
      assert forall i | 0 <= i < |init| :: init[i] in Listed(o.s) by {
        forall i | 0 <= i < |init|
          ensures init[i] in Listed(o.s)
        {
          assert init[i] == ids[i] && ids[i] != ids[|ids| - 1];
        }
      }
      DeleteMissingFacts(o.s, init, online);
      MissingLast(ids, online);
    }
  }

  /** One turn keeps the model live and unlists the id when it is not
      online. */
  lemma DeleteOneStep(s: Session, id: string, online: set<string>)
    requires Live(s) && id in Listed(s) && id != "me"
    ensures var o := DeleteOne(s, id, online);
      !o.threw && Live(o.s) && Kept(s, o.s) && o.s.conference.value.me == s.conference.value.me
      && Listed(o.s) == Listed(s) - ({id} - online)
  {
    if id !in online {
      DeleteStep(s, id);
    }
  }

  lemma MissingLast(ids: seq<string>, online: set<string>)
    requires |ids| > 0
    ensures (set x | x in ids && x !in online)
         == (set x | x in ids[..|ids| - 1] && x !in online) + ({ids[|ids| - 1]} - online)
  {
    assert ids == ids[..|ids| - 1] + [ids[|ids| - 1]];
  }

  lemma OnlineIdsFirst(dtos: seq<P.Dto>)
    requires |dtos| > 0
    ensures OnlineIds(dtos) == (if dtos[0].online then {dtos[0].id} else {}) + OnlineIds(dtos[1..])
  {
    assert dtos == [dtos[0]] + dtos[1..];
  }

  lemma {:induction false} UpsertFacts(s: Session, dtos: seq<P.Dto>)
    requires Live(s)
    ensures var o := Upsert(s, dtos);
      !o.threw && Live(o.s) && Kept(s, o.s) && o.s.conference.value.me == s.conference.value.me
      && Listed(o.s) == Listed(s) + (OnlineIds(dtos) - {s.conference.value.me})
    decreases |dtos|
  {
    if |dtos| > 0 {
      var d := dtos[0];
      var o := UpsertOne(s, d);
      UpsertStep(s, d);
      UpsertFacts(o.s, dtos[1..]);
      UnfoldUpsert(s, dtos);
      OnlineIdsFirst(dtos);
      var me := s.conference.value.me;
      ListedAccumulate(Listed(s), Listed(o.s), Listed(Upsert(s, dtos).s),
        if d.online then {d.id} else {}, OnlineIds(dtos[1..]), me);
    }
  }

  lemma ListedAccumulate(a: set<string>, b: set<string>, c: set<string>, first: set<string>, rest: set<string>, me: string)
    requires b == a + (first - {me}) && c == b + (rest - {me})
    ensures c == a + ((first + rest) - {me})
  {
  }

  lemma UnfoldUpsert(s: Session, dtos: seq<P.Dto>)
    requires |dtos| > 0 && !UpsertOne(s, dtos[0]).threw
    ensures var rest := Upsert(UpsertOne(s, dtos[0]).s, dtos[1..]);
      Upsert(s, dtos).s == rest.s && Upsert(s, dtos).threw == rest.threw
  {
  }

  /** After a reconnection, the listed remote participants are exactly the
      online participants of the fresh resource other than `Me`, and the
      model stays usable: nothing throws on the way. */
  lemma UpdateEntireModelReconciles(s: Session, dto: C.Dto)
    requires Live(s) && "me" !in Listed(s)
    ensures var o := UpdateEntireModel(s, dto);
      !o.threw && Live(o.s) && Kept(s, o.s)
      && Listed(o.s) == OnlineIds(dto.participants) - {s.conference.value.me}
  {
    var c := C.Update(s.conference.value, dto).0;
    var s1 := s.(conference := Some(c));
    var ids := Ids(c.participants);
    var online := OnlineIds(dto.participants);
    UpdateKeepsLive(s, dto);
    forall i | 0 <= i < |ids|
      ensures ids[i] in Listed(s1) && ids[i] != "me"
    {
      assert ids[i] == c.participants[i].id;
    }
    DeleteMissingFacts(s1, ids, online);
    var o2 := DeleteMissing(s1, ids, online);
    IdsMissing(c.participants, online);
    UpsertFacts(o2.s, dto.participants);
    MeNotListed(s);
    var o3 := Upsert(o2.s, dto.participants);
    assert UpdateEntireModel(s, dto).s == o3.s;
  }

  /** Taking the fresh name and recording state keeps the model usable and
      the listed ids. */
  lemma UpdateKeepsLive(s: Session, dto: C.Dto)
    requires Live(s)
    ensures var s1 := s.(conference := Some(C.Update(s.conference.value, dto).0));
      Live(s1) && Kept(s, s1) && Listed(s1) == Listed(s) && s1.conference.value.me == s.conference.value.me
  {
  }

  lemma IdsMissing(ps: seq<P.Participant>, online: set<string>)
    ensures (set x | x in Ids(ps) && x !in online) == C.IdSet(ps) - online
  {
    var ids := Ids(ps);
    forall x | x in C.IdSet(ps)
      ensures x in ids
    {
      var j :| 0 <= j < |ps| && ps[j].id == x;
      assert ids[j] == x;
    }
  }

  // ---------------------------------------------------------------------
  // Opening and recovering

  /** `recover`: the session is failed. With a conference, the queue is
      dropped and the connection is reopened after the current delay,
      which grows by a second up to ten; without one, the promise of
      `open()` is rejected. */
  function Recover(s: Session, failure: Failure): (r: (Session, seq<Event>))
    ensures r.0.state == Failed && r.0.conference == s.conference && r.0.uri == s.uri && r.0.closed == s.closed
    ensures |r.1| >= 1 && r.1[..|r.1| - 1] == SetState(s, Failed).1
    ensures s.conference.Some? ==> r.1[|r.1| - 1] == Reopen(s.recoveryDelay) && r.0.scheduled
    ensures s.conference.Some? ==> r.0.notifications == [] && r.0.recoveryDelay == if s.recoveryDelay < 10 then s.recoveryDelay + 1 else 10
    ensures s.conference.None? ==> r.1[|r.1| - 1] == Rejected(failure) && r.0.settled
    ensures s.conference.None? ==> r.0.recoveryDelay == s.recoveryDelay && r.0.notifications == s.notifications
  {
    var (t, es) := SetState(s, Failed);
    if s.conference.Some? then
      var delay := if s.recoveryDelay + 1 < 10 then s.recoveryDelay + 1 else 10;
      (t.(notifications := [], recoveryDelay := delay, scheduled := true), es + [Reopen(s.recoveryDelay)])
    else
      (t.(settled := true), es + [Rejected(failure)])
  }

  /** The tail of a successful opening: the queue is applied, the delay
      reset and the state normal. */
  function Finish(s: Session, events: seq<Event>): (r: (Session, seq<Event>))
    ensures r.0.state == Normal && r.0.recoveryDelay == 0 && r.0.notifications == []
    ensures r.0.settled == s.settled && r.0.uri == s.uri && r.0.conn == s.conn
    ensures |r.1| >= |events| && r.1[..|events|] == events
  {
    var (t, es) := ProcessNotifications(s);
    var (u, fs) := SetState(t.(recoveryDelay := 0), Normal);
    (u, events + es + fs)
  }

  /** `wrc.onOpened` with the response of `GET /?detailed=true`: the first
      opening builds the conference and resolves `open()`; a reopening
      reconciles the model. Either way the queue is applied and the state
      returns to normal; an error goes to `recover`. */
  function OnOpened(s: Session, response: Result<C.Dto>): (r: (Session, seq<Event>))
    ensures response.Err? ==> r == Recover(s, Message(response.error))
    ensures response.Ok? && s.conference.None? && |response.value.participants| == 0 ==> r == Recover(s, TypeError)
    ensures response.Ok? && s.conference.None? && |response.value.participants| >= 1 ==>
      r.0.state == Normal && r.0.recoveryDelay == 0 && r.0.settled
      && (!s.settled ==> |r.1| >= 1 && r.1[0] == Resolved)
  {
    match response
    case Err(e) => Recover(s, Message(e))
    case Ok(dto) =>
      if s.conference.None? then
        if |dto.participants| == 0 then Recover(s, TypeError)
        else
          var t := s.(conference := Some(C.FromDto(dto, s.conn)), settled := true);
          Finish(t, if s.settled then [] else [Resolved])
      else
        var o := UpdateEntireModel(s, dto);
        if o.threw then
          var (t, es) := Recover(o.s, TypeError);
          (t, o.events + es)
        else Finish(o.s, o.events)
  }

  /** What the signalling connection reports. */
  datatype Signal =
    | Opened(response: Result<C.Dto>)
    | StartedLagging
    | StoppedLagging
    | MessageReceived(notification: Notification)
    | ConnectionFailed(error: string)
    | ConnectionClosed(code: int)

  /** The connection's callbacks; once the session is closed its
      connection reports nothing more. */
  function OnSignal(s: Session, signal: Signal): (r: (Session, seq<Event>))
    ensures s.closed ==> r == (s, [])
    ensures !s.closed && signal.StartedLagging? ==> r == SetState(s, Lagging)
    ensures !s.closed && signal.StoppedLagging? ==> r == SetState(s, Normal)
    ensures !s.closed && signal.ConnectionFailed? ==> r == Recover(s, Message(signal.error))
    ensures !s.closed && signal.MessageReceived? && s.conference.None? ==>
      r == (s.(notifications := s.notifications + [signal.notification]), [])
    ensures !s.closed && signal.MessageReceived? && s.conference.Some? ==> r.0.notifications == []
  {
    if s.closed then (s, [])
    else
      match signal
      case Opened(response) => OnOpened(s, response)
      case StartedLagging => SetState(s, Lagging)
      case StoppedLagging => SetState(s, Normal)
      case MessageReceived(n) => Enqueue(s, n)
      case ConnectionFailed(error) => Recover(s, Message(error))
      case ConnectionClosed(code) =>
        if code == 4000 then Enqueue(s, Deleted("/"))
        else if code == 4001 then Enqueue(s, Deleted(MeLocation))
        else Recover(s, Message("WebRTC connection closed: " + IntToString(code)))
  }

  /** A notification joins the queue, which is applied at once when the
      conference exists. */
  function Enqueue(s: Session, n: Notification): (r: (Session, seq<Event>))
    ensures s.conference.None? ==> r == (s.(notifications := s.notifications + [n]), [])
    ensures s.conference.Some? ==> r == ProcessNotifications(s.(notifications := s.notifications + [n]))
  {
    var t := s.(notifications := s.notifications + [n]);
    if t.conference.Some? then ProcessNotifications(t) else (t, [])
  }

  // ---------------------------------------------------------------------
  // Properties

  /** Once the conference exists, every signal leaves the queue empty:
      no notification waits unapplied. */
  lemma QueueDrained(s: Session, signal: Signal)
    requires s.conference.Some? ==> s.notifications == []
    ensures var r := OnSignal(s, signal).0; r.conference.Some? ==> r.notifications == []
  {
  }

  /** Close code 4000 ends the conference: the session is closed and the
      listener hears that the conference ended. */
  lemma ClosedByServer(s: Session)
    requires !s.closed && s.conference.Some? && s.notifications == []
    ensures var r := OnSignal(s, ConnectionClosed(4000));
      r.0.closed && r.0.conference.None? && r.0.notifications == [] && r.1 == [ConferenceEnded]
  {
    assert s.notifications + [Deleted("/")] == [Deleted("/")];
    var t := s.(notifications := [Deleted("/")]);
    assert OnSignal(s, ConnectionClosed(4000)) == ProcessNotifications(t);
    assert Handle(t, Deleted("/")) == Done(Close(t), [ConferenceEnded]);
    assert ProcessAll(Close(t), []) == (Close(t), []);
    assert ProcessAll(t, t.notifications) == (Close(t), [ConferenceEnded] + []);
  }

  /** Close code 4001 expels `Me`: the session is closed and the listener
      hears of the expulsion. */
  lemma ExpelledByServer(s: Session)
    requires !s.closed && s.conference.Some? && s.notifications == []
    ensures var r := OnSignal(s, ConnectionClosed(4001));
      r.0.closed && r.0.conference.None? && r.0.notifications == [] && r.1 == [MeExpelled]
  {
    assert s.notifications + [Deleted(MeLocation)] == [Deleted(MeLocation)];
    var t := s.(notifications := [Deleted(MeLocation)]);
    assert OnSignal(s, ConnectionClosed(4001)) == ProcessNotifications(t);
    assert Handle(t, Deleted(MeLocation)) == Done(Close(t), [MeExpelled]);
    assert ProcessAll(Close(t), []) == (Close(t), []);
    assert ProcessAll(t, t.notifications) == (Close(t), [MeExpelled] + []);
  }

  /** Before the first opening, a close code only queues its deletion,
      which the first successful opening applies. */
  lemma ClosedBeforeJoin(s: Session, code: int)
    requires !s.closed && s.conference.None? && (code == 4000 || code == 4001)
    ensures OnSignal(s, ConnectionClosed(code)) ==
      (s.(notifications := s.notifications + [Deleted(if code == 4000 then "/" else MeLocation)]), [])
  {
  }

  /** Any other close code is a failure the session recovers from. */
  lemma ClosedUnexpectedly(s: Session, code: int)
    requires !s.closed && code != 4000 && code != 4001
    ensures OnSignal(s, ConnectionClosed(code)) == Recover(s, Message("WebRTC connection closed: " + IntToString(code)))
  {
  }

  /** Before the first opening succeeds a failure rejects `open()` once and
      schedules nothing. */
  lemma FailureBeforeJoin(s: Session, error: string)
    requires !s.closed && s.conference.None?
    ensures var r := OnSignal(s, ConnectionFailed(error));
      r.0.state == Failed && r.0.settled && !(Reopen(s.recoveryDelay) in r.1)
      && (Rejected(Message(error)) in r.1)
  {
  }

  /** The state after `n` consecutive failures, each of which reaches
      `recover` (as `onFailed` does). */
  function FailTimes(s: Session, n: nat): Session
    decreases n
  {
    if n == 0 then s else Recover(FailTimes(s, n - 1), Message("")).0
  }

  /** Back-off: starting from a reset delay, each failure adds a second
      to the delay, up to ten. */
  lemma {:induction false} Backoff(s: Session, n: nat)
    requires !s.closed && s.conference.Some? && s.recoveryDelay == 0
    ensures var t := FailTimes(s, n);
      !t.closed && t.conference == s.conference && t.recoveryDelay == (if n < 10 then n else 10)
    decreases n
  {
    if n > 0 {
      Backoff(s, n - 1);
      RecoverStep(FailTimes(s, n - 1));
    }
  }

  lemma RecoverStep(t: Session)
    requires !t.closed && t.conference.Some?
    ensures var r := Recover(t, Message("")).0;
      !r.closed && r.conference == t.conference && r.recoveryDelay == (if t.recoveryDelay < 10 then t.recoveryDelay + 1 else 10)
  {
  }

  /** So the reconnections after consecutive failures wait 0, 1, 2, …
      seconds, and ten from the tenth on. */
  lemma BackoffReopens(s: Session, n: nat)
    requires !s.closed && s.conference.Some? && s.recoveryDelay == 0
    ensures var r := Recover(FailTimes(s, n), Message(""));
      r.1[|r.1| - 1] == Reopen(if n < 10 then n else 10)
  {
    Backoff(s, n);
  }

  /** A reopening of a usable session brings it back to normal with the
      delay reset. */
  lemma ReopenRecovers(s: Session, dto: C.Dto)
    requires Live(s) && "me" !in Listed(s)
    ensures var r := OnOpened(s, Ok(dto)); r.0.state == Normal && r.0.recoveryDelay == 0 && r.0.notifications == []
  {
    UpdateEntireModelReconciles(s, dto);
  }

  /** The first opening builds a usable session when the resource's ids
      are distinct, and resolves `open()` exactly once. */
  lemma FirstOpenJoins(s: Session, dto: C.Dto)
    requires !s.closed && s.conference.None? && s.notifications == [] && !s.settled
    requires |dto.participants| >= 1 && C.DistinctDtoIds(dto.participants)
    ensures var r := OnSignal(s, Opened(Ok(dto)));
      Live(r.0) && r.0.state == Normal && r.1[0] == Resolved && r.0.settled
  {
    C.FromDtoConsistent(dto, s.conn);
  }
}

=== FILE: transceivers.dfy ===
/** The transceiver pool of the WebRTC connection. Every transceiver owns
    one SDP media section, numbered from 2 upwards in creation order
    (`webRtcTransceiverLastSdpSectionIndex` starts at 1). Receiving
    transceivers freed by a subscription are parked, inactive, on a
    per-kind stack and reused before any new one is created. */
module Transceivers {

  datatype Kind = Audio | Video

  datatype Direction = SendOnly | RecvOnly | Inactive

  /** A `WebRtcTransceiver`: its media type, its SDP section index and the
      direction of the underlying `RTCRtpTransceiver`. */
  datatype Transceiver = Transceiver(kind: Kind, index: int, direction: Direction)

  /** The last allocated section index and the two stacks of inactive
      transceivers (`inactiveAudioTransceivers`, `inactiveVideoTransceivers`). */
  datatype Pool = Pool(lastIndex: int, inactiveAudio: seq<Transceiver>, inactiveVideo: seq<Transceiver>)

  const InitialPool: Pool := Pool(1, [], [])

  function Other(k: Kind): Kind {
    if k == Audio then Video else Audio
  }

  function Pooled(p: Pool, k: Kind): seq<Transceiver> {
    if k == Audio then p.inactiveAudio else p.inactiveVideo
  }

  function WithPooled(p: Pool, k: Kind, s: seq<Transceiver>): (r: Pool)
    ensures Pooled(r, k) == s && Pooled(r, Other(k)) == Pooled(p, Other(k))
    ensures r.lastIndex == p.lastIndex
  {
    if k == Audio then p.(inactiveAudio := s) else p.(inactiveVideo := s)
  }

  /** A transceiver created on a fresh SDP section. */
  function Allocate(p: Pool, k: Kind, d: Direction): (r: (Pool, Transceiver))
    ensures r.1 == Transceiver(k, p.lastIndex + 1, d)
    ensures r.0 == p.(lastIndex := p.lastIndex + 1)
  {
    (p.(lastIndex := p.lastIndex + 1), Transceiver(k, p.lastIndex + 1, d))
  }

  /** `acquireTransceiver`: pop the most recently parked transceiver of
      this kind and make it receive, or create one on a new section. */
  function Acquire(p: Pool, k: Kind): (r: (Pool, Transceiver))
    ensures r.1.direction == RecvOnly
    ensures WellParked(p) ==> r.1.kind == k
    ensures Pooled(r.0, Other(k)) == Pooled(p, Other(k))
    ensures |Pooled(p, k)| > 0 ==>
      && r.1 == Pooled(p, k)[|Pooled(p, k)| - 1].(direction := RecvOnly)
      && Pooled(r.0, k) == Pooled(p, k)[..|Pooled(p, k)| - 1]
      && r.0.lastIndex == p.lastIndex
    ensures |Pooled(p, k)| == 0 ==> r.1 == Transceiver(k, p.lastIndex + 1, RecvOnly) && r.0 == p.(lastIndex := p.lastIndex + 1)
  {
    var stack := Pooled(p, k);
    if |stack| > 0 then
      (WithPooled(p, k, stack[..|stack| - 1]), stack[|stack| - 1].(direction := RecvOnly))
    else
      Allocate(p, k, RecvOnly)
  }

  /** `releaseTransceiver`: make it inactive and park it on its kind's stack. */
  function Release(p: Pool, t: Transceiver): (r: Pool)
    ensures Pooled(r, t.kind) == Pooled(p, t.kind) + [t.(direction := Inactive)]
    ensures Pooled(r, Other(t.kind)) == Pooled(p, Other(t.kind))
    ensures r.lastIndex == p.lastIndex
  {
    WithPooled(p, t.kind, Pooled(p, t.kind) + [t.(direction := Inactive)])
  }

  /** Acquiring right after a release hands back that same transceiver,
      receiving again, and leaves the pool as it was (the stacks are LIFO). */
  lemma AcquireUndoesRelease(p: Pool, t: Transceiver)
    ensures Acquire(Release(p, t), t.kind) == (p, t.(direction := RecvOnly))
  {
    var s := Pooled(p, t.kind) + [t.(direction := Inactive)];
    assert s[..|s| - 1] == Pooled(p, t.kind);
  }

  // ---------------------------------------------------------------------
  // Every live transceiver has its own SDP section.

  /** The section indices of a sequence of transceivers, as a multiset. */
  function Indices(ts: seq<Transceiver>): (m: multiset<int>)
    ensures |m| == |ts|
    decreases |ts|
  {
    if |ts| == 0 then multiset{} else Indices(ts[..|ts| - 1]) + multiset{ts[|ts| - 1].index}
  }

  lemma IndicesAppend(ts: seq<Transceiver>, t: Transceiver)
    ensures Indices(ts + [t]) == Indices(ts) + multiset{t.index}
  {
    assert (ts + [t])[..|ts|] == ts;
  }

  lemma {:induction false} IndicesMembers(ts: seq<Transceiver>, x: int)
    ensures x in Indices(ts) <==> exists i :: 0 <= i < |ts| && ts[i].index == x
    decreases |ts|
  {
    if |ts| > 0 {
      IndicesMembers(ts[..|ts| - 1], x);
      if x in Indices(ts[..|ts| - 1]) {
        var i :| 0 <= i < |ts| - 1 && ts[..|ts| - 1][i].index == x;
        assert ts[i].index == x;
      }
    }
  }

  predicate NoDuplicates(m: multiset<int>) {
    forall x :: x in m ==> m[x] <= 1
  }

  /** Parked transceivers sit on their own kind's stack and are inactive. */
  predicate WellParked(p: Pool) {
    && (forall i :: 0 <= i < |p.inactiveAudio| ==> p.inactiveAudio[i].kind == Audio && p.inactiveAudio[i].direction == Inactive)
    && (forall i :: 0 <= i < |p.inactiveVideo| ==> p.inactiveVideo[i].kind == Video && p.inactiveVideo[i].direction == Inactive)
  }

  /** Indices of the parked transceivers together with those of the
      transceivers in use (`held`). */
  function Sections(p: Pool, held: multiset<int>): multiset<int> {
    Indices(p.inactiveAudio) + Indices(p.inactiveVideo) + held
  }

  /** The pool invariant, given the sections of the transceivers in use:
      no two transceivers share a section, and every section lies between
      2 and the last allocated index. */
  predicate Valid(p: Pool, held: multiset<int>) {
    && p.lastIndex >= 1
    && WellParked(p)
    && NoDuplicates(Sections(p, held))
    && forall x :: x in Sections(p, held) ==> 1 < x <= p.lastIndex
  }

  lemma InitialValid()
    ensures Valid(InitialPool, multiset{})
  {
  }

  lemma WellParkedWith(p: Pool, k: Kind, s: seq<Transceiver>)
    requires WellParked(p)
    requires forall i :: 0 <= i < |s| ==> s[i].kind == k && s[i].direction == Inactive
    ensures WellParked(WithPooled(p, k, s))
  {
  }

  /** Valid only depends on the multiset of all sections and on the
      parked transceivers being well placed. */
  lemma ValidBySections(p: Pool, held: multiset<int>, p': Pool, held': multiset<int>)
    requires Valid(p, held) && WellParked(p') && p'.lastIndex >= p.lastIndex
    requires Sections(p', held') == Sections(p, held)
    ensures Valid(p', held')
  {
  }

  lemma PopSections(p: Pool, held: multiset<int>, k: Kind)
    requires |Pooled(p, k)| > 0
    ensures Sections(p, held) == Sections(Acquire(p, k).0, held + multiset{Acquire(p, k).1.index})
  {
    var (p', t) := Acquire(p, k);
    var stack := Pooled(p, k);
    var rest := stack[..|stack| - 1];
    assert stack == rest + [stack[|stack| - 1]];
    IndicesAppend(rest, stack[|stack| - 1]);
    if k == Audio {
      assert Indices(p.inactiveAudio) == Indices(p'.inactiveAudio) + multiset{t.index};
    } else {
      assert Indices(p.inactiveVideo) == Indices(p'.inactiveVideo) + multiset{t.index};
    }
  }

  lemma PopWellParked(p: Pool, k: Kind)
    requires WellParked(p) && |Pooled(p, k)| > 0
    ensures WellParked(Acquire(p, k).0)
  {
    var stack := Pooled(p, k);
    WellParkedWith(p, k, stack[..|stack| - 1]);
  }

  /** A transceiver created on a new section keeps the invariant; its
      section is not used by any transceiver in use. */
  lemma AllocateKeepsValid(p: Pool, held: multiset<int>, k: Kind, d: Direction)
    requires Valid(p, held)
    ensures Allocate(p, k, d).1.index !in held
    ensures Valid(Allocate(p, k, d).0, held + multiset{Allocate(p, k, d).1.index})
  {
    var (p', t) := Allocate(p, k, d);
    var all := Sections(p, held);
    assert t.index !in all;
    var all' := Sections(p', held + multiset{t.index});
    assert all' == all + multiset{t.index};
    forall x | x in all'
      ensures all'[x] <= 1 && 1 < x <= p'.lastIndex
    {
      if x != t.index {
        assert all'[x] == all[x];
      }
    }
  }

  /** Acquiring keeps the invariant with the acquired transceiver in use,
      and its section is not used by any other transceiver in use. */
  lemma AcquireKeepsValid(p: Pool, held: multiset<int>, k: Kind)
    requires Valid(p, held)
    ensures Acquire(p, k).1.index !in held
    ensures Valid(Acquire(p, k).0, held + multiset{Acquire(p, k).1.index})
  {
    var (p', t) := Acquire(p, k);
    if |Pooled(p, k)| > 0 {
      PopSections(p, held, k);
      assert Sections(p, held)[t.index] >= 1 + held[t.index];
      PopWellParked(p, k);
      ValidBySections(p, held, p', held + multiset{t.index});
    } else {
      AllocateKeepsValid(p, held, k, RecvOnly);
    }
  }

  lemma ReleaseSections(p: Pool, held: multiset<int>, t: Transceiver)
    ensures Sections(Release(p, t), held) == Sections(p, held + multiset{t.index})
  {
    var p' := Release(p, t);
    IndicesAppend(Pooled(p, t.kind), t.(direction := Inactive));
    if t.kind == Audio {
      assert Indices(p'.inactiveAudio) == Indices(p.inactiveAudio) + multiset{t.index};
    } else {
      assert Indices(p'.inactiveVideo) == Indices(p.inactiveVideo) + multiset{t.index};
    }
  }

  lemma ReleaseWellParked(p: Pool, t: Transceiver)
    requires WellParked(p)
    ensures WellParked(Release(p, t))
  {
    var s := Pooled(p, t.kind) + [t.(direction := Inactive)];
    forall i | 0 <= i < |s|
      ensures s[i].kind == t.kind && s[i].direction == Inactive
    {
      if i < |s| - 1 {
        assert s[i] == Pooled(p, t.kind)[i];
      }
    }
    WellParkedWith(p, t.kind, s);
  }

  /** Releasing a transceiver in use keeps the invariant. */
  lemma ReleaseKeepsValid(p: Pool, held: multiset<int>, t: Transceiver)
    requires Valid(p, held + multiset{t.index})
    ensures Valid(Release(p, t), held)
  {
    ReleaseSections(p, held, t);
    ReleaseWellParked(p, t);
    ValidBySections(p, held + multiset{t.index}, Release(p, t), held);
  }
}

=== FILE: wrappers.dfy ===
/** Failure-compatible wrappers shared by every module of the model.
    `Option` stands for a JavaScript value that may be `null`/`undefined`;
    `Result` stands for an operation that either returns or throws an `Error`. */
module Wrappers {

  datatype Option<+T> = None | Some(value: T) {

    predicate IsFailure() {
      None?
    }

    function PropagateFailure<U>(): Option<U>
      requires None?
    {
      None
    }

    function Extract(): T
      requires Some?
    {
      value
    }

    /** The value, or `default` when absent (JavaScript `x || default`). */
    function GetOr(default: T): T {
      match this
      case Some(v) => v
      case None => default
    }
  }

  /** `Err` carries the message of the `Error` the source throws. */
  datatype Result<+R> = Ok(value: R) | Err(error: string) {

    predicate IsFailure() {
      Err?
    }

    function PropagateFailure<U>(): Result<U>
      requires Err?
    {
      Err(error)
    }

    function Extract(): R
      requires Ok?
    {
      value
    }
  }
}
